=== FILE: README.md ===
# Travel planner: parsers, progress pages and agent coordination in Dafny

This project models the core of a multi-agent travel planner. A React front end collects trip
preferences and shows a generated itinerary. A FastAPI back end asks a set of language-model
agents (attractions, food, accommodation, reviews, images and a trip planner) for text.

It covers these parts of the system:

- **The itinerary page's parsers** (`ItineraryPage.jsx`). These turn the agents' free text into
  display records:
  - days and their Morning/Afternoon/Evening activities, with keyword classification and
    placeholder days (modules `Segmenter` and `ItineraryDays`);
  - dining places and dishes (`DiningParser`);
  - transportation options (`TransportParser`);
  - categorised tips (`Tips`);
  - hotel and accommodation categories with their price ranges (`AccommodationParser`);
  - the assembler that maps a stored plan to the page's view (`ItineraryView`).
- **The simulated loading page** (`LoadingPage.jsx`, module `LoadingProgress`): random progress
  ticks, log lines at progress marks, the overall bar and the completion test.
- **The real-time loading page** (`LoadingPageRealTime.jsx`, module `StatusMerge`): each status
  snapshot polled from the back end is merged into the agent cards. Module `StatusFeed`
  connects that merge to the back end's status record.
- **The questionnaire** (`QuestionnairePage.jsx`, module `Questionnaire`): five steps, the Next
  guard, checkbox toggling and the submitted payload.
- **The back-end routers**:
  - `routers/itinerary.py` (`ItineraryStatus`): the simulated generation status, recomputed
    from the elapsed time;
  - `routers/agents.py` (`TravelPlans`): plan creation, storage and lookup, and single-agent
    queries.
- **The coordinator** (`coordinator.py`, `Coordinator`): the order of agent calls, fallbacks and
  the planner prompt.
- **The agent service** (`specialized_agents.py`, `AgentService`): the completion marker, the
  last-message search and the reply extraction.

Shared string operations live in `Strings`:

- JavaScript `trim` and Python `strip`, each with its runtime's white-space set;
- `includes`, `split` and `join`;
- literal replace-all;
- ASCII lower-casing;
- integer printing and parsing.

Regular expressions are written out as explicit searches where they matter. This applies to:

- the day and period headings with their lazy bodies and lookaheads;
- bold terms and tips;
- the transport test with its shared `lastIndex`;
- the paragraph split;
- the price pattern.

Randomness, clocks, the agents' chats and the HTTP layer are parameters of the model.

Three behaviours of the code shape the model:

- A day without parsed activities gets three placeholder activities (Morning, Afternoon and
  Evening), not a single one.
- Each parser's `catch` branch returns non-empty canned records (for Ankara), not an empty
  sequence.
- The back end's status record names its agents attractions, accommodation, food and planner.
  The real-time page's cards are named attractions, accommodation, dining, transport, images and
  insights. So only two cards ever move (`StatusFeed.BackendMovesTwoCards`, and
  `StatusFeed.BackendMovesTwoCardsAsWritten` for the page as written).

## Model

| member | source | states |
|---|---|---|
| Strings.Trim | frontend/src/pages/ItineraryPage.jsx:111 | JavaScript `trim()` and Python `strip()`: the result is the input with a white-space prefix and suffix removed, and neither end of the result is white space |
| Strings.TrimEmptyIffAllSpace | frontend/src/pages/QuestionnairePage.jsx:234 | trimming leaves nothing exactly when the input is all white space |
| Strings.Split | frontend/src/pages/ItineraryPage.jsx:128 | `split` with a literal separator: at least one piece, no piece contains the separator, and joining the pieces with it gives back the input |
| Strings.SplitJoin | frontend/src/pages/ItineraryPage.jsx:1061-1062 | splitting at a one-character separator undoes joining pieces that do not contain it |
| Strings.BeforeFirst | frontend/src/pages/ItineraryPage.jsx:73 | the first piece of a split is the whole input or the prefix up to the first separator, and never contains the separator |
| Strings.ReplaceAll | backend/agents/core/specialized_agents.py:475 | a global literal replacement leaves a string without the pattern unchanged and never lengthens it when the replacement is no longer than the pattern |
| Strings.RemoveAllKeepsCharacters | frontend/src/pages/ItineraryPage.jsx:172 | removing a pattern introduces no character that was not in the input |
| Strings.NatToString | frontend/src/pages/ItineraryPage.jsx:217 | a number prints as a non-empty string of decimal digits |
| Strings.ParseNatToString | frontend/src/pages/ItineraryPage.jsx:110 | parsing a printed number gives the number back |
| Segmenter.DayHeadAt | frontend/src/pages/ItineraryPage.jsx:106 | a day heading is the text `## Day ` followed by a non-empty run of digits and a colon, and the captured number consists of digits only |
| Segmenter.PeriodHeadAt | frontend/src/pages/ItineraryPage.jsx:120 | a period heading is `### ` followed by Morning, Afternoon or Evening (tried in that order) and a colon |
| Segmenter.HeadIsStop | frontend/src/pages/ItineraryPage.jsx:106-120 | every heading also satisfies the lookahead that ends the previous body, so a body never runs past the next heading |
| Segmenter.NoHeadInsideHead | frontend/src/pages/ItineraryPage.jsx:106-120 | no heading of the same level starts strictly inside another, so successive global matches cannot overlap a heading |
| Segmenter.FirstHead | frontend/src/pages/ItineraryPage.jsx:109-123 | the next `exec` match starts at the leftmost heading at or after the search position, with no heading before it |
| Segmenter.FirstStop | frontend/src/pages/ItineraryPage.jsx:106-120 | the lazy body ends at the first place the lookahead holds, or at the end of the input (the `$` alternative without the `m` flag) |
| Segmenter.HeadPositions | frontend/src/pages/ItineraryPage.jsx:109-123 | every position the scan reports starts a heading, at or after the search position |
| Segmenter.SectionAt | frontend/src/pages/ItineraryPage.jsx:106-125 | a heading's section has its title, and as body the longest stretch after its colon holding no stop, which ends at a stop or at the end of the text |
| Segmenter.HeadPositionsStep | frontend/src/pages/ItineraryPage.jsx:109-123 | the headings from a position on are the first heading followed by the headings after the end of its section: the global scan skips nothing |
| Segmenter.NoHeadInSection | frontend/src/pages/ItineraryPage.jsx:106-120 | no heading starts inside a section's body, so each heading opens exactly one section |
| Segmenter.Sections | frontend/src/pages/ItineraryPage.jsx:106-125 | the sections found by the global regex are one per heading position, in text order, each opened by its heading |
| ItineraryDays.Classify | frontend/src/pages/ItineraryPage.jsx:135-169 | the chosen kind is the first rule (Dining, Transportation, Cost, Duration) one of whose keywords the lower-cased line contains, and no earlier rule matches; no match means Activity; the dining label is a meal label |
| ItineraryDays.ClassifyPrecedence | frontend/src/pages/ItineraryPage.jsx:138-169 | a line mentioning a keyword of some rule is never classified by a later rule, nor as a plain Activity |
| ItineraryDays.MealTagPrecedence | frontend/src/pages/ItineraryPage.jsx:144-152 | the dining label prefers Breakfast, then Lunch, then Dinner, then Food |
| ItineraryDays.MealTag | frontend/src/pages/ItineraryPage.jsx:144-152 | the dining label is Breakfast exactly when the line mentions breakfast, else Lunch exactly when it mentions lunch, else Dinner exactly when it mentions dinner, else Food |
| ItineraryDays.DinnerCostLineIsDining | frontend/src/pages/ItineraryPage.jsx:138-162 | "Dinner - $25 at a local bistro" is a Dining activity labelled "Dinner:", although it also mentions `$` |
| ItineraryDays.Describe | frontend/src/pages/ItineraryPage.jsx:172-177 | the description always contains the trimmed label; a cleaned line already containing it is kept as is, any other gets the label and a blank in front |
| ItineraryDays.CleanLine | frontend/src/pages/ItineraryPage.jsx:172 | the cleaned line adds no character, has no white space at its ends, and is just the trimmed line when there is no `**` or `- ` to remove |
| ItineraryDays.LineActivity | frontend/src/pages/ItineraryPage.jsx:135-184 | an activity is tagged with its enclosing period and its description carries its kind's label |
| ItineraryDays.ActivityLines | frontend/src/pages/ItineraryPage.jsx:128-132 | the lines kept are exactly the non-blank lines containing `**` or `-`, in line order |
| ItineraryDays.LinesActivities | frontend/src/pages/ItineraryPage.jsx:128-184 | a period's activities are, in order, the activities of exactly the lines that qualify, one each, tagged with the period |
| ItineraryDays.LinesActivitiesCount | frontend/src/pages/ItineraryPage.jsx:128-132 | exactly one activity per non-blank line containing `**` or `-` |
| ItineraryDays.DayActivities | frontend/src/pages/ItineraryPage.jsx:120-184 | a day's activities come from its own period sections, every period section's activities are among them, and there are none exactly when no period has a qualifying line; each is tagged Morning, Afternoon or Evening |
| ItineraryDays.PeriodsActivities | frontend/src/pages/ItineraryPage.jsx:122-184 | the periods' activities taken together: each from some period, all of every period's, and none exactly when no period has a qualifying line |
| ItineraryDays.Placeholders | frontend/src/pages/ItineraryPage.jsx:189-205 | a day without activities gets exactly three generic activities for Morning, Afternoon and Evening |
| ItineraryDays.OrPlaceholders | frontend/src/pages/ItineraryPage.jsx:189-205 | parsed activities are kept; an empty list becomes exactly the three placeholders for the day number |
| ItineraryDays.DayOf | frontend/src/pages/ItineraryPage.jsx:110-207 | a matched day carries the number parsed from its heading and the activities of its own trimmed body, or the three placeholders when that body yields none |
| ItineraryDays.EmptyDayPlaceholders | frontend/src/pages/ItineraryPage.jsx:189-205 | a matched day none of whose periods has a qualifying line gets the three placeholders, the same day a trip without headings shows for that number |
| ItineraryDays.DefaultDays | frontend/src/pages/ItineraryPage.jsx:211-235 | without day headings, exactly `tripLength` days numbered 1..tripLength (none for a negative length), each with the three placeholders |
| ItineraryDays.DaysOf | frontend/src/pages/ItineraryPage.jsx:109-209 | one day per matched section, in order, each built from that section alone |
| ItineraryDays.ParseDays | frontend/src/pages/ItineraryPage.jsx:100-237 | one day per `## Day N:` heading in text order with number N, the i-th day built from the i-th section alone and having at least one activity; no heading gives the placeholder days; every activity is tagged with a period |
| DiningParser.MentionedPlaces | frontend/src/pages/ItineraryPage.jsx:353-358 | exactly the known places whose lower-cased name the lower-cased text contains, in table order |
| DiningParser.FirstBoldStop | frontend/src/pages/ItineraryPage.jsx:365 | the lazy description ends at the first position where the lookahead (a `**` line, trailing blank lines, or the end) holds |
| DiningParser.NextBoldTerm | frontend/src/pages/ItineraryPage.jsx:365-368 | the next bold-term match lies after the search position, and its name never contains `**` |
| DiningParser.BoldTerms | frontend/src/pages/ItineraryPage.jsx:365-370 | no captured name of the global scan contains `**` |
| DiningParser.TermPlace | frontend/src/pages/ItineraryPage.jsx:369-405 | a bold term becomes a place exactly when its trimmed name mentions no category-header word, with the trimmed name and description |
| DiningParser.TermPlaces | frontend/src/pages/ItineraryPage.jsx:368-406 | at most one place per match, and no place's name mentions a header word |
| DiningParser.NextDish | frontend/src/pages/ItineraryPage.jsx:411-414 | a dish-line match starts with an upper-case letter and captures at least three characters, all letters or blanks |
| DiningParser.Description | frontend/src/pages/ItineraryPage.jsx:411 | the lazy `[^:]*?` description ends at a line end and holds no colon |
| DiningParser.DishPlaces | frontend/src/pages/ItineraryPage.jsx:414-431 | dish entries are "Local Dish"/"Turkish", named by a capitalised name of at least three characters that mentions neither "restaurant" nor "market" |
| DiningParser.TrimWords | frontend/src/pages/ItineraryPage.jsx:415 | trimming a captured run of capitalised words keeps it non-empty, capitalised and made of letters and blanks |
| DiningParser.Truncate | frontend/src/pages/ItineraryPage.jsx:459 | `slice(0, 150)` keeps a prefix of at most 150 characters, the whole text when shorter |
| DiningParser.FirstMentioning | frontend/src/pages/ItineraryPage.jsx:446-451 | the first paragraph mentioning the keyword, or none exactly when no paragraph mentions it |
| DiningParser.KeywordPlaces | frontend/src/pages/ItineraryPage.jsx:438-463 | at most one entry per keyword, each named by a capitalised keyword the text mentions, with a description of at most 150 characters |
| DiningParser.PadWith | frontend/src/pages/ItineraryPage.jsx:507-542 | the padding loop keeps the list as a prefix, appends only entries of its list whose name is not yet present, stops at the target, and otherwise has tried every entry |
| DiningParser.Pad | frontend/src/pages/ItineraryPage.jsx:477-518 | a list already at the target is unchanged; otherwise padding never passes the target and only appends |
| DiningParser.NamesBound | frontend/src/pages/ItineraryPage.jsx:508-536 | a list has no more distinct names than entries |
| DiningParser.PadReaches | frontend/src/pages/ItineraryPage.jsx:477-515 | a padding list with enough distinct names always reaches the target |
| DiningParser.RecommendedNames | frontend/src/pages/ItineraryPage.jsx:479-504 | the four recommended places have four distinct names, so the first padding always reaches four |
| DiningParser.PadBothSize | frontend/src/pages/ItineraryPage.jsx:476-543 | after both paddings the list has at least 4 and at most 6 entries (or the extracted count), with the extracted entries first and unchanged |
| DiningParser.PadBothAdded | frontend/src/pages/ItineraryPage.jsx:507-538 | every entry the paddings add comes from one of the two lists and bears a name not already in the list |
| DiningParser.PadKeepsFront | frontend/src/pages/ItineraryPage.jsx:509-537 | padding never reorders or changes the entries already present |
| DiningParser.PadBoth | frontend/src/pages/ItineraryPage.jsx:476-543 | the two paddings together: between 4 and 6 entries, extracted entries first, every added entry freshly named and from the padding lists |
| DiningParser.Extracted | frontend/src/pages/ItineraryPage.jsx:350-470 | the known places the text names win, in table order; a text where the keyword tier finds a dish, or that mentions "tava", never ends up without entries |
| DiningParser.ParseDining | frontend/src/pages/ItineraryPage.jsx:268-545 | a falsy text gives no entries; otherwise at least four entries, the extracted ones first and unchanged, at most six unless more were extracted, and every padded entry freshly named |
| TransportParser.KindNameInjective | frontend/src/pages/ItineraryPage.jsx:582-597 | the six type strings are pairwise distinct, so de-duplicating by kind is de-duplicating by the shown type |
| TransportParser.KeywordLength | frontend/src/pages/ItineraryPage.jsx:572 | an alternative of the transport regex matching at a position starts with one of its initial letters and lies inside the line |
| TransportParser.Search | frontend/src/pages/ItineraryPage.jsx:572-574 | the search from a position finds the leftmost match at or after it, or reports none exactly when no alternative matches there or later |
| TransportParser.HasKeywordIff | frontend/src/pages/ItineraryPage.jsx:572 | a line names a means of transport exactly when some alternative matches at some position |
| TransportParser.Test | frontend/src/pages/ItineraryPage.jsx:573-574 | `test` on a `g` regex succeeds only on a line with a keyword, resets `lastIndex` to 0 on failure, and from `lastIndex` 0 is exactly the keyword test |
| TransportParser.KeptLinesAsWritten | frontend/src/pages/ItineraryPage.jsx:573-575 | the filter as written keeps only lines with a keyword and more than ten characters (it may drop some) |
| TransportParser.KeptLines | frontend/src/pages/ItineraryPage.jsx:573-575 | the filter searched per line keeps exactly the lines longer than ten characters that name a means of transport |
| TransportParser.KindFrom | frontend/src/pages/ItineraryPage.jsx:582-594 | a line's kind is either public transportation or the kind of a rule whose words the line mentions |
| TransportParser.KindOf | frontend/src/pages/ItineraryPage.jsx:582-594 | a line is given a kind other than public transportation only when it mentions one of that kind's words |
| TransportParser.FirstRuleDecides | frontend/src/pages/ItineraryPage.jsx:584-594 | the first rule the lower-cased line matches decides its kind |
| TransportParser.NoRuleGeneric | frontend/src/pages/ItineraryPage.jsx:582 | a line that matches no rule keeps the type "Public transportation" |
| TransportParser.KindPrecedence | frontend/src/pages/ItineraryPage.jsx:582-594 | taxi beats bus, which beats subway or metro, then walk, then bike or cycling; no match gives public transportation |
| TransportParser.Describe | frontend/src/pages/ItineraryPage.jsx:602 | the description drops the leading non-letters and is trimmed, so it is empty or starts with a letter, and is never longer than the line |
| TransportParser.LineEntries | frontend/src/pages/ItineraryPage.jsx:580-603 | one entry per kept line, with that line's kind and description |
| TransportParser.Step | frontend/src/pages/ItineraryPage.jsx:597-603 | an entry is appended exactly when its kind is not yet present; the kind is present afterwards and the earlier entries are untouched |
| TransportParser.Collect | frontend/src/pages/ItineraryPage.jsx:578-604 | the loop keeps the entries already present in front and the kinds pairwise distinct |
| TransportParser.CollectCovers | frontend/src/pages/ItineraryPage.jsx:580-604 | every entry's kind ends up present, and every appended entry is one of the entries |
| TransportParser.FromEntries | frontend/src/pages/ItineraryPage.jsx:578-612 | between one and six entries of pairwise distinct kinds, and the generic entry alone when there are no entries |
| TransportParser.FromEntriesCovers | frontend/src/pages/ItineraryPage.jsx:580-604 | every entry's kind is reported, and only the given entries are |
| TransportParser.FromLinesCovers | frontend/src/pages/ItineraryPage.jsx:580-604 | every kept line's kind has an entry, and every entry is the one some kept line makes |
| TransportParser.FromLinesSpec | frontend/src/pages/ItineraryPage.jsx:578-612 | the entries for the kept lines: one to six of pairwise distinct kinds, the generic entry alone when no line is kept, an entry for every kept line's kind, and each entry the one some kept line makes |
| TransportParser.ParseTransportAsWritten | frontend/src/pages/ItineraryPage.jsx:565-614 | the parser as written, with the shared `lastIndex`: a falsy text gives no entries; otherwise one to six entries of pairwise distinct kinds, the generic entry alone when the filter as written keeps no line, an entry for the kind of every line it keeps, and each entry the one some kept line makes |
| TransportParser.ParseTransport | frontend/src/pages/ItineraryPage.jsx:572-575 | the corrected parser, each line searched from its own start: the same promises over exactly the lines longer than ten characters that name a means of transport |
| TransportParser.DistinctKindsBound | frontend/src/pages/ItineraryPage.jsx:578-598 | entries of pairwise distinct kinds number at most six |
| TransportParser.LastIndexDropsLine | frontend/src/pages/ItineraryPage.jsx:572-575 | for "Ride a local bus" followed by "Taxi from here", the filter as written reports only the bus |
| TransportParser.PerLineSearchKeepsLine | frontend/src/pages/ItineraryPage.jsx:572-575 | with a per-line search the same text reports the bus and the taxi, in that order |
| TransportParser.AsWrittenKeepsBusOnly | frontend/src/pages/ItineraryPage.jsx:573-574 | the shared `lastIndex` of 16 left by the bus line makes the taxi line's test fail |
| TransportParser.PerLineKeepsBoth | frontend/src/pages/ItineraryPage.jsx:573-574 | searched from their own starts, both lines are kept |
| TransportParser.TwoLinesEntries | frontend/src/pages/ItineraryPage.jsx:580-604 | two kept lines of different kinds make their two entries, in line order |
| Tips.Head20 | frontend/src/pages/ItineraryPage.jsx:773 | `substring(0, 20)` is the prefix of length min(20, length) |
| Tips.CoversItself | frontend/src/pages/ItineraryPage.jsx:772-778 | once a tip is in its category, its own description counts as a duplicate there |
| Tips.DuplicateGrows | frontend/src/pages/ItineraryPage.jsx:772-778 | adding tips to a category never makes a duplicate description new again |
| Tips.AddAll | frontend/src/pages/ItineraryPage.jsx:770-779 | the candidates pushed one at a time: the category keeps its tips in front, and every tip added is a candidate whose lower-cased first twenty characters no earlier tip's lower-cased description contains |
| Tips.AddAllCoversAll | frontend/src/pages/ItineraryPage.jsx:770-779 | every candidate ends up covered: one that is added covers itself, one that is dropped was covered when its turn came |
| Tips.HeadCovered | frontend/src/pages/ItineraryPage.jsx:770-779 | the first candidate is covered once its turn has come, whether it was added or dropped |
| Tips.HeadAdded | frontend/src/pages/ItineraryPage.jsx:770-779 | a first candidate that no tip covers is added, right after the tips already there |
| Tips.AddAllSnoc | frontend/src/pages/ItineraryPage.jsx:770-779 | the loop as a left fold: the last candidate is added exactly when the tips the earlier candidates left do not cover it |
| Tips.LeadLength | frontend/src/pages/ItineraryPage.jsx:757 | `^\s*[-‚Ä¢*:]?\s*` consumes blanks, at most one marker character and blanks, and stops at a non-blank |
| Tips.KeywordTips | frontend/src/pages/ItineraryPage.jsx:749-760 | the hotel tips of a keyword are exactly those made from the lines that mention the keyword and "tip", "insider" or "advice" |
| Tips.HotelTipsFrom | frontend/src/pages/ItineraryPage.jsx:741-762 | the hotel tips are exactly the tips of the tip lines of the four hotel keywords: every one comes from such a line and every such line contributes |
| Tips.NonDotRun | frontend/src/pages/ItineraryPage.jsx:785 | `[^\.]` runs stop exactly at the next `.` |
| Tips.Tail | frontend/src/pages/ItineraryPage.jsx:785 | `\s*([^\.]+)\.` captures a non-empty stretch without `.` that is followed by a `.`, after blanks only |
| Tips.TailIff | frontend/src/pages/ItineraryPage.jsx:785 | the tail matches exactly when the next character is not `.` and a `.` follows somewhere later |
| Tips.MatchAt | frontend/src/pages/ItineraryPage.jsx:785 | a tip match starts with one of the four introducing words (ASCII case ignored) and captures a stretch without `.` ending before a `.` |
| Tips.MatchAtComplete | frontend/src/pages/ItineraryPage.jsx:785 | there is a match at a position exactly when one of the words is there and what follows it completes the pattern; a word whose rest fails gives way to the next word |
| Tips.FirstMatch | frontend/src/pages/ItineraryPage.jsx:785-788 | the match a search finds captures a stretch without `.` ending before a `.`, after the search position |
| Tips.FirstMatchLeftmost | frontend/src/pages/ItineraryPage.jsx:785-788 | `exec` finds nothing exactly when no match starts at or after the search position, and what it finds belongs to the leftmost match |
| Tips.Captures | frontend/src/pages/ItineraryPage.jsx:785-788 | the global scan yields captures in text order that do not overlap, each after the previous one's `.` |
| Tips.CapturesLeftmost | frontend/src/pages/ItineraryPage.jsx:785-788 | the scan misses no match: each capture belongs to the leftmost match after the previous one's `.`, and no match is left when it stops |
| Tips.CategoryOf | frontend/src/pages/ItineraryPage.jsx:793-814 | an introduced tip goes to Hotel if it mentions a hotel word, else Dining, else Transportation, else Shopping, else Cultural (both directions) |
| Tips.TipsOfCaptures | frontend/src/pages/ItineraryPage.jsx:789-822 | every capture whose trimmed text is longer than ten characters yields a tip with that description, and every tip comes from such a capture; each is free of `.` and in the category its words suggest |
| Tips.TipsOfCapturesAppend | frontend/src/pages/ItineraryPage.jsx:787-822 | the captures are kept in order: the tips of two runs of captures are the tips of the first run followed by those of the second |
| Tips.TipsOfOneCapture | frontend/src/pages/ItineraryPage.jsx:789-820 | one capture yields its tip, in its category, exactly when its trimmed text is longer than ten characters |
| Tips.TrimNoDot | frontend/src/pages/ItineraryPage.jsx:789 | trimming a capture without `.` leaves none |
| Tips.ExtractedTips | frontend/src/pages/ItineraryPage.jsx:784-823 | the introduced tips are exactly the captures of the scan whose trimmed text is longer than ten characters, each in its category |
| Tips.AddExtractedPerCategory | frontend/src/pages/ItineraryPage.jsx:826-842 | each category keeps its name and icon and receives exactly its own candidates, in text order, under the duplicate rule |
| Tips.AddOne | frontend/src/pages/ItineraryPage.jsx:827-840 | one introduced tip changes only its own category |
| Tips.AdviceStep | frontend/src/pages/ItineraryPage.jsx:826-842 | adding the first introduced tip to its category and then the rest is adding each category's candidates in order |
| Tips.AddAllCons | frontend/src/pages/ItineraryPage.jsx:770-779 | adding one candidate and then the rest is adding them all |
| Tips.AddHotelTipsKeeps | frontend/src/pages/ItineraryPage.jsx:765-781 | only the hotel category receives the hotel tips; every category keeps its name, icon and tips in front |
| Tips.ExtendKeeps | frontend/src/pages/ItineraryPage.jsx:765-842 | after both additions every category keeps its name, its icon and its built-in tips in front |
| Tips.ExtendHotel | frontend/src/pages/ItineraryPage.jsx:765-781 | the hotel category receives the hotel tips first and then its introduced tips |
| Tips.ExtendOthers | frontend/src/pages/ItineraryPage.jsx:826-842 | every other category receives only its introduced tips |
| Tips.TipCategories | frontend/src/pages/ItineraryPage.jsx:624-842 | the five categories in order, each with its built-in tips in front; the hotel category receives the hotel tips and then its introduced tips, every other category only its introduced tips |
| Tips.PrefixesChain | frontend/src/pages/ItineraryPage.jsx:765-842 | keeping tips in front is preserved across the two additions |
| Tips.OffsetGrows | frontend/src/pages/ItineraryPage.jsx:847-855 | longer categories never move a later group's start earlier |
| Tips.FormatCategory | frontend/src/pages/ItineraryPage.jsx:848-854 | one formatted entry per tip of the category, in order, under the category's header |
| Tips.Format | frontend/src/pages/ItineraryPage.jsx:845-855 | the flattened list holds each category's tips from its offset on, in order, the categories in their fixed order |
| Tips.KeptInPlace | frontend/src/pages/ItineraryPage.jsx:845-855 | every built-in tip is shown at its place at the head of its category's group |
| Tips.BuiltInCount | frontend/src/pages/ItineraryPage.jsx:629-735 | the built-in table holds fifteen tips |
| Tips.ParseTips | frontend/src/pages/ItineraryPage.jsx:624-876 | a falsy text gives no tips; otherwise at least fifteen, with each category's built-in tips at the head of its group and the groups in the order Hotel, Transportation, Dining, Shopping, Cultural |
| AccommodationParser.AddName | frontend/src/pages/ItineraryPage.jsx:908-919 | `Set.add` on the insertion-ordered name set: the names stay distinct, the new name is a member afterwards, nothing else joins, and the earlier order is kept |
| AccommodationParser.TrimmedName | frontend/src/pages/ItineraryPage.jsx:913-916 | a trimmed capture longer than three characters has no white space at its ends |
| AccommodationParser.PatternCandidate | frontend/src/pages/ItineraryPage.jsx:913-920 | a pattern capture contributes only its trimmed form, longer than three characters, after the descriptor and label filters |
| AccommodationParser.LineCandidate | frontend/src/pages/ItineraryPage.jsx:942-951 | the fallback scan takes a name only from a line naming a lodging word that does not begin with a descriptor, and only a trimmed name longer than three characters that does not begin with one either |
| AccommodationParser.AddCandidates | frontend/src/pages/ItineraryPage.jsx:910-954 | adding candidates in turn keeps the earlier names in front, and the names afterwards are exactly the earlier ones and the candidates |
| AccommodationParser.FixedNames | frontend/src/pages/ItineraryPage.jsx:925-935 | "Swissôtel Ankara", "Hotel Midi Ankara" and "Ankara Princess Hotel" join the set exactly when the lower-cased text mentions their keyword |
| AccommodationParser.HotelNames | frontend/src/pages/ItineraryPage.jsx:908-958 | the name set holds every pattern or fixed name, and the line-scan names only when there is no pattern or fixed name, in which case it is exactly the line-scan names |
| AccommodationParser.BreakAt | frontend/src/pages/ItineraryPage.jsx:966 | the separator matches only at a line break, and takes two characters exactly at a blank line |
| AccommodationParser.Cut | frontend/src/pages/ItineraryPage.jsx:966 | the split yields at least one piece, every piece occurring in the text without a separator |
| AccommodationParser.Paragraphs | frontend/src/pages/ItineraryPage.jsx:966 | the split at blank lines and at line breaks before a list item: each piece but the last ends where a separator starts and the next begins right after it, the last ends with the text, and no piece holds a separator, so the pieces and separators laid end to end spell the text |
| AccommodationParser.SplitFromUnique | frontend/src/pages/ItineraryPage.jsx:966 | a text splits into pieces in only one way, so the paragraphs are determined by the separators |
| AccommodationParser.CutSplits | frontend/src/pages/ItineraryPage.jsx:966 | the pieces cut from a position split the rest of the text at its separators |
| AccommodationParser.OneParagraph | frontend/src/pages/ItineraryPage.jsx:966 | text without a line break is a single paragraph, itself |
| AccommodationParser.Squeeze | frontend/src/pages/ItineraryPage.jsx:971-972 | removing white space leaves no white space and never lengthens the text |
| AccommodationParser.SqueezeAppend | frontend/src/pages/ItineraryPage.jsx:971-972 | removing white space distributes over concatenation |
| AccommodationParser.SqueezeContains | frontend/src/pages/ItineraryPage.jsx:974-975 | an occurrence of the name stays an occurrence after white space is removed from both |
| AccommodationParser.NamedIn | frontend/src/pages/ItineraryPage.jsx:970-975 | a paragraph names the hotel exactly when, lower-cased and without white space, it contains the name treated alike; the second test never decides |
| AccommodationParser.Append | frontend/src/pages/ItineraryPage.jsx:976 | the first piece becomes the description; later ones follow a line break |
| AccommodationParser.NamedNotBlank | frontend/src/pages/ItineraryPage.jsx:974-976 | a paragraph naming a well-formed hotel name is not blank, so its trimmed form is non-empty |
| AccommodationParser.AppendJoin | frontend/src/pages/ItineraryPage.jsx:976 | appending to a join of non-empty parts is the join with one more part |
| AccommodationParser.GatherIsJoin | frontend/src/pages/ItineraryPage.jsx:963-978 | the gathered description is the trimmed paragraphs naming the hotel, one per line |
| AccommodationParser.Keep | frontend/src/pages/ItineraryPage.jsx:983-1005 | `filter` keeps exactly the paragraphs passing the test, in order |
| AccommodationParser.OrDefault | frontend/src/pages/ItineraryPage.jsx:988-995 | the `or` fallback: the text unless it is empty |
| AccommodationParser.RawDescription | frontend/src/pages/ItineraryPage.jsx:963-1008 | the naming paragraphs when there are any; otherwise the Swissôtel paragraphs or the stock sentence for a Swissôtel name, and the paragraphs with hotel details for a name that is neither Swissôtel nor Midi Ankara |
| AccommodationParser.StripHeadings | frontend/src/pages/ItineraryPage.jsx:1013 | removing `#+\s*` leaves no `#`, adds no character, and changes nothing in text without `#` |
| AccommodationParser.MarkerAt | frontend/src/pages/ItineraryPage.jsx:1014 | the list-marker pattern matches only at a line start and only across a marker character |
| AccommodationParser.StripMarkers | frontend/src/pages/ItineraryPage.jsx:1014 | removing list markers adds no character and changes nothing in text without marker characters |
| AccommodationParser.Clean | frontend/src/pages/ItineraryPage.jsx:1011-1015 | the cleaned description holds no `#`, adds no character, and has no white space at its ends |
| AccommodationParser.CleanPlain | frontend/src/pages/ItineraryPage.jsx:1011-1015 | text without `*`, `#` or marker characters only loses its edge white space |
| AccommodationParser.BulletLines | frontend/src/pages/ItineraryPage.jsx:1061-1062 | each kept line starts with "- " and holds no line break; a description starting with a non-blank line gives at least one |
| AccommodationParser.BulletedLines | frontend/src/pages/ItineraryPage.jsx:1060-1062 | every line of the bullet list of a cleaned, non-empty description starts with "- " |
| AccommodationParser.FormatDescription | frontend/src/pages/ItineraryPage.jsx:1019-1066 | a known hotel gets its ready-made lines; any other gets its cleaned description as "- " lines, or the "not available" line when that is empty |
| AccommodationParser.Kind | frontend/src/pages/ItineraryPage.jsx:1069-1085 | the kind is Luxury, else Boutique, else Budget, else Unique, else plain Hotel, by the first sign that applies (both directions) |
| AccommodationParser.PriceEndAsWritten | frontend/src/pages/ItineraryPage.jsx:1090 | a price match as written starts at `$` or a digit and contains a digit |
| AccommodationParser.DollarRangeEnd | frontend/src/pages/ItineraryPage.jsx:1090 | a `$<digits>-$<digits>` range starts at `$` followed by a digit |
| AccommodationParser.PriceEnd | frontend/src/pages/ItineraryPage.jsx:1090 | every price match, in either alternative order, contains a digit |
| AccommodationParser.PriceStart | frontend/src/pages/ItineraryPage.jsx:1090-1093 | `match` without the `g` flag finds the leftmost position where the pattern matches, with no match before it, or none at all |
| AccommodationParser.FirstPrice | frontend/src/pages/ItineraryPage.jsx:1090-1094 | the matched text contains a digit and occurs in the text; there is no match exactly when the pattern matches nowhere |
| AccommodationParser.PriceRange | frontend/src/pages/ItineraryPage.jsx:1087-1095 | the first price of the whole text wins; when the text has none, the first price of the hotel's description; when neither has one, "$150" |
| AccommodationParser.DollarRangeCut | frontend/src/pages/ItineraryPage.jsx:1090-1092 | as written, "$a-$b" yields only "$a" |
| AccommodationParser.DollarRangeKept | frontend/src/pages/ItineraryPage.jsx:1090-1092 | with the range alternative first, "$a-$b" yields the whole range |
| AccommodationParser.PriceAtStart | frontend/src/pages/ItineraryPage.jsx:1090-1092 | a price matched at the first character is the matched text |
| AccommodationParser.WholeDollarRange | frontend/src/pages/ItineraryPage.jsx:1090 | "$a-$b" is one dollar range from its first character to its last |
| AccommodationParser.Entry | frontend/src/pages/ItineraryPage.jsx:961-1103 | each hotel's entry carries its name and one of the five kinds |
| AccommodationParser.Entries | frontend/src/pages/ItineraryPage.jsx:958-1104 | one entry per hotel name, in name order, each the hotel's own entry with the chosen price order |
| AccommodationParser.ParseAccommodation | frontend/src/pages/ItineraryPage.jsx:894-1116 | a falsy text gives no entries; otherwise at least one, with pairwise distinct names: one per hotel name in set order, each of a known kind and priced "$150" or with a digit, or the single generic entry with the raw text when there is no name; the price order is a parameter, as written (`$` amount first) or corrected (range first) |
| AccommodationParser.PriceOrderOnlyChangesPrice | frontend/src/pages/ItineraryPage.jsx:1090-1094 | the two price orders give the same hotels, kinds and descriptions, and the same entries whenever the text's first price does not depend on the order |
| AccommodationParser.AmountWithCurrency | frontend/src/pages/ItineraryPage.jsx:1090 | digits followed by a currency sign (with the `i` flag's case folding of "ç") are the price in either order |
| AccommodationParser.SwissotelEntry | frontend/src/pages/ItineraryPage.jsx:1022-1073 | a Swissôtel hotel is a luxury hotel with the ready-made Swissôtel description |
| AccommodationParser.SwissotelNamed | frontend/src/pages/ItineraryPage.jsx:925-927 | a text mentioning Swissôtel always has "Swissôtel Ankara" among its hotel names |
| AccommodationParser.SwissotelListed | frontend/src/pages/ItineraryPage.jsx:925-927 | such a text always lists "Swissôtel Ankara" as a luxury hotel with the ready-made description, whatever the patterns captured |
| ItineraryView.Truthy | frontend/src/pages/ItineraryPage.jsx:72-73 | the `or` fallback: a present non-empty string is kept; an absent or empty one gives the fallback |
| ItineraryView.Overview | frontend/src/pages/ItineraryPage.jsx:73 | the overview is the fixed notice, or a non-empty prefix of the itinerary without a blank line in it |
| ItineraryView.OverviewCases | frontend/src/pages/ItineraryPage.jsx:73 | an empty itinerary or one opening with a blank line has no overview; without a blank line the whole itinerary is the overview; otherwise the text before the first blank line is |
| ItineraryView.ToView | frontend/src/pages/ItineraryPage.jsx:69-82 | the view keeps the destination, length and interests (none when the plan has none), never shows an empty budget or overview and keeps a non-empty one; it has the default days without a day heading and one day per heading otherwise, each with activities; no dining or transport for a falsy text, else at least four dining places and the transport entries of the kept lines |
| ItineraryView.AccommodationSections | frontend/src/pages/ItineraryPage.jsx:80-81 | an accommodation text gives at least the fifteen built-in tips and at least one accommodation; a missing or empty one gives neither |
| LoadingProgress.MarkLog | frontend/src/pages/LoadingPage.jsx:223-231 | a log line is added exactly when some mark is crossed; crossing 20 asks for the stage-20 message; crossing only 95 gives the fixed finalizing line |
| LoadingProgress.OneMarkPerTick | frontend/src/pages/LoadingPage.jsx:218-231 | an increment below five crosses at most one mark, so the else-if chain never hides a second crossing |
| LoadingProgress.Tick | frontend/src/pages/LoadingPage.jsx:214-245 | an inactive card is unchanged; an active one advances by the increment capped at 100, finishes exactly at 100 with the completed status, and gains one log line exactly when it crosses a mark |
| LoadingProgress.TickAll | frontend/src/pages/LoadingPage.jsx:213-246 | every card ticks with its own increment, keeping the list's length, order and ids |
| LoadingProgress.TickKeepsValid | frontend/src/pages/LoadingPage.jsx:219 | a tick keeps every card's progress within 0..100 |
| LoadingProgress.StartedNone | frontend/src/pages/LoadingPage.jsx:249 | the count of moved cards is 0 exactly when no card has progress above 0 |
| LoadingProgress.TotalSigns | frontend/src/pages/LoadingPage.jsx:250 | the summed progress is not negative when no card's is, and 0 when every card is at 0 |
| LoadingProgress.AllComplete | frontend/src/pages/LoadingPage.jsx:258-260 | when the loop stops, every card that has moved is at 100 or more |
| LoadingProgress.Overall | frontend/src/pages/LoadingPage.jsx:249-253 | the overall bar times the number of started cards is the summed progress, and 0 while no card has moved |
| LoadingProgress.OverallPercent | frontend/src/pages/LoadingPage.jsx:249-253 | with every card a percentage, the overall bar is within 0..100 |
| LoadingProgress.TotalBound | frontend/src/pages/LoadingPage.jsx:249-250 | cards that never moved add nothing, so the total is at most 100 per started card |
| LoadingProgress.CompleteTotal | frontend/src/pages/LoadingPage.jsx:250-260 | when every card has finished or never started, the total is exactly 100 per started card |
| LoadingProgress.CompleteOverall | frontend/src/pages/LoadingPage.jsx:249-260 | when the loop stops, the overall bar reads 100, or 0 if no card ever moved |
| LoadingProgress.Apply | frontend/src/pages/LoadingPage.jsx:204 | the object spread: each field the update sets replaces the card's, the others and the id are kept |
| LoadingProgress.UpdateAgent | frontend/src/pages/LoadingPage.jsx:200-208 | exactly the cards with the given id get the update; the list's length and ids are kept |
| LoadingProgress.UpdateAgentIdempotent | frontend/src/pages/LoadingPage.jsx:200-208 | repeating an update changes nothing more |
| LoadingProgress.UpdateAgentsCommute | frontend/src/pages/LoadingPage.jsx:200-208 | updates of two different cards commute |
| LoadingProgress.TripLengthText | frontend/src/pages/LoadingPage.jsx:554-561 | the phrase is empty exactly for the falsy length 0 |
| LoadingProgress.TripLengthTextBuckets | frontend/src/pages/LoadingPage.jsx:557-560 | for positive lengths the phrase only moves towards longer trips (weekend, short, week-long, extended) as the length grows |
| StatusMerge.TextSet | frontend/src/pages/LoadingPageRealTime.jsx:213 | exactly the texts of the shown log lines |
| StatusMerge.Stamp | frontend/src/pages/LoadingPageRealTime.jsx:216-219 | an incoming line keeps its text and its timestamp when that is truthy, and otherwise gets the current time |
| StatusMerge.FreshLogs | frontend/src/pages/LoadingPageRealTime.jsx:214-219 | every added line has a text not already shown, every incoming line with an unseen text is added, and every added line comes from an incoming one |
| StatusMerge.FreshLogsAppend | frontend/src/pages/LoadingPageRealTime.jsx:214-219 | the filter distributes over concatenation, so added lines keep the snapshot's order |
| StatusMerge.FreshLogsOne | frontend/src/pages/LoadingPageRealTime.jsx:215 | a single line adds nothing when its text is shown and itself otherwise |
| StatusMerge.FreshLogsSeen | frontend/src/pages/LoadingPageRealTime.jsx:215 | lines whose texts are all shown add nothing |
| StatusMerge.MergeAgent | frontend/src/pages/LoadingPageRealTime.jsx:210-229 | falsy status and progress keep the card's value; the card is active only for a literal true; a falsy error clears it; the unseen lines are appended after the shown ones |
| StatusMerge.MergeAgentIdempotent | frontend/src/pages/LoadingPageRealTime.jsx:210-229 | merging the same entry again adds no line and changes nothing |
| StatusMerge.IncomingShown | frontend/src/pages/LoadingPageRealTime.jsx:213-227 | after a merge every incoming line's text is shown |
| StatusMerge.MergeAgents | frontend/src/pages/LoadingPageRealTime.jsx:202-231 | each entry updates the first card with its id; cards without an entry are unchanged; lengths and ids are kept and logs only grow |
| StatusMerge.Poll | frontend/src/pages/LoadingPageRealTime.jsx:193-235 | the bar takes a truthy overall progress or 0, a falsy message keeps the old one, the cards keep ids and grow their logs, and a snapshot without agents leaves them alone |
| StatusMerge.PollAsWritten | frontend/src/pages/LoadingPageRealTime.jsx:161-163 | the interval callback merges into the cards of the first render, whatever is shown now, and a snapshot without agents puts the first render's cards back |
| StatusMerge.PollFirstCard | frontend/src/pages/LoadingPageRealTime.jsx:207-229 | the first card is always the first with its id, so its entry is merged into it |
| StatusMerge.MergeOneUnseen | frontend/src/pages/LoadingPageRealTime.jsx:214-227 | a card given one line it does not show gains exactly that line |
| StatusMerge.MergeTwoLines | frontend/src/pages/LoadingPageRealTime.jsx:214-227 | two merges with two different lines show both lines, in arrival order |
| StatusMerge.StalePollDropsLog | frontend/src/pages/LoadingPageRealTime.jsx:202-227 | after two polls whose second no longer lists the first's line, the page as written shows only the second line and progress 0, while the intended merge keeps both lines and progress 40 |
| StatusFeed.Entry | backend/routers/itinerary.py:20-25 | a status record's agent becomes a snapshot entry with every field present and one incoming line per log |
| StatusFeed.ToSnapshot | backend/routers/itinerary.py:42-71 | the record's overall progress and message become present fields, and its agents are keyed by the backend's four names |
| StatusFeed.BackendMovesTwoCards | frontend/src/pages/LoadingPageRealTime.jsx:206-230 | polling a backend record moves only the attractions and accommodation cards; the dining, transport, images and insights cards never change |
| StatusFeed.BackendMovesTwoCardsAsWritten | frontend/src/pages/LoadingPageRealTime.jsx:202-227 | the page as written, polling a backend record, shows the first render's attractions and accommodation cards merged with the record, and the other four as first rendered |
| StatusFeed.MergeWithBackendKeys | frontend/src/pages/LoadingPageRealTime.jsx:206-230 | entries under the backend's names reach the first two cards of the page's layout and no other |
| StatusFeed.LayoutKeys | frontend/src/pages/LoadingPageRealTime.jsx:45-112 | only the first two cards carry a name the backend uses |
| StatusFeed.InitialCardsLayout | frontend/src/pages/LoadingPageRealTime.jsx:45-112 | the page starts with the six cards attractions, accommodation, dining, transport, images, insights |
| ItineraryStatus.InitialStatus | backend/routers/itinerary.py:36-72 | a new record is not complete, has overall progress 0 and at most three log lines per agent |
| ItineraryStatus.Initialize | backend/routers/itinerary.py:34-37 | the id gets a record, and an id already present keeps its record |
| ItineraryStatus.InitializeIdempotent | backend/routers/itinerary.py:35 | initialising twice is the same as once |
| ItineraryStatus.Clamp | backend/routers/itinerary.py:111-113 | `min(100, max(0, x))` is a percentage and leaves a percentage alone |
| ItineraryStatus.MaybeLog | backend/routers/itinerary.py:122-132 | a line is appended exactly when the progress has passed the mark and fewer than three lines are shown; three lines are never exceeded |
| ItineraryStatus.Advance | backend/routers/itinerary.py:110-132 | an agent gets its new progress and activity, keeps status and error, and gains at most one log line |
| ItineraryStatus.Message | backend/routers/itinerary.py:139-148 | the ready message appears exactly when the overall progress is at least 99 |
| ItineraryStatus.Update | backend/routers/itinerary.py:107-149 | each agent's progress is its curve at the elapsed time; the overall progress is their mean and the message follows it; completion is set at 99 and never cleared; each agent is active while between 0 and 100 (attractions: below 100); the attractions, accommodation, food and planner logs gain their line exactly when progress passes 20, 30, 40 and 50 with fewer than three lines, and only then; every log keeps its earlier lines in front |
| ItineraryStatus.ProgressOrdered | backend/routers/itinerary.py:110-113 | for a non-negative elapsed time every progress is a percentage, ordered planner ≤ food ≤ accommodation ≤ attractions |
| ItineraryStatus.RecordProgressOrdered | backend/routers/itinerary.py:110-136 | in the record an update leaves, for a non-negative elapsed time, every progress and the overall progress are percentages, ordered planner ≤ food ≤ accommodation ≤ attractions |
| ItineraryStatus.AttractionsUnclamped | backend/routers/itinerary.py:110-111 | a negative elapsed time gives the attractions agent a negative progress, since only its curve lacks `max(0, …)` |
| ItineraryStatus.ProgressMonotone | backend/routers/itinerary.py:110-113 | every curve is non-decreasing in the elapsed time |
| ItineraryStatus.CompletionTime | backend/routers/itinerary.py:110-149 | from 54 seconds on the record is complete at 100; before 52 seconds completion is only ever inherited |
| ItineraryStatus.GetStatus | backend/routers/itinerary.py:87-151 | an unknown id is created rather than rejected; the record is recomputed and stored, and other ids are untouched |
| ItineraryStatus.CompletedSticks | backend/routers/itinerary.py:149 | once reported, completion stays reported |
| ItineraryStatus.LogsStayBounded | backend/routers/itinerary.py:122-132 | however many requests are served, no agent shows more than three log lines |
| Questionnaire.StepValidity | frontend/src/pages/QuestionnairePage.jsx:229-242 | a text step is valid exactly when its trimmed value is non-empty, a radio step exactly when its value is not the empty string (an absent value passes), a checkbox step exactly when something is ticked |
| Questionnaire.IsStepValid | frontend/src/pages/QuestionnairePage.jsx:229-242 | the Next button's guard: a step whose value is the empty string never passes |
| Questionnaire.Without | frontend/src/pages/QuestionnairePage.jsx:268 | the filter keeps exactly the items other than the value and never grows the list |
| Questionnaire.Toggle | frontend/src/pages/QuestionnairePage.jsx:261-276 | the value becomes ticked exactly when it was not; other items keep their membership; a new value is appended at the end |
| Questionnaire.WithoutAbsent | frontend/src/pages/QuestionnairePage.jsx:268 | filtering out a value the list does not hold changes nothing |
| Questionnaire.ToggleTwice | frontend/src/pages/QuestionnairePage.jsx:261-276 | ticking a box and unticking it restores the list |
| Questionnaire.WithoutAppend | frontend/src/pages/QuestionnairePage.jsx:268-273 | filtering out the value just appended gives back the list before it |
| Questionnaire.TripLengthAgrees | frontend/src/pages/QuestionnairePage.jsx:329-336 | each trip-length option's number lies in the day range its label states, and the loading page describes that number with the option's own phrase |
| Questionnaire.TripDays | frontend/src/pages/QuestionnairePage.jsx:329-336 | each choice stands for a number of days within the range its option's title states; anything that is not a choice gives 5 |
| Questionnaire.TripLengthValue | frontend/src/pages/QuestionnairePage.jsx:297-336 | the sent `trip_length` is 3, 5, 7 or 14, and 5 for an absent value or any string that is not a choice |
| Questionnaire.MakePayload | frontend/src/pages/QuestionnairePage.jsx:295-304 | images are always requested, insights exactly when festivals, customs or covid is ticked, and the length is the chosen option's number |
| Questionnaire.Apply | frontend/src/pages/QuestionnairePage.jsx:245-289 | Back moves one step back, Next one step forward except on the last step, an edit stays on its step, and only the current step's field changes |
| Questionnaire.FieldsDistinct | frontend/src/pages/QuestionnairePage.jsx:165-223 | each step edits its own field |
| Questionnaire.ValidityByField | frontend/src/pages/QuestionnairePage.jsx:229-242 | a step's validity depends on its own field only |
| Questionnaire.ApplyKeepsWellFormed | frontend/src/pages/QuestionnairePage.jsx:245-276 | typing, picking and ticking keep text fields strings, choice fields options and checkbox fields lists of options |
| Questionnaire.ApplyKeepsInv | frontend/src/pages/QuestionnairePage.jsx:279-289 | every offered action keeps the steps already passed valid |
| Questionnaire.Run | frontend/src/pages/QuestionnairePage.jsx:279-289 | any run of offered actions keeps the invariant |
| Questionnaire.SubmittedPayload | frontend/src/pages/QuestionnairePage.jsx:286-304 | a submitted payload has a non-blank destination, a budget option and at least one interest, all of them options |
| Questionnaire.Progress | frontend/src/pages/QuestionnairePage.jsx:226 | the bar is a positive percentage that reaches 100 exactly on the last step |
| Questionnaire.StartFacts | frontend/src/pages/QuestionnairePage.jsx:154-174 | the page's initial form satisfies the invariant and has no `tripLength` key at all |
| Questionnaire.TripLengthSkippable | frontend/src/pages/QuestionnairePage.jsx:154-174 | typing a destination and pressing Next twice passes the trip-length step with nothing chosen, and the payload carries the default 5 days |
| Questionnaire.IntendedTripLengthChosen | frontend/src/pages/QuestionnairePage.jsx:229-237 | with the form's key named as the step's field, every session past the trip-length step has a chosen option |
| Questionnaire.IntendedStartTracked | frontend/src/pages/QuestionnairePage.jsx:154-162 | the corrected initial form starts in the invariant with the trip length tracked |
| TravelPlans.FillDefaults | backend/routers/agents.py:89-91 | the keys are the response's plus the required ones; every required field ends up non-null; present non-null values and non-required fields are kept; a missing or null required field gets its default |
| TravelPlans.FillDefaultsComplete | backend/routers/agents.py:89-91 | a response that already has every required field, none null, is left unchanged |
| TravelPlans.CreateTravelPlan | backend/routers/agents.py:54-99 | an exception is a 500 that stores nothing; otherwise the plan, with the fresh id, every required field non-null and the coordinator's non-null values kept, is stored under that id and returned |
| TravelPlans.GetTravelPlan | backend/routers/agents.py:101-110 | succeeds exactly for a stored id, returning the stored plan; anything else is a 404 |
| TravelPlans.CreatedPlanReadBack | backend/routers/agents.py:94-110 | a created plan reads back unchanged under its id, and every other id reads as before |
| TravelPlans.CrashedCreationInvisible | backend/routers/agents.py:97-99 | a failed creation leaves every read as it was |
| TravelPlans.CoordinatorPlanStoredAsIs | backend/routers/agents.py:64-96 | the coordinator's dictionary already holds every required field, so the stored plan is that dictionary plus the id, carrying the request's own destination, length, budget and interests |
| TravelPlans.ToResponseComplete | backend/agents/core/coordinator.py:136-147 | the coordinator's dictionary has every required field, none null |
| TravelPlans.QueryAgent | backend/routers/agents.py:112-143 | an agent type outside the list is a 400 naming the list, before the coordinator is asked; otherwise an answer is returned, a value error is a 400 with its message and any other exception a 500 |
| TravelPlans.InvalidTypeDetailNamesTypes | backend/routers/agents.py:127 | the 400 detail names every accepted agent type |
| TravelPlans.AgentTypeListsAgree | backend/routers/agents.py:51 | the router accepts exactly the agent types the coordinator knows |
| TravelPlans.QueryFailsOnlyForInvalidType | backend/routers/agents.py:126-143 | behind this router the coordinator never raises, so the query endpoint fails exactly for unknown agent types and otherwise returns the coordinator's text |
| Coordinator.BlankIffStripEmpty | backend/agents/core/coordinator.py:221 | `not s.strip()` holds exactly for strings of white space only |
| Coordinator.Resolve | backend/agents/core/coordinator.py:68-75 | a specialist's `try` block leaves the reply's text, the notice for a `None` reply, or the error prefix followed by the exception's message |
| Coordinator.Render | backend/agents/core/coordinator.py:69-109 | every specialist request names the destination; a recommendation question is passed on unchanged |
| Coordinator.PlannerFallback | backend/agents/core/coordinator.py:131 | the planner's fallback notice is never blank |
| Coordinator.ErrorLine | backend/agents/core/coordinator.py:133 | an exception's line is never blank and ends with the exception's message |
| Coordinator.ResolvePlanner | backend/agents/core/coordinator.py:117-133 | the itinerary is never blank: a non-blank planner text is kept as it is, a missing or blank reply gives the fallback notice naming the destination, and an exception gives the "creating itinerary" error line with its message |
| Coordinator.PlanLines | backend/agents/core/coordinator.py:173-198 | the plan prompt has its 24 lines, the fifth naming the interests |
| Coordinator.EmptyInterestsLine | backend/agents/core/coordinator.py:171-178 | an empty interest list is worded "Various activities" |
| Coordinator.PlanPromptNamesInterests | backend/agents/core/coordinator.py:167-200 | the rendered plan prompt contains the interests line and names every interest, or "Various activities" when there is none |
| Coordinator.Consult | backend/agents/core/coordinator.py:68-115 | each finding is its agent's reply text, the agent's notice naming the destination when the reply is `None`, or the agent's error prefix followed by the exception's message; insights and images are asked for only under their flags and stay empty otherwise |
| Coordinator.CallSequence | backend/agents/core/coordinator.py:71-129 | the attractions, food and accommodation agents are asked first, the reviews and images agents exactly when their flags are set, and the planner last |
| Coordinator.ProcessRequest | backend/agents/core/coordinator.py:49-147 | absent preferences get their defaults; the plan's five findings are the specialists' findings for the destination and flags; the planner's prompt carries the three specialist replies; the optional agents are asked exactly when flagged; the itinerary is the planner's reply resolved with its fallback and error line |
| Coordinator.ProcessRequestUsesOnlyItsCalls | backend/agents/core/coordinator.py:49-147 | the plan depends on the service only through the replies to the calls it makes |
| Coordinator.CallSequenceMembers | backend/agents/core/coordinator.py:71-129 | every specialist consultation made, and the planner call, is among the request's calls |
| Coordinator.ConsultAgrees | backend/agents/core/coordinator.py:68-115 | the specialists' findings depend only on the replies to the consultations made |
| Coordinator.FlagsOffIgnoreAgents | backend/agents/core/coordinator.py:96-115 | with both flags off, the reviews and images agents cannot affect the plan |
| Coordinator.InvalidRequest | backend/agents/core/coordinator.py:215 | the invalid-request notice is not blank |
| Coordinator.UnknownType | backend/agents/core/coordinator.py:218 | the unknown-type notice is not blank |
| Coordinator.NoInformation | backend/agents/core/coordinator.py:222 | the no-information notice is not blank |
| Coordinator.GetRecommendations | backend/agents/core/coordinator.py:202-225 | the service is asked, once and with the question, exactly when both arguments are non-empty and the type is known; the answer is never blank |
| Coordinator.RecommendationsRejected | backend/agents/core/coordinator.py:214-218 | empty arguments get the invalid-request notice and unknown types the unknown-type notice, without a call |
| Coordinator.RecommendationText | backend/agents/core/coordinator.py:220-225 | the answer is never blank and a non-blank reply passes through unchanged |
| Coordinator.RecommendationTextNotices | backend/agents/core/coordinator.py:221-225 | a missing or blank reply becomes the no-information notice, an exception the error line |
| Coordinator.RecommendationPassesReplyThrough | backend/agents/core/coordinator.py:220-223 | a reply reaches the caller unchanged exactly when it is a non-blank text |
| AgentService.IsTerminationMsg | backend/agents/core/specialized_agents.py:133-145 | a message ends the chat exactly when it is a dictionary whose content is a non-empty string containing `TASK_COMPLETE` |
| AgentService.StripMarker | backend/agents/core/specialized_agents.py:475 | a reply without the marker is only stripped, and removing the marker never lengthens a reply |
| AgentService.ReplaceAllKeepsPrefix | backend/agents/core/specialized_agents.py:475 | `str.replace` leaves a prefix alone when no occurrence of the pattern starts inside it |
| AgentService.FinishedReply | backend/agents/core/specialized_agents.py:133-145 | a reply that follows the instruction (marker-free text, then the marker on a new line) ends the chat, and stripping it gives back exactly the text, trimmed |
| AgentService.MarkerHasNoLineBreak | backend/agents/core/specialized_agents.py:229 | the marker itself holds no line break |
| AgentService.ScanBack | backend/agents/core/specialized_agents.py:179-196 | the search returns the newest assistant message with non-empty content, having passed only dictionaries that are not answers; it finds nothing exactly when no message qualifies; a non-dictionary met first makes it raise |
| AgentService.ScanBackStep | backend/agents/core/specialized_agents.py:180-182 | adding a newer dictionary that is not an answer leaves the search's verdict standing |
| AgentService.UnansweredSnoc | backend/agents/core/specialized_agents.py:180-182 | a newer non-answer dictionary does not change which suffixes are unanswered |
| AgentService.NewestAnswerFound | backend/agents/core/specialized_agents.py:180-182 | the newest answer wins, whatever came before it |
| AgentService.ExtractLastMessageContent | backend/agents/core/specialized_agents.py:167-201 | the history's newest answer wins; a non-dictionary in the history gives `None`; otherwise `last_message()` decides when it returns a dictionary with a content key, and the raw message list after that; an empty result can only come from `last_message()` |
| AgentService.ExtractLastMessageCases | backend/agents/core/specialized_agents.py:177-198 | with nothing answered in any source the result is `None`, and an answer appended to the history is always the result |
| AgentService.AgentNames | backend/agents/core/specialized_agents.py:402-409 | agents exist for exactly the six types |
| AgentService.InitializeAgents | backend/agents/core/specialized_agents.py:387-414 | creation fails exactly when the OpenAI key is missing or shorter than 20 characters, and otherwise creates the six agents |
| AgentService.LastReply | backend/agents/core/specialized_agents.py:471-475 | the reply search returns the newest assistant dictionary with non-`None` content, and nothing exactly when there is none |
| AgentService.GetAgentResponse | backend/agents/core/specialized_agents.py:416-546 | a type without an agent raises `Unknown agent type`; every other outcome is a text, never `None` |
| AgentService.InitializedServiceReplies | backend/agents/core/specialized_agents.py:402-428 | once the agents exist, the service raises for exactly the types outside the six |
| AgentService.RegularAnswerTrimmed | backend/agents/core/specialized_agents.py:490-493 | for a regular agent, a marker-free answer found in its history reaches the caller trimmed and otherwise unchanged |

## Left out

- Network, storage and rendering are left out: the HTTP client, `localStorage`, navigation,
  timers, React state batching, logging and all styling.
- Randomness and clocks become inputs:
  - the loading page's random increment and random log message (`getRandomLogMessage` and its
    message table) are parameters;
  - `new Date().toISOString()`, `time.localtime()` and the elapsed seconds are parameters;
  - the fresh plan id from `uuid.uuid4()` is a parameter.
- The language-model chats, Google search and image search are left out. A conversation's
  outcome is an input: the chat result, the agent's histories and what `last_message()` gives.
- Pydantic validation and the OpenAI configuration dictionaries are left out.
- The warnings about the Google keys have no effect on the result, so they are not modelled.
- `AgentService.GetAgentResponse`: the outer `except` (546) is modelled only for a chat result
  that is not a list. There, searching it raises a type error, which the outer handler reports.
  Other unexpected exceptions inside autogen are not modelled.
- Strings are sequences of code points. JavaScript's `length`, `substring` and `slice` count
  UTF-16 units, and these differ only outside the Basic Multilingual Plane.
- `Strings.Lower`: `toLowerCase` is modelled for ASCII letters only. Non-ASCII capitals (such
  as À to Þ, İ, Ü, Á, Û, Ƒ or the Kelvin sign) are left as they are. So the model differs from
  the page whenever two texts differ in case outside ASCII. The affected comparisons are:
  - every keyword test through `Strings.Mentions` and `Strings.MentionsAny`, including
    `ItineraryDays.Classify` and `TransportParser.KindOf`. For example, "TAXİ" lowers to "taxi"
    plus a combining dot on the page, but not in the model;
  - the hotel name against a paragraph (`AccommodationParser.NamedIn`, 971-975);
  - the 20-character duplicate test of the tips (`Tips.AddAll`, 773 and 831);
  - the known restaurant names against the food text (`DiningParser.MentionedPlaces`, 355).
- `Strings.ParseDigits`: `parseInt` yields a double, which loses precision for day numbers
  above 2^53. The model keeps the exact natural number.
- `AccommodationParser.ParseAccommodation`: the hotel-name patterns (902-904) and the line-name
  pattern (945) are inputs: the list of first captures, and a function from a line to its
  capture.
- The parsers' `catch` branches (238, 546, 615, 877, 1117) are left out. No modelled input makes
  a parser throw. The assembler's own `catch`, reached when the stored itinerary is missing, is
  not part of this model.
- `Tips.ParseTips`: the fallback for an empty tip list is unreachable, since the fifteen
  built-in tips are always present. It is left out, and `|r| >= 15` is proved instead.
- `ItineraryView.ToView`: `trip_length` is a number, so NaN and non-numeric lengths are not
  modelled.
- `StatusMerge.MergeAgents`: `Object.entries` order does not matter, because each card is
  updated by at most one key.
- `Questionnaire.TripLengthAgrees`: the open-ended "11+ days" option is given an upper bound of
  1000 days.
- `ItineraryStatus.GetStatus`: the 404 branch (99-100) is unreachable, since the record is
  created just before it is read. The model has no such error.
- `Coordinator.ProcessRequest`: prompts are a structured datatype, turned into text by
  `Coordinator.Render`. Only the planner prompt's text is stated in full. The `None` fallbacks
  are modelled, although the service behind them never returns `None`.
- `ItineraryView.ToView`: the view is built with the corrected transport parser
  (`TransportParser.ParseTransport`, each line searched from its own start) and the corrected
  price order (`AccommodationParser.ParseAccommodation` with the range first). The page as
  written shows `TransportParser.ParseTransportAsWritten`'s entries and the `$`-amount-first
  prices; see Findings.
- `AccommodationParser.ParseAccommodation`: the price order is a parameter. The page as written
  is the `$`-amount-first order; the view uses the corrected order.
- JavaScript and Python floating-point numbers are modelled as exact `real` values in
  `ItineraryStatus`, `LoadingProgress` and `StatusMerge`. Rounding, and comparisons that rounding
  could change at an exact boundary, are not modelled.
- `TransportParser.ParseTransport`: transport kinds are a datatype. `KindName` gives the text
  the page shows.
- `AccommodationParser.RawDescription`: its contract leaves the "Midi Ankara" fallback
  (989-995) unstated. The body models it.
- `LoadingProgress.TripLengthText`: its contract states the empty phrase and the ordering of
  the buckets, not each bucket's bounds. `Questionnaire.TripLengthAgrees` pins the phrase for
  every option's number.

## Findings

| source | as written | input that shows it | evidently intended | confidence | as-written member | corrected member |
|---|---|---|---|---|---|---|
| frontend/src/pages/ItineraryPage.jsx:572-575 | one global (`g`) regex is reused by `.test` for every line, so a match leaves `lastIndex` set and the next line is searched from there | "Ride a local bus\nTaxi from here": the taxi line is dropped | every line is searched from its start, so both the bus and the taxi entries appear | high (not executed) | TransportParser.LastIndexDropsLine | TransportParser.PerLineSearchKeepsLine |
| frontend/src/pages/ItineraryPage.jsx:1090-1094 | the alternative for `$` followed by digits (with an optional dash and digits) comes before `\$\d+-\$\d+`, so the range alternative never matches first | "$150-$250" gives the price "$150" | the whole range "$150-$250" is the price | high (not executed) | AccommodationParser.DollarRangeCut | AccommodationParser.DollarRangeKept |
| frontend/src/pages/LoadingPageRealTime.jsx:161-163,202 | the polling interval keeps the first render's `checkAgentStatus`, so every poll merges into the initial cards | a first snapshot with line "a" and progress 40, then one listing only "b": the card shows only "b" and progress 0 | each poll merges into the cards currently shown, keeping "a" and progress 40 | medium (not executed) | StatusMerge.StalePollDropsLog | StatusMerge.Poll |
| frontend/src/pages/QuestionnairePage.jsx:154-162,174,234-236 | the form initialises `trip_length`, but the step reads and writes `tripLength`, and `undefined !== ''` passes the radio guard | type "Paris", press Next twice: the trip-length step is passed with nothing chosen, and 5 days are sent | the step stays closed until an option is picked | high (not executed) | Questionnaire.TripLengthSkippable | Questionnaire.IntendedTripLengthChosen |

Further observations, each proved in the model:

- The query router's value-error (400) and generic (500) branches are never taken behind this
  coordinator (`TravelPlans.QueryFailsOnlyForInvalidType`). The coordinator returns text for
  every input and never raises.
- `extract_last_message_content` tests contents by truthiness. A message with empty content
  is therefore skipped in the history, but accepted from `last_message()`
  (`AgentService.ExtractLastMessageContent`).

=== FILE: accommodation.dfy ===
/** `parseAccommodationFromResponse`: the accommodation text becomes a list of hotels, each with
    a name, a kind, a price range and a bulleted description.

    The three hotel-name regexes and the per-line name regex use Unicode-rich character classes
    and backtracking; what they capture is an input here (`captured`, `lineName`), and the model
    covers everything the parser does with those captures. */
module AccommodationParser {
  import opened Optional
  import opened Strings

  datatype Accommodation = Accommodation(name: string, kind: string, priceRange: string, description: string)

  /** "Swiss" + U+221A + U+00A5 + "tel", the keyword as the source spells it (a mis-decoded
      "Swissôtel"), in the original case and lower-cased. */
  const SwissotelName: string := "Swiss\U{221A}\U{A5}tel"
  const SwissotelKey: string := "swiss\U{221A}\U{A5}tel"

  /** Words that mark a line or a capture as a descriptor rather than a hotel name. */
  const GenericWords: seq<string> := ["accommodation", "luxury", "boutique", "budget", "insider", "average", "nightly"]

  const LabelNames: seq<string> := ["hotel type", "hotel category", "hotel option"]

  /** The words of `/hotel|resort|inn|palace|suites|swiss√¥tel/i`. */
  const LineWords: seq<string> := ["hotel", "resort", "inn", "palace", "suites", SwissotelKey]

  const GenericAccommodation: string := "Local Hotels in Ankara"

  // ---------------------------------------------------------------------------------------
  // Hotel names
  // ---------------------------------------------------------------------------------------

  /** Some word of `ws` is a prefix of `s`: `/^(w1|w2|...)/`. */
  predicate StartsWithAny(s: string, ws: seq<string>)
  {
    exists k | 0 <= k < |ws| :: ws[k] <= s
  }

  /** `/^(accommodation|luxury|...)[\s\w]*$/i`: a descriptor word followed only by word
      characters and white space. */
  predicate IsDescriptor(name: string)
  {
    StartsWithAny(Lower(name), GenericWords) && forall i | 0 <= i < |name| :: IsJsSpace(name[i]) || IsWordChar(name[i])
  }

  /** `/^(hotel type|hotel category|hotel option)$/i`. */
  predicate IsLabel(name: string)
  {
    Lower(name) in LabelNames
  }

  /** The filter a trimmed capture must pass to count as a hotel name. */
  predicate IsHotelName(name: string)
  {
    |name| > 3 && !IsDescriptor(name) && !IsLabel(name)
  }

  predicate Distinct(xs: seq<string>)
  {
    forall i, j | 0 <= i < j < |xs| :: xs[i] != xs[j]
  }

  /** A name as the parser keeps it: longer than three characters, no white space at its ends. */
  predicate WellFormedName(n: string)
  {
    |n| > 3 && !IsJsSpace(n[0]) && !IsJsSpace(n[|n| - 1])
  }

  predicate WellFormedNames(names: seq<string>)
  {
    Distinct(names) && forall i | 0 <= i < |names| :: WellFormedName(names[i])
  }

  /** `Set.prototype.add` on an insertion-ordered set. */
  function AddName(names: seq<string>, n: string): (r: seq<string>)
    requires Distinct(names)
    ensures Distinct(r)
    ensures forall x :: x in r <==> x in names || x == n
    ensures names <= r && |r| <= |names| + 1
  {
    if n in names then names else names + [n]
  }

  lemma AddWellFormed(names: seq<string>, n: string)
    requires WellFormedNames(names) && WellFormedName(n)
    ensures WellFormedNames(AddName(names, n))
  {
  }

  /** A capture trimmed by `trim()` and not too short is well formed. */
  lemma TrimmedName(s: string)
    requires |JsTrim(s)| > 3
    ensures WellFormedName(JsTrim(s))
  {
  }

  /** What one capture of the hotel patterns contributes: the capture trimmed, if it passes
      the name filter. */
  function PatternCandidate(capture: string): (r: Option<string>)
    ensures r.Some? ==> WellFormedName(r.value)
  {
    var n := JsTrim(capture);
    if IsHotelName(n) then Some(n) else None
  }

  /** `/^(accommodation|luxury|...)/i`: the text begins with a descriptor word. */
  predicate StartsWithDescriptor(s: string)
  {
    StartsWithAny(Lower(s), GenericWords)
  }

  /** A line the fallback scan looks at: it mentions a lodging word and does not begin with a
      descriptor word. */
  predicate IsHotelLine(line: string)
  {
    MentionsAny(line, LineWords) && !StartsWithDescriptor(line)
  }

  /** What one line contributes in the fallback scan, given what the line-name regex captured
      from it (`None` when it does not match). */
  function LineCandidate(line: string, lineName: string -> Option<string>): (r: Option<string>)
    ensures r.Some? ==> WellFormedName(r.value) && !StartsWithDescriptor(r.value) && IsHotelLine(line)
  {
    if !IsHotelLine(line) then None
    else match lineName(line)
      case None => None
      case Some(m) =>
        var n := JsTrim(m);
        if |n| > 3 && !StartsWithDescriptor(n) then Some(n) else None
  }

  predicate WellFormedCandidates(cands: seq<Option<string>>)
  {
    forall i | 0 <= i < |cands| :: cands[i].Some? ==> WellFormedName(cands[i].value)
  }

  /** Adding each candidate in turn to the insertion-ordered name set. */
  function AddCandidates(names: seq<string>, cands: seq<Option<string>>): (r: seq<string>)
    requires WellFormedNames(names) && WellFormedCandidates(cands)
    ensures WellFormedNames(r) && names <= r
    ensures forall n :: n in r <==> n in names || Some(n) in cands
    decreases |cands|
  {
    if |cands| == 0 then names
    else
      var names' := if cands[0].Some? then AddWellFormed(names, cands[0].value); AddName(names, cands[0].value) else names;
      assert forall c :: c in cands <==> c == cands[0] || c in cands[1..];
      AddCandidates(names', cands[1..])
  }

  function PatternCandidates(captured: seq<string>): (r: seq<Option<string>>)
    ensures |r| == |captured| && WellFormedCandidates(r)
  {
    seq(|captured|, i requires 0 <= i < |captured| => PatternCandidate(captured[i]))
  }

  function LineCandidates(lines: seq<string>, lineName: string -> Option<string>): (r: seq<Option<string>>)
    ensures |r| == |lines| && WellFormedCandidates(r)
  {
    seq(|lines|, i requires 0 <= i < |lines| => LineCandidate(lines[i], lineName))
  }

  /** `names.add(n)` when `cond` holds. */
  function AddIf(names: seq<string>, cond: bool, n: string): (r: seq<string>)
    requires WellFormedNames(names) && WellFormedName(n)
    ensures WellFormedNames(r) && names <= r
    ensures forall x :: x in r <==> x in names || (cond && x == n)
  {
    if cond then AddWellFormed(names, n); AddName(names, n) else names
  }

  /** The three hotels added whenever the text mentions them, whatever the patterns found. */
  function FixedNames(text: string, names: seq<string>): (r: seq<string>)
    requires WellFormedNames(names)
    ensures WellFormedNames(r) && names <= r
    ensures forall n :: n in r <==>
              || n in names
              || (n == SwissotelName + " Ankara" && Mentions(text, SwissotelKey))
              || (n == "Hotel Midi Ankara" && Mentions(text, "midi ankara"))
              || (n == "Ankara Princess Hotel" && Mentions(text, "ankara princess"))
  {
    var a := AddIf(names, Mentions(text, SwissotelKey), SwissotelName + " Ankara");
    var b := AddIf(a, Mentions(text, "midi ankara"), "Hotel Midi Ankara");
    AddIf(b, Mentions(text, "ankara princess"), "Ankara Princess Hotel")
  }

  /** A name the patterns or the fixed-hotel checks supply. */
  predicate PrimaryName(text: string, captured: seq<string>, n: string)
  {
    || Some(n) in PatternCandidates(captured)
    || (n == SwissotelName + " Ankara" && Mentions(text, SwissotelKey))
    || (n == "Hotel Midi Ankara" && Mentions(text, "midi ankara"))
    || (n == "Ankara Princess Hotel" && Mentions(text, "ankara princess"))
  }

  /** The hotel-name set of `parseAccommodationFromResponse`, in insertion order: the pattern
      captures and the fixed hotels, or, only when those give nothing, the names found by the
      line-by-line scan. */
  function HotelNames(text: string, captured: seq<string>, lineName: string -> Option<string>): (r: seq<string>)
    ensures WellFormedNames(r)
    ensures forall n :: PrimaryName(text, captured, n) ==> n in r
    ensures forall n :: n in r ==>
              || PrimaryName(text, captured, n)
              || ((forall m :: !PrimaryName(text, captured, m)) && Some(n) in LineCandidates(Split(text, "\n"), lineName))
    ensures (forall m :: !PrimaryName(text, captured, m)) ==>
              forall n :: n in r <==> Some(n) in LineCandidates(Split(text, "\n"), lineName)
  {
    var found := FixedNames(text, AddCandidates([], PatternCandidates(captured)));
    assert forall n :: n in found <==> PrimaryName(text, captured, n);
    if |found| == 0 then
      AddCandidates([], LineCandidates(Split(text, "\n"), lineName))
    else
      assert PrimaryName(text, captured, found[0]);
      found
  }

  // ---------------------------------------------------------------------------------------
  // Paragraphs
  // ---------------------------------------------------------------------------------------

  /** The class `[‚Ä¢\-\*\d]` (the bullet "•" mis-decoded into three characters). */
  predicate IsItemMark(c: char)
  {
    c == '\U{201A}' || c == '\U{C4}' || c == '\U{A2}' || c == '-' || c == '*' || IsDigit(c)
  }

  /** The look-ahead `(?=\s*?[‚Ä¢\-\*\d]\.?\s)` at `i`: after the white space, an item mark,
      an optional dot, then white space. An item mark is not white space, so the lazy `\s*?`
      can only succeed by taking the whole run. */
  predicate ItemAhead(s: string, i: nat)
  {
    var q := i + SpaceRun(JavaScript, s, i);
    && q < |s| && IsItemMark(s[q])
    && ((q + 1 < |s| && IsJsSpace(s[q + 1])) || (q + 2 < |s| && s[q + 1] == '.' && IsJsSpace(s[q + 2])))
  }

  /** Length of the match of `/\n\n|\n(?=...)/` starting at `q`, or 0 when it does not match. */
  function BreakAt(s: string, q: nat): (n: nat)
    ensures n <= 2 && q + n <= |s| + (if q <= |s| then 0 else q)
    ensures n > 0 ==> q < |s| && s[q] == '\n'
    ensures n == 2 <==> q + 1 < |s| && s[q] == '\n' && s[q + 1] == '\n'
  {
    if q + 1 < |s| && s[q] == '\n' && s[q + 1] == '\n' then 2
    else if q < |s| && s[q] == '\n' && ItemAhead(s, q + 1) then 1
    else 0
  }

  /** A stretch with no separator match in it holds no blank line. */
  lemma NoBlankLine(s: string, p: nat, q: nat)
    requires p <= q <= |s|
    requires forall j | p <= j < q :: BreakAt(s, j) == 0
    ensures !Contains(s[p..q], "\n\n")
  {
    forall j | 0 <= j <= |s[p..q]| - 2
      ensures !OccursAt(s[p..q], "\n\n", j)
    {
      assert BreakAt(s, p + j) == 0;
      assert s[p..q][j] == s[p + j] && s[p..q][j + 1] == s[p + j + 1];
    }
  }

  /** A piece `s[p..q]` occurs in `s`. */
  lemma PieceOccurs(s: string, p: nat, q: nat)
    requires p <= q <= |s|
    ensures Contains(s, s[p..q])
  {
    assert OccursAt(s, s[p..q], p);
  }

  /** No separator match starts in `s[a..b]`. */
  predicate NoBreak(s: string, a: nat, b: nat)
  {
    forall j | a <= j < b :: BreakAt(s, j) == 0
  }

  /** `x` occurs in `s` at `p` and no separator match starts inside it. */
  predicate PieceAt(s: string, p: nat, x: string)
  {
    p + |x| <= |s| && s[p..p + |x|] == x && NoBreak(s, p, p + |x|)
  }

  /** `r` is the split of `s[p..]` at the separator matches: the first piece is the text from
      `p` up to the first position where a separator matches (or to the end), the separator
      follows it in `s`, and the remaining pieces split the text after that separator. Read
      the other way, the pieces with the separators between them rebuild `s[p..]`. */
  predicate SplitFrom(s: string, p: nat, r: seq<string>)
    decreases |r|
  {
    && |r| >= 1 && PieceAt(s, p, r[0])
    && (|r| == 1 ==> p + |r[0]| == |s|)
    && (|r| > 1 ==> p + |r[0]| < |s| && BreakAt(s, p + |r[0]|) > 0
                    && SplitFrom(s, p + |r[0]| + BreakAt(s, p + |r[0]|), r[1..]))
  }

  /** The split of a text is determined by the text: two splits from the same start agree. */
  lemma {:induction false} SplitFromUnique(s: string, p: nat, r1: seq<string>, r2: seq<string>)
    requires SplitFrom(s, p, r1) && SplitFrom(s, p, r2)
    ensures r1 == r2
    decreases |r1|
  {
    SameFirstPiece(s, p, r1, r2);
    if |r1| > 1 {
      var e := p + |r1[0]|;
      SplitFromTail(s, p, r1, e);
      SplitFromTail(s, p, r2, e);
      SplitFromUnique(s, e + BreakAt(s, e), r1[1..], r2[1..]);
    }
    HeadTailEqual(r1, r2);
  }

  lemma HeadTailEqual<T>(a: seq<T>, b: seq<T>)
    requires |a| > 0 && |b| > 0 && a[0] == b[0] && a[1..] == b[1..]
    ensures a == b
  {
    assert a == [a[0]] + a[1..] && b == [b[0]] + b[1..];
  }

  lemma SplitFromTail(s: string, p: nat, r: seq<string>, e: nat)
    requires SplitFrom(s, p, r) && |r| > 1 && e == p + |r[0]|
    ensures SplitFrom(s, e + BreakAt(s, e), r[1..])
  {
  }

  /** Both splits end their first piece at the first separator match, or at the end. */
  lemma SameFirstPiece(s: string, p: nat, r1: seq<string>, r2: seq<string>)
    requires SplitFrom(s, p, r1) && SplitFrom(s, p, r2)
    ensures r1[0] == r2[0] && (|r1| > 1 <==> |r2| > 1)
  {
    var e1, e2 := p + |r1[0]|, p + |r2[0]|;
    var b1, b2 := BreakAt(s, e1), BreakAt(s, e2);
    assert e1 == e2;
    assert r1[0] == s[p..e1];
  }

  /** `s.split(regex)` from piece start `p`, scanning at `q`: a piece ends where a separator
      match starts, and the next piece begins where it ends. */
  function Cut(s: string, p: nat, q: nat): (r: seq<string>)
    requires p <= q <= |s|
    requires forall j | p <= j < q :: BreakAt(s, j) == 0
    ensures |r| >= 1
    ensures forall k | 0 <= k < |r| :: Contains(s, r[k]) && !Contains(r[k], "\n\n")
    decreases |s| - q
  {
    if q == |s| then
      NoBlankLine(s, p, q);
      PieceOccurs(s, p, q);
      assert s[p..] == s[p..q];
      [s[p..]]
    else
      var n := BreakAt(s, q);
      if n == 0 then Cut(s, p, q + 1)
      else
        NoBlankLine(s, p, q);
        PieceOccurs(s, p, q);
        [s[p..q]] + Cut(s, q + n, q + n)
  }

  /** The pieces `Cut` returns are the split of the text at the separator matches. */
  lemma {:induction false} CutSplits(s: string, p: nat, q: nat)
    requires p <= q <= |s|
    requires forall j | p <= j < q :: BreakAt(s, j) == 0
    ensures SplitFrom(s, p, Cut(s, p, q))
    decreases |s| - q
  {
    if q == |s| {
      SplitOne(s, p);
    } else {
      var n := BreakAt(s, q);
      if n == 0 {
        CutSplits(s, p, q + 1);
      } else {
        CutSplits(s, q + n, q + n);
        SplitCons(s, p, q, Cut(s, q + n, q + n));
      }
    }
  }

  lemma SplitOne(s: string, p: nat)
    requires p <= |s| && NoBreak(s, p, |s|)
    ensures SplitFrom(s, p, [s[p..]])
  {
  }

  lemma SplitCons(s: string, p: nat, q: nat, rest: seq<string>)
    requires p <= q < |s| && NoBreak(s, p, q) && BreakAt(s, q) > 0
    requires SplitFrom(s, q + BreakAt(s, q), rest)
    ensures SplitFrom(s, p, [s[p..q]] + rest)
  {
    var r := [s[p..q]] + rest;
    assert r[0] == s[p..q] && r[1..] == rest;
  }

  /** `accommodationText.split(/\n\n|\n(?=\s*?[‚Ä¢\-\*\d]\.?\s)/)`. */
  function Paragraphs(text: string): (r: seq<string>)
    ensures |r| >= 1
    ensures forall k | 0 <= k < |r| :: Contains(text, r[k]) && !Contains(r[k], "\n\n")
    ensures SplitFrom(text, 0, r)
  {
    CutSplits(text, 0, 0);
    Cut(text, 0, 0)
  }

  /** Text without a line break is a single paragraph. */
  lemma OneParagraph(text: string)
    requires '\n' !in text
    ensures Paragraphs(text) == [text]
  {
    CutWithoutBreak(text, 0, 0);
  }

  lemma {:induction false} CutWithoutBreak(s: string, p: nat, q: nat)
    requires '\n' !in s && p <= q <= |s|
    requires forall j | p <= j < q :: BreakAt(s, j) == 0
    ensures Cut(s, p, q) == [s[p..]]
    decreases |s| - q
  {
    if q < |s| {
      assert s[q] in s;
      CutWithoutBreak(s, p, q + 1);
    }
  }

  // ---------------------------------------------------------------------------------------
  // Gathering a hotel's description
  // ---------------------------------------------------------------------------------------

  /** `s.replace(/\s+/g, '')`: every white-space character removed. */
  function Squeeze(s: string): (r: string)
    ensures |r| <= |s|
    ensures forall i | 0 <= i < |r| :: !IsJsSpace(r[i])
    decreases |s|
  {
    if |s| == 0 then [] else (if IsJsSpace(s[0]) then [] else [s[0]]) + Squeeze(s[1..])
  }

  lemma {:induction false} SqueezeAppend(a: string, b: string)
    ensures Squeeze(a + b) == Squeeze(a) + Squeeze(b)
    decreases |a|
  {
    if |a| == 0 {
      assert a + b == b;
    } else {
      assert (a + b)[1..] == a[1..] + b;
      SqueezeAppend(a[1..], b);
    }
  }

  /** Removing white space keeps an occurrence an occurrence. */
  lemma SqueezeContains(a: string, b: string)
    requires Contains(a, b)
    ensures Contains(Squeeze(a), Squeeze(b))
  {
    var i :| 0 <= i <= |a| - |b| && OccursAt(a, b, i);
    var x, y := a[..i], a[i + |b|..];
    assert a == x + b + y;
    SqueezeAppend(x + b, y);
    SqueezeAppend(x, b);
    assert OccursAt(Squeeze(a), Squeeze(b), |Squeeze(x)|);
  }

  /** The paragraph test: the squeezed, lower-cased paragraph contains the squeezed,
      lower-cased name, or the lower-cased paragraph contains the lower-cased name. The
      second test never decides anything: whenever it holds, so does the first. */
  predicate NamedIn(paragraph: string, name: string)
    ensures NamedIn(paragraph, name) <==> Contains(Squeeze(Lower(paragraph)), Squeeze(Lower(name)))
  {
    SqueezeContainsWhen(Lower(paragraph), Lower(name));
    || Contains(Squeeze(Lower(paragraph)), Squeeze(Lower(name)))
    || Contains(Lower(paragraph), Lower(name))
  }

  lemma SqueezeContainsWhen(a: string, b: string)
    ensures Contains(a, b) ==> Contains(Squeeze(a), Squeeze(b))
  {
    if Contains(a, b) { SqueezeContains(a, b); }
  }

  /** `desc += (desc ? '\n' : '') + piece`. */
  function Append(desc: string, piece: string): (r: string)
    ensures desc == "" ==> r == piece
    ensures desc != "" ==> |r| == |desc| + 1 + |piece| && r[..|desc|] == desc && r[|desc|] == '\n'
  {
    if desc == "" then piece else desc + "\n" + piece
  }

  /** The loop over the paragraphs: each one naming the hotel is trimmed and appended. */
  function Gather(desc: string, paragraphs: seq<string>, name: string): string
    decreases |paragraphs|
  {
    if |paragraphs| == 0 then desc
    else
      var p := paragraphs[0];
      Gather(if NamedIn(p, name) then Append(desc, JsTrim(p)) else desc, paragraphs[1..], name)
  }

  /** The paragraphs that name the hotel, trimmed, in order. */
  function Naming(paragraphs: seq<string>, name: string): (r: seq<string>)
    ensures |r| <= |paragraphs|
    decreases |paragraphs|
  {
    if |paragraphs| == 0 then []
    else
      var rest := Naming(paragraphs[1..], name);
      if NamedIn(paragraphs[0], name) then [JsTrim(paragraphs[0])] + rest else rest
  }

  lemma {:induction false} SqueezeKeeps(s: string, c: char)
    requires c in Squeeze(s)
    ensures c in s
    decreases |s|
  {
    if c != s[0] {
      SqueezeKeeps(s[1..], c);
    }
  }

  /** A paragraph that names a well-formed hotel name has something left after trimming. */
  lemma NamedNotBlank(paragraph: string, name: string)
    requires WellFormedName(name) && NamedIn(paragraph, name)
    ensures JsTrim(paragraph) != ""
  {
    var w, t := Squeeze(Lower(name)), Squeeze(Lower(paragraph));
    assert !IsJsSpace(Lower(name)[0]);
    assert w != [];
    var i :| 0 <= i <= |t| - |w| && OccursAt(t, w, i);
    assert t[i] in t;
    SqueezeKeeps(Lower(paragraph), t[i]);
    var k :| 0 <= k < |paragraph| && Lower(paragraph)[k] == t[i];
    assert !IsJsSpace(paragraph[k]);
    TrimEmptyIffAllSpace(JavaScript, paragraph);
  }

  /** `Append` onto a join of non-empty parts is the join with one more part. */
  lemma AppendJoin(parts: seq<string>, t: string)
    requires forall k | 0 <= k < |parts| :: parts[k] != ""
    ensures Append(Join(parts, "\n"), t) == Join(parts + [t], "\n")
  {
    JoinSnoc(parts, t, "\n");
    if |parts| > 1 {
      assert Join(parts, "\n") == parts[0] + "\n" + Join(parts[1..], "\n");
    }
  }

  lemma ConcatAssoc<T>(a: seq<T>, b: seq<T>, c: seq<T>)
    ensures a + b + c == a + (b + c)
  {
  }

  /** Appending to a description that already holds `parts` joins one more part. */
  lemma {:induction false} GatherJoins(parts: seq<string>, paragraphs: seq<string>, name: string)
    requires WellFormedName(name)
    requires forall k | 0 <= k < |parts| :: parts[k] != ""
    ensures Gather(Join(parts, "\n"), paragraphs, name) == Join(parts + Naming(paragraphs, name), "\n")
    decreases |paragraphs|
  {
    if |paragraphs| == 0 {
      assert parts + [] == parts;
    } else {
      var p, rest := paragraphs[0], paragraphs[1..];
      if NamedIn(p, name) {
        var t := JsTrim(p);
        NamedNotBlank(p, name);
        AppendJoin(parts, t);
        assert Gather(Join(parts, "\n"), paragraphs, name) == Gather(Join(parts + [t], "\n"), rest, name);
        GatherJoins(parts + [t], rest, name);
        var later := Naming(rest, name);
        assert Naming(paragraphs, name) == [t] + later;
        ConcatAssoc(parts, [t], later);
      } else {
        assert Gather(Join(parts, "\n"), paragraphs, name) == Gather(Join(parts, "\n"), rest, name);
        GatherJoins(parts, rest, name);
      }
    }
  }

  /** The gathered description is the naming paragraphs, trimmed, one per line. */
  lemma GatherIsJoin(paragraphs: seq<string>, name: string)
    requires WellFormedName(name)
    ensures Gather("", paragraphs, name) == Join(Naming(paragraphs, name), "\n")
  {
    var none: seq<string> := [];
    assert Join(none, "\n") == "";
    GatherJoins(none, paragraphs, name);
    assert none + Naming(paragraphs, name) == Naming(paragraphs, name);
  }

  /** `paragraphs.filter(keep)`. */
  function Keep(paragraphs: seq<string>, keep: string -> bool): (r: seq<string>)
    ensures |r| <= |paragraphs|
    ensures forall k | 0 <= k < |r| :: r[k] in paragraphs && keep(r[k])
    ensures forall p | p in paragraphs && keep(p) :: p in r
    decreases |paragraphs|
  {
    if |paragraphs| == 0 then []
    else
      var rest := Keep(paragraphs[1..], keep);
      assert forall p :: p in paragraphs <==> p == paragraphs[0] || p in paragraphs[1..];
      if keep(paragraphs[0]) then [paragraphs[0]] + rest else rest
  }

  const SwissotelWords: seq<string> := ["swiss", "loyalty program", "luxury"]
  const MidiWords: seq<string> := ["midi", "boutique", "kavaklidere"]
  const DetailTerms: seq<string> := ["located", "features", "amenities", "room", "restaurant", "service", "price", "rate"]

  /** A paragraph the fallback for an unnamed hotel picks up: it mentions a detail term, is not
      a label line, and is longer than 20 characters. */
  predicate HasDetails(p: string)
  {
    MentionsAny(p, DetailTerms) && !Mentions(p, "accommodation:") && !Mentions(p, "hotel type:") && |p| > 20
  }

  /** JavaScript `s || fallback` for strings. */
  function OrDefault(s: string, fallback: string): (r: string)
    ensures r == s || (s == "" && r == fallback)
    ensures r != "" <==> s != "" || fallback != ""
  {
    if s != "" then s else fallback
  }

  /** The description collected for one hotel before clean-up: the paragraphs naming it, or,
      when none does, the paragraphs about Swissôtel or Midi Ankara (or a stock sentence), or
      for any other hotel the paragraphs with hotel details. */
  function RawDescription(name: string, paragraphs: seq<string>): (r: string)
    requires WellFormedName(name)
    ensures Naming(paragraphs, name) != [] ==> r == Join(Naming(paragraphs, name), "\n")
    ensures Naming(paragraphs, name) == [] && Contains(name, SwissotelName) ==>
              r == OrDefault(Join(Keep(paragraphs, p => MentionsAny(p, SwissotelWords)), "\n"), "Luxury hotel with excellent amenities.")
    ensures Naming(paragraphs, name) == [] && !Contains(name, SwissotelName) && !Contains(name, "Midi Ankara") ==>
              r == Join(Keep(paragraphs, HasDetails), "\n")
  {
    GatherIsJoin(paragraphs, name);
    var found := Gather("", paragraphs, name);
    assert found == "" <==> Naming(paragraphs, name) == [] by {
      var n := Naming(paragraphs, name);
      if n != [] {
        assert n[0] in n;
        NamingNotBlank(paragraphs, name, n[0]);
        assert |n| == 1 || Join(n, "\n") == n[0] + "\n" + Join(n[1..], "\n");
      }
    }
    if found != "" then found
    else if Contains(name, SwissotelName) then
      OrDefault(Join(Keep(paragraphs, p => MentionsAny(p, SwissotelWords)), "\n"), "Luxury hotel with excellent amenities.")
    else if Contains(name, "Midi Ankara") then
      OrDefault(Join(Keep(paragraphs, p => MentionsAny(p, MidiWords)), "\n"), "Boutique hotel in a trendy neighborhood.")
    else
      Join(Keep(paragraphs, HasDetails), "\n")
  }

  lemma {:induction false} NamingNotBlank(paragraphs: seq<string>, name: string, t: string)
    requires WellFormedName(name) && t in Naming(paragraphs, name)
    ensures t != ""
    decreases |paragraphs|
  {
    if NamedIn(paragraphs[0], name) && t == JsTrim(paragraphs[0]) {
      NamedNotBlank(paragraphs[0], name);
    } else if NamedIn(paragraphs[0], name) {
      NamingNotBlank(paragraphs[1..], name, t);
    } else {
      NamingNotBlank(paragraphs[1..], name, t);
    }
  }

  // ---------------------------------------------------------------------------------------
  // Clean-up
  // ---------------------------------------------------------------------------------------

  /** Number of consecutive `c` characters from `i` on. */
  function CharRun(s: string, i: nat, c: char): (n: nat)
    ensures i <= |s| ==> i + n <= |s|
    ensures forall k | i <= k < i + n :: k < |s| && s[k] == c
    decreases |s| - i
  {
    if i < |s| && s[i] == c then 1 + CharRun(s, i + 1, c) else 0
  }

  /** Replacing every match of the global pattern `#+\s*` by nothing: every run of `#` is removed with the white space after it. */
  function StripHeadings(s: string): (r: string)
    ensures '#' !in r
    ensures forall c | c in r :: c in s
    ensures '#' !in s ==> r == s
    decreases |s|
  {
    if |s| == 0 then []
    else if s[0] == '#' then
      var h := CharRun(s, 0, '#');
      var rest := StripHeadings(s[h + SpaceRun(JavaScript, s, h)..]);
      assert forall c | c in rest :: c in s;
      rest
    else
      var rest := StripHeadings(s[1..]);
      assert forall c | c in rest :: c in s;
      assert '#' !in s ==> '#' !in s[1..];
      [s[0]] + rest
  }

  /** The class `[-‚Ä¢:]` of list markers. */
  predicate IsListMark(c: char)
  {
    c == '-' || c == '\U{201A}' || c == '\U{C4}' || c == '\U{A2}' || c == ':'
  }

  /** Where `^` matches under the `m` flag. */
  predicate LineStart(s: string, p: nat)
    requires p <= |s|
  {
    p == 0 || IsLineTerminator(s[p - 1])
  }

  /** Length of the match at `p` of the multi-line pattern `^\s*[-‚Ä¢:]\s*`, or 0. A list marker is not white space,
      so the first `\s*` must take the whole run. */
  function MarkerAt(s: string, p: nat): (n: nat)
    requires p <= |s|
    ensures p + n <= |s|
    ensures n > 0 ==> LineStart(s, p) && exists k | p <= k < p + n :: IsListMark(s[k])
  {
    if !LineStart(s, p) then 0
    else
      var q := p + SpaceRun(JavaScript, s, p);
      if q < |s| && IsListMark(s[q]) then q + 1 + SpaceRun(JavaScript, s, q + 1) - p else 0
  }

  /** Replacing every match of that pattern (flags `g` and `m`) by nothing, from position `p`: each marker match is dropped and the
      search resumes after it. */
  function StripMarkers(s: string, p: nat): (r: string)
    requires p <= |s|
    ensures forall c | c in r :: c in s
    ensures (forall k | p <= k < |s| :: !IsListMark(s[k])) ==> r == s[p..]
    decreases |s| - p
  {
    if p == |s| then []
    else
      var n := MarkerAt(s, p);
      if n > 0 then StripMarkers(s, p + n)
      else
        var rest := StripMarkers(s, p + 1);
        assert s[p..] == [s[p]] + s[p + 1..];
        [s[p]] + rest
  }

  /** The clean-up chain: bold markers, heading markers and line-start list markers removed,
      then trimmed. */
  function Clean(d: string): (r: string)
    ensures '#' !in r
    ensures forall c | c in r :: c in d
    ensures r == [] || (!IsJsSpace(r[0]) && !IsJsSpace(r[|r| - 1]))
  {
    var a := RemoveAll(d, "**");
    var b := StripHeadings(a);
    var c := StripMarkers(b, 0);
    var r := JsTrim(c);
    assert forall x | x in a :: x in d by {
      forall x | x in a { RemoveAllKeepsCharacters(d, "**", x); }
    }
    TrimKeepsCharacters(JavaScript, c);
    r
  }

  /** Text free of `*`, `#` and list-marker characters only loses its edge white space. */
  lemma CleanPlain(d: string)
    requires forall k | 0 <= k < |d| :: d[k] != '*' && d[k] != '#' && !IsListMark(d[k])
    ensures Clean(d) == JsTrim(d)
  {
    assert !Contains(d, "**") by {
      forall i | 0 <= i <= |d| - 2 ensures !OccursAt(d, "**", i) {
        NotOccursAt(d, "**", i, 0);
      }
    }
  }

  // ---------------------------------------------------------------------------------------
  // Formatted description, kind and price
  // ---------------------------------------------------------------------------------------

  /** The non-blank lines, each trimmed and prefixed with "- ". */
  function BulletLines(lines: seq<string>): (r: seq<string>)
    requires forall k | 0 <= k < |lines| :: !Contains(lines[k], "\n")
    ensures |r| <= |lines|
    ensures forall k | 0 <= k < |r| :: "- " <= r[k] && !Contains(r[k], "\n")
    ensures |lines| > 0 && JsTrim(lines[0]) != "" ==> |r| > 0
    decreases |lines|
  {
    if |lines| == 0 then []
    else
      var t := JsTrim(lines[0]);
      var rest := BulletLines(lines[1..]);
      if t == "" then rest
      else
        var b := "- " + t;
        assert !Contains(b, "\n") by {
          ContainsChar(lines[0], '\n');
          ContainsChar(b, '\n');
          var a := SpaceRun(JavaScript, lines[0], 0);
          assert t == lines[0][a..a + |t|];
          assert forall x | x in t :: x in lines[0];
        }
        [b] + rest
  }

  /** The description as a bullet list: its non-blank lines, trimmed, each after "- ". */
  function Bulleted(desc: string): string
  {
    Join(BulletLines(Split(desc, "\n")), "\n")
  }

  /** Every line of the bullet list of a cleaned, non-empty description starts with "- ". */
  lemma BulletedLines(desc: string)
    requires desc != "" && !IsJsSpace(desc[0])
    ensures forall line | line in Split(Bulleted(desc), "\n") :: "- " <= line
  {
    var lines := Split(desc, "\n");
    var first := lines[0];
    assert first != "" && first[0] == desc[0] by {
      if |lines| > 1 {
        assert desc == first + "\n" + Join(lines[1..], "\n");
      }
    }
    assert JsTrim(first) != "" by {
      TrimEmptyIffAllSpace(JavaScript, first);
    }
    SplitJoin(BulletLines(lines), "\n");
  }

  const SwissotelDetails: seq<string> :=
    ["- Located in the upscale Cankaya district",
     "- Features luxurious rooms, spa, and fine dining restaurants",
     "- Close to embassies and government offices",
     "- Average nightly rate: $150-$250",
     "- Insider Tip: Join " + SwissotelName + "'s loyalty program for potential room upgrades."]

  /** The ready-made descriptions for hotels the parser knows by name, one bullet per line. */
  function KnownDetails(name: string): Option<seq<string>>
  {
    if Contains(name, SwissotelName) then Some(SwissotelDetails)
    else if Contains(name, "Midi Ankara") then
      Some(["- Situated in the trendy Kavaklidere neighborhood",
            "- Stylish rooms with unique design elements",
            "- Walking distance to shops, restaurants, and cultural attractions",
            "- Average nightly rate: $80-$120",
            "- Insider Tip: Book directly with the hotel for possible discounts or perks."])
    else if Contains(name, "Princess") then
      Some(["- Located near Ulus district",
            "- Clean and comfortable rooms at affordable rates",
            "- Easy access to historical sites and public transportation",
            "- Average nightly rate: $40-$60",
            "- Insider Tip: Consider booking a room without breakfast to save more."])
    else if Contains(name, "Kale Konak") || Contains(name, "Cave Hotel") then
      Some(["- Stay in a cave room for a unique experience",
            "- Located in the historic Ulus district",
            "- Close to Ankara Castle and old town attractions",
            "- Average nightly rate: $70-$100",
            "- Insider Tip: Choose a room with a terrace for stunning views."])
    else if Contains(name, "Airbnb") || Contains(name, "Kizilay") then
      Some(["- Offers a variety of apartments at different price points",
            "- Experience local living and flexibility",
            "- Close to cafes, markets, and public transport",
            "- Average nightly rate: $30-$100",
            "- Insider Tip: Book in advance for better selection and deals."])
    else None
  }

  /** The description shown for a hotel: the ready-made text for a known hotel, else the
      cleaned description as a bullet list, else a "not available" line. */
  function FormatDescription(name: string, desc: string): (r: string)
    ensures KnownDetails(name).Some? ==> r == Join(KnownDetails(name).value, "\n")
    ensures KnownDetails(name).None? && desc != "" && !IsJsSpace(desc[0]) ==>
              forall line | line in Split(r, "\n") :: "- " <= line
    ensures KnownDetails(name).None? && desc == "" ==> r == "- Information about " + name + " not available"
  {
    match KnownDetails(name)
    case Some(lines) => Join(lines, "\n")
    case None =>
      if desc != "" then
        (if !IsJsSpace(desc[0]) then BulletedLines(desc); Bulleted(desc) else Bulleted(desc))
      else "- Information about " + name + " not available"
  }

  const HotelKinds: seq<string> := ["Luxury Hotel", "Boutique Hotel", "Budget Hotel", "Unique Hotel", "Hotel"]

  predicate LuxurySign(name: string, desc: string)
  {
    Mentions(name, SwissotelKey) || Mentions(desc, "luxury") || Mentions(desc, "upscale")
  }

  predicate BoutiqueSign(name: string, desc: string)
  {
    Mentions(name, "boutique") || Mentions(desc, "boutique") || Mentions(desc, "unique design")
  }

  predicate BudgetSign(name: string, desc: string)
  {
    Mentions(name, "budget") || Mentions(desc, "budget") || Mentions(desc, "affordable")
  }

  predicate CaveSign(name: string, desc: string)
  {
    Mentions(name, "cave") || Mentions(desc, "cave")
  }

  /** The kind of a hotel, by the first sign that applies: Luxury, then Boutique, then Budget,
      then Unique, else plain "Hotel". */
  function Kind(name: string, desc: string): (r: string)
    ensures r in HotelKinds
    ensures r == "Luxury Hotel" <==> LuxurySign(name, desc)
    ensures r == "Boutique Hotel" <==> !LuxurySign(name, desc) && BoutiqueSign(name, desc)
    ensures r == "Budget Hotel" <==> !LuxurySign(name, desc) && !BoutiqueSign(name, desc) && BudgetSign(name, desc)
    ensures r == "Unique Hotel" <==>
              !LuxurySign(name, desc) && !BoutiqueSign(name, desc) && !BudgetSign(name, desc) && CaveSign(name, desc)
    ensures r == "Hotel" <==>
              !LuxurySign(name, desc) && !BoutiqueSign(name, desc) && !BudgetSign(name, desc) && !CaveSign(name, desc)
  {
    if LuxurySign(name, desc) then "Luxury Hotel"
    else if BoutiqueSign(name, desc) then "Boutique Hotel"
    else if BudgetSign(name, desc) then "Budget Hotel"
    else if CaveSign(name, desc) then "Unique Hotel"
    else "Hotel"
  }

  /** The class `[‚Ç¨$]` (the euro sign mis-decoded into three characters, and the dollar).
      Under the `i` flag a class also matches the other case of its letters, so the lower-case
      U+00E7 matches along with U+00C7. */
  predicate IsCurrency(c: char)
  {
    c == '\U{201A}' || c == '\U{C7}' || c == '\U{E7}' || c == '\U{A8}' || c == '$'
  }

  /** `w` matches at `q` ignoring ASCII case (`w` is lower-case ASCII). */
  predicate WordAtCi(s: string, w: string, q: nat)
  {
    q + |w| <= |s| && Lower(s[q..q + |w|]) == w
  }

  /** Length of the `(?:per night|per day|\/night)` match at `q`, or 0. */
  function PerNightAt(s: string, q: nat): (n: nat)
    ensures n > 0 ==> q + n <= |s|
  {
    if WordAtCi(s, "per night", q) then 9
    else if WordAtCi(s, "per day", q) then 7
    else if WordAtCi(s, "/night", q) then 6
    else 0
  }

  /** The end of the match of the price pattern
      `\$(\d+-\d+|\d+)|\$\d+-\$\d+|(\d+)[‚Ç¨$]|(\d+)\s*(?:per night|per day|\/night)` (flag `i`)
      starting at `p`, or `None`. Each digit run is taken whole, since giving digits back
      leaves a digit where the pattern wants something else. The second alternative never
      decides: it needs a digit after the `$`, and then the first alternative has matched. */
  function PriceEndAsWritten(s: string, p: nat): (e: Option<nat>)
    ensures e.Some? ==> p < e.value <= |s| && (s[p] == '$' || IsDigit(s[p]))
    ensures e.Some? ==> exists k | p <= k < e.value :: IsDigit(s[k])
  {
    if p + 1 < |s| && s[p] == '$' && IsDigit(s[p + 1]) then
      var d := p + 1 + DigitRun(s, p + 1);
      if d + 1 < |s| && s[d] == '-' && IsDigit(s[d + 1]) then Some(d + 1 + DigitRun(s, d + 1))
      else Some(d)
    else if p < |s| && IsDigit(s[p]) then
      var d := p + DigitRun(s, p);
      if d < |s| && IsCurrency(s[d]) then Some(d + 1)
      else
        var q := d + SpaceRun(JavaScript, s, d);
        var w := PerNightAt(s, q);
        if w > 0 then Some(q + w) else None
    else None
  }

  /** The end of a `$<digits>-$<digits>` range starting at `p`, or `None`. */
  function DollarRangeEnd(s: string, p: nat): (e: Option<nat>)
    ensures e.Some? ==> p + 1 < e.value <= |s| && s[p] == '$' && IsDigit(s[p + 1])
  {
    if p + 1 < |s| && s[p] == '$' && IsDigit(s[p + 1]) then
      var d := p + 1 + DigitRun(s, p + 1);
      if d + 2 < |s| && s[d] == '-' && s[d + 1] == '$' && IsDigit(s[d + 2]) then Some(d + 2 + DigitRun(s, d + 2))
      else None
    else None
  }

  /** The price match at `p`: as written, or with the dollar-range alternative tried first,
      as evidently intended. */
  function PriceEnd(s: string, p: nat, rangeFirst: bool): (e: Option<nat>)
    ensures e.Some? ==> p < e.value <= |s|
    ensures e.Some? ==> exists k | p <= k < e.value :: IsDigit(s[k])
  {
    if rangeFirst && DollarRangeEnd(s, p).Some? then DollarRangeEnd(s, p) else PriceEndAsWritten(s, p)
  }

  /** Where `s.match(pricePattern)` (no `g` flag) matches: the leftmost start at or after
      `from`. */
  function PriceStart(s: string, from: nat, rangeFirst: bool): (r: Option<nat>)
    ensures r.Some? ==> from <= r.value < |s| && PriceEnd(s, r.value, rangeFirst).Some?
    ensures r.Some? ==> forall p | from <= p < r.value :: PriceEnd(s, p, rangeFirst).None?
    ensures r.None? ==> forall p | from <= p < |s| :: PriceEnd(s, p, rangeFirst).None?
    decreases |s| - from
  {
    if from >= |s| then None
    else if PriceEnd(s, from, rangeFirst).Some? then Some(from)
    else
      var r := PriceStart(s, from + 1, rangeFirst);
      NoPriceBefore(s, from, if r.Some? then r.value else |s|, rangeFirst);
      r
  }

  /** No price at `from`, and none from `from + 1` up to `to`, is none from `from` up to `to`. */
  lemma NoPriceBefore(s: string, from: nat, to: nat, rangeFirst: bool)
    requires PriceEnd(s, from, rangeFirst).None?
    requires forall p | from + 1 <= p < to :: PriceEnd(s, p, rangeFirst).None?
    ensures forall p | from <= p < to :: PriceEnd(s, p, rangeFirst).None?
  {
  }

  predicate HasDigit(s: string)
  {
    exists k | 0 <= k < |s| :: IsDigit(s[k])
  }

  /** The matched text, `match[0]`, when there is a match. */
  function FirstPrice(s: string, rangeFirst: bool): (r: Option<string>)
    ensures r.Some? ==> HasDigit(r.value) && Contains(s, r.value)
    ensures r.None? <==> forall p | 0 <= p < |s| :: PriceEnd(s, p, rangeFirst).None?
  {
    match PriceStart(s, 0, rangeFirst)
    case None => None
    case Some(p) =>
      var e := PriceEnd(s, p, rangeFirst).value;
      var k :| p <= k < e && IsDigit(s[k]);
      assert s[p..e][k - p] == s[k];
      assert OccursAt(s, s[p..e], p);
      Some(s[p..e])
  }

  /** The price range: the first price in the whole accommodation text, else the first in the
      hotel's cleaned description, else "$150". */
  function PriceRange(text: string, desc: string, rangeFirst: bool): (r: string)
    ensures FirstPrice(text, rangeFirst).Some? ==> r == FirstPrice(text, rangeFirst).value
    ensures r == "$150" || HasDigit(r)
    ensures !HasDigit(text) && !HasDigit(desc) ==> r == "$150"
    ensures FirstPrice(text, rangeFirst).None? && FirstPrice(desc, rangeFirst).Some?
            ==> r == FirstPrice(desc, rangeFirst).value
    ensures FirstPrice(text, rangeFirst).None? && FirstPrice(desc, rangeFirst).None? ==> r == "$150"
  {
    match FirstPrice(text, rangeFirst)
    case Some(m) => m
    case None =>
      match FirstPrice(desc, rangeFirst)
      case Some(m) => m
      case None => "$150"
  }

  /** A non-empty run of ASCII digits. */
  predicate IsNumeral(a: string)
  {
    |a| > 0 && forall k | 0 <= k < |a| :: IsDigit(a[k])
  }

  /** The digit run at `i` is exactly the numeral `a` placed there. */
  lemma DigitRunOf(s: string, i: nat, a: string)
    requires IsNumeral(a) && i + |a| <= |s| && s[i..i + |a|] == a
    requires i + |a| < |s| ==> !IsDigit(s[i + |a|])
    ensures DigitRun(s, i) == |a|
  {
  }

  /** As written, a dollar range such as "$150-$250" yields only its first amount: the first
      alternative takes "$150" and the range alternative is never reached. */
  lemma DollarRangeCut(a: string, b: string)
    requires IsNumeral(a) && IsNumeral(b)
    ensures FirstPrice("$" + a + "-$" + b, false) == Some("$" + a)
  {
    var s := "$" + a + "-$" + b;
    assert s[1..1 + |a|] == a && s[1 + |a|] == '-' && s[2 + |a|] == '$';
    DigitRunOf(s, 1, a);
    assert PriceEnd(s, 0, false) == Some(1 + |a|);
    PriceAtStart(s, false, 1 + |a|);
    assert s[..1 + |a|] == "$" + a;
  }

  /** With the range alternative tried first, the whole range is the price. */
  lemma DollarRangeKept(a: string, b: string)
    requires IsNumeral(a) && IsNumeral(b)
    ensures FirstPrice("$" + a + "-$" + b, true) == Some("$" + a + "-$" + b)
  {
    var s := "$" + a + "-$" + b;
    WholeDollarRange(a, b);
    assert PriceEnd(s, 0, true) == Some(|s|);
    PriceAtStart(s, true, |s|);
    assert s[..|s|] == s;
  }

  /** An amount followed by a currency sign is a price in either order of the alternatives,
      the lower-case U+00E7 included: "150" + U+00E7 is the whole price, not the default. */
  lemma AmountWithCurrency(a: string, c: char, rangeFirst: bool)
    requires IsNumeral(a) && IsCurrency(c)
    ensures FirstPrice(a + [c], rangeFirst) == Some(a + [c])
  {
    var s := a + [c];
    assert s[0..|a|] == a && s[|a|] == c;
    DigitRunOf(s, 0, a);
    assert DollarRangeEnd(s, 0).None?;
    assert PriceEnd(s, 0, rangeFirst) == Some(|s|);
    PriceAtStart(s, rangeFirst, |s|);
    assert s[..|s|] == s;
  }

  /** A price matched at the very first character is the first price. */
  lemma PriceAtStart(s: string, rangeFirst: bool, e: nat)
    requires PriceEnd(s, 0, rangeFirst) == Some(e)
    ensures FirstPrice(s, rangeFirst) == Some(s[..e])
  {
    assert PriceStart(s, 0, rangeFirst) == Some(0);
  }

  /** `$<a>-$<b>` is one dollar range from its first character to its last. */
  lemma WholeDollarRange(a: string, b: string)
    requires IsNumeral(a) && IsNumeral(b)
    ensures DollarRangeEnd("$" + a + "-$" + b, 0) == Some(|a| + |b| + 3)
  {
    var s := "$" + a + "-$" + b;
    assert s[1..1 + |a|] == a && s[1 + |a|] == '-' && s[2 + |a|] == '$';
    DigitRunOf(s, 1, a);
    assert s[3 + |a|..3 + |a| + |b|] == b;
    DigitRunOf(s, 3 + |a|, b);
  }

  // ---------------------------------------------------------------------------------------
  // The parser
  // ---------------------------------------------------------------------------------------

  /** The entry for one hotel. */
  function Entry(text: string, paragraphs: seq<string>, name: string, rangeFirst: bool): (r: Accommodation)
    requires WellFormedName(name)
    ensures r.name == name && r.kind in HotelKinds
  {
    var desc := Clean(RawDescription(name, paragraphs));
    Accommodation(name, Kind(name, desc), PriceRange(text, desc, rangeFirst), FormatDescription(name, desc))
  }

  /** The single entry used when no hotel name is found: the raw text as its description. */
  function GenericEntry(text: string): Accommodation
  {
    Accommodation(GenericAccommodation, "Various Accommodations", "Varies", text)
  }

  /** `parseAccommodationFromResponse(text)`, given what the hotel-name patterns captured (in
      pattern order, then match order) and what the line-name pattern captures from a line.
      `rangeFirst` chooses the order of the price alternatives: `false` is the page as
      written, `true` the corrected order with the dollar range first. Nothing for a missing
      or empty text; otherwise one entry per hotel name, names pairwise distinct, or the
      generic entry when there is no name. */
  function ParseAccommodation(text: Option<string>, captured: seq<string>, lineName: string -> Option<string>, rangeFirst: bool): (r: seq<Accommodation>)
    ensures text.None? || text == Some("") ==> r == []
    ensures text.Some? && text.value != "" ==> |r| >= 1
    ensures forall i, j | 0 <= i < j < |r| :: r[i].name != r[j].name
    ensures text.Some? && text.value != "" ==>
              var names := HotelNames(text.value, captured, lineName);
              && (names == [] ==> r == [GenericEntry(text.value)])
              && (names != [] ==> |r| == |names| && forall i | 0 <= i < |r| :: r[i].name == names[i] && r[i].kind in HotelKinds)
    ensures text.Some? && text.value != "" && HotelNames(text.value, captured, lineName) != [] ==>
              forall i | 0 <= i < |r| :: r[i].priceRange == "$150" || HasDigit(r[i].priceRange)
  {
    if text.None? || text.value == "" then []
    else
      var names := HotelNames(text.value, captured, lineName);
      if |names| == 0 then [GenericEntry(text.value)]
      else
        Entries(text.value, Paragraphs(text.value), names, rangeFirst)
  }

  /** The entries for the hotel names, in name order. */
  function Entries(text: string, paragraphs: seq<string>, names: seq<string>, rangeFirst: bool): (r: seq<Accommodation>)
    requires WellFormedNames(names)
    ensures |r| == |names|
    ensures forall i | 0 <= i < |r| :: r[i].name == names[i] && r[i].kind in HotelKinds
    ensures forall i | 0 <= i < |r| :: r[i] == Entry(text, paragraphs, names[i], rangeFirst)
  {
    seq(|names|, i requires 0 <= i < |names| => Entry(text, paragraphs, names[i], rangeFirst))
  }

  /** The order of the price alternatives decides the price and nothing else: both orders give
      the same hotels, kinds and descriptions, and the very same entries when the whole text's
      first price does not depend on the order. */
  lemma PriceOrderOnlyChangesPrice(text: Option<string>, captured: seq<string>, lineName: string -> Option<string>)
    ensures var written, corrected := ParseAccommodation(text, captured, lineName, false), ParseAccommodation(text, captured, lineName, true);
            && |written| == |corrected|
            && (forall i | 0 <= i < |written| :: written[i] == corrected[i].(priceRange := written[i].priceRange))
            && (text.Some? && FirstPrice(text.value, false).Some? && FirstPrice(text.value, false) == FirstPrice(text.value, true)
                ==> written == corrected)
  {
  }

  /** The fixed Swissôtel name, lower-cased, starts with the Swissôtel keyword. */
  lemma SwissotelNameMentions()
    ensures Mentions(SwissotelName + " Ankara", SwissotelKey)
  {
    var l := Lower(SwissotelName + " Ankara");
    assert l[..|SwissotelKey|] == SwissotelKey;
    assert OccursAt(l, SwissotelKey, 0);
  }

  /** A hotel whose name mentions Swissôtel is a luxury hotel with the ready-made description. */
  lemma SwissotelEntry(text: string, paragraphs: seq<string>, name: string, rangeFirst: bool)
    requires WellFormedName(name) && Mentions(name, SwissotelKey) && Contains(name, SwissotelName)
    ensures Entry(text, paragraphs, name, rangeFirst).kind == "Luxury Hotel"
    ensures Entry(text, paragraphs, name, rangeFirst).description == Join(SwissotelDetails, "\n")
  {
  }

  lemma ParsedEntries(text: string, captured: seq<string>, lineName: string -> Option<string>, rangeFirst: bool)
    requires text != ""
    ensures HotelNames(text, captured, lineName) != [] ==>
              ParseAccommodation(Some(text), captured, lineName, rangeFirst)
              == Entries(text, Paragraphs(text), HotelNames(text, captured, lineName), rangeFirst)
  {
  }

  /** A text that mentions Swissôtel has "Swissôtel Ankara" among its hotel names. */
  lemma SwissotelNamed(text: string, captured: seq<string>, lineName: string -> Option<string>, name: string)
    requires name == SwissotelName + " Ankara" && Mentions(text, SwissotelKey)
    ensures name in HotelNames(text, captured, lineName)
  {
    assert PrimaryName(text, captured, name);
  }

  /** A text that mentions Swissôtel always lists "Swissôtel Ankara" as a luxury hotel with
      the ready-made Swissôtel description, whatever the patterns captured. */
  lemma SwissotelListed(text: string, captured: seq<string>, lineName: string -> Option<string>, rangeFirst: bool, name: string)
    requires name == SwissotelName + " Ankara"
    requires text != "" && Mentions(text, SwissotelKey)
    ensures var r := ParseAccommodation(Some(text), captured, lineName, rangeFirst);
            exists i | 0 <= i < |r| ::
              r[i].name == name && r[i].kind == "Luxury Hotel" && r[i].description == Join(SwissotelDetails, "\n")
  {
    SwissotelNamed(text, captured, lineName, name);
    var names := HotelNames(text, captured, lineName);
    var i :| 0 <= i < |names| && names[i] == name;
    var paragraphs := Paragraphs(text);
    var r := Entries(text, paragraphs, names, rangeFirst);
    ParsedEntries(text, captured, lineName, rangeFirst);
    SwissotelNameMentions();
    assert Contains(name, SwissotelName) by {
      assert OccursAt(name, SwissotelName, 0);
    }
    SwissotelEntry(text, paragraphs, name, rangeFirst);
    assert r[i] == Entry(text, paragraphs, name, rangeFirst);
  }
}

=== FILE: agent_service.dfy ===
/** The agent service: the completion marker the agents are told to end with, the search for the
    last assistant message in an agent's history, the reply an agent type gives once its chat
    has run, and the API-key check made before any agent is created. The chat itself is not
    modelled: what it leaves behind (its result, the agent's histories, what `last_message`
    gives) is an input. */
module AgentService {
  import opened Optional
  import opened Strings
  import Coordinator

  /** The word each agent is told to put on its own line when it has finished. */
  const Marker := "TASK_COMPLETE"

  /** A dictionary key's value: absent, present as `None`, or present as a string. */
  datatype Field = Absent | NullValue | Present(s: string)

  /** A chat message: a dictionary with a role and a content, or something that is not a
      dictionary at all. A role that is absent or `None` is `None` here. */
  datatype Message = NotDict | Dict(role: Option<string>, content: Field)

  /** `is_termination_msg`: a dictionary whose content is a non-empty string containing the
      marker. */
  function IsTerminationMsg(m: Message): (r: bool)
    ensures r ==> m.Dict? && m.content.Present? && Contains(m.content.s, Marker)
    ensures m.Dict? && m.content.Present? && Contains(m.content.s, Marker) ==> r
  {
    match m
    case NotDict => false
    case Dict(_, content) => content.Present? && content.s != "" && Contains(content.s, Marker)
  }

  /** An agent's reply with the marker removed in one left-to-right pass and the white space
      around it stripped. */
  function StripMarker(s: string): (r: string)
    ensures !Contains(s, Marker) ==> r == PyStrip(s)
    ensures |r| <= |s|
  {
    PyStrip(ReplaceAll(s, Marker, ""))
  }

  /** Removing a pattern from `a + b` keeps `a` as it is when no occurrence starts inside `a`. */
  lemma {:induction false} ReplaceAllKeepsPrefix(a: string, b: string, p: string, rep: string)
    requires |p| > 0
    requires forall i | 0 <= i < |a| :: !OccursAt(a + b, p, i)
    ensures ReplaceAll(a + b, p, rep) == a + ReplaceAll(b, p, rep)
    decreases |a|
  {
    if a != [] {
      var s := a + b;
      assert !OccursAt(s, p, 0);
      NoOccurrenceShift(a, b, p);
      ReplaceAllKeepsPrefix(a[1..], b, p, rep);
      assert s[1..] == a[1..] + b;
      var t := ReplaceAll(b, p, rep);
      if |s| < |p| {
        assert t == b;
        assert ReplaceAll(s, p, rep) == s;
      } else {
        assert s[..|p|] != p;
        assert ReplaceAll(s, p, rep) == [s[0]] + ReplaceAll(s[1..], p, rep) == [s[0]] + (a[1..] + t);
        assert [s[0]] + (a[1..] + t) == ([s[0]] + a[1..]) + t;
        assert [s[0]] + a[1..] == a;
      }
    } else {
      assert a + b == b && a + ReplaceAll(b, p, rep) == ReplaceAll(b, p, rep);
    }
  }

  /** Occurrences in `a[1..] + b` are occurrences in `a + b` one place further on. */
  lemma NoOccurrenceShift(a: string, b: string, p: string)
    requires |a| > 0
    requires forall i | 0 <= i < |a| :: !OccursAt(a + b, p, i)
    ensures forall i | 0 <= i < |a| - 1 :: !OccursAt(a[1..] + b, p, i)
  {
    var s := a + b;
    assert a[1..] + b == s[1..];
    forall i | 0 <= i < |a| - 1 ensures !OccursAt(s[1..], p, i) {
      assert !OccursAt(s, p, i + 1);
      if i + |p| <= |s[1..]| {
        assert s[1..][i..i + |p|] == s[i + 1..i + 1 + |p|];
      }
    }
  }

  /** A reply that follows the instructions (text free of the marker, then the marker on a new
      line) ends the chat, and stripping it gives back exactly the text and its line break,
      trimmed. */
  lemma FinishedReply(body: string)
    requires !Contains(body, Marker)
    ensures IsTerminationMsg(Dict(Some("assistant"), Present(body + "\n" + Marker)))
    ensures StripMarker(body + "\n" + Marker) == PyStrip(body + "\n")
  {
    var a := body + "\n";
    var s := a + Marker;
    assert s == body + "\n" + Marker;
    ContainsPrefixOfAppend(a, Marker);
    MarkerHasNoLineBreak();
    forall i | 0 <= i < |a| ensures !OccursAt(s, Marker, i) {
      if i + |Marker| <= |body| {
        assert !OccursAt(body, Marker, i);
        assert s[i..i + |Marker|] == body[i..i + |Marker|];
      } else {
        var k := |body| - i;
        assert s[i + k] == '\n';
        NotOccursAt(s, Marker, i, k);
      }
    }
    ReplaceAllKeepsPrefix(a, Marker, Marker, "");
    assert Marker[..|Marker|] == Marker;
    assert ReplaceAll(Marker, Marker, "") == "";
    assert ReplaceAll(s, Marker, "") == a;
  }

  lemma MarkerHasNoLineBreak()
    ensures forall k | 0 <= k < |Marker| :: Marker[k] != '\n'
  {
  }

  /** A message the history search accepts: an assistant's, with non-empty content. */
  predicate IsAnswer(m: Message)
  {
    m.Dict? && m.role == Some("assistant") && m.content.Present? && m.content.s != ""
  }

  /** The result of searching a history from its end. */
  datatype Scan = Found(content: string) | Exhausted | Crashed

  /** Searches from the newest message for an answer. A message that is not a dictionary raises
      before an older one is looked at. */
  function ScanBack(msgs: seq<Message>): (r: Scan)
    ensures r.Found? ==> exists i | 0 <= i < |msgs| :: IsAnswer(msgs[i]) && msgs[i].content.s == r.content && Unanswered(msgs, i + 1)
    ensures r.Exhausted? <==> Unanswered(msgs, 0)
    ensures r.Crashed? ==> exists i | 0 <= i < |msgs| :: msgs[i].NotDict? && Unanswered(msgs, i + 1)
    decreases |msgs|
  {
    if msgs == [] then Exhausted
    else
      var m := msgs[|msgs| - 1];
      var init := msgs[..|msgs| - 1];
      if m.NotDict? then Crashed
      else if IsAnswer(m) then Found(m.content.s)
      else
        var r := ScanBack(init);
        assert msgs == init + [m];
        ScanBackStep(init, m, r);
        r
  }

  /** The search's verdict on the older messages stands once a newer message that is a
      dictionary but not an answer is added. */
  lemma ScanBackStep(init: seq<Message>, m: Message, r: Scan)
    requires m.Dict? && !IsAnswer(m)
    requires r.Found? ==> exists i | 0 <= i < |init| :: IsAnswer(init[i]) && init[i].content.s == r.content && Unanswered(init, i + 1)
    requires r.Exhausted? <==> Unanswered(init, 0)
    requires r.Crashed? ==> exists i | 0 <= i < |init| :: init[i].NotDict? && Unanswered(init, i + 1)
    ensures var msgs := init + [m];
            && (r.Found? ==> exists i | 0 <= i < |msgs| :: IsAnswer(msgs[i]) && msgs[i].content.s == r.content && Unanswered(msgs, i + 1))
            && (r.Exhausted? <==> Unanswered(msgs, 0))
            && (r.Crashed? ==> exists i | 0 <= i < |msgs| :: msgs[i].NotDict? && Unanswered(msgs, i + 1))
  {
    var msgs := init + [m];
    UnansweredSnoc(init, m);
    if r.Found? {
      var i :| 0 <= i < |init| && IsAnswer(init[i]) && init[i].content.s == r.content && Unanswered(init, i + 1);
      assert msgs[i] == init[i];
    }
    if r.Crashed? {
      var i :| 0 <= i < |init| && init[i].NotDict? && Unanswered(init, i + 1);
      assert msgs[i] == init[i];
    }
  }

  /** Every message from index `from` on is a dictionary and not an answer. */
  predicate Unanswered(msgs: seq<Message>, from: nat)
  {
    forall j | from <= j < |msgs| :: msgs[j].Dict? && !IsAnswer(msgs[j])
  }

  /** `Unanswered` extends over one more message that is a dictionary but not an answer. */
  lemma UnansweredSnoc(msgs: seq<Message>, m: Message)
    requires m.Dict? && !IsAnswer(m)
    ensures forall from: nat | from <= |msgs| :: Unanswered(msgs, from) <==> Unanswered(msgs + [m], from)
  {
    forall from: nat | from <= |msgs| ensures Unanswered(msgs, from) <==> Unanswered(msgs + [m], from) {
      assert forall j | from <= j < |msgs| :: (msgs + [m])[j] == msgs[j];
      assert (msgs + [m])[|msgs|] == m;
    }
  }

  /** The newest answer wins, whatever came before it. */
  lemma NewestAnswerFound(msgs: seq<Message>, m: Message)
    requires IsAnswer(m)
    ensures ScanBack(msgs + [m]) == Found(m.content.s)
  {
    assert (msgs + [m])[|msgs + [m]| - 1] == m;
  }

  /** What `last_message()` does: raise, or return a message or `None`. */
  datatype LastMessage = LastRaises(message: string) | LastReturns(m: Option<Message>)

  /** What the chat leaves in the agent: its history, what `last_message()` gives, and the raw
      message list. A missing attribute is an empty list. */
  datatype AgentState = AgentState(chatHistory: seq<Message>, lastMessage: LastMessage, oaiMessages: seq<Message>)

  /** The second source: a returned dictionary with a content key decides the result, even when
      that content is `None` or empty; anything else passes on to the third source. */
  function FromLastMessage(last: LastMessage): Option<Option<string>>
  {
    match last
    case LastReturns(Some(Dict(_, Present(s)))) => Some(Some(s))
    case LastReturns(Some(Dict(_, NullValue))) => Some(None)
    case _ => None
  }

  /** `extract_last_message_content`: the history search, then `last_message()`, then the raw
      message list; a history message that is not a dictionary ends the search with `None`. */
  function ExtractLastMessageContent(agent: AgentState): (r: Option<string>)
    ensures ScanBack(agent.chatHistory).Found? ==> r == Some(ScanBack(agent.chatHistory).content)
    ensures ScanBack(agent.chatHistory).Crashed? ==> r == None
    ensures ScanBack(agent.chatHistory).Exhausted? && FromLastMessage(agent.lastMessage).Some?
            ==> r == FromLastMessage(agent.lastMessage).value
    ensures ScanBack(agent.chatHistory).Exhausted? && FromLastMessage(agent.lastMessage).None?
            ==> r == match ScanBack(agent.oaiMessages) case Found(c) => Some(c) case _ => None
    ensures r.Some? && r.value == "" ==> FromLastMessage(agent.lastMessage) == Some(Some(""))
  {
    match ScanBack(agent.chatHistory)
    case Found(c) => Some(c)
    case Crashed => None
    case Exhausted =>
      match FromLastMessage(agent.lastMessage)
      case Some(decided) => decided
      case None =>
        match ScanBack(agent.oaiMessages)
        case Found(c) => Some(c)
        case _ => None
  }

  /** With nothing answered in any source the result is `None`, and the newest answer in the
      history is found whatever the other sources hold. */
  lemma ExtractLastMessageCases(agent: AgentState, m: Message)
    requires IsAnswer(m)
    ensures (Unanswered(agent.chatHistory, 0) && Unanswered(agent.oaiMessages, 0) && FromLastMessage(agent.lastMessage).None?)
            ==> ExtractLastMessageContent(agent) == None
    ensures ExtractLastMessageContent(agent.(chatHistory := agent.chatHistory + [m])) == Some(m.content.s)
  {
    NewestAnswerFound(agent.chatHistory, m);
  }

  /** The agent types and the names of the agents created for them. */
  function AgentNames(): (r: map<string, string>)
    ensures r.Keys == {"attractions", "food", "accommodation", "reviews", "images", "planner"}
  {
    map[
      "attractions" := "SightseeingAgent",
      "food" := "FoodAgent",
      "accommodation" := "AccommodationAgent",
      "reviews" := "ReviewsAgent",
      "images" := "ImageSearchAgent",
      "planner" := "TripPlannerAgent"]
  }

  /** Creating the agents: the OpenAI key must be present and at least 20 characters long. */
  datatype Init = Initialized(agents: map<string, string>) | InitFailed(message: string)

  function InitializeAgents(apiKey: Option<string>): (r: Init)
    ensures r.InitFailed? <==> apiKey == None || |apiKey.value| < 20
    ensures r.Initialized? ==> r.agents == AgentNames()
  {
    if apiKey == None || apiKey.value == "" || |apiKey.value| < 20 then
      InitFailed("Invalid or missing OpenAI API key. Please check your .env file.")
    else Initialized(AgentNames())
  }

  /** What starting a chat gives: an exception, a list of messages, or a result object that is
      not a list. */
  datatype ChatResult = ChatFailed(message: string) | ChatList(msgs: seq<Message>) | ChatObject

  /** The messages of a chat result taken as a list; anything else is no messages. */
  function Messages(chat: ChatResult): seq<Message>
  {
    if chat.ChatList? then chat.msgs else []
  }

  /** A message the reply search of `get_agent_response` accepts: an assistant's dictionary with
      a content that is not `None`; unlike the history search, an empty content counts and a
      message that is not a dictionary is skipped. */
  predicate IsReply(m: Message)
  {
    m.Dict? && m.role == Some("assistant") && m.content.Present?
  }

  /** The newest message the reply search accepts. */
  function LastReply(msgs: seq<Message>): (r: Option<string>)
    ensures r.Some? ==> exists i | 0 <= i < |msgs| :: IsReply(msgs[i]) && msgs[i].content.s == r.value
                                                    && forall j | i < j < |msgs| :: !IsReply(msgs[j])
    ensures r.None? <==> forall j | 0 <= j < |msgs| :: !IsReply(msgs[j])
    decreases |msgs|
  {
    if msgs == [] then None
    else if IsReply(msgs[|msgs| - 1]) then Some(msgs[|msgs| - 1].content.s)
    else
      var r := LastReply(msgs[..|msgs| - 1]);
      assert forall j | 0 <= j < |msgs| - 1 :: msgs[..|msgs| - 1][j] == msgs[j];
      r
  }

  /** The function-calling agents (reviews and images): the newest accepted message, marker
      stripped, or a notice naming the agent. A result object that is not a list cannot be
      searched, and the resulting type error is reported by the outer handler. */
  function FunctionAgentReply(name: string, chat: ChatResult): string
  {
    match chat
    case ChatFailed(e) => "Error communicating with " + name + ": " + e
    case ChatObject => "An error occurred while processing your request: 'ChatResult' object is not reversible"
    case ChatList(msgs) =>
      if msgs == [] then "No response from " + name + ". Please try a different query."
      else match LastReply(msgs)
        case Some(c) => StripMarker(c)
        case None => "No valid response from " + name + ". Please try a different query."
  }

  /** A returned message with string content, as the later fallbacks test it. */
  function ContentOf(last: LastMessage): Option<string>
  {
    match last
    case LastReturns(Some(Dict(_, Present(s)))) => Some(s)
    case _ => None
  }

  /** The other agents: the extracted last message if it is non-empty, else the newest accepted
      message of a list result, else `last_message()`, and if that raises, `last_message` with
      the proxy as sender. */
  function RegularAgentReply(name: string, chat: ChatResult, agent: AgentState, proxyMessage: LastMessage): string
  {
    if chat.ChatFailed? then "Error communicating with " + name + ": " + chat.message
    else
      var extracted := ExtractLastMessageContent(agent);
      if extracted.Some? && extracted.value != "" then StripMarker(extracted.value)
      else match LastReply(Messages(chat))
        case Some(c) => StripMarker(c)
        case None =>
          match agent.lastMessage
          case LastReturns(_) =>
            if ContentOf(agent.lastMessage).Some? then StripMarker(ContentOf(agent.lastMessage).value)
            else "No valid response from " + name + ". Please try a different query."
          case LastRaises(_) =>
            match proxyMessage
            case LastRaises(e) => "Error retrieving response from " + name + ": " + e
            case LastReturns(_) =>
              if ContentOf(proxyMessage).Some? then StripMarker(ContentOf(proxyMessage).value)
              else "Could not retrieve a proper response from " + name + ". Please try a different query."
  }

  /** What the chat with one agent leaves behind. */
  datatype Conversation = Conversation(chat: ChatResult, agent: AgentState, proxyMessage: LastMessage)

  /** `get_agent_response`: an agent type without an agent raises a value error; every other
      outcome is a text, for the reviews and images agents through the function-calling path. */
  function GetAgentResponse(agents: map<string, string>, agentType: string, conv: Conversation): (r: Coordinator.Reply)
    ensures r.Raised? <==> agentType !in agents
    ensures r.Raised? ==> r.message == "Unknown agent type: " + agentType
    ensures !r.NoReply?
    ensures agentType in agents && agents[agentType] in {"ReviewsAgent", "ImageSearchAgent"}
            ==> r == Coordinator.Text(FunctionAgentReply(agents[agentType], conv.chat))
    ensures agentType in agents && agents[agentType] !in {"ReviewsAgent", "ImageSearchAgent"}
            ==> r == Coordinator.Text(RegularAgentReply(agents[agentType], conv.chat, conv.agent, conv.proxyMessage))
  {
    if agentType !in agents then Coordinator.Raised("Unknown agent type: " + agentType)
    else
      var name := agents[agentType];
      if name in {"ReviewsAgent", "ImageSearchAgent"} then Coordinator.Text(FunctionAgentReply(name, conv.chat))
      else Coordinator.Text(RegularAgentReply(name, conv.chat, conv.agent, conv.proxyMessage))
  }

  /** Once the agents exist, the service raises for exactly the types outside the six. */
  lemma InitializedServiceReplies(apiKey: Option<string>, agentType: string, conv: Conversation)
    requires InitializeAgents(apiKey).Initialized?
    ensures var r := GetAgentResponse(InitializeAgents(apiKey).agents, agentType, conv);
            r.Raised? <==> agentType !in {"attractions", "food", "accommodation", "reviews", "images", "planner"}
  {
  }

  /** For a regular agent, an answer in its history that carries no marker arrives trimmed and
      otherwise unchanged. */
  lemma RegularAnswerTrimmed(name: string, chat: ChatResult, agent: AgentState, proxyMessage: LastMessage)
    requires !chat.ChatFailed?
    requires ScanBack(agent.chatHistory).Found? && !Contains(ScanBack(agent.chatHistory).content, Marker)
    ensures RegularAgentReply(name, chat, agent, proxyMessage) == PyStrip(ScanBack(agent.chatHistory).content)
  {
    var c := ScanBack(agent.chatHistory).content;
    var i :| 0 <= i < |agent.chatHistory| && IsAnswer(agent.chatHistory[i]) && agent.chatHistory[i].content.s == c && Unanswered(agent.chatHistory, i + 1);
    assert c != "";
  }
}

=== FILE: coordinator.dfy ===
/** The backend coordinator: it asks the specialist agents in turn for attractions, food and
    accommodation (and, on request, traveller insights and images), feeds their replies to the
    trip planner, and answers single questions addressed to one agent. The agent service is a
    parameter: a function from an agent type and a prompt to what that call gives back. */
module Coordinator {
  import opened Optional
  import opened Strings

  /** The caller's preferences dictionary. `None` marks an absent key; for the interests it
      also marks a key holding `None`, which the coordinator treats the same way. Absent flags
      are false. */
  datatype Preferences = Preferences(
    destination: Option<string>,
    tripLength: Option<int>,
    budget: Option<string>,
    interests: Option<seq<string>>,
    getInsights: bool,
    getImages: bool)

  /** What one call of the agent service gives back: a text, `None`, or an exception with its
      message. */
  datatype Reply = Text(text: string) | NoReply | Raised(message: string)

  /** What a call asks, before it is put into words: the five specialist requests about a
      destination, the planner's request, or a user's own question. `Render` gives the text
      the agent receives. */
  datatype Prompt =
    | AttractionsPrompt(destination: string)
    | FoodPrompt(destination: string)
    | AccommodationPrompt(destination: string)
    | ReviewsPrompt(destination: string)
    | ImagesPrompt(destination: string)
    | PlannerPrompt(destination: string, tripLength: int, budget: string, interests: seq<string>,
                    attractions: string, food: string, accommodation: string)
    | Question(text: string)

  /** One consultation of the agent service. */
  datatype Call = Call(agentType: string, prompt: Prompt)

  /** The agent service: what a call to an agent type with a prompt gives back. */
  type Service = (string, Prompt) -> Reply

  /** The dictionary the coordinator returns for a travel-planning request. */
  datatype Plan = Plan(
    destination: string,
    tripLength: int,
    budget: string,
    interests: seq<string>,
    itinerary: string,
    attractions: string,
    food: string,
    accommodation: string,
    insights: string,
    images: string)

  /** A plan together with the calls made to produce it, in order. */
  datatype Outcome = Outcome(plan: Plan, calls: seq<Call>)

  /** A single-agent answer together with the calls made to produce it. */
  datatype Answer = Answer(text: string, calls: seq<Call>)

  /** The agent types a single question may be addressed to. */
  const KnownTypes: seq<string> := ["attractions", "food", "accommodation", "reviews", "images", "planner"]

  /** Python's `str` of an integer. */
  function IntToString(i: int): (r: string)
    ensures |r| >= 1
  {
    if i < 0 then "-" + NatToString(-i) else NatToString(i)
  }

  /** `not s.strip()`: nothing but white space, which is what stripping leaves empty. */
  predicate Blank(s: string) { AllSpace(Python, s) }

  lemma BlankIffStripEmpty(s: string)
    ensures Blank(s) <==> PyStrip(s) == []
  {
    TrimEmptyIffAllSpace(Python, s);
  }

  /** A string that starts with a visible character is not blank. */
  lemma NotBlank(s: string)
    requires |s| > 0 && !IsPySpace(s[0])
    ensures !Blank(s)
  {
    assert !IsSpace(Python, s[0]);
  }

  /** A string that ends with a visible character is not blank. */
  lemma NotBlankEnd(s: string)
    requires |s| > 0 && !IsPySpace(s[|s| - 1])
    ensures !Blank(s)
  {
    assert !IsSpace(Python, s[|s| - 1]);
  }

  /** `r` is what a specialist's `try` block leaves behind: the reply's text, the notice for a
      `None` reply, or the failure prefix followed by the exception's message. */
  predicate Resolved(reply: Reply, missing: string, failure: string, r: string)
  {
    && (reply.Text? ==> r == reply.text)
    && (reply.NoReply? ==> r == missing)
    && (reply.Raised? ==> r == failure + reply.message)
  }

  /** A specialist's reply: its text, the `None` fallback, or the error line. */
  function Resolve(reply: Reply, missing: string, failure: string): (r: string)
    ensures Resolved(reply, missing, failure, r)
    ensures reply.Text? || r == missing || (|r| >= |failure| && r[..|failure|] == failure)
  {
    match reply
    case Text(t) => t
    case NoReply => missing
    case Raised(m) => failure + m
  }

  function PlannerFallback(destination: string): (r: string)
    ensures !Blank(r)
  {
    var r := "No detailed itinerary could be generated for " + destination + ". Please try again.";
    assert r[|r| - 1] == '.';
    NotBlankEnd(r);
    r
  }

  /** The line an exception becomes: what was being done, then the exception's message. */
  function ErrorLine(action: string, message: string): (r: string)
    ensures !Blank(r)
    ensures |r| > |message| && r[|r| - |message|..] == message
  {
    var r := "Error " + action + ": " + message;
    assert r[0] == 'E';
    NotBlank(r);
    assert r[|r| - |message|..] == message;
    r
  }

  /** The planner's reply: a blank text counts as no reply. */
  function ResolvePlanner(reply: Reply, destination: string): (r: string)
    ensures !Blank(r)
    ensures reply.Text? && !Blank(reply.text) ==> r == reply.text
    ensures reply.NoReply? || (reply.Text? && Blank(reply.text)) ==> r == PlannerFallback(destination)
    ensures reply.Raised? ==> r == ErrorLine("creating itinerary", reply.message)
  {
    match reply
    case Text(t) => if !Blank(t) then t else PlannerFallback(destination)
    case NoReply => PlannerFallback(destination)
    case Raised(m) => ErrorLine("creating itinerary", m)
  }

  /** The interests as the plan prompt lists them. */
  function InterestsText(interests: seq<string>): string
  {
    JoinOr(interests, ", ", "Various activities")
  }

  function InterestsLine(interests: seq<string>): string
  {
    "- Interests: " + InterestsText(interests)
  }

  const Indent := "        "

  /** The lines of a triple-quoted prompt, each indented as in the source, with the opening
      and closing line breaks. */
  function Indented(lines: seq<string>): string
  {
    "\n" + Indent + Join(lines, "\n" + Indent) + "\n" + Indent
  }

  /** The planner prompt's lines. */
  function PlanLines(p: Prompt): (lines: seq<string>)
    requires p.PlannerPrompt?
    ensures |lines| == 24 && lines[4] == InterestsLine(p.interests)
  {
    [
      "Create a detailed day-by-day travel plan for a " + IntToString(p.tripLength) + "-day trip to " + p.destination + ".",
      "",
      "Travel preferences:",
      "- Budget: " + p.budget,
      InterestsLine(p.interests)
    ] + [
      "",
      "Use the following information to create a cohesive itinerary:",
      "",
      "ATTRACTIONS AND SIGHTSEEING INFORMATION:",
      p.attractions,
      "",
      "FOOD AND DINING INFORMATION:",
      p.food,
      "",
      "ACCOMMODATION INFORMATION:",
      p.accommodation,
      "",
      "For each day, provide:",
      "1. Morning, afternoon, and evening activities",
      "2. Recommended places to eat for each meal",
      "3. Transportation suggestions between locations",
      "4. Estimated costs where applicable",
      "",
      "Create a logical flow for the itinerary that minimizes travel time and groups activities by geographic proximity."]
  }

  /** The text an agent receives for a prompt: each specialist's request names the
      destination, and a question is passed on as it is. */
  function Render(p: Prompt): (r: string)
    ensures !p.PlannerPrompt? && !p.Question? ==> Contains(r, p.destination)
    ensures p.Question? ==> r == p.text
  {
    match p
    case AttractionsPrompt(d) => Around("Please recommend notable attractions and sights to visit in ", d, ".")
    case FoodPrompt(d) => Around("Please recommend food, restaurants, and culinary experiences in ", d, ".")
    case AccommodationPrompt(d) => Around("Please recommend accommodation options in ", d, " across different price points.")
    case ReviewsPrompt(d) => Around("What do people say about visiting ", d, "? Find reviews and traveler opinions.")
    case ImagesPrompt(d) =>
      Around("Find high-quality images of ", d, ". Include diverse scenes of landmarks, cityscapes, nature, and cultural elements.")
    case PlannerPrompt(_, _, _, _, _, _, _) => Indented(PlanLines(p))
    case Question(q) => q
  }

  /** `m` between `a` and `b`. */
  function Around(a: string, m: string, b: string): (r: string)
    ensures r == a + m + b && Contains(r, m)
  {
    assert OccursAt(a + m + b, m, |a|) by { assert (a + m + b)[|a|..|a| + |m|] == m; }
    OccursAtContains(a + m + b, m, |a|);
    a + m + b
  }

  lemma EmptyInterestsLine()
    ensures InterestsLine([]) == "- Interests: Various activities"
  {
  }

  /** Every interest is named in the rendered plan prompt; an empty list is named "Various
      activities". */
  lemma PlanPromptNamesInterests(p: Prompt)
    requires p.PlannerPrompt?
    ensures Contains(Render(p), InterestsLine(p.interests))
    ensures p.interests == [] ==> Contains(Render(p), "- Interests: Various activities")
    ensures forall k | 0 <= k < |p.interests| :: Contains(Render(p), p.interests[k])
  {
    var lines := PlanLines(p);
    var sep := "\n" + Indent;
    var body := Join(lines, sep);
    var text := Render(p);
    assert text == sep + (body + sep);
    JoinContainsPart(lines, sep, 4);
    ContainsPrefixOfAppend(body, sep);
    ContainsPrefixOfAppend(sep, body + sep);
    ContainsTrans(body + sep, body, InterestsLine(p.interests));
    ContainsTrans(text, body + sep, InterestsLine(p.interests));
    if p.interests == [] {
      EmptyInterestsLine();
    }
    forall k | 0 <= k < |p.interests| ensures Contains(text, p.interests[k]) {
      JoinContainsPart(p.interests, ", ", k);
      ContainsPrefixOfAppend("- Interests: ", Join(p.interests, ", "));
      ContainsTrans(InterestsLine(p.interests), Join(p.interests, ", "), p.interests[k]);
      ContainsTrans(text, InterestsLine(p.interests), p.interests[k]);
    }
  }

  function Ask(service: Service, c: Call): Reply
  {
    service(c.agentType, c.prompt)
  }

  /** Some call went to an agent of type `t`. */
  predicate Consults(calls: seq<Call>, t: string)
  {
    exists i | 0 <= i < |calls| :: calls[i].agentType == t
  }

  /** The specialists' contributions, worded as the coordinator words them. */
  datatype Findings = Findings(attractions: string, food: string, accommodation: string, insights: string, images: string)

  /** The specialist consultations before the planner; the optional two are skipped, and left
      empty, when their flag is off. */
  function Consult(destination: string, getInsights: bool, getImages: bool, service: Service): (f: Findings)
    ensures !getInsights ==> f.insights == ""
    ensures !getImages ==> f.images == ""
    ensures service("attractions", AttractionsPrompt(destination)).NoReply?
            ==> f.attractions == "No attractions information available for " + destination + "."
    ensures service("food", FoodPrompt(destination)).Text? ==> f.food == service("food", FoodPrompt(destination)).text
    ensures Resolved(service("attractions", AttractionsPrompt(destination)),
              "No attractions information available for " + destination + ".", "Error retrieving attractions: ", f.attractions)
    ensures Resolved(service("food", FoodPrompt(destination)),
              "No food information available for " + destination + ".", "Error retrieving food recommendations: ", f.food)
    ensures Resolved(service("accommodation", AccommodationPrompt(destination)),
              "No accommodation information available for " + destination + ".", "Error retrieving accommodation options: ",
              f.accommodation)
    ensures getInsights ==> Resolved(service("reviews", ReviewsPrompt(destination)),
              "No insights available for " + destination + ".", "Error retrieving insights: ", f.insights)
    ensures getImages ==> Resolved(service("images", ImagesPrompt(destination)),
              "No images available for " + destination + ".", "Error retrieving images: ", f.images)
  {
    Findings(
      Resolve(service("attractions", AttractionsPrompt(destination)),
        "No attractions information available for " + destination + ".", "Error retrieving attractions: "),
      Resolve(service("food", FoodPrompt(destination)),
        "No food information available for " + destination + ".", "Error retrieving food recommendations: "),
      Resolve(service("accommodation", AccommodationPrompt(destination)),
        "No accommodation information available for " + destination + ".", "Error retrieving accommodation options: "),
      if !getInsights then "" else Resolve(service("reviews", ReviewsPrompt(destination)),
        "No insights available for " + destination + ".", "Error retrieving insights: "),
      if !getImages then "" else Resolve(service("images", ImagesPrompt(destination)),
        "No images available for " + destination + ".", "Error retrieving images: "))
  }

  /** The calls a request makes, in order. */
  function CallSequence(destination: string, getInsights: bool, getImages: bool, planCall: Call): (calls: seq<Call>)
    requires planCall.agentType == "planner"
    ensures 4 <= |calls| <= 6 && calls[|calls| - 1] == planCall
    ensures calls[0].agentType == "attractions" && calls[1].agentType == "food" && calls[2].agentType == "accommodation"
    ensures Consults(calls, "reviews") <==> getInsights
    ensures Consults(calls, "images") <==> getImages
  {
    var calls := [Call("attractions", AttractionsPrompt(destination)), Call("food", FoodPrompt(destination)),
                  Call("accommodation", AccommodationPrompt(destination))]
      + (if getInsights then [Call("reviews", ReviewsPrompt(destination))] else [])
      + (if getImages then [Call("images", ImagesPrompt(destination))] else [])
      + [planCall];
    assert getInsights ==> calls[3].agentType == "reviews";
    assert getImages ==> calls[|calls| - 2].agentType == "images";
    calls
  }

  /** A travel-planning request: defaults for absent preferences, the three specialists, the
      optional two, then the planner, whose prompt carries the first three replies. */
  function ProcessRequest(prefs: Preferences, service: Service): (r: Outcome)
    ensures r.plan.destination == prefs.destination.GetOr("Unknown")
    ensures r.plan.tripLength == prefs.tripLength.GetOr(3)
    ensures r.plan.budget == prefs.budget.GetOr("moderate")
    ensures r.plan.interests == prefs.interests.GetOr([])
    ensures 4 <= |r.calls| <= 6 && r.calls[|r.calls| - 1].agentType == "planner"
    ensures Consults(r.calls, "reviews") <==> prefs.getInsights
    ensures Consults(r.calls, "images") <==> prefs.getImages
    ensures !prefs.getInsights ==> r.plan.insights == ""
    ensures !prefs.getImages ==> r.plan.images == ""
    ensures r.calls[|r.calls| - 1].prompt
            == PlannerPrompt(r.plan.destination, r.plan.tripLength, r.plan.budget, r.plan.interests,
                             r.plan.attractions, r.plan.food, r.plan.accommodation)
    ensures !Blank(r.plan.itinerary)
    ensures r.plan.itinerary == ResolvePlanner(Ask(service, r.calls[|r.calls| - 1]), r.plan.destination)
    ensures var f := Consult(r.plan.destination, prefs.getInsights, prefs.getImages, service);
            && r.plan.attractions == f.attractions && r.plan.food == f.food && r.plan.accommodation == f.accommodation
            && r.plan.insights == f.insights && r.plan.images == f.images
  {
    var destination := prefs.destination.GetOr("Unknown");
    var tripLength := prefs.tripLength.GetOr(3);
    var budget := prefs.budget.GetOr("moderate");
    var interests := prefs.interests.GetOr([]);
    var f := Consult(destination, prefs.getInsights, prefs.getImages, service);
    var planCall := Call("planner", PlannerPrompt(destination, tripLength, budget, interests, f.attractions, f.food, f.accommodation));
    var itinerary := ResolvePlanner(Ask(service, planCall), destination);
    Outcome(Plan(destination, tripLength, budget, interests, itinerary, f.attractions, f.food, f.accommodation, f.insights, f.images),
            CallSequence(destination, prefs.getInsights, prefs.getImages, planCall))
  }

  /** The plan depends on the service only through the calls it makes: two services that give
      the same replies to those calls give the same plan. */
  lemma ProcessRequestUsesOnlyItsCalls(prefs: Preferences, s1: Service, s2: Service)
    requires forall c | c in ProcessRequest(prefs, s1).calls :: Ask(s1, c) == Ask(s2, c)
    ensures ProcessRequest(prefs, s1) == ProcessRequest(prefs, s2)
  {
    var d := prefs.destination.GetOr("Unknown");
    var gi, gm := prefs.getInsights, prefs.getImages;
    var f := Consult(d, gi, gm, s1);
    var planCall := Call("planner", PlannerPrompt(d, prefs.tripLength.GetOr(3), prefs.budget.GetOr("moderate"),
                                                  prefs.interests.GetOr([]), f.attractions, f.food, f.accommodation));
    assert ProcessRequest(prefs, s1).calls == CallSequence(d, gi, gm, planCall);
    CallSequenceMembers(d, gi, gm, planCall);
    ConsultAgrees(d, gi, gm, s1, s2);
  }

  /** Every consultation, and the planner call, is among the calls a request makes. */
  lemma CallSequenceMembers(destination: string, getInsights: bool, getImages: bool, planCall: Call)
    requires planCall.agentType == "planner"
    ensures var calls := CallSequence(destination, getInsights, getImages, planCall);
            && Call("attractions", AttractionsPrompt(destination)) in calls
            && Call("food", FoodPrompt(destination)) in calls
            && Call("accommodation", AccommodationPrompt(destination)) in calls
            && (getInsights ==> Call("reviews", ReviewsPrompt(destination)) in calls)
            && (getImages ==> Call("images", ImagesPrompt(destination)) in calls)
            && planCall in calls
  {
    var calls := CallSequence(destination, getInsights, getImages, planCall);
    assert calls[0] == Call("attractions", AttractionsPrompt(destination));
    assert calls[1] == Call("food", FoodPrompt(destination));
    assert calls[2] == Call("accommodation", AccommodationPrompt(destination));
    assert getInsights ==> calls[3] == Call("reviews", ReviewsPrompt(destination));
    assert getImages ==> calls[|calls| - 2] == Call("images", ImagesPrompt(destination));
    assert calls[|calls| - 1] == planCall;
  }

  /** The specialists' findings depend only on the replies to the consultations made. */
  lemma ConsultAgrees(destination: string, getInsights: bool, getImages: bool, s1: Service, s2: Service)
    requires Ask(s1, Call("attractions", AttractionsPrompt(destination))) == Ask(s2, Call("attractions", AttractionsPrompt(destination)))
    requires Ask(s1, Call("food", FoodPrompt(destination))) == Ask(s2, Call("food", FoodPrompt(destination)))
    requires Ask(s1, Call("accommodation", AccommodationPrompt(destination))) == Ask(s2, Call("accommodation", AccommodationPrompt(destination)))
    requires getInsights ==> Ask(s1, Call("reviews", ReviewsPrompt(destination))) == Ask(s2, Call("reviews", ReviewsPrompt(destination)))
    requires getImages ==> Ask(s1, Call("images", ImagesPrompt(destination))) == Ask(s2, Call("images", ImagesPrompt(destination)))
    ensures Consult(destination, getInsights, getImages, s1) == Consult(destination, getInsights, getImages, s2)
  {
  }

  /** With insights and images switched off, whatever the reviews and images agents would say
      is irrelevant. */
  lemma FlagsOffIgnoreAgents(prefs: Preferences, s1: Service, s2: Service)
    requires !prefs.getInsights && !prefs.getImages
    requires forall t, q | t != "reviews" && t != "images" :: s1(t, q) == s2(t, q)
    ensures ProcessRequest(prefs, s1) == ProcessRequest(prefs, s2)
  {
    var calls := ProcessRequest(prefs, s1).calls;
    forall c | c in calls ensures Ask(s1, c) == Ask(s2, c) {
      var i :| 0 <= i < |calls| && calls[i] == c;
      assert c.agentType != "reviews" && c.agentType != "images";
    }
    ProcessRequestUsesOnlyItsCalls(prefs, s1, s2);
  }

  function InvalidRequest(): (r: string)
    ensures !Blank(r)
  {
    var r := "Invalid request. " + "Agent type and query are required.";
    assert r[0] == 'I';
    NotBlank(r);
    r
  }

  function UnknownType(agentType: string): (r: string)
    ensures !Blank(r)
  {
    var r := "Unknown agent type: " + agentType + ". Please use a valid agent type.";
    assert r[0] == 'U';
    NotBlank(r);
    r
  }

  function NoInformation(): (r: string)
    ensures !Blank(r)
  {
    var r := "No information " + "available for this query. " + "Please try with a different " + "query or agent type.";
    assert r[0] == 'N';
    NotBlank(r);
    r
  }

  /** A question addressed to one agent. Empty arguments and unknown agent types are answered
      without consulting the service; a missing or blank reply becomes a fixed notice; an
      exception becomes an error line. */
  function GetRecommendations(agentType: string, query: string, service: Service): (r: Answer)
    ensures r.calls != [] <==> agentType != "" && query != "" && agentType in KnownTypes
    ensures r.calls != [] ==> r.calls == [Call(agentType, Question(query))]
    ensures r.calls != [] ==> r.text == RecommendationText(service(agentType, Question(query)))
    ensures !Blank(r.text)
  {
    if agentType == "" || query == "" then Answer(InvalidRequest(), [])
    else if agentType !in KnownTypes then Answer(UnknownType(agentType), [])
    else Answer(RecommendationText(service(agentType, Question(query))), [Call(agentType, Question(query))])
  }

  /** Empty arguments and unknown agent types get their fixed notices. */
  lemma RecommendationsRejected(agentType: string, query: string, service: Service)
    ensures agentType == "" || query == "" ==> GetRecommendations(agentType, query, service) == Answer(InvalidRequest(), [])
    ensures agentType != "" && query != "" && agentType !in KnownTypes
            ==> GetRecommendations(agentType, query, service) == Answer(UnknownType(agentType), [])
  {
  }

  /** The answer made of one reply. */
  function RecommendationText(reply: Reply): (r: string)
    ensures !Blank(r)
    ensures reply.Text? && !Blank(reply.text) ==> r == reply.text
  {
    match reply
    case Text(t) => if !Blank(t) then t else NoInformation()
    case NoReply => NoInformation()
    case Raised(m) => ErrorLine("retrieving recommendations", m)
  }

  /** A missing or blank reply becomes the fixed notice, an exception the error line. */
  lemma RecommendationTextNotices(reply: Reply)
    ensures reply.NoReply? || (reply.Text? && Blank(reply.text)) ==> RecommendationText(reply) == NoInformation()
    ensures reply.Raised? ==> RecommendationText(reply) == ErrorLine("retrieving recommendations", reply.message)
  {
  }

  /** A reply reaches the caller unchanged exactly when it is a text that is not blank. */
  lemma RecommendationPassesReplyThrough(agentType: string, query: string, service: Service)
    requires agentType in KnownTypes && query != ""
    ensures var reply := service(agentType, Question(query));
            reply.Text? && !Blank(reply.text)
            <==> reply.Text? && GetRecommendations(agentType, query, service).text == reply.text
  {
    assert agentType != "";
    assert GetRecommendations(agentType, query, service).text == RecommendationText(service(agentType, Question(query)));
  }
}

=== FILE: dining.dfy ===
/**
 `parseDiningFromResponse`: the dining recommendations shown for the food agent's text.
 The tiers are tried in order (known places, bold terms, dish lines, dish keywords, the
 `tava` special case) and the result is then padded from two fixed lists.
 */
module DiningParser {
  import opened Optional
  import opened Strings

  datatype Dining = Dining(name: string, category: string, cuisine: string, description: string)

  const AnkaraTava: Dining := Dining("Ankara Tava", "Street Food", "Local cuisine",
    "A traditional dish made with chicken or meat cooked with tomatoes, peppers, and onions, served with rice.")

  /** The twelve places looked for by name, in table order. */
  const KnownPlaces: seq<Dining> := [
    AnkaraTava,
    Dining("Kuzu Tandir", "Traditional", "Turkish",
      "Slow-roasted lamb served with pilaf and grilled vegetables."),
    Dining("\U{221A}\U{E1}\U{221A}\U{2202}p \U{2248}\U{FB}i\U{2248}\U{FC}", "Street Food", "Turkish",
      "Skewered and grilled lamb pieces marinated in spices, typically served with flatbread and yogurt."),
    Dining("Mant\U{192}\U{B1}", "Traditional", "Turkish",
      "Turkish dumplings filled with spiced meat or cheese, topped with garlic yogurt and melted butter."),
    Dining("Mu\U{192}\U{FC}la Ocakba\U{2248}\U{FC}\U{192}\U{B1}", "High-End", "Turkish",
      "Known for its authentic Turkish kebabs and mezes."),
    Dining("K\U{192}\U{B1}z\U{192}\U{B1}lkayalar", "Fine Dining", "Seafood",
      "Offers a fine dining experience with a focus on seafood."),
    Dining("Karaca Restaurant", "Mid-Range", "Turkish",
      "Serving a variety of traditional Turkish dishes in a cozy setting."),
    Dining("Nefis Pide", "Casual Dining", "Turkish",
      "Famous for its delicious Turkish pide (similar to pizza) with various toppings."),
    Dining("Lezzet Durak", "Budget", "Turkish",
      "A popular spot for affordable and tasty Turkish home-style cooking."),
    Dining("Turgut Usta", "Street Food", "Turkish",
      "Known for its k\U{221A}\U{2202}fte (meatballs) and d\U{221A}\U{2202}ner kebab at reasonable prices."),
    Dining("Hisar\U{221A}\U{2202}n\U{221A}\U{BA} Market", "Food Market", "Local Produce",
      "Offers a wide range of fresh produce, spices, and local snacks."),
    Dining("K\U{192}\U{B1}z\U{192}\U{B1}lay Square", "Street Food", "Turkish",
      "Known for its street food stalls serving simit (Turkish bagel) and b\U{221A}\U{2202}rek (savory pastries).")
  ]

  /** The places used to pad the list to four entries. */
  const Recommended: seq<Dining> := [
    AnkaraTava,
    Dining("Kalbur Et Lokantas\U{192}\U{B1}", "Traditional", "Turkish",
      "Famous for high-quality meat dishes and traditional Turkish cuisine in a cozy atmosphere."),
    Dining("Trilye", "Fine Dining", "Seafood",
      "One of Ankara's most prestigious seafood restaurants, offering fresh fish and Mediterranean flavors."),
    Dining("Hac\U{192}\U{B1} Arif Bey", "Traditional", "Turkish",
      "A local favorite serving authentic Ottoman and Turkish cuisine with traditional recipes.")
  ]

  /** The dishes used to pad the list to six entries. */
  const PopularDishes: seq<Dining> := [
    Dining("Iskender Kebab", "Traditional", "Turkish",
      "Thinly sliced d\U{221A}\U{2202}ner kebab meat served over pieces of bread with yogurt, tomato sauce, and melted butter."),
    Dining("Adana Kebab", "Traditional", "Turkish",
      "Spicy minced meat kebab mounted on a wide iron skewer and grilled over charcoal.")
  ]

  const DishKeywords: seq<string> := [
    "kebab", "d\U{221A}\U{2202}ner", "k\U{221A}\U{2202}fte", "pide", "baklava", "b\U{221A}\U{2202}rek", "manti",
    "lahmacun", "simit", "dolma", "\U{221A}\U{DF}\U{221A}\U{2202}p \U{2248}\U{FC}i\U{2248}\U{FC}", "tandir", "tava"
  ]

  /** Bold terms whose name mentions one of these are category headers, not places. */
  const HeaderWords: seq<string> := ["high-end", "mid-range", "budget", "restaurants", "markets"]

  // ---------------------------------------------------------------------------------------
  // Tier 1: known places mentioned by name

  /** The known places whose lower-cased name the lower-cased text contains, in table order. */
  function MentionedPlaces(text: string, places: seq<Dining>): (r: seq<Dining>)
    ensures |r| <= |places|
    ensures forall d :: d in r <==> d in places && Mentions(text, Lower(d.name))
  {
    if |places| == 0 then []
    else
      var rest := MentionedPlaces(text, places[1..]);
      assert forall d :: d in places <==> d == places[0] || d in places[1..];
      if Mentions(text, Lower(places[0].name)) then [places[0]] + rest else rest
  }

  // ---------------------------------------------------------------------------------------
  // Tier 2: `**name**: description` terms, the regex `\*\*(.*?)\*\*\s*:?\s*(.*?)` with the
  // lookahead `\n\s*\*\*|\n\s*$|$` and the `g` and `s` flags.

  /** The two captures of one regex match and where the match ends. */
  datatype RawMatch = RawMatch(first: string, second: string, end: nat)

  /** The lookahead that ends the lazy description: a line that starts (after blanks) with
      `**`, trailing blank lines, or the end of the text. */
  predicate BoldStop(s: string, j: nat)
  {
    j == |s|
    || (j < |s| && s[j] == '\n'
        && var k := j + 1 + SpaceRun(JavaScript, s, j + 1);
        && (k == |s| || OccursAt(s, "**", k)))
  }

  function FirstBoldStop(s: string, from: nat): (j: nat)
    requires from <= |s|
    ensures from <= j <= |s| && BoldStop(s, j)
    ensures forall k :: from <= k < j ==> !BoldStop(s, k)
    decreases |s| - from
  {
    if BoldStop(s, from) then from else FirstBoldStop(s, from + 1)
  }

  /** Where the description starts after the closing `**` at `q - 2`: greedy blanks, an
      optional colon, greedy blanks. */
  function DescriptionStart(s: string, q: nat): (g: nat)
    requires q <= |s|
    ensures q <= g <= |s|
  {
    var a := q + SpaceRun(JavaScript, s, q);
    var b := if a < |s| && s[a] == ':' then a + 1 else a;
    b + SpaceRun(JavaScript, s, b)
  }

  /** The next match at or after `from`. The name is everything up to the first closing `**`,
      so it never holds `**` itself; when no closing `**` follows the first opening one, none
      follows any later one either, and the scan is over. */
  function NextBoldTerm(s: string, from: nat): (r: Option<RawMatch>)
    ensures r.Some? ==> from < r.value.end <= |s|
    ensures r.Some? ==> !Contains(r.value.first, "**")
  {
    match FindFrom(s, "**", from)
    case None => None
    case Some(p) =>
      match FindFrom(s, "**", p + 2)
      case None => None
      case Some(c) =>
        NoOccurrenceInSlice(s, "**", p + 2, c);
        var g := DescriptionStart(s, c + 2);
        var j := FirstBoldStop(s, g);
        Some(RawMatch(s[p + 2..c], s[g..j], j))
  }

  /** All matches of the global scan from `from` on. */
  function BoldTerms(s: string, from: nat): (r: seq<RawMatch>)
    ensures forall m :: m in r ==> !Contains(m.first, "**")
    decreases |s| - from
  {
    match NextBoldTerm(s, from)
    case None => []
    case Some(m) => [m] + BoldTerms(s, m.end)
  }

  function TermCategory(description: string): string
  {
    if Mentions(description, "street food") then "Street Food"
    else if Mentions(description, "market") then "Food Market"
    else if Mentions(description, "fine dining") then "Fine Dining"
    else "Restaurant"
  }

  function TermCuisine(description: string): string
  {
    if Mentions(description, "seafood") then "Seafood"
    else if Mentions(description, "kebab") || Mentions(description, "turkish") then "Turkish"
    else "Local cuisine"
  }

  /** One bold term as a place, unless its name is a category header. */
  function TermPlace(m: RawMatch): (r: Option<Dining>)
    ensures r.Some? <==> !MentionsAny(JsTrim(m.first), HeaderWords)
    ensures r.Some? ==> r.value.name == JsTrim(m.first) && r.value.description == JsTrim(m.second)
  {
    var name := JsTrim(m.first);
    var description := JsTrim(m.second);
    if MentionsAny(name, HeaderWords) then None
    else Some(Dining(name, TermCategory(description), TermCuisine(description), description))
  }

  function TermPlaces(ms: seq<RawMatch>): (r: seq<Dining>)
    ensures |r| <= |ms|
    ensures forall d :: d in r ==> !MentionsAny(d.name, HeaderWords)
  {
    if |ms| == 0 then []
    else
      var rest := TermPlaces(ms[1..]);
      match TermPlace(ms[0])
      case Some(d) => [d] + rest
      case None => rest
  }

  // ---------------------------------------------------------------------------------------
  // Tier 3: dish lines, the regex `((?:[A-Z][a-z]+ )+)(?:\(.*?\))?\s*[:‚Äì-]\s*([^:]*?)(?=\n|$)`
  // with the `g` and `m` flags, searched with its backtracking order.

  /** The delimiter class: a colon, a hyphen, and the three characters the en dash became. */
  predicate IsDelim(c: char)
  {
    c == ':' || c == '\U{201A}' || c == '\U{C4}' || c == '\U{EC}' || c == '-'
  }

  /** `$` under the `m` flag, or a newline: the end of the text or a line terminator. */
  predicate LineEnd(s: string, j: nat)
  {
    j == |s| || (j < |s| && IsLineTerminator(s[j]))
  }

  function LowerRun(s: string, i: nat): (n: nat)
    ensures i <= |s| ==> i + n <= |s|
    ensures forall k :: i <= k < i + n ==> k < |s| && IsAsciiLower(s[k])
    decreases |s| - i
  {
    if i < |s| && IsAsciiLower(s[i]) then 1 + LowerRun(s, i + 1) else 0
  }

  /** One `[A-Z][a-z]+ ` word at `i`: where it ends. */
  function WordEnd(s: string, i: nat): (r: Option<nat>)
    ensures r.Some? ==> i + 3 <= r.value <= |s| && IsAsciiUpper(s[i])
    ensures r.Some? ==> forall k :: i <= k < r.value ==> IsAsciiLetter(s[k]) || s[k] == ' '
  {
    if i < |s| && IsAsciiUpper(s[i]) then
      var n := LowerRun(s, i + 1);
      if n > 0 && i + 1 + n < |s| && s[i + 1 + n] == ' ' then Some(i + 2 + n) else None
    else None
  }

  /** The first line end at or after `g`. */
  function LineEndFrom(s: string, g: nat): (j: nat)
    requires g <= |s|
    ensures g <= j <= |s| && LineEnd(s, j)
    ensures forall k :: g <= k < j ==> !LineEnd(s, k)
    decreases |s| - g
  {
    if LineEnd(s, g) then g else LineEndFrom(s, g + 1)
  }

  predicate NoColon(s: string, g: nat, j: nat)
    requires g <= j <= |s|
  {
    forall k :: g <= k < j ==> s[k] != ':'
  }

  /** `\s*([^:]*?)(?=\n|$)` after the delimiter at `b - 1`: the blank run is tried longest
      first (`k` blanks), and the lazy description must reach a line end without a colon. */
  function Description(s: string, b: nat, k: nat): (r: Option<(nat, nat)>)
    requires b + k <= |s|
    ensures r.Some? ==> b <= r.value.0 <= r.value.1 <= |s|
    ensures r.Some? ==> LineEnd(s, r.value.1) && NoColon(s, r.value.0, r.value.1)
    decreases k
  {
    var g := b + k;
    var j := LineEndFrom(s, g);
    if NoColon(s, g, j) then Some((g, j))
    else if k == 0 then None
    else Description(s, b, k - 1)
  }

  /** `\s*[:‚Äì-]` then the description, from `q`. The class holds no blank, so only the
      longest blank run can be followed by a delimiter. */
  function AfterParen(s: string, q: nat): (r: Option<(nat, nat)>)
    requires q <= |s|
    ensures r.Some? ==> q < r.value.0 <= r.value.1 <= |s|
  {
    var d := q + SpaceRun(JavaScript, s, q);
    if d < |s| && IsDelim(s[d]) then Description(s, d + 1, SpaceRun(JavaScript, s, d + 1)) else None
  }

  /** The lazy `\(.*?\)`, its body scanned from `k`: each `)` on the line is tried as the
      closing one in turn. */
  function ParenTail(s: string, k: nat): (r: Option<(nat, nat)>)
    requires k <= |s|
    ensures r.Some? ==> k < r.value.0 <= r.value.1 <= |s|
    decreases |s| - k
  {
    if k == |s| || IsLineTerminator(s[k]) then None
    else if s[k] == ')' then
      match AfterParen(s, k + 1)
      case Some(r) => Some(r)
      case None => ParenTail(s, k + 1)
    else ParenTail(s, k + 1)
  }

  /** Everything after the words ending at `e`: the optional parenthesis is tried first. */
  function DishTail(s: string, e: nat): (r: Option<(nat, nat)>)
    requires e <= |s|
    ensures r.Some? ==> e < r.value.0 <= r.value.1 <= |s|
  {
    var withParen := if e < |s| && s[e] == '(' then ParenTail(s, e + 1) else None;
    if withParen.Some? then withParen else AfterParen(s, e)
  }

  /** The greedy `(?:[A-Z][a-z]+ )+` after its words up to `e`: more words first, then the
      tail after `e`. Yields the end of the first capture and the second capture's bounds. */
  function DishWords(s: string, e: nat): (r: Option<(nat, nat, nat)>)
    requires e <= |s|
    ensures r.Some? ==> e <= r.value.0 < r.value.1 <= r.value.2 <= |s|
    ensures r.Some? ==> forall k :: e <= k < r.value.0 ==> IsAsciiLetter(s[k]) || s[k] == ' '
    decreases |s| - e
  {
    var longer := match WordEnd(s, e)
      case Some(e') => DishWords(s, e')
      case None => None;
    if longer.Some? then longer
    else match DishTail(s, e)
      case Some((g, j)) => Some((e, g, j))
      case None => None
  }

  /** A dish-line match starting at `p`. */
  function DishAt(s: string, p: nat): (r: Option<(nat, nat, nat)>)
    ensures r.Some? ==> p + 3 <= r.value.0 < r.value.1 <= r.value.2 <= |s|
    ensures r.Some? ==> IsAsciiUpper(s[p])
    ensures r.Some? ==> forall k :: p <= k < r.value.0 ==> IsAsciiLetter(s[k]) || s[k] == ' '
  {
    match WordEnd(s, p)
    case None => None
    case Some(e1) => DishWords(s, e1)
  }

  /** The first dish-line match at or after `from`. */
  function NextDish(s: string, from: nat): (r: Option<RawMatch>)
    ensures r.Some? ==> from < r.value.end <= |s|
    ensures r.Some? ==> |r.value.first| >= 3 && IsAsciiUpper(r.value.first[0])
    ensures r.Some? ==> forall k :: 0 <= k < |r.value.first| ==>
                          IsAsciiLetter(r.value.first[k]) || r.value.first[k] == ' '
    decreases |s| - from
  {
    if from >= |s| then None
    else match DishAt(s, from)
      case Some((e, g, j)) => Some(RawMatch(s[from..e], s[g..j], j))
      case None => NextDish(s, from + 1)
  }

  function DishMatches(s: string, from: nat): (r: seq<RawMatch>)
    ensures forall m :: m in r ==> |m.first| >= 3 && IsAsciiUpper(m.first[0])
    ensures forall m :: m in r ==> forall k :: 0 <= k < |m.first| ==>
                                     IsAsciiLetter(m.first[k]) || m.first[k] == ' '
    decreases |s| - from
  {
    match NextDish(s, from)
    case None => []
    case Some(m) => [m] + DishMatches(s, m.end)
  }

  /** A trimmed capture of capitalised words keeps its capital first letter and holds only
      letters and blanks. */
  lemma TrimWords(w: string)
    requires |w| > 0 && IsAsciiUpper(w[0])
    requires forall k :: 0 <= k < |w| ==> IsAsciiLetter(w[k]) || w[k] == ' '
    ensures var t := JsTrim(w);
            |t| > 0 && IsAsciiUpper(t[0]) && forall k :: 0 <= k < |t| ==> IsAsciiLetter(t[k]) || t[k] == ' '
  {
    assert SpaceRun(JavaScript, w, 0) == 0;
    assert w[0] == w[0..1][0];
    assert !AllSpace(JavaScript, w[0..]);
  }

  function DishPlaces(ms: seq<RawMatch>): (r: seq<Dining>)
    requires forall m :: m in ms ==> |m.first| >= 3 && IsAsciiUpper(m.first[0])
    requires forall m :: m in ms ==> forall k :: 0 <= k < |m.first| ==>
                                       IsAsciiLetter(m.first[k]) || m.first[k] == ' '
    ensures |r| <= |ms|
    ensures forall d :: d in r ==> d.category == "Local Dish" && d.cuisine == "Turkish"
    ensures forall d :: d in r ==> |d.name| >= 3 && IsAsciiUpper(d.name[0])
    ensures forall d :: d in r ==> !Mentions(d.name, "restaurant") && !Mentions(d.name, "market")
  {
    if |ms| == 0 then []
    else
      var rest := DishPlaces(ms[1..]);
      var name := JsTrim(ms[0].first);
      TrimWords(ms[0].first);
      if |name| < 3 || Mentions(name, "restaurant") || Mentions(name, "market") then rest
      else [Dining(name, "Local Dish", "Turkish", JsTrim(ms[0].second))] + rest
  }

  // ---------------------------------------------------------------------------------------
  // Tier 4: dish keywords

  function Truncate(s: string, n: nat): (r: string)
    ensures |r| <= n && |r| <= |s| && r == s[..|r|]
    ensures |s| <= n ==> r == s
  {
    if |s| <= n then s else s[..n]
  }

  function FirstMentioning(ps: seq<string>, w: string): (r: Option<string>)
    ensures r.Some? ==> r.value in ps && Mentions(r.value, w)
    ensures r.None? ==> forall p :: p in ps ==> !Mentions(p, w)
  {
    if |ps| == 0 then None
    else if Mentions(ps[0], w) then Some(ps[0])
    else FirstMentioning(ps[1..], w)
  }

  /** One entry per keyword the text mentions (in keyword order), described by the first
      blank-line-separated paragraph that mentions it, cut to 150 characters. */
  function KeywordPlaces(text: string, keywords: seq<string>): (r: seq<Dining>)
    ensures |r| <= |keywords|
    ensures forall d :: d in r ==> exists w :: w in keywords && Mentions(text, w) && d.name == Capitalize(w)
    ensures forall d :: d in r ==> |d.description| <= 150 && d.category == "Local Dish"
  {
    if |keywords| == 0 then []
    else
      var w := keywords[0];
      var rest := KeywordPlaces(text, keywords[1..]);
      if Mentions(text, w) then
        match FirstMentioning(Split(text, "\n\n"), w)
        case Some(p) => [Dining(Capitalize(w), "Local Dish", "Turkish", Truncate(p, 150))] + rest
        case None => rest
      else rest
  }

  // ---------------------------------------------------------------------------------------
  // Padding

  predicate HasName(ds: seq<Dining>, name: string)
  {
    exists i :: 0 <= i < |ds| && ds[i].name == name
  }

  /** The loop over a padding list: add each entry whose name is absent, and stop as soon as
      the list has `target` entries. */
  function PadWith(ds: seq<Dining>, extra: seq<Dining>, target: nat): (r: seq<Dining>)
    ensures |ds| <= |r| <= |ds| + |extra| && r[..|ds|] == ds
    ensures forall i :: |ds| <= i < |r| ==> r[i] in extra && !HasName(r[..i], r[i].name)
    ensures |ds| < target ==> |r| <= target
    ensures |r| >= target || forall e :: e in extra ==> HasName(r, e.name)
    decreases |extra|
  {
    if |extra| == 0 then ds
    else
      var e := extra[0];
      var ds' := if HasName(ds, e.name) then ds else ds + [e];
      assert HasName(ds', e.name) by {
        if !HasName(ds, e.name) { assert ds'[|ds|].name == e.name; }
      }
      if |ds'| >= target then ds'
      else
        var r := PadWith(ds', extra[1..], target);
        assert r[..|ds'|] == ds';
        assert forall i :: 0 <= i < |ds'| ==> r[i] == ds'[i];
        assert HasName(r, e.name) by {
          var i :| 0 <= i < |ds'| && ds'[i].name == e.name;
          assert r[i].name == e.name;
        }
        assert forall x :: x in extra ==> x == e || x in extra[1..];
        r
  }

  /** `if (dining.length < target)` around the loop. */
  function Pad(ds: seq<Dining>, extra: seq<Dining>, target: nat): (r: seq<Dining>)
    ensures |ds| <= |r| && r[..|ds|] == ds
    ensures forall i :: |ds| <= i < |r| ==> r[i] in extra && !HasName(r[..i], r[i].name)
    ensures |ds| >= target ==> r == ds
    ensures |ds| < target ==> |r| <= target
    ensures |r| >= target || forall e :: e in extra ==> HasName(r, e.name)
  {
    if |ds| < target then PadWith(ds, extra, target) else ds
  }

  /** The names appearing in a list. */
  function Names(ds: seq<Dining>): set<string>
  {
    set i | 0 <= i < |ds| :: ds[i].name
  }

  lemma {:induction false} NamesBound(ds: seq<Dining>)
    ensures |Names(ds)| <= |ds|
    decreases |ds|
  {
    if |ds| > 0 {
      var front := ds[..|ds| - 1];
      NamesBound(front);
      assert Names(ds) == Names(front) + {ds[|ds| - 1].name} by {
        forall n | n in Names(ds) ensures n in Names(front) + {ds[|ds| - 1].name} {
          var i :| 0 <= i < |ds| && ds[i].name == n;
          if i < |ds| - 1 { assert front[i].name == n; }
        }
        forall n | n in Names(front) ensures n in Names(ds) {
          var i :| 0 <= i < |front| && front[i].name == n;
          assert ds[i].name == n;
        }
      }
    }
  }

  /** Padding with a list of distinct names reaches the target when the list is long enough. */
  lemma PadReaches(ds: seq<Dining>, extra: seq<Dining>, target: nat)
    requires |Names(extra)| >= target
    ensures |Pad(ds, extra, target)| >= target
  {
    var r := Pad(ds, extra, target);
    if |r| < target {
      forall n | n in Names(extra) ensures n in Names(r) {
        var i :| 0 <= i < |extra| && extra[i].name == n;
        assert extra[i] in extra;
        assert HasName(r, n);
      }
    }
    NamesBound(r);
    SubsetCard(Names(extra), Names(r));
  }

  lemma SubsetCard(a: set<string>, b: set<string>)
    ensures a <= b ==> |a| <= |b|
  {
    if a <= b {
      assert b == a + (b - a);
    }
  }

  /** The recommended places carry four distinct names. */
  lemma RecommendedNames()
    ensures |Names(Recommended)| == 4
  {
    var ns := Names(Recommended);
    assert ns == {Recommended[0].name, Recommended[1].name, Recommended[2].name, Recommended[3].name} by {
      forall n | n in ns ensures n in {Recommended[0].name, Recommended[1].name, Recommended[2].name, Recommended[3].name} {
        var i :| 0 <= i < 4 && Recommended[i].name == n;
      }
    }
    assert Recommended[0].name[0] == 'A' && Recommended[1].name[0] == 'K';
    assert Recommended[2].name[0] == 'T' && Recommended[3].name[0] == 'H';
  }

  // ---------------------------------------------------------------------------------------
  // The whole parser

  /** What the tiers extract before padding: the known places the text names win, in table
      order; a later tier is tried only when the earlier ones find nothing, and a text that
      mentions a dish keyword or "tava" never ends up with nothing. */
  function Extracted(text: string): (r: seq<Dining>)
    ensures (exists d :: d in KnownPlaces && Mentions(text, Lower(d.name))) ==> r == MentionedPlaces(text, KnownPlaces)
    ensures |KeywordPlaces(text, DishKeywords)| > 0 ==> |r| > 0
    ensures Mentions(text, "tava") ==> |r| > 0
  {
    var known := MentionedPlaces(text, KnownPlaces);
    var found :=
      if |known| > 0 then known
      else
        var terms := TermPlaces(BoldTerms(text, 0));
        if |terms| > 0 then terms else DishPlaces(DishMatches(text, 0));
    var keyworded := if |found| == 0 then KeywordPlaces(text, DishKeywords) else found;
    if |keyworded| == 0 && Mentions(text, "tava") then [AnkaraTava] else keyworded
  }

  /** Padding the extracted entries first from the recommended places, then from the
      popular dishes. */
  function PadBoth(e: seq<Dining>): (r: seq<Dining>)
    ensures |r| >= 4 && |r| <= (if |e| > 6 then |e| else 6)
    ensures |e| <= |r| && r[..|e|] == e
    ensures forall i :: |e| <= i < |r| ==>
              (r[i] in Recommended || r[i] in PopularDishes) && !HasName(r[..i], r[i].name)
  {
    PadBothSize(e);
    PadBothAdded(e);
    Pad(Pad(e, Recommended, 4), PopularDishes, 6)
  }

  /** Both paddings together reach four and stop at six, after the extracted entries. */
  lemma PadBothSize(e: seq<Dining>)
    ensures var r := Pad(Pad(e, Recommended, 4), PopularDishes, 6);
            |r| >= 4 && |r| <= (if |e| > 6 then |e| else 6) && |e| <= |r| && r[..|e|] == e
  {
    var four := Pad(e, Recommended, 4);
    RecommendedNames();
    PadReaches(e, Recommended, 4);
    var six := Pad(four, PopularDishes, 6);
    assert six[..|e|] == four[..|e|];
  }

  /** Every entry either padding adds comes from its list and bears a name not yet present. */
  lemma PadBothAdded(e: seq<Dining>)
    ensures var r := Pad(Pad(e, Recommended, 4), PopularDishes, 6);
            forall i :: |e| <= i < |r| ==>
              (r[i] in Recommended || r[i] in PopularDishes) && !HasName(r[..i], r[i].name)
  {
    var four := Pad(e, Recommended, 4);
    var six := Pad(four, PopularDishes, 6);
    forall i | |e| <= i < |six|
      ensures (six[i] in Recommended || six[i] in PopularDishes) && !HasName(six[..i], six[i].name)
    {
      if i < |four| {
        PadKeepsFront(four, PopularDishes, 6, i);
      }
    }
  }

  /** Padding leaves the entries already present, and everything before them, in place. */
  lemma PadKeepsFront(ds: seq<Dining>, extra: seq<Dining>, target: nat, i: nat)
    requires i < |ds|
    ensures var r := Pad(ds, extra, target);
            i < |r| && r[i] == ds[i] && r[..i] == ds[..i]
  {
    var r := Pad(ds, extra, target);
    assert r[..|ds|] == ds;
    assert r[..i] == r[..|ds|][..i];
  }

  /** `parseDiningFromResponse(foodText)`: nothing for a missing or empty text; otherwise the
      extracted entries, unchanged and first, padded to at least four and at most six entries
      (or as many as were extracted), every added entry bearing a name not yet in the list. */
  function ParseDining(foodText: Option<string>): (r: seq<Dining>)
    ensures foodText.None? || foodText == Some("") ==> r == []
    ensures foodText.Some? && foodText.value != "" ==>
              var e := Extracted(foodText.value);
              && |r| >= 4
              && |r| <= (if |e| > 6 then |e| else 6)
              && |e| <= |r| && r[..|e|] == e
              && forall i :: |e| <= i < |r| ==>
                   (r[i] in Recommended || r[i] in PopularDishes) && !HasName(r[..i], r[i].name)
  {
    if foodText.None? || foodText.value == "" then [] else PadBoth(Extracted(foodText.value))
  }
}

=== FILE: itinerary_days.dfy ===
/**
 The heading-based segmenter of the itinerary narrative. A day section starts at
 `## Day <digits>:` and runs to the next such heading or the end of the text; a
 period section starts at `### Morning:`, `### Afternoon:` or `### Evening:` and runs
 to the next `### <word>:` heading of any kind, or the end of the day's text.
 These are the `(.*?)(?=…|$)` regexes with the `g` and `s` flags and `$` meaning end
 of input.
 */
module Segmenter {
  import opened Optional
  import opened Strings

  datatype Level = DayLevel | PeriodLevel

  const PeriodNames: seq<string> := ["Morning", "Afternoon", "Evening"]

  /** A matched heading: its captured title and the index just after its colon. */
  datatype Head = Head(title: string, end: nat)

  /** A section: the heading's title and the untrimmed body after it. */
  datatype Section = Section(title: string, body: string)

  /** Number of consecutive `\w` characters from `i` on. */
  function WordRun(s: string, i: nat): (n: nat)
    ensures i <= |s| ==> i + n <= |s|
    ensures forall k :: i <= k < i + n ==> k < |s| && IsWordChar(s[k])
    ensures i + n < |s| ==> !IsWordChar(s[i + n])
    decreases |s| - i
  {
    if i < |s| && IsWordChar(s[i]) then 1 + WordRun(s, i + 1) else 0
  }

  /** `## Day (\d+):` matches at `p`. */
  function DayHeadAt(s: string, p: nat): (r: Option<Head>)
    ensures r.Some? ==> OccursAt(s, "## Day ", p) && p + 8 <= r.value.end <= |s| && s[r.value.end - 1] == ':'
    ensures r.Some? ==> |r.value.title| > 0 && forall i :: 0 <= i < |r.value.title| ==> IsDigit(r.value.title[i])
  {
    if OccursAt(s, "## Day ", p) then
      var n := DigitRun(s, p + 7);
      if n > 0 && p + 7 + n < |s| && s[p + 7 + n] == ':' then Some(Head(s[p + 7..p + 7 + n], p + 8 + n))
      else None
    else None
  }

  /** The first of `Morning`, `Afternoon`, `Evening` (in that order) that, followed by a
      colon, occurs at `i`. */
  function PeriodNameAt(s: string, i: nat): (r: Option<string>)
    ensures r.Some? ==> r.value in PeriodNames && OccursAt(s, r.value, i)
    ensures r.Some? ==> i + |r.value| < |s| && s[i + |r.value|] == ':'
    ensures r.Some? ==> forall k :: 0 <= k < |r.value| ==> IsWordChar(r.value[k]) && r.value[k] != '#'
  {
    if OccursAt(s, "Morning:", i) then
      OccursAtAppend(s, "Morning", ":", i);
      OccursAtChars(s, ":", i + 7);
      Some("Morning")
    else if OccursAt(s, "Afternoon:", i) then
      OccursAtAppend(s, "Afternoon", ":", i);
      OccursAtChars(s, ":", i + 9);
      Some("Afternoon")
    else if OccursAt(s, "Evening:", i) then
      OccursAtAppend(s, "Evening", ":", i);
      OccursAtChars(s, ":", i + 7);
      Some("Evening")
    else None
  }

  /** `### (Morning|Afternoon|Evening):` matches at `p`. */
  function PeriodHeadAt(s: string, p: nat): (r: Option<Head>)
    ensures r.Some? ==> OccursAt(s, "### ", p) && r.value.title in PeriodNames
    ensures r.Some? ==> r.value.end == p + 4 + |r.value.title| + 1 <= |s|
    ensures r.Some? ==> PeriodNameAt(s, p + 4) == Some(r.value.title)
  {
    if OccursAt(s, "### ", p) then
      match PeriodNameAt(s, p + 4)
      case Some(name) => Some(Head(name, p + 4 + |name| + 1))
      case None => None
    else None
  }

  function HeadAt(level: Level, s: string, p: nat): Option<Head>
  {
    match level
    case DayLevel => DayHeadAt(s, p)
    case PeriodLevel => PeriodHeadAt(s, p)
  }

  /** Where the lazy body stops: the lookahead `## Day \d+:` for days, `### \w+:` for periods. */
  predicate StopAt(level: Level, s: string, q: nat)
  {
    match level
    case DayLevel => DayHeadAt(s, q).Some?
    case PeriodLevel =>
      && OccursAt(s, "### ", q)
      && var n := WordRun(s, q + 4);
      && n > 0 && q + 4 + n < |s| && s[q + 4 + n] == ':'
  }

  /** Every heading is also a place where a body stops. */
  lemma HeadIsStop(level: Level, s: string, p: nat)
    ensures HeadAt(level, s, p).Some? ==> StopAt(level, s, p)
  {
    if level == PeriodLevel && PeriodHeadAt(s, p).Some? {
      var name := PeriodNameAt(s, p + 4).value;
      OccursAtChars(s, name, p + 4);
      assert WordRun(s, p + 4) == |name|;
    }
  }

  /** No day heading starts strictly inside another day heading. */
  lemma NoDayHeadInsideDayHead(s: string, p: nat, p': nat)
    requires DayHeadAt(s, p).Some?
    requires p < p' < DayHeadAt(s, p).value.end
    ensures DayHeadAt(s, p').None?
  {
    OccursAtChars(s, "## Day ", p);
    var k := if p' == p + 1 then 1 else 0;
    assert s[p' + k] != '#';
    NotOccursAt(s, "## Day ", p', k);
  }

  /** No period heading starts strictly inside another period heading. */
  lemma NoPeriodHeadInsidePeriodHead(s: string, p: nat, p': nat)
    requires PeriodHeadAt(s, p).Some?
    requires p < p' < PeriodHeadAt(s, p).value.end
    ensures PeriodHeadAt(s, p').None?
  {
    OccursAtChars(s, "### ", p);
    var name := PeriodNameAt(s, p + 4).value;
    OccursAtChars(s, name, p + 4);
    var k := if p' == p + 1 then 2 else if p' == p + 2 then 1 else 0;
    if p' <= p + 3 {
      assert s[p' + k] == s[p + 3] == ' ';
    } else if p' < p + 4 + |name| {
      assert s[p' + k] == name[p' - p - 4];
    } else {
      assert s[p' + k] == ':';
    }
    NotOccursAt(s, "### ", p', k);
  }

  /** No heading starts strictly inside another heading of the same level. */
  lemma NoHeadInsideHead(level: Level, s: string, p: nat, p': nat)
    requires HeadAt(level, s, p).Some?
    requires p < p' < HeadAt(level, s, p).value.end
    ensures HeadAt(level, s, p').None?
  {
    match level
    case DayLevel => NoDayHeadInsideDayHead(s, p, p');
    case PeriodLevel => NoPeriodHeadInsidePeriodHead(s, p, p');
  }

  /** First heading position at or after `from`. */
  function FirstHead(level: Level, s: string, from: nat): (r: Option<nat>)
    ensures r.Some? ==> from <= r.value < |s| && HeadAt(level, s, r.value).Some?
    ensures r.Some? ==> forall j :: from <= j < r.value ==> HeadAt(level, s, j).None?
    ensures r.None? ==> forall j :: from <= j < |s| ==> HeadAt(level, s, j).None?
    decreases |s| - from
  {
    if from >= |s| then None
    else if HeadAt(level, s, from).Some? then Some(from)
    else FirstHead(level, s, from + 1)
  }

  /** First stop position at or after `from`, or the end of the text (the `$` alternative). */
  function FirstStop(level: Level, s: string, from: nat): (q: nat)
    requires from <= |s|
    ensures from <= q <= |s|
    ensures forall j :: from <= j < q ==> !StopAt(level, s, j)
    ensures q < |s| ==> StopAt(level, s, q)
    decreases |s| - from
  {
    if from == |s| || StopAt(level, s, from) then from
    else FirstStop(level, s, from + 1)
  }

  /** All heading positions at or after `from`, ascending: an independent description of
      what the global regex scan finds. */
  function HeadPositions(level: Level, s: string, from: nat): (r: seq<nat>)
    ensures forall i :: 0 <= i < |r| ==> from <= r[i] < |s| && HeadAt(level, s, r[i]).Some?
    decreases |s| - from
  {
    if from >= |s| then []
    else if HeadAt(level, s, from).Some? then [from] + HeadPositions(level, s, from + 1)
    else HeadPositions(level, s, from + 1)
  }

  lemma {:induction false} HeadPositionsSkip(level: Level, s: string, a: nat, b: nat)
    requires a <= b
    requires forall j :: a <= j < b ==> HeadAt(level, s, j).None?
    ensures HeadPositions(level, s, a) == HeadPositions(level, s, b)
    decreases b - a
  {
    if a < b {
      HeadPositionsSkip(level, s, a + 1, b);
    }
  }

  lemma {:induction false} HeadPositionsNone(level: Level, s: string, a: nat)
    requires forall j :: a <= j < |s| ==> HeadAt(level, s, j).None?
    ensures HeadPositions(level, s, a) == []
    decreases |s| - a
  {
    if a < |s| {
      HeadPositionsNone(level, s, a + 1);
    }
  }

  /** The section that the heading at `p` opens: its title, and as body the longest stretch
      from its colon on that holds no stop, which ends at a stop or at the end of the text. */
  function SectionAt(level: Level, s: string, p: nat): (r: Section)
    requires HeadAt(level, s, p).Some?
    ensures var h := HeadAt(level, s, p).value;
            && r.title == h.title
            && h.end + |r.body| <= |s| && r.body == s[h.end..h.end + |r.body|]
            && (forall j :: h.end <= j < h.end + |r.body| ==> !StopAt(level, s, j))
            && (h.end + |r.body| == |s| || StopAt(level, s, h.end + |r.body|))
  {
    var h := HeadAt(level, s, p).value;
    Section(h.title, s[h.end..FirstStop(level, s, h.end)])
  }

  /** The heading positions from `from` on are the first heading, then those from the end
      of its section on. */
  lemma HeadPositionsStep(level: Level, s: string, from: nat)
    requires FirstHead(level, s, from).Some?
    ensures var p := FirstHead(level, s, from).value;
            var q := FirstStop(level, s, HeadAt(level, s, p).value.end);
            HeadPositions(level, s, from) == [p] + HeadPositions(level, s, q)
  {
    var p := FirstHead(level, s, from).value;
    var q := FirstStop(level, s, HeadAt(level, s, p).value.end);
    HeadPositionsSkip(level, s, from, p);
    NoHeadInSection(level, s, p);
    HeadPositionsSkip(level, s, p + 1, q);
    assert HeadPositions(level, s, p) == [p] + HeadPositions(level, s, p + 1);
  }

  /** No heading starts inside a section: not within its heading, and not before its stop. */
  lemma NoHeadInSection(level: Level, s: string, p: nat)
    requires HeadAt(level, s, p).Some?
    ensures var q := FirstStop(level, s, HeadAt(level, s, p).value.end);
            p + 1 <= q && forall j :: p + 1 <= j < q ==> HeadAt(level, s, j).None?
  {
    var h := HeadAt(level, s, p).value;
    var q := FirstStop(level, s, h.end);
    forall j | p + 1 <= j < q
      ensures HeadAt(level, s, j).None?
    {
      if j < h.end {
        NoHeadInsideHead(level, s, p, j);
      } else {
        HeadIsStop(level, s, j);
      }
    }
  }

  /** The sections the global regex finds from `from` on, in text order: one per heading
      position, opened by that heading. */
  function Sections(level: Level, s: string, from: nat): (r: seq<Section>)
    requires from <= |s|
    ensures var hs := HeadPositions(level, s, from);
            |r| == |hs| && forall i :: 0 <= i < |r| ==> r[i] == SectionAt(level, s, hs[i])
    decreases |s| - from
  {
    match FirstHead(level, s, from)
    case None =>
      HeadPositionsNone(level, s, from);
      []
    case Some(p) =>
      HeadPositionsStep(level, s, from);
      var h := HeadAt(level, s, p).value;
      [SectionAt(level, s, p)] + Sections(level, s, FirstStop(level, s, h.end))
  }
}

/**
 `parseDaysFromItinerary`: the line classifier, activity extraction per period, and the
 placeholder days used when the narrative has no day headings.
 */
module ItineraryDays {
  import opened Optional
  import opened Strings
  import opened Segmenter

  datatype ActivityKind = Activity | Dining | Transportation | Cost | Duration

  datatype ActivityItem = ActivityItem(time: string, kind: ActivityKind, description: string)

  datatype Day = Day(number: nat, activities: seq<ActivityItem>)

  /** The chosen kind and its label; the prefix put before a description is the label and
      one blank. */
  datatype Classification = Classification(kind: ActivityKind, tag: string)

  const DiningWords: seq<string> :=
    ["lunch", "dinner", "breakfast", "meal", "restaurant", "caf\U{221A}\U{A9}", "food", "cuisine"]
  const TransportWords: seq<string> := ["transport", "subway", "walk", "taxi", "bus", "train"]
  const CostWords: seq<string> := ["cost", "price", "fee", "$", "budget", "euro"]
  const DurationWords: seq<string> := ["duration", "time", "hours", "minutes"]

  const MealTags: seq<string> := ["Breakfast:", "Lunch:", "Dinner:", "Food:"]

  function RuleWords(k: ActivityKind): seq<string>
  {
    match k
    case Dining => DiningWords
    case Transportation => TransportWords
    case Cost => CostWords
    case Duration => DurationWords
    case Activity => []
  }

  /** Position of a kind's rule in the order the rules are tried; `Activity` is the catch-all. */
  function Rank(k: ActivityKind): nat
  {
    match k
    case Dining => 0
    case Transportation => 1
    case Cost => 2
    case Duration => 3
    case Activity => 4
  }

  /** The label of every kind but `Dining`, whose label depends on the meal. */
  function KindTag(k: ActivityKind): string
  {
    match k
    case Transportation => "Transport:"
    case Cost => "Cost:"
    case Duration => "Duration:"
    case _ => "Activity:"
  }

  function MealTag(line: string): (t: string)
    ensures t in MealTags
    ensures t == "Breakfast:" <==> Mentions(line, "breakfast")
    ensures t == "Lunch:" <==> !Mentions(line, "breakfast") && Mentions(line, "lunch")
    ensures t == "Dinner:" <==> !Mentions(line, "breakfast") && !Mentions(line, "lunch") && Mentions(line, "dinner")
  {
    if Mentions(line, "breakfast") then "Breakfast:"
    else if Mentions(line, "lunch") then "Lunch:"
    else if Mentions(line, "dinner") then "Dinner:"
    else "Food:"
  }

  /** Classify one activity line: the first rule one of whose keywords the lower-cased line
      contains wins; no match means `Activity`. */
  function Classify(line: string): (c: Classification)
    ensures c.kind == Activity || MentionsAny(line, RuleWords(c.kind))
    ensures forall k :: Rank(k) < Rank(c.kind) ==> !MentionsAny(line, RuleWords(k))
    ensures c.kind == Dining ==> c.tag in MealTags
    ensures c.kind != Dining ==> c.tag == KindTag(c.kind)
    ensures |c.tag| > 1 && IsAsciiUpper(c.tag[0]) && c.tag[|c.tag| - 1] == ':'
  {
    if MentionsAny(line, DiningWords) then Classification(Dining, MealTag(line))
    else if MentionsAny(line, TransportWords) then Classification(Transportation, "Transport:")
    else if MentionsAny(line, CostWords) then Classification(Cost, "Cost:")
    else if MentionsAny(line, DurationWords) then Classification(Duration, "Duration:")
    else Classification(Activity, "Activity:")
  }

  /** A line that mentions a keyword of some rule is classified by that rule or an earlier one. */
  lemma ClassifyPrecedence(line: string, k: ActivityKind)
    requires k != Activity && MentionsAny(line, RuleWords(k))
    ensures Rank(Classify(line).kind) <= Rank(k)
    ensures Classify(line).kind != Activity
  {
  }

  /** The dining label prefers breakfast, then lunch, then dinner, then the generic label. */
  lemma MealTagPrecedence(line: string)
    requires MentionsAny(line, DiningWords)
    ensures Mentions(line, "breakfast") ==> Classify(line).tag == "Breakfast:"
    ensures (!Mentions(line, "breakfast") && Mentions(line, "lunch")) ==> Classify(line).tag == "Lunch:"
    ensures (!Mentions(line, "breakfast") && !Mentions(line, "lunch") && Mentions(line, "dinner"))
            ==> Classify(line).tag == "Dinner:"
    ensures (!Mentions(line, "breakfast") && !Mentions(line, "lunch") && !Mentions(line, "dinner"))
            ==> Classify(line).tag == "Food:"
  {
  }

  /** The meal keyword wins over the cost keyword: "Dinner - $25 at a local bistro" is a
      dining activity labelled "Dinner:". */
  lemma DinnerCostLineIsDining()
    ensures Classify(DinnerCostLine).kind == Dining
    ensures Classify(DinnerCostLine).tag == "Dinner:"
  {
    var low := Lower(DinnerCostLine);
    assert low[0..6] == "dinner";
    assert OccursAt(low, "dinner", 0);
    assert Contains(low, DiningWords[1]);
    DinnerCostLineHasNoEarlierMeal();
  }

  const DinnerCostLine: string := "Dinner - $25 at a local bistro"

  lemma DinnerCostLineHasNoEarlierMeal()
    ensures !Mentions(DinnerCostLine, "breakfast") && !Mentions(DinnerCostLine, "lunch")
  {
    var low := Lower(DinnerCostLine);
    assert forall k :: 0 <= k < |low| ==> low[k] == LowerChar(DinnerCostLine[k]);
    assert forall k :: 0 <= k < |DinnerCostLine| ==> DinnerCostLine[k] != 'u' && DinnerCostLine[k] != 'U';
    assert forall k :: 0 <= k < |DinnerCostLine| ==> DinnerCostLine[k] != 'k' && DinnerCostLine[k] != 'K';
    forall i | 0 <= i <= |low| - 9 ensures !OccursAt(low, "breakfast", i) {
      NotOccursAt(low, "breakfast", i, 4);
    }
    forall i | 0 <= i <= |low| - 5 ensures !OccursAt(low, "lunch", i) {
      NotOccursAt(low, "lunch", i, 1);
    }
  }

  /** Strip `**` markers, then `- ` bullets, then surrounding white space. */
  function CleanLine(line: string): (r: string)
    ensures forall c | c in r :: c in line
    ensures r == [] || (!IsJsSpace(r[0]) && !IsJsSpace(r[|r| - 1]))
    ensures !Contains(line, "**") && !Contains(line, "- ") ==> r == JsTrim(line)
  {
    var a := RemoveAll(line, "**");
    var b := RemoveAll(a, "- ");
    assert forall x | x in a :: x in line by {
      forall x | x in a { RemoveAllKeepsCharacters(line, "**", x); }
    }
    assert forall x | x in b :: x in a by {
      forall x | x in b { RemoveAllKeepsCharacters(a, "- ", x); }
    }
    TrimKeepsCharacters(JavaScript, b);
    JsTrim(b)
  }

  /** The activity description: the cleaned line, with the label and a blank put in front
      unless the cleaned line already contains the label. */
  function Describe(line: string): (d: string)
    ensures var t := Classify(line).tag;
            && Contains(d, t)
            && (Contains(CleanLine(line), t) ==> d == CleanLine(line))
            && (!Contains(CleanLine(line), t) ==> d == t + " " + CleanLine(line))
  {
    var t := Classify(line).tag;
    var c := CleanLine(line);
    TrimPadded(JavaScript, t);
    PrefixTagged(t, c);
    if Contains(c, JsTrim(t + " ")) then c else t + " " + c
  }

  lemma PrefixTagged(t: string, c: string)
    ensures Contains(t + " " + c, t)
  {
    ContainsPrefixOfAppend(t, " " + c);
    assert t + " " + c == t + (" " + c);
  }

  /** A line of a period body that yields an activity: non-blank, with `**` or `-`. */
  predicate IsActivityLine(line: string)
  {
    JsTrim(line) != [] && (Contains(line, "**") || Contains(line, "-"))
  }

  function LineActivity(period: string, line: string): (a: ActivityItem)
    ensures a.time == period
    ensures a.kind != Dining ==> Contains(a.description, KindTag(a.kind))
    ensures a.kind == Dining ==> exists t :: t in MealTags && Contains(a.description, t)
  {
    var c := Classify(line);
    ActivityItem(period, c.kind, Describe(line))
  }

  /** The lines that yield an activity, in line order. */
  function ActivityLines(lines: seq<string>): (r: seq<string>)
    ensures |r| <= |lines|
    ensures forall i :: 0 <= i < |r| ==> IsActivityLine(r[i]) && r[i] in lines
    ensures forall l :: l in lines && IsActivityLine(l) ==> l in r
    decreases |lines|
  {
    if |lines| == 0 then []
    else
      var rest := ActivityLines(lines[1..]);
      if IsActivityLine(lines[0]) then [lines[0]] + rest else rest
  }

  /** `r` holds, in order, the activities the lines `q` make in the period. */
  predicate ActivitiesOf(period: string, q: seq<string>, r: seq<ActivityItem>)
  {
    |r| == |q| && forall i :: 0 <= i < |r| ==> r[i] == LineActivity(period, q[i])
  }

  /** The activities of the lines of one period: one per line that yields an activity, in
      line order, each tagged with the period. */
  function LinesActivities(period: string, lines: seq<string>): (r: seq<ActivityItem>)
    ensures ActivitiesOf(period, ActivityLines(lines), r)
    ensures forall a :: a in r ==> a.time == period
    ensures forall a :: a in r && a.kind != Dining ==> Contains(a.description, KindTag(a.kind))
    decreases |lines|
  {
    if |lines| == 0 then []
    else
      var rest := LinesActivities(period, lines[1..]);
      if IsActivityLine(lines[0]) then
        var r := [LineActivity(period, lines[0])] + rest;
        ActivitiesCons(period, lines[0], ActivityLines(lines[1..]), rest);
        r
      else rest
  }

  lemma ActivitiesCons(period: string, l: string, q: seq<string>, rest: seq<ActivityItem>)
    requires ActivitiesOf(period, q, rest)
    ensures ActivitiesOf(period, [l] + q, [LineActivity(period, l)] + rest)
  {
    var r, q' := [LineActivity(period, l)] + rest, [l] + q;
    forall i | 0 <= i < |r| ensures r[i] == LineActivity(period, q'[i]) {
      if i > 0 {
        assert r[i] == rest[i - 1] && q'[i] == q[i - 1];
      }
    }
  }

  /** Number of lines that yield an activity. */
  function CountActivityLines(lines: seq<string>): nat
  {
    if |lines| == 0 then 0
    else (if IsActivityLine(lines[0]) then 1 else 0) + CountActivityLines(lines[1..])
  }

  /** Exactly one activity per qualifying line. */
  lemma {:induction false} LinesActivitiesCount(period: string, lines: seq<string>)
    ensures |LinesActivities(period, lines)| == CountActivityLines(lines)
    decreases |lines|
  {
    if |lines| > 0 {
      LinesActivitiesCount(period, lines[1..]);
    }
  }

  /** The lines of a period's trimmed body. */
  function PeriodLines(p: Section): seq<string>
  {
    Split(JsTrim(p.body), "\n")
  }

  /** The activities one period section contributes. */
  function PeriodActivities(p: Section): seq<ActivityItem>
  {
    LinesActivities(p.title, PeriodLines(p))
  }

  /** `r` is made of the periods' activities: every activity comes from one of the periods,
      every period's activities are present, and there are none exactly when no period has a
      line that yields one. */
  predicate FromPeriods(ps: seq<Section>, r: seq<ActivityItem>)
  {
    && (forall a :: a in r ==> exists k :: 0 <= k < |ps| && a in PeriodActivities(ps[k]))
    && (forall k, a :: 0 <= k < |ps| && a in PeriodActivities(ps[k]) ==> a in r)
    && (r == [] <==> NoActivityLine(ps))
  }

  /** No period has a line that yields an activity. */
  predicate NoActivityLine(ps: seq<Section>)
  {
    forall k :: 0 <= k < |ps| ==> ActivityLines(PeriodLines(ps[k])) == []
  }

  /** The activities of one day's trimmed text: period by period, line by line, from the
      text's period sections. */
  function DayActivities(content: string): (r: seq<ActivityItem>)
    ensures forall a :: a in r ==> a.time in PeriodNames
    ensures FromPeriods(Sections(PeriodLevel, content, 0), r)
  {
    PeriodsActivities(Sections(PeriodLevel, content, 0))
  }

  /** The periods' activities one after the other. */
  function PeriodsActivities(ps: seq<Section>): (r: seq<ActivityItem>)
    requires forall i :: 0 <= i < |ps| ==> ps[i].title in PeriodNames
    ensures forall a :: a in r ==> a.time in PeriodNames
    ensures FromPeriods(ps, r)
    decreases |ps|
  {
    if |ps| == 0 then []
    else
      var rest := PeriodsActivities(ps[1..]);
      PeriodsStep(ps, PeriodActivities(ps[0]), rest);
      PeriodActivities(ps[0]) + rest
  }

  /** The first period's activities in front of the others' carry the three facts over. */
  lemma PeriodsStep(ps: seq<Section>, first: seq<ActivityItem>, rest: seq<ActivityItem>)
    requires |ps| > 0 && first == PeriodActivities(ps[0])
    requires forall a :: a in rest ==> exists k :: 0 <= k < |ps| - 1 && a in PeriodActivities(ps[1..][k])
    requires forall k, a :: 0 <= k < |ps| - 1 && a in PeriodActivities(ps[1..][k]) ==> a in rest
    requires rest == [] <==> NoActivityLine(ps[1..])
    ensures forall a :: a in first + rest ==> exists k :: 0 <= k < |ps| && a in PeriodActivities(ps[k])
    ensures forall k, a :: 0 <= k < |ps| && a in PeriodActivities(ps[k]) ==> a in first + rest
    ensures first + rest == [] <==> NoActivityLine(ps)
  {
    StepFrom(ps, first, rest);
    StepAll(ps, first, rest);
    StepEmpty(ps, first, rest);
  }

  lemma StepFrom(ps: seq<Section>, first: seq<ActivityItem>, rest: seq<ActivityItem>)
    requires |ps| > 0 && first == PeriodActivities(ps[0])
    requires forall a :: a in rest ==> exists k :: 0 <= k < |ps| - 1 && a in PeriodActivities(ps[1..][k])
    ensures forall a :: a in first + rest ==> exists k :: 0 <= k < |ps| && a in PeriodActivities(ps[k])
  {
    forall a | a in first + rest ensures exists k :: 0 <= k < |ps| && a in PeriodActivities(ps[k]) {
      if a in first {
        assert a in PeriodActivities(ps[0]);
      } else {
        var k :| 0 <= k < |ps| - 1 && a in PeriodActivities(ps[1..][k]);
        assert ps[1..][k] == ps[k + 1];
        assert a in PeriodActivities(ps[k + 1]);
      }
    }
  }

  lemma StepAll(ps: seq<Section>, first: seq<ActivityItem>, rest: seq<ActivityItem>)
    requires |ps| > 0 && first == PeriodActivities(ps[0])
    requires forall k, a :: 0 <= k < |ps| - 1 && a in PeriodActivities(ps[1..][k]) ==> a in rest
    ensures forall k, a :: 0 <= k < |ps| && a in PeriodActivities(ps[k]) ==> a in first + rest
  {
    forall k, a | 0 <= k < |ps| && a in PeriodActivities(ps[k]) ensures a in first + rest {
      if k > 0 {
        assert ps[1..][k - 1] == ps[k];
        assert a in rest;
      }
    }
  }

  lemma StepEmpty(ps: seq<Section>, first: seq<ActivityItem>, rest: seq<ActivityItem>)
    requires |ps| > 0 && first == PeriodActivities(ps[0])
    requires rest == [] <==> NoActivityLine(ps[1..])
    ensures first + rest == [] <==> NoActivityLine(ps)
  {
    NoActivitiesIff(ps[0]);
    NoActivityLineCons(ps);
    assert first + rest == [] <==> first == [] && rest == [];
  }

  lemma NoActivityLineCons(ps: seq<Section>)
    requires |ps| > 0
    ensures NoActivityLine(ps) <==> ActivityLines(PeriodLines(ps[0])) == [] && NoActivityLine(ps[1..])
  {
    if NoActivityLine(ps) {
      NoActivityLineTail(ps);
    }
    if ActivityLines(PeriodLines(ps[0])) == [] && NoActivityLine(ps[1..]) {
      NoActivityLineJoin(ps);
    }
  }

  lemma NoActivityLineTail(ps: seq<Section>)
    requires |ps| > 0 && NoActivityLine(ps)
    ensures NoActivityLine(ps[1..])
  {
    forall k | 0 <= k < |ps| - 1 ensures ActivityLines(PeriodLines(ps[1..][k])) == [] {
      assert ps[1..][k] == ps[k + 1];
    }
  }

  lemma NoActivityLineJoin(ps: seq<Section>)
    requires |ps| > 0 && ActivityLines(PeriodLines(ps[0])) == [] && NoActivityLine(ps[1..])
    ensures NoActivityLine(ps)
  {
    var tail := ps[1..];
    forall k | 0 <= k < |ps| ensures ActivityLines(PeriodLines(ps[k])) == [] {
      if k > 0 {
        assert tail[k - 1] == ps[k];
        assert ActivityLines(PeriodLines(tail[k - 1])) == [];
      }
    }
  }

  /** A period contributes no activity exactly when none of its lines yields one. */
  lemma NoActivitiesIff(p: Section)
    ensures PeriodActivities(p) == [] <==> ActivityLines(PeriodLines(p)) == []
  {
    assert ActivitiesOf(p.title, ActivityLines(PeriodLines(p)), PeriodActivities(p));
  }

  /** The three generic activities of a day without parsed activities. */
  function Placeholders(n: nat): (r: seq<ActivityItem>)
    ensures |r| == 3
    ensures r[0].time == "Morning" && r[1].time == "Afternoon" && r[2].time == "Evening"
    ensures forall i :: 0 <= i < 3 ==> r[i].kind == Activity
    ensures forall a :: a in r ==> a.time in PeriodNames
  {
    var d := "Day " + NatToString(n);
    [ ActivityItem("Morning", Activity, d + " morning activities"),
      ActivityItem("Afternoon", Activity, d + " afternoon activities"),
      ActivityItem("Evening", Activity, d + " evening activities") ]
  }

  /** The parsed activities, or the placeholders when there are none. */
  function OrPlaceholders(n: nat, acts: seq<ActivityItem>): (r: seq<ActivityItem>)
    ensures |r| > 0
    ensures |acts| > 0 ==> r == acts
    ensures |acts| == 0 ==> r == Placeholders(n)
    ensures (forall a :: a in acts ==> a.time in PeriodNames) ==> forall a :: a in r ==> a.time in PeriodNames
  {
    if |acts| == 0 then Placeholders(n) else acts
  }

  /** One matched day section: its number, and the activities of its own trimmed body, or the
      three placeholders when that body yields none. */
  function DayOf(sec: Section): (d: Day)
    requires forall i :: 0 <= i < |sec.title| ==> IsDigit(sec.title[i])
    ensures d.number == ParseDigits(sec.title) && |d.activities| > 0
    ensures forall a :: a in d.activities ==> a.time in PeriodNames
    ensures DayActivities(JsTrim(sec.body)) != [] ==> d.activities == DayActivities(JsTrim(sec.body))
    ensures DayActivities(JsTrim(sec.body)) == [] ==> d.activities == Placeholders(d.number)
  {
    var n := ParseDigits(sec.title);
    Day(n, OrPlaceholders(n, DayActivities(JsTrim(sec.body))))
  }

  /** Days `1..tripLength` with placeholder activities. */
  function DefaultDays(tripLength: int): (r: seq<Day>)
    ensures |r| == if tripLength < 0 then 0 else tripLength
    ensures forall i :: 0 <= i < |r| ==> r[i] == Day(i + 1, Placeholders(i + 1))
  {
    var n := if tripLength < 0 then 0 else tripLength;
    seq(n, i requires 0 <= i < n => Day(i + 1, Placeholders(i + 1)))
  }

  /** `parseDaysFromItinerary(text, tripLength)`: one day per `## Day N:` heading, in order,
      numbered by the heading, each built from its own section; without headings, the
      placeholder days. */
  function ParseDays(text: string, tripLength: int): (r: seq<Day>)
    ensures var hs := HeadPositions(DayLevel, text, 0);
            |hs| > 0 ==> |r| == |hs| && forall i :: 0 <= i < |r| ==>
              r[i].number == ParseDigits(DayHeadAt(text, hs[i]).value.title) && |r[i].activities| > 0
    ensures var secs := Sections(DayLevel, text, 0);
            |secs| > 0 ==> |r| == |secs| && forall i :: 0 <= i < |r| ==> r[i] == DayOf(secs[i])
    ensures HeadPositions(DayLevel, text, 0) == [] ==> r == DefaultDays(tripLength)
    ensures forall d, a :: d in r && a in d.activities ==> a.time in PeriodNames
  {
    var secs := Sections(DayLevel, text, 0);
    if |secs| == 0 then DefaultDays(tripLength)
    else DaysOf(secs)
  }

  /** One day per matched day section, in order. */
  function DaysOf(secs: seq<Section>): (r: seq<Day>)
    requires forall i, k :: 0 <= i < |secs| && 0 <= k < |secs[i].title| ==> IsDigit(secs[i].title[k])
    ensures |r| == |secs|
    ensures forall i :: 0 <= i < |r| ==> r[i] == DayOf(secs[i])
    ensures forall i :: 0 <= i < |r| ==> r[i].number == ParseDigits(secs[i].title) && |r[i].activities| > 0
    ensures forall i :: 0 <= i < |r| ==> forall a :: a in r[i].activities ==> a.time in PeriodNames
  {
    seq(|secs|, i requires 0 <= i < |secs| => DayOf(secs[i]))
  }

  /** A matched day section none of whose periods has a line that yields an activity becomes
      a day with the three placeholders, the very day a trip without day headings shows for
      that number. */
  lemma EmptyDayPlaceholders(sec: Section, tripLength: int)
    requires forall i :: 0 <= i < |sec.title| ==> IsDigit(sec.title[i])
    requires NoActivityLine(Sections(PeriodLevel, JsTrim(sec.body), 0))
    ensures var d := DayOf(sec);
            && d.activities == Placeholders(d.number)
            && (1 <= d.number <= tripLength ==> d == DefaultDays(tripLength)[d.number - 1])
  {
    var content := JsTrim(sec.body);
    NoPeriodActivities(Sections(PeriodLevel, content, 0), DayActivities(content));
  }

  /** Made of periods none of which has a line that yields an activity, there are none. */
  lemma NoPeriodActivities(ps: seq<Section>, r: seq<ActivityItem>)
    requires FromPeriods(ps, r) && NoActivityLine(ps)
    ensures r == []
  {
  }
}

=== FILE: itinerary_status.dfy ===
/** The backend's simulated generation status: a record per itinerary id, created on first
    request and recomputed on every status request from the seconds elapsed since creation.
    The clock is an input: `now` is the formatted current time and `elapsed` the seconds since
    the record's creation time. */
module ItineraryStatus {
  import opened Optional

  datatype Log = Log(timestamp: string, text: string)

  datatype AgentStatus = AgentStatus(status: string, progress: real, isActive: bool, logs: seq<Log>, error: Option<string>)

  /** The four agents, in the order the record lists them. */
  datatype Agents = Agents(attractions: AgentStatus, accommodation: AgentStatus, food: AgentStatus, planner: AgentStatus)

  datatype Status = Status(
    overallProgress: real,
    completed: bool,
    statusMessage: string,
    createdAt: string,
    agents: Agents)

  type Store = map<string, Status>

  function Pending(readyText: string, now: string): AgentStatus
  {
    AgentStatus("pending", 0.0, false, [Log(now, readyText)], None)
  }

  function InitialStatus(now: string): (s: Status)
    ensures !s.completed && s.overallProgress == 0.0
    ensures LogsBounded(s.agents)
  {
    Status(0.0, false, "Starting to plan your trip...", now, Agents(
      Pending("Ready to discover attractions", now),
      Pending("Ready to find accommodations", now),
      Pending("Ready to recommend restaurants", now),
      Pending("Ready to create your itinerary", now)))
  }

  /** Creates the record for a new id; an id already present is left as it is. */
  function Initialize(store: Store, id: string, now: string): (r: Store)
    ensures id in r
    ensures id in store ==> r == store
    ensures id !in store ==> r[id] == InitialStatus(now) && r.Keys == store.Keys + {id}
    ensures forall k | k in store :: k in r && r[k] == store[k]
  {
    if id in store then store else store[id := InitialStatus(now)]
  }

  /** Re-initialising is a no-op. */
  lemma InitializeIdempotent(store: Store, id: string, now: string, later: string)
    ensures Initialize(Initialize(store, id, now), id, later) == Initialize(store, id, now)
  {
  }

  function Min(a: real, b: real): real { if a <= b then a else b }

  function Max(a: real, b: real): real { if a >= b then a else b }

  /** `min(100, max(0, x))`. */
  function Clamp(x: real): (r: real)
    ensures 0.0 <= r <= 100.0
    ensures 0.0 <= x <= 100.0 ==> r == x
  {
    Min(100.0, Max(0.0, x))
  }

  /** The four simulated progress curves, each a line in the elapsed seconds capped at 100; the
      attractions curve has no lower clamp. */
  function AttractionsProgress(elapsed: real): real { Min(100.0, elapsed * 5.0) }
  function AccommodationProgress(elapsed: real): real { Clamp(elapsed * 4.0 - 2.0) }
  function FoodProgress(elapsed: real): real { Clamp(elapsed * 3.0 - 4.0) }
  function PlannerProgress(elapsed: real): real { Clamp(elapsed * 2.0 - 8.0) }

  /** Appends `text` when the progress has passed `mark` and fewer than three lines are shown. */
  function MaybeLog(logs: seq<Log>, progress: real, mark: real, now: string, text: string): (r: seq<Log>)
    ensures logs <= r && |r| <= |logs| + 1
    ensures |r| == |logs| + 1 <==> progress > mark && |logs| < 3
    ensures |logs| <= 3 ==> |r| <= 3
  {
    if progress > mark && |logs| < 3 then logs + [Log(now, text)] else logs
  }

  /** One agent after a request: its new progress, its activity flag, and maybe one log line. */
  function Advance(a: AgentStatus, progress: real, active: bool, mark: real, now: string, text: string): (r: AgentStatus)
    ensures r.progress == progress && r.isActive == active
    ensures r.status == a.status && r.error == a.error
    ensures a.logs <= r.logs && |r.logs| <= |a.logs| + 1
    ensures |a.logs| <= 3 ==> |r.logs| <= 3
  {
    AgentStatus(a.status, progress, active, MaybeLog(a.logs, progress, mark, now, text), a.error)
  }

  /** `after` is `before` with the line `text` appended exactly when the progress has passed
      `mark` and fewer than three lines were shown, and `before` otherwise. */
  predicate Logged(before: seq<Log>, after: seq<Log>, progress: real, mark: real, now: string, text: string)
  {
    && (progress > mark && |before| < 3 ==> after == before + [Log(now, text)])
    && (!(progress > mark && |before| < 3) ==> after == before)
  }

  predicate LogsBounded(agents: Agents)
  {
    |agents.attractions.logs| <= 3 && |agents.accommodation.logs| <= 3 && |agents.food.logs| <= 3 && |agents.planner.logs| <= 3
  }

  function Mean(agents: Agents): real
  {
    (agents.attractions.progress + agents.accommodation.progress + agents.food.progress + agents.planner.progress) / 4.0
  }

  /** The status message for an overall progress. */
  function Message(overall: real): (m: string)
    ensures overall < 99.0 <==> m != "Your travel plan is ready!"
  {
    if overall < 25.0 then "Getting started with your travel plan..."
    else if overall < 50.0 then "Researching options for your trip..."
    else if overall < 75.0 then "Finalizing recommendations..."
    else if overall < 99.0 then "Almost ready with your perfect travel plan!"
    else "Your travel plan is ready!"
  }

  /** The record after one status request at `elapsed` seconds since its creation. */
  function Update(s: Status, elapsed: real, now: string): (r: Status)
    ensures r.createdAt == s.createdAt
    ensures r.overallProgress == Mean(r.agents)
    ensures r.statusMessage == Message(r.overallProgress)
    ensures r.completed <==> s.completed || r.overallProgress >= 99.0
    ensures r.agents.attractions.isActive <==> r.agents.attractions.progress < 100.0
    ensures r.agents.accommodation.isActive <==> 0.0 < r.agents.accommodation.progress < 100.0
    ensures r.agents.food.isActive <==> 0.0 < r.agents.food.progress < 100.0
    ensures r.agents.planner.isActive <==> 0.0 < r.agents.planner.progress < 100.0
    ensures LogsBounded(s.agents) ==> LogsBounded(r.agents)
    ensures s.agents.attractions.logs <= r.agents.attractions.logs && s.agents.planner.logs <= r.agents.planner.logs
    ensures s.agents.accommodation.logs <= r.agents.accommodation.logs && s.agents.food.logs <= r.agents.food.logs
    ensures r.agents.attractions.progress == AttractionsProgress(elapsed)
    ensures r.agents.accommodation.progress == AccommodationProgress(elapsed)
    ensures r.agents.food.progress == FoodProgress(elapsed)
    ensures r.agents.planner.progress == PlannerProgress(elapsed)
    ensures Logged(s.agents.attractions.logs, r.agents.attractions.logs, r.agents.attractions.progress, 20.0, now,
                   "Found top attractions for your destination")
    ensures Logged(s.agents.accommodation.logs, r.agents.accommodation.logs, r.agents.accommodation.progress, 30.0, now,
                   "Analyzing accommodation options based on your budget")
    ensures Logged(s.agents.food.logs, r.agents.food.logs, r.agents.food.progress, 40.0, now,
                   "Discovering local cuisine and restaurants")
    ensures Logged(s.agents.planner.logs, r.agents.planner.logs, r.agents.planner.progress, 50.0, now,
                   "Creating your personalized itinerary")
  {
    var at := AttractionsProgress(elapsed);
    var ac := AccommodationProgress(elapsed);
    var fo := FoodProgress(elapsed);
    var pl := PlannerProgress(elapsed);
    var agents := Agents(
      Advance(s.agents.attractions, at, at < 100.0, 20.0, now, "Found top attractions for your destination"),
      Advance(s.agents.accommodation, ac, ac < 100.0 && ac > 0.0, 30.0, now, "Analyzing accommodation options based on your budget"),
      Advance(s.agents.food, fo, fo < 100.0 && fo > 0.0, 40.0, now, "Discovering local cuisine and restaurants"),
      Advance(s.agents.planner, pl, pl < 100.0 && pl > 0.0, 50.0, now, "Creating your personalized itinerary"));
    var overall := Mean(agents);
    Status(overall, s.completed || overall >= 99.0, Message(overall), s.createdAt, agents)
  }

  /** For a non-negative elapsed time every progress is a percentage and the agents are ordered
      attractions, accommodation, food, planner. */
  lemma ProgressOrdered(elapsed: real)
    requires elapsed >= 0.0
    ensures 0.0 <= PlannerProgress(elapsed) <= FoodProgress(elapsed) <= AccommodationProgress(elapsed)
              <= AttractionsProgress(elapsed) <= 100.0
  {
  }

  /** The record a request stores carries the curves' guarantees: for a non-negative elapsed
      time every agent's progress is a percentage, ordered attractions, accommodation, food,
      planner, and so is the overall progress. */
  lemma RecordProgressOrdered(s: Status, elapsed: real, now: string)
    requires elapsed >= 0.0
    ensures var a := Update(s, elapsed, now).agents;
            0.0 <= a.planner.progress <= a.food.progress <= a.accommodation.progress <= a.attractions.progress <= 100.0
    ensures 0.0 <= Update(s, elapsed, now).overallProgress <= 100.0
  {
    ProgressOrdered(elapsed);
  }

  /** A clock that runs backwards, relative to the creation time, gives the attractions agent a
      negative progress: only its curve lacks the lower clamp. */
  lemma AttractionsUnclamped(elapsed: real)
    requires elapsed < 0.0
    ensures AttractionsProgress(elapsed) < 0.0 && AccommodationProgress(elapsed) == 0.0
  {
  }

  /** The curves never go back as time passes. */
  lemma ProgressMonotone(e1: real, e2: real)
    requires e1 <= e2
    ensures AttractionsProgress(e1) <= AttractionsProgress(e2)
    ensures AccommodationProgress(e1) <= AccommodationProgress(e2)
    ensures FoodProgress(e1) <= FoodProgress(e2)
    ensures PlannerProgress(e1) <= PlannerProgress(e2)
  {
  }

  /** From 54 seconds on every agent is done and the record reports completion; before 52
      seconds the planner is below 96, the mean below 99, and completion can only be inherited. */
  lemma CompletionTime(s: Status, elapsed: real, now: string)
    ensures elapsed >= 54.0 ==> Update(s, elapsed, now).completed && Update(s, elapsed, now).overallProgress == 100.0
    ensures elapsed < 52.0 ==> (Update(s, elapsed, now).completed <==> s.completed)
  {
    var r := Update(s, elapsed, now);
    if elapsed < 52.0 {
      assert PlannerProgress(elapsed) < 96.0;
      assert r.overallProgress < 99.0;
    }
  }

  /** A status request: the record is created on first sight (a never-seen id is never an
      error), then recomputed and stored. */
  function GetStatus(store: Store, id: string, now: string, elapsed: real): (r: (Store, Status))
    ensures id in r.0 && r.0[id] == r.1
    ensures forall k | k in store && k != id :: k in r.0 && r.0[k] == store[k]
    ensures id in store ==> r.1 == Update(store[id], elapsed, now)
    ensures id !in store ==> r.1 == Update(InitialStatus(now), elapsed, now)
  {
    var initialized := Initialize(store, id, now);
    var status := Update(initialized[id], elapsed, now);
    (initialized[id := status], status)
  }

  /** Once reported, completion stays reported on every later request. */
  lemma CompletedSticks(store: Store, id: string, now: string, elapsed: real)
    requires id in store && store[id].completed
    ensures GetStatus(store, id, now, elapsed).1.completed
  {
  }

  /** However many requests are served, no agent shows more than three log lines. */
  lemma {:induction false} LogsStayBounded(s: Status, elapsed: seq<real>, now: string)
    requires LogsBounded(s.agents)
    ensures LogsBounded(Replay(s, elapsed, now).agents)
    decreases |elapsed|
  {
    if elapsed != [] {
      LogsStayBounded(Update(s, elapsed[0], now), elapsed[1..], now);
    }
  }

  /** The record after a series of requests at the given elapsed times. */
  function Replay(s: Status, elapsed: seq<real>, now: string): Status
    decreases |elapsed|
  {
    if elapsed == [] then s else Replay(Update(s, elapsed[0], now), elapsed[1..], now)
  }
}

=== FILE: itinerary_view.dfy ===
/** The itinerary page's mapping from a stored travel plan to the view: each narrative section
    goes through its parser, and missing fields get defaults. */
module ItineraryView {
  import opened Optional
  import opened Strings
  import Segmenter
  import ItineraryDays
  import DiningParser
  import TransportParser
  import Tips
  import AccommodationParser

  /** The stored plan as the page receives it; absent or null fields are `None`. */
  datatype StoredPlan = StoredPlan(
    destination: string,
    tripLength: int,
    budget: Option<string>,
    itinerary: string,
    interests: Option<seq<string>>,
    food: Option<string>,
    attractions: Option<string>,
    accommodation: Option<string>)

  datatype View = View(
    destination: string,
    tripLength: int,
    budget: string,
    overview: string,
    interests: seq<string>,
    days: seq<ItineraryDays.Day>,
    dining: seq<DiningParser.Dining>,
    transportation: seq<TransportParser.Transport>,
    tips: seq<Tips.FormattedTip>,
    accommodations: seq<AccommodationParser.Accommodation>)

  const NoBudget: string := "Budget information not provided"
  const NoOverview: string := "No overview provided"

  /** `value || fallback` for an optional string: an absent or empty value is falsy. */
  function Truthy(value: Option<string>, fallback: string): (r: string)
    ensures value.Some? && value.value != "" ==> r == value.value
    ensures value.None? || value.value == "" ==> r == fallback
  {
    if value.Some? && value.value != "" then value.value else fallback
  }

  /** `itinerary.split('\n\n')[0] || 'No overview provided'`: the text before the first blank
      line, or the fallback when that is empty. */
  function Overview(itinerary: string): (r: string)
    ensures r == NoOverview || (r != "" && r <= itinerary && !Contains(r, "\n\n"))
  {
    var head := BeforeFirst(itinerary, "\n\n");
    if head != "" then head else NoOverview
  }

  /** Without a blank line the whole non-empty itinerary is the overview; with one, the text
      before the first is; an empty itinerary or one opening with a blank line has none. */
  lemma OverviewCases(itinerary: string)
    ensures itinerary == "" || "\n\n" <= itinerary ==> Overview(itinerary) == NoOverview
    ensures !Contains(itinerary, "\n\n") && itinerary != "" ==> Overview(itinerary) == itinerary
    ensures forall i | 0 < i && OccursAt(itinerary, "\n\n", i) && !Contains(itinerary[..i + 1], "\n\n") ::
              Overview(itinerary) == itinerary[..i]
  {
    FindFromNoneNotContains(itinerary, "\n\n");
    if "\n\n" <= itinerary {
      assert OccursAt(itinerary, "\n\n", 0);
    }
    forall i | 0 < i && OccursAt(itinerary, "\n\n", i) && !Contains(itinerary[..i + 1], "\n\n")
      ensures Overview(itinerary) == itinerary[..i]
    {
      var f := FindFrom(itinerary, "\n\n", 0);
      assert f.Some?;
      assert f.value == i by {
        if f.value < i {
          assert itinerary[..i + 1][f.value..f.value + 2] == itinerary[f.value..f.value + 2];
          assert OccursAt(itinerary[..i + 1], "\n\n", f.value);
        }
      }
      assert BeforeFirst(itinerary, "\n\n") == itinerary[..i];
    }
  }

  /** The page's view of a plan. The hotel-name pattern captures and the line-name capture are
      inputs of the accommodation parser; tips are read from the accommodation text and
      transportation from the attractions text, as the page does. The transportation and the
      prices use the corrected parsers. Days: one per day heading of the itinerary, or the
      placeholder days for the trip length when it has none, each with some activity. Dining:
      none without a food text, otherwise at least four. Transportation: none without an
      attractions text, otherwise what the kept lines report. */
  function ToView(plan: StoredPlan, hotelCaptures: seq<string>, lineName: string -> Option<string>): (v: View)
    ensures v.destination == plan.destination && v.tripLength == plan.tripLength
    ensures v.budget != "" && v.overview != ""
    ensures plan.budget.Some? && plan.budget.value != "" ==> v.budget == plan.budget.value
    ensures v.overview == NoOverview || (v.overview <= plan.itinerary && !Contains(v.overview, "\n\n"))
    ensures plan.interests.None? ==> v.interests == []
    ensures plan.interests.Some? ==> v.interests == plan.interests.value
    ensures Segmenter.HeadPositions(Segmenter.DayLevel, plan.itinerary, 0) == [] ==>
              v.days == ItineraryDays.DefaultDays(plan.tripLength)
    ensures |Segmenter.HeadPositions(Segmenter.DayLevel, plan.itinerary, 0)| > 0 ==>
              |v.days| == |Segmenter.HeadPositions(Segmenter.DayLevel, plan.itinerary, 0)|
    ensures forall i :: 0 <= i < |v.days| ==> |v.days[i].activities| > 0
    ensures plan.food.None? || plan.food == Some("") ==> v.dining == []
    ensures plan.food.Some? && plan.food.value != "" ==> |v.dining| >= 4
    ensures plan.attractions.None? || plan.attractions == Some("") ==> v.transportation == []
    ensures plan.attractions.Some? && plan.attractions.value != "" ==>
              TransportParser.Reports(TransportParser.KeptLines(Split(plan.attractions.value, "\n")), v.transportation)
  {
    View(
      plan.destination,
      plan.tripLength,
      Truthy(plan.budget, NoBudget),
      Overview(plan.itinerary),
      if plan.interests.Some? then plan.interests.value else [],
      ItineraryDays.ParseDays(plan.itinerary, plan.tripLength),
      DiningParser.ParseDining(plan.food),
      TransportParser.ParseTransport(plan.attractions),
      Tips.ParseTips(plan.accommodation),
      AccommodationParser.ParseAccommodation(plan.accommodation, hotelCaptures, lineName, true))
  }

  /** With an accommodation text, the view has at least the fifteen built-in tips and at least
      one accommodation; without one, neither. */
  lemma AccommodationSections(plan: StoredPlan, hotelCaptures: seq<string>, lineName: string -> Option<string>)
    ensures var v := ToView(plan, hotelCaptures, lineName);
            if plan.accommodation.Some? && plan.accommodation.value != "" then
              |v.tips| >= 15 && |v.accommodations| >= 1
            else
              v.tips == [] && v.accommodations == []
  {
  }
}

=== FILE: loading.dfy ===
/** The simulated loading page: a list of agent cards whose progress advances by a random
    increment on every tick, with log lines at fixed progress marks, an overall average and a
    completion test. The random increment and the random choice of log message are inputs. */
module LoadingProgress {
  import opened Optional

  datatype Agent = Agent(id: string, status: string, progress: real, isActive: bool, logs: seq<string>)

  /** The fields a card update may set; absent ones keep their value (object spread). */
  datatype AgentUpdate = AgentUpdate(
    status: Option<string>,
    progress: Option<real>,
    isActive: Option<bool>,
    logs: Option<seq<string>>)

  /** The progress marks at which a tick may add a log line, in the order the chain checks them. */
  const Marks: seq<real> := [20.0, 50.0, 75.0, 95.0]

  predicate Crosses(before: real, after: real, mark: real) { before < mark <= after }

  /** A card's progress is a percentage. */
  predicate ValidAgent(a: Agent) { 0.0 <= a.progress <= 100.0 }

  predicate ValidAgents(agents: seq<Agent>)
  {
    forall i | 0 <= i < |agents| :: ValidAgent(agents[i])
  }

  function Ids(agents: seq<Agent>): (r: seq<string>)
    ensures |r| == |agents| && forall i | 0 <= i < |agents| :: r[i] == agents[i].id
  {
    seq(|agents|, i requires 0 <= i < |agents| => agents[i].id)
  }

  function CompletedStatus(id: string): string { "Completed " + id + " research" }

  function FinalizingLog(id: string): string { "Finalizing " + id + " recommendations..." }

  /** The log line a tick from `before` to `after` adds: only the first mark crossed counts,
      and the last mark has a fixed text where the others ask `stageMessage`. */
  function MarkLog(id: string, before: real, after: real, stageMessage: (string, int) -> string): (r: Option<string>)
    ensures r.Some? <==> exists k | 0 <= k < |Marks| :: Crosses(before, after, Marks[k])
    ensures Crosses(before, after, 20.0) ==> r == Some(stageMessage(id, 20))
    ensures r == Some(FinalizingLog(id)) <== Crosses(before, after, 95.0) && !Crosses(before, after, 75.0)
                                            && !Crosses(before, after, 50.0) && !Crosses(before, after, 20.0)
  {
    if Crosses(before, after, 20.0) then assert Crosses(before, after, Marks[0]); Some(stageMessage(id, 20))
    else if Crosses(before, after, 50.0) then assert Crosses(before, after, Marks[1]); Some(stageMessage(id, 50))
    else if Crosses(before, after, 75.0) then assert Crosses(before, after, Marks[2]); Some(stageMessage(id, 75))
    else if Crosses(before, after, 95.0) then assert Crosses(before, after, Marks[3]); Some(FinalizingLog(id))
    else (assert forall k | 0 <= k < |Marks| :: !Crosses(before, after, Marks[k]); None)
  }

  /** An increment below five crosses at most one mark, so testing the marks in turn never
      hides a second crossing. */
  lemma OneMarkPerTick(before: real, inc: real)
    requires 0.0 <= inc < 5.0
    ensures forall j, k | 0 <= j < k < |Marks| :: !(Crosses(before, before + inc, Marks[j]) && Crosses(before, before + inc, Marks[k]))
  {
  }

  function Min(a: real, b: real): real { if a <= b then a else b }

  /** One tick for one card. `inc` is the random increment, drawn from [0, 5). */
  function Tick(a: Agent, inc: real, stageMessage: (string, int) -> string): (r: Agent)
    requires 0.0 <= inc < 5.0
    ensures !a.isActive ==> r == a
    ensures r.id == a.id
    ensures a.isActive ==> r.progress <= 100.0 && r.progress <= a.progress + inc
                           && (r.progress == a.progress + inc || r.progress == 100.0)
    ensures a.isActive && a.progress <= 100.0 ==> a.progress <= r.progress
    ensures a.isActive ==> (r.isActive <==> r.progress < 100.0)
    ensures a.isActive ==> r.status == if r.progress < 100.0 then a.status else CompletedStatus(a.id)
    ensures a.logs <= r.logs && |r.logs| <= |a.logs| + 1
    ensures |r.logs| == |a.logs| + 1 <==> a.isActive && exists k | 0 <= k < |Marks| :: Crosses(a.progress, r.progress, Marks[k])
  {
    if !a.isActive then a
    else
      var progress := Min(a.progress + inc, 100.0);
      var logs := match MarkLog(a.id, a.progress, progress, stageMessage)
        case Some(line) => a.logs + [line]
        case None => a.logs;
      var complete := progress >= 100.0;
      Agent(a.id, if complete then CompletedStatus(a.id) else a.status, progress, !complete, logs)
  }

  /** Every card ticks with its own increment; the list keeps its length and order. */
  function TickAll(agents: seq<Agent>, incs: seq<real>, stageMessage: (string, int) -> string): (r: seq<Agent>)
    requires |incs| == |agents| && forall i | 0 <= i < |incs| :: 0.0 <= incs[i] < 5.0
    ensures |r| == |agents| && Ids(r) == Ids(agents)
    ensures forall i | 0 <= i < |agents| :: r[i] == Tick(agents[i], incs[i], stageMessage)
  {
    seq(|agents|, i requires 0 <= i < |agents| => Tick(agents[i], incs[i], stageMessage))
  }

  /** A tick keeps every card's progress a percentage. */
  lemma TickKeepsValid(agents: seq<Agent>, incs: seq<real>, stageMessage: (string, int) -> string)
    requires |incs| == |agents| && forall i | 0 <= i < |incs| :: 0.0 <= incs[i] < 5.0
    requires ValidAgents(agents)
    ensures ValidAgents(TickAll(agents, incs, stageMessage))
  {
  }

  /** No card has progress above 0. */
  predicate NoneMoved(agents: seq<Agent>)
  {
    forall i | 0 <= i < |agents| :: agents[i].progress <= 0.0
  }

  predicate NoneNegative(agents: seq<Agent>)
  {
    forall i | 0 <= i < |agents| :: agents[i].progress >= 0.0
  }

  predicate AllZero(agents: seq<Agent>)
  {
    forall i | 0 <= i < |agents| :: agents[i].progress == 0.0
  }

  /** The number of cards that have moved (`progress > 0`). */
  function Started(agents: seq<Agent>): (n: nat)
    ensures n <= |agents|
  {
    if agents == [] then 0
    else
      var init := agents[..|agents| - 1];
      assert forall i | 0 <= i < |init| :: init[i] == agents[i];
      Started(init) + if agents[|agents| - 1].progress > 0.0 then 1 else 0
  }

  /** The summed progress of the cards. */
  function Total(agents: seq<Agent>): real
  {
    if agents == [] then 0.0 else Total(agents[..|agents| - 1]) + agents[|agents| - 1].progress
  }

  /** No card counts as started exactly when no card has progress above 0. */
  lemma {:induction false} StartedNone(agents: seq<Agent>)
    ensures Started(agents) == 0 <==> NoneMoved(agents)
  {
    if agents != [] {
      var init := agents[..|agents| - 1];
      assert forall i | 0 <= i < |init| :: init[i] == agents[i];
      StartedNone(init);
    }
  }

  /** The total is not negative when no card is, and 0 when every card is at 0. */
  lemma {:induction false} TotalSigns(agents: seq<Agent>)
    ensures NoneNegative(agents) ==> Total(agents) >= 0.0
    ensures AllZero(agents) ==> Total(agents) == 0.0
  {
    if agents != [] {
      var init := agents[..|agents| - 1];
      assert forall i | 0 <= i < |init| :: init[i] == agents[i];
      TotalSigns(init);
    }
  }

  /** The overall progress bar: the summed progress over the number of cards that have moved,
      and 0 while none has. */
  function Overall(agents: seq<Agent>): (r: real)
    ensures Started(agents) == 0 ==> r == 0.0
    ensures Started(agents) > 0 ==> r * Started(agents) as real == Total(agents)
  {
    if Started(agents) > 0 then
      var t, n := Total(agents), Started(agents) as real;
      QuotientTimes(t, n);
      t / n
    else 0.0
  }

  /** A quotient times its divisor gives back the dividend. */
  lemma QuotientTimes(t: real, n: real)
    requires n > 0.0
    ensures (t / n) * n == t
  {
  }

  /** A positive factor cancels. */
  lemma CancelFactor(r: real, k: real, n: real)
    requires n > 0.0 && r * n == k * n
    ensures r == k
  {
    assert (r - k) * n == 0.0;
  }

  /** With every card a percentage, so is the overall bar. */
  lemma OverallPercent(agents: seq<Agent>)
    requires ValidAgents(agents)
    ensures 0.0 <= Overall(agents) <= 100.0
  {
    TotalBound(agents);
    if Started(agents) > 0 {
      QuotientBound(Total(agents), Started(agents) as real);
    }
  }

  /** A share of at most 100 per unit is at most 100. */
  lemma QuotientBound(t: real, n: real)
    requires n > 0.0 && 0.0 <= t <= 100.0 * n
    ensures 0.0 <= t / n <= 100.0
  {
    var q := t / n;
    assert q * n == t;
  }

  /** Cards that have not moved add nothing, so the total is at most 100 per started card. */
  lemma {:induction false} TotalBound(agents: seq<Agent>)
    requires ValidAgents(agents)
    ensures 0.0 <= Total(agents) <= 100.0 * Started(agents) as real
  {
    if agents != [] {
      var init := agents[..|agents| - 1];
      assert ValidAgents(init) by {
        forall i | 0 <= i < |init| ensures ValidAgent(init[i]) {
          assert init[i] == agents[i];
        }
      }
      TotalBound(init);
      assert ValidAgent(agents[|agents| - 1]);
    }
  }

  /** The loop stops when every card has finished or never started. */
  predicate AllComplete(agents: seq<Agent>)
    ensures AllComplete(agents) ==> forall i | 0 <= i < |agents| :: agents[i].progress > 0.0 ==> agents[i].progress >= 100.0
  {
    forall i | 0 <= i < |agents| :: agents[i].progress >= 100.0 || (!agents[i].isActive && agents[i].progress == 0.0)
  }

  /** When the loop stops, every started card is at 100. */
  lemma {:induction false} CompleteTotal(agents: seq<Agent>)
    requires ValidAgents(agents) && AllComplete(agents)
    ensures Total(agents) == 100.0 * Started(agents) as real
  {
    if agents != [] {
      var init := agents[..|agents| - 1];
      assert ValidAgents(init) && AllComplete(init) by {
        forall i | 0 <= i < |init| ensures ValidAgent(init[i]) && (init[i].progress >= 100.0 || (!init[i].isActive && init[i].progress == 0.0)) {
          assert init[i] == agents[i];
        }
      }
      CompleteTotal(init);
      assert ValidAgent(agents[|agents| - 1]);
    }
  }

  /** So the bar reads 100 when the loop stops, unless no card ever moved. */
  lemma CompleteOverall(agents: seq<Agent>)
    requires ValidAgents(agents) && AllComplete(agents)
    ensures Overall(agents) == if Started(agents) > 0 then 100.0 else 0.0
  {
    CompleteTotal(agents);
    if Started(agents) > 0 {
      CancelFactor(Overall(agents), 100.0, Started(agents) as real);
    }
  }

  /** The spread of an update over a card. */
  function Apply(a: Agent, u: AgentUpdate): (r: Agent)
    ensures r.id == a.id
    ensures r.status == u.status.GetOr(a.status) && r.progress == u.progress.GetOr(a.progress)
    ensures r.isActive == u.isActive.GetOr(a.isActive) && r.logs == u.logs.GetOr(a.logs)
  {
    Agent(a.id, u.status.GetOr(a.status), u.progress.GetOr(a.progress), u.isActive.GetOr(a.isActive), u.logs.GetOr(a.logs))
  }

  /** Updates every card with the given id and nothing else. */
  function UpdateAgent(agents: seq<Agent>, id: string, u: AgentUpdate): (r: seq<Agent>)
    ensures |r| == |agents| && Ids(r) == Ids(agents)
    ensures forall i | 0 <= i < |agents| :: r[i] == if agents[i].id == id then Apply(agents[i], u) else agents[i]
  {
    seq(|agents|, i requires 0 <= i < |agents| => if agents[i].id == id then Apply(agents[i], u) else agents[i])
  }

  /** Repeating an update changes nothing more. */
  lemma UpdateAgentIdempotent(agents: seq<Agent>, id: string, u: AgentUpdate)
    ensures UpdateAgent(UpdateAgent(agents, id, u), id, u) == UpdateAgent(agents, id, u)
  {
  }

  /** Updates of two different cards commute. */
  lemma UpdateAgentsCommute(agents: seq<Agent>, x: string, u: AgentUpdate, y: string, w: AgentUpdate)
    requires x != y
    ensures UpdateAgent(UpdateAgent(agents, x, u), y, w) == UpdateAgent(UpdateAgent(agents, y, w), x, u)
  {
  }

  /** The trip-length phrase under the progress bars; a zero length is falsy and gives none. */
  function TripLengthText(tripLength: int): (r: string)
    ensures r == "" <==> tripLength == 0
    ensures tripLength != 0 ==> r in {"weekend getaway", "short trip", "week-long vacation", "extended journey"}
  {
    if tripLength == 0 then ""
    else if tripLength <= 3 then "weekend getaway"
    else if tripLength <= 6 then "short trip"
    else if tripLength <= 10 then "week-long vacation"
    else "extended journey"
  }

  /** The phrase only ever moves towards longer trips as the length grows. */
  lemma TripLengthTextBuckets(a: int, b: int)
    requires 0 < a <= b
    ensures var rank := (s: string) => if s == "weekend getaway" then 0 else if s == "short trip" then 1
                                       else if s == "week-long vacation" then 2 else 3;
            rank(TripLengthText(a)) <= rank(TripLengthText(b))
  {
  }
}

=== FILE: questionnaire.dfy ===
/** The questionnaire: five steps, each editing one field of the form; Next is enabled only when
    the current step is valid, and Next on the last step submits the payload for the backend. */
module Questionnaire {
  import opened Strings
  import opened Optional
  import LoadingProgress

  /** A form field's value; `Undefined` is a key the form object does not have. */
  datatype Value = Undefined | Str(s: string) | List(items: seq<string>) | Flag(b: bool)

  type Form = map<string, Value>

  datatype StepKind = TextStep | RadioStep | CheckboxStep

  datatype Step = Step(kind: StepKind, field: string, options: seq<string>)

  const TripLengthChoices: seq<string> := ["weekend", "short", "week", "extended"]
  const BudgetChoices: seq<string> := ["budget", "moderate", "luxury", "ultra"]
  const InterestChoices: seq<string> := ["beach", "culture", "food", "hiking", "shopping", "nightlife", "art", "adventure"]
  const InfoChoices: seq<string> := ["festivals", "covid", "transport", "family", "insurance", "visa", "customs", "weather"]

  const Steps: seq<Step> := [
    Step(TextStep, "destination", []),
    Step(RadioStep, "tripLength", TripLengthChoices),
    Step(RadioStep, "budget", BudgetChoices),
    Step(CheckboxStep, "interests", InterestChoices),
    Step(CheckboxStep, "additionalInfo", InfoChoices)
  ]

  const Last: nat := |Steps| - 1

  /** The form as the page initialises it. Its trip-length key is `trip_length`, while the
      trip-length step reads and writes `tripLength`. */
  function InitialForm(): Form {
    map[
    "destination" := Str(""), "trip_length" := Str(""), "budget" := Str(""),
    "interests" := List([]), "additionalInfo" := List([]),
    "get_insights" := Flag(false), "get_images" := Flag(false)]
  }

  /** The initial form with the key the trip-length step uses. */
  function IntendedInitialForm(): Form { InitialForm()["tripLength" := Str("")] }

  function Field(form: Form, f: string): Value
  {
    if f in form then form[f] else Undefined
  }

  /** A choice field holds nothing chosen yet or one of its step's options. */
  predicate ChoiceField(form: Form, f: string, options: seq<string>)
  {
    Field(form, f) == Undefined || Field(form, f) == Str("") || (Field(form, f).Str? && Field(form, f).s in options)
  }

  predicate ListField(form: Form, f: string, options: seq<string>)
  {
    Field(form, f).List? && forall x | x in Field(form, f).items :: x in options
  }

  /** The shapes the step inputs keep the form in. */
  predicate WellFormed(form: Form)
  {
    Field(form, "destination").Str?
    && ChoiceField(form, "tripLength", TripLengthChoices)
    && Field(form, "budget").Str? && ChoiceField(form, "budget", BudgetChoices)
    && ListField(form, "interests", InterestChoices) && ListField(form, "additionalInfo", InfoChoices)
  }

  /** The Next button's guard for step `i`. */
  predicate IsStepValid(form: Form, i: nat)
    requires i < |Steps|
    ensures IsStepValid(form, i) ==> Field(form, Steps[i].field) != Str("")
  {
    var v := Field(form, Steps[i].field);
    match Steps[i].kind
    case TextStep => v.Str? && JsTrim(v.s) != ""
    case RadioStep => v != Str("")
    case CheckboxStep => v.List? && |v.items| > 0
  }

  /** A text step is valid iff its trimmed value is non-empty, a radio step iff its value is
      not the empty string (an absent value passes), a checkbox step iff something is ticked. */
  lemma StepValidity(form: Form)
    requires WellFormed(form)
    ensures IsStepValid(form, 0) <==> JsTrim(Field(form, "destination").s) != ""
    ensures IsStepValid(form, 1) <==> Field(form, "tripLength") == Undefined || Field(form, "tripLength").s in TripLengthChoices
    ensures IsStepValid(form, 2) <==> Field(form, "budget").s in BudgetChoices
    ensures IsStepValid(form, 3) <==> |Field(form, "interests").items| > 0
    ensures IsStepValid(form, 4) <==> |Field(form, "additionalInfo").items| > 0
  {
    assert "" !in TripLengthChoices && "" !in BudgetChoices;
  }

  /** Removes every occurrence of `v`, keeping the order of the rest. */
  function Without(items: seq<string>, v: string): (r: seq<string>)
    ensures forall x :: x in r <==> x in items && x != v
    ensures |r| <= |items|
  {
    if items == [] then []
    else (if items[0] == v then [] else [items[0]]) + Without(items[1..], v)
  }

  /** The checkbox handler: an included value is filtered out, any other is appended. */
  function Toggle(items: seq<string>, v: string): (r: seq<string>)
    ensures v in r <==> v !in items
    ensures forall x | x != v :: x in r <==> x in items
    ensures v !in items ==> |r| == |items| + 1 && r[..|items|] == items && r[|items|] == v
  {
    if v in items then Without(items, v) else items + [v]
  }

  /** Filtering out a value the list does not hold changes nothing. */
  lemma {:induction false} WithoutAbsent(items: seq<string>, v: string)
    requires v !in items
    ensures Without(items, v) == items
  {
    if items != [] {
      WithoutAbsent(items[1..], v);
      assert [items[0]] + items[1..] == items;
    }
  }

  /** Ticking a value that was not ticked and then unticking it restores the list. */
  lemma ToggleTwice(items: seq<string>, v: string)
    requires v !in items
    ensures Toggle(Toggle(items, v), v) == items
  {
    WithoutAppend(items, v);
  }

  lemma {:induction false} WithoutAppend(items: seq<string>, v: string)
    requires v !in items
    ensures Without(items + [v], v) == items
  {
    if items == [] {
      assert Without([v], v) == [] + Without([], v);
    } else {
      assert (items + [v])[1..] == items[1..] + [v];
      WithoutAppend(items[1..], v);
      assert [items[0]] + items[1..] == items;
    }
  }

  /** The value sent as `trip_length`; any other value, absent included, gives 5. */
  function TripLengthValue(v: Value): (n: int)
    ensures n in {3, 5, 7, 14}
    ensures !v.Str? ==> n == 5
    ensures v.Str? && v.s !in TripLengthChoices ==> n == 5
  {
    if v.Str? then TripDays(v.s) else 5
  }

  /** The number of days a trip-length choice stands for: a number in the day range of that
      option's title, and 5 for anything that is not a choice. */
  function TripDays(choice: string): (n: int)
    ensures n in {3, 5, 7, 14}
    ensures choice !in TripLengthChoices ==> n == 5
    ensures forall k | 0 <= k < |TripOptions| :: choice == TripOptions[k].value ==>
              TripOptions[k].minDays <= n <= TripOptions[k].maxDays
  {
    if choice == "weekend" then 3
    else if choice == "short" then 5
    else if choice == "week" then 7
    else if choice == "extended" then 14
    else 5
  }

  /** A trip-length option: its value, the phrase and day range its title shows, and that range
      as numbers. */
  datatype TripOption = TripOption(value: string, phrase: string, range: string, minDays: int, maxDays: int)
  {
    /** The option's title as shown, e.g. "Weekend getaway (1-3 days)". */
    function Title(): string { Capitalize(phrase) + " (" + range + ")" }
  }

  /** The four options; the open-ended "11+" range is given a large upper bound. */
  const TripOptions: seq<TripOption> := [
    TripOption("weekend", "weekend getaway", "1-3 days", 1, 3),
    TripOption("short", "short trip", "4-6 days", 4, 6),
    TripOption("week", "week-long vacation", "7-10 days", 7, 10),
    TripOption("extended", "extended journey", "11+ days", 11, 1000)
  ]

  /** Each option's number lies in the day range its title states, and the loading page's
      phrase for that number is the option's own phrase. */
  lemma TripLengthAgrees(k: nat)
    requires k < |TripOptions|
    ensures var o := TripOptions[k];
            o.value == TripLengthChoices[k] && o.minDays <= TripDays(o.value) <= o.maxDays
            && LoadingProgress.TripLengthText(TripDays(o.value)) == o.phrase
  {
  }

  datatype Payload = Payload(
    destination: string,
    tripLength: int,
    budget: string,
    interests: seq<string>,
    getInsights: bool,
    getImages: bool)

  /** The body posted on the last step. */
  function MakePayload(form: Form): (p: Payload)
    requires WellFormed(form)
    ensures p.getImages
    ensures p.getInsights <==> exists w | w in {"festivals", "customs", "covid"} :: w in Field(form, "additionalInfo").items
    ensures p.tripLength == TripLengthValue(Field(form, "tripLength"))
  {
    var info := Field(form, "additionalInfo").items;
    Payload(
      Field(form, "destination").s,
      TripLengthValue(Field(form, "tripLength")),
      Field(form, "budget").s,
      Field(form, "interests").items,
      "festivals" in info || "customs" in info || "covid" in info,
      true)
  }

  datatype Session = Session(step: nat, form: Form)

  /** What the user can do: type in the text box, pick a radio option, tick a checkbox, or
      press Back or Next. */
  datatype Action = Type(text: string) | Pick(choice: string) | Tick(box: string) | Back | Next

  /** The page offers an action only through the current step's input or an enabled button. */
  predicate Offered(s: Session, a: Action)
    requires s.step < |Steps|
  {
    var st := Steps[s.step];
    match a
    case Type(_) => st.kind == TextStep
    case Pick(v) => st.kind == RadioStep && v in st.options
    case Tick(v) => st.kind == CheckboxStep && v in st.options && Field(s.form, st.field).List?
    case Back => s.step > 0
    case Next => IsStepValid(s.form, s.step)
  }

  /** One action. Next on the last step submits and leaves the session where it is. */
  function Apply(s: Session, a: Action): (r: Session)
    requires s.step < |Steps| && Offered(s, a)
    ensures r.step < |Steps|
    ensures a.Back? ==> r.step == s.step - 1
    ensures a.Next? ==> r.step == if s.step < Last then s.step + 1 else s.step
    ensures !a.Back? && !a.Next? ==> r.step == s.step
    ensures forall f | f != Steps[s.step].field :: Field(r.form, f) == Field(s.form, f)
  {
    var f := Steps[s.step].field;
    match a
    case Type(t) => Session(s.step, s.form[f := Str(t)])
    case Pick(v) => Session(s.step, s.form[f := Str(v)])
    case Tick(v) => Session(s.step, s.form[f := List(Toggle(Field(s.form, f).items, v))])
    case Back => Session(if s.step > 0 then s.step - 1 else s.step, s.form)
    case Next => Session(if s.step < Last then s.step + 1 else s.step, s.form)
  }

  /** The steps already passed are valid and the form is well formed. */
  predicate Inv(s: Session)
  {
    s.step < |Steps| && WellFormed(s.form) && forall i | 0 <= i < s.step :: IsStepValid(s.form, i)
  }

  /** Each step edits its own field. */
  lemma FieldsDistinct()
    ensures forall i, j | 0 <= i < j < |Steps| :: Steps[i].field != Steps[j].field
  {
  }

  /** A step's validity depends on its own field only. */
  lemma ValidityByField(f1: Form, f2: Form, i: nat)
    requires i < |Steps| && Field(f1, Steps[i].field) == Field(f2, Steps[i].field)
    ensures IsStepValid(f1, i) <==> IsStepValid(f2, i)
  {
  }

  /** Typing, picking an option and ticking a box keep the form's shapes. */
  lemma ApplyKeepsWellFormed(s: Session, a: Action)
    requires s.step < |Steps| && WellFormed(s.form) && Offered(s, a)
    ensures WellFormed(Apply(s, a).form)
  {
    var r := Apply(s, a);
    var f := Steps[s.step].field;
    if a.Tick? {
      var items := Field(s.form, f).items;
      assert Field(r.form, f) == List(Toggle(items, a.box));
      assert forall x | x in Toggle(items, a.box) :: x in items || x == a.box;
    }
  }

  /** Every offered action keeps the invariant: an edit touches only the current step's field,
      and Next leaves a valid step behind. */
  lemma ApplyKeepsInv(s: Session, a: Action)
    requires Inv(s) && Offered(s, a)
    ensures Inv(Apply(s, a))
  {
    var r := Apply(s, a);
    ApplyKeepsWellFormed(s, a);
    FieldsDistinct();
    forall i | 0 <= i < r.step ensures IsStepValid(r.form, i) {
      if i < s.step {
        assert IsStepValid(s.form, i);
        ValidityByField(r.form, s.form, i);
      } else {
        assert a.Next? && r.form == s.form;
      }
    }
  }

  /** The session after a run of actions, or None if some action was not offered. */
  function Run(s: Session, actions: seq<Action>): (r: Option<Session>)
    requires Inv(s)
    ensures r.Some? ==> Inv(r.value)
    decreases |actions|
  {
    if actions == [] then Some(s)
    else if Offered(s, actions[0]) then
      ApplyKeepsInv(s, actions[0]);
      Run(Apply(s, actions[0]), actions[1..])
    else None
  }

  /** What a submission carries: every step was valid when it was left or submitted. */
  lemma SubmittedPayload(s: Session)
    requires Inv(s) && s.step == Last && Offered(s, Next)
    ensures var p := MakePayload(s.form);
            JsTrim(p.destination) != "" && p.budget in BudgetChoices && |p.interests| > 0
            && (forall x | x in p.interests :: x in InterestChoices)
            && p.tripLength in {3, 5, 7, 14}
  {
    assert IsStepValid(s.form, 0) && IsStepValid(s.form, 2) && IsStepValid(s.form, 3);
  }

  function Progress(step: nat): (r: real)
    requires step < |Steps|
    ensures 0.0 < r <= 100.0
    ensures r == 100.0 <==> step == Last
  {
    (step + 1) as real / |Steps| as real * 100.0
  }

  function Start(): Session { Session(0, InitialForm()) }

  /** The as-written start satisfies the invariant, with no trip-length key at all. */
  lemma StartFacts()
    ensures Inv(Start()) && Field(InitialForm(), "tripLength") == Undefined
  {
  }

  /** As written, typing any non-blank destination and pressing Next twice passes the
      trip-length step with nothing chosen, and the payload then carries the default of 5 days. */
  lemma TripLengthSkippable(destination: string)
    requires JsTrim(destination) != ""
    ensures Inv(Start())
    ensures var r := Run(Start(), [Type(destination), Next, Next]);
            r.Some? && r.value.step == 2 && Field(r.value.form, "tripLength") == Undefined
            && MakePayload(r.value.form).tripLength == 5
  {
    StartFacts();
    var s1 := Apply(Start(), Type(destination));
    assert Field(s1.form, "tripLength") == Undefined;
    assert IsStepValid(s1.form, 0);
    var s2 := Apply(s1, Next);
    assert IsStepValid(s2.form, 1);
    var s3 := Apply(s2, Next);
    assert [Type(destination), Next, Next][1..] == [Next, Next] && [Next, Next][1..] == [Next];
    assert Run(Start(), [Type(destination), Next, Next]) == Run(s1, [Next, Next]);
    assert Run(s1, [Next, Next]) == Run(s2, [Next]);
    assert Run(s2, [Next]) == Run(s3, []);
  }

  /** With the intended initial form the trip length is always a string, so the step stays
      closed until an option is picked, and every later step sees a chosen length. */
  predicate TripLengthTracked(s: Session) { Field(s.form, "tripLength").Str? }

  lemma IntendedTripLengthChosen(s: Session, actions: seq<Action>)
    requires Inv(s) && TripLengthTracked(s)
    ensures var r := Run(s, actions);
            r.Some? && r.value.step > 1 ==> Field(r.value.form, "tripLength").Str? && Field(r.value.form, "tripLength").s in TripLengthChoices
    decreases |actions|
  {
    if actions != [] && Offered(s, actions[0]) {
      var t := Apply(s, actions[0]);
      assert TripLengthTracked(t);
      ApplyKeepsInv(s, actions[0]);
      IntendedTripLengthChosen(t, actions[1..]);
    } else if actions == [] && s.step > 1 {
      assert IsStepValid(s.form, 1);
    }
  }

  lemma IntendedStartTracked()
    ensures Inv(Session(0, IntendedInitialForm())) && TripLengthTracked(Session(0, IntendedInitialForm()))
  {
  }
}

=== FILE: status_feed.dfy ===
/** How the backend's status record reaches the real-time loading page: the record, as the JSON
    the status endpoint returns, is the snapshot the page merges into its cards. */
module StatusFeed {
  import opened Optional
  import ItineraryStatus
  import StatusMerge

  function Entry(a: ItineraryStatus.AgentStatus): (d: StatusMerge.AgentData)
    ensures d.progress == Some(a.progress) && d.isActive == Some(a.isActive)
    ensures d.logs.Some? && |d.logs.value| == |a.logs|
  {
    StatusMerge.AgentData(
      Some(a.status), Some(a.progress), Some(a.isActive),
      Some(seq(|a.logs|, i requires 0 <= i < |a.logs| => StatusMerge.IncomingLog(Some(a.logs[i].timestamp), a.logs[i].text))),
      a.error)
  }

  /** The status record as a snapshot: every field present, the agents keyed by the backend's
      four names. */
  function ToSnapshot(s: ItineraryStatus.Status): (r: StatusMerge.Snapshot)
    ensures r.overallProgress == Some(s.overallProgress) && r.statusMessage == Some(s.statusMessage)
    ensures r.agents.Some? && r.agents.value.Keys == {"attractions", "accommodation", "food", "planner"}
    ensures r.agents.value["attractions"] == Entry(s.agents.attractions)
    ensures r.agents.value["accommodation"] == Entry(s.agents.accommodation)
  {
    StatusMerge.Snapshot(Some(s.overallProgress), Some(s.statusMessage), Some(map[
      "attractions" := Entry(s.agents.attractions),
      "accommodation" := Entry(s.agents.accommodation),
      "food" := Entry(s.agents.food),
      "planner" := Entry(s.agents.planner)]))
  }

  /** The page's cards, by id, in the order it shows them. */
  predicate InitialLayout(agents: seq<StatusMerge.Agent>)
  {
    |agents| == 6
    && agents[0].id == "attractions" && agents[1].id == "accommodation" && agents[2].id == "dining"
    && agents[3].id == "transport" && agents[4].id == "images" && agents[5].id == "insights"
  }

  /** Only two of the page's six cards share a name with the backend's agents: the attractions
      and accommodation cards follow the backend, while the dining, transport, images and
      insights cards never change, and the backend's food and planner entries are dropped. */
  lemma BackendMovesTwoCards(s: ItineraryStatus.Status, page: StatusMerge.Page, now: string)
    requires InitialLayout(page.agents)
    ensures var r := StatusMerge.Poll(page, ToSnapshot(s), now);
            && r.agents[0] == StatusMerge.MergeAgent(page.agents[0], Entry(s.agents.attractions), now)
            && r.agents[1] == StatusMerge.MergeAgent(page.agents[1], Entry(s.agents.accommodation), now)
            && r.agents[2..] == page.agents[2..]
  {
    var snapshot := ToSnapshot(s);
    MergeWithBackendKeys(page.agents, snapshot.agents.value, now);
  }

  /** The same holds for the poll as the page performs it, which merges into the initial
      cards: whatever is shown, the attractions and accommodation cards are the initial ones
      merged with the backend's entries, and the other four stay waiting. */
  lemma BackendMovesTwoCardsAsWritten(s: ItineraryStatus.Status, page: StatusMerge.Page, now: string)
    ensures var r := StatusMerge.PollAsWritten(page, ToSnapshot(s), now);
            && r.agents[0] == StatusMerge.MergeAgent(StatusMerge.InitialAgents[0], Entry(s.agents.attractions), now)
            && r.agents[1] == StatusMerge.MergeAgent(StatusMerge.InitialAgents[1], Entry(s.agents.accommodation), now)
            && r.agents[2..] == StatusMerge.InitialAgents[2..]
  {
    var snapshot := ToSnapshot(s);
    InitialCardsLayout();
    MergeWithBackendKeys(StatusMerge.InitialAgents, snapshot.agents.value, now);
  }

  /** Merging entries under the backend's four names into cards with the page's layout. */
  lemma MergeWithBackendKeys(agents: seq<StatusMerge.Agent>, entries: map<string, StatusMerge.AgentData>, now: string)
    requires InitialLayout(agents)
    requires entries.Keys == {"attractions", "accommodation", "food", "planner"}
    ensures var r := StatusMerge.MergeAgents(agents, entries, now);
            && r[0] == StatusMerge.MergeAgent(agents[0], entries["attractions"], now)
            && r[1] == StatusMerge.MergeAgent(agents[1], entries["accommodation"], now)
            && r[2..] == agents[2..]
  {
    var r := StatusMerge.MergeAgents(agents, entries, now);
    LayoutKeys(agents, entries);
    assert StatusMerge.FirstWithId(agents, 0);
    assert StatusMerge.FirstWithId(agents, 1);
    assert r[2..] == agents[2..];
  }

  /** The first two cards carry backend names; the other four do not. */
  lemma LayoutKeys(agents: seq<StatusMerge.Agent>, entries: map<string, StatusMerge.AgentData>)
    requires InitialLayout(agents)
    requires entries.Keys == {"attractions", "accommodation", "food", "planner"}
    ensures agents[0].id in entries && agents[1].id in entries && agents[0].id != agents[1].id
    ensures forall k | 2 <= k < |agents| :: agents[k].id !in entries
  {
  }

  /** The initial cards have the page's layout. */
  lemma InitialCardsLayout()
    ensures InitialLayout(StatusMerge.InitialAgents)
  {
  }
}

=== FILE: status_merge.dfy ===
/** The real-time loading page: each status snapshot polled from the backend is merged into the
    agent cards. Logs are de-duplicated by text, and falsy incoming fields keep the card's value.
    The current time used for logs without a timestamp is an input. */
module StatusMerge {
  import opened Optional

  datatype LogEntry = LogEntry(timestamp: string, text: string)

  datatype Agent = Agent(id: string, status: string, progress: real, isActive: bool, logs: seq<LogEntry>, error: Option<string>)

  /** A log line in a snapshot; its timestamp may be missing. */
  datatype IncomingLog = IncomingLog(timestamp: Option<string>, text: string)

  /** One agent's entry in a snapshot; every field may be missing. */
  datatype AgentData = AgentData(
    status: Option<string>,
    progress: Option<real>,
    isActive: Option<bool>,
    logs: Option<seq<IncomingLog>>,
    error: Option<string>)

  datatype Snapshot = Snapshot(
    overallProgress: Option<real>,
    statusMessage: Option<string>,
    agents: Option<map<string, AgentData>>)

  datatype Page = Page(overall: real, message: string, agents: seq<Agent>)

  predicate TruthyText(s: Option<string>) { s.Some? && s.value != "" }

  predicate TruthyNumber(x: Option<real>) { x.Some? && x.value != 0.0 }

  function Waiting(id: string): Agent { Agent(id, "Waiting to start...", 0.0, false, [], None) }

  /** The cards before the first snapshot: all waiting, idle and empty. */
  const InitialAgents: seq<Agent> :=
    [Waiting("attractions"), Waiting("accommodation"), Waiting("dining"), Waiting("transport"), Waiting("images"), Waiting("insights")]

  const InitialPage: Page := Page(0.0, "Planning your perfect trip...", InitialAgents)

  function TextSet(logs: seq<LogEntry>): (r: set<string>)
    ensures forall k | 0 <= k < |logs| :: logs[k].text in r
    ensures forall t | t in r :: exists k | 0 <= k < |logs| :: logs[k].text == t
  {
    set k | 0 <= k < |logs| :: logs[k].text
  }

  lemma TextSetSingle(e: LogEntry)
    ensures TextSet([e]) == {e.text}
  {
    assert [e][0] == e;
    forall t | t in TextSet([e]) ensures t == e.text {
      var k :| 0 <= k < 1 && [e][k].text == t;
    }
  }

  function Stamp(l: IncomingLog, now: string): (r: LogEntry)
    ensures r.text == l.text
    ensures r.timestamp == if TruthyText(l.timestamp) then l.timestamp.value else now
  {
    LogEntry(if TruthyText(l.timestamp) then l.timestamp.value else now, l.text)
  }

  /** The incoming lines whose text is not already shown, in incoming order. */
  function FreshLogs(existing: set<string>, incoming: seq<IncomingLog>, now: string): (r: seq<LogEntry>)
    ensures |r| <= |incoming|
    ensures forall k | 0 <= k < |r| :: r[k].text !in existing
    ensures forall j | 0 <= j < |incoming| && incoming[j].text !in existing :: Stamp(incoming[j], now) in r
    ensures forall k | 0 <= k < |r| :: exists j | 0 <= j < |incoming| :: r[k] == Stamp(incoming[j], now)
  {
    if incoming == [] then []
    else
      var init, last := incoming[..|incoming| - 1], incoming[|incoming| - 1];
      var head := FreshLogs(existing, init, now);
      assert forall j | 0 <= j < |init| :: init[j] == incoming[j];
      if last.text in existing then head else head + [Stamp(last, now)]
  }

  /** Filtering distributes over concatenation, so the added lines keep the snapshot's order. */
  lemma {:induction false} FreshLogsAppend(existing: set<string>, a: seq<IncomingLog>, b: seq<IncomingLog>, now: string)
    ensures FreshLogs(existing, a + b, now) == FreshLogs(existing, a, now) + FreshLogs(existing, b, now)
    decreases |b|
  {
    if b == [] {
      assert a + b == a;
    } else {
      var init, last := b[..|b| - 1], b[|b| - 1];
      assert (a + b)[..|a + b| - 1] == a + init;
      assert (a + b)[|a + b| - 1] == last;
      FreshLogsAppend(existing, a, init, now);
      var fa, fi := FreshLogs(existing, a, now), FreshLogs(existing, init, now);
      if last.text !in existing {
        assert fa + fi + [Stamp(last, now)] == fa + (fi + [Stamp(last, now)]);
      }
    }
  }

  /** A line whose text is already shown adds nothing, and an unseen one adds itself. */
  lemma FreshLogsOne(existing: set<string>, l: IncomingLog, now: string)
    ensures FreshLogs(existing, [l], now) == if l.text in existing then [] else [Stamp(l, now)]
  {
    assert [l][..0] == [];
  }

  /** Lines already shown yield nothing. */
  lemma {:induction false} FreshLogsSeen(existing: set<string>, incoming: seq<IncomingLog>, now: string)
    requires forall j | 0 <= j < |incoming| :: incoming[j].text in existing
    ensures FreshLogs(existing, incoming, now) == []
    decreases |incoming|
  {
    if incoming != [] {
      FreshLogsSeen(existing, incoming[..|incoming| - 1], now);
    }
  }

  /** One snapshot entry merged into its card. */
  function MergeAgent(a: Agent, d: AgentData, now: string): (r: Agent)
    ensures r.id == a.id
    ensures r.status == if TruthyText(d.status) then d.status.value else a.status
    ensures r.progress == if TruthyNumber(d.progress) then d.progress.value else a.progress
    ensures r.isActive <==> d.isActive == Some(true)
    ensures r.error == if TruthyText(d.error) then d.error else None
    ensures r.logs == a.logs + FreshLogs(TextSet(a.logs), d.logs.GetOr([]), now)
  {
    Agent(
      a.id,
      if TruthyText(d.status) then d.status.value else a.status,
      if TruthyNumber(d.progress) then d.progress.value else a.progress,
      d.isActive == Some(true),
      a.logs + FreshLogs(TextSet(a.logs), d.logs.GetOr([]), now),
      if TruthyText(d.error) then d.error else None)
  }

  /** Merging the same entry twice adds no log line the first merge did not. */
  lemma MergeAgentIdempotent(a: Agent, d: AgentData, now: string, later: string)
    ensures MergeAgent(MergeAgent(a, d, now), d, later) == MergeAgent(a, d, now)
  {
    var once := MergeAgent(a, d, now);
    var incoming := d.logs.GetOr([]);
    IncomingShown(a.logs, incoming, now);
    FreshLogsSeen(TextSet(once.logs), incoming, later);
    assert once.logs + [] == once.logs;
  }

  /** After a merge every incoming line's text is shown. */
  lemma IncomingShown(logs: seq<LogEntry>, incoming: seq<IncomingLog>, now: string)
    ensures var merged := logs + FreshLogs(TextSet(logs), incoming, now);
            forall j | 0 <= j < |incoming| :: incoming[j].text in TextSet(merged)
  {
    var added := FreshLogs(TextSet(logs), incoming, now);
    var merged := logs + added;
    forall j | 0 <= j < |incoming| ensures incoming[j].text in TextSet(merged) {
      if incoming[j].text in TextSet(logs) {
        var k :| 0 <= k < |logs| && logs[k].text == incoming[j].text;
        assert merged[k] == logs[k];
      } else {
        var k :| 0 <= k < |added| && added[k] == Stamp(incoming[j], now);
        assert merged[|logs| + k] == added[k];
      }
    }
  }

  /** The card a snapshot entry with this id updates: the first with that id. */
  predicate FirstWithId(agents: seq<Agent>, i: int)
    requires 0 <= i < |agents|
  {
    forall j | 0 <= j < i :: agents[j].id != agents[i].id
  }

  /** Every snapshot entry updates the first card with its id; entries for unknown ids and
      cards absent from the snapshot change nothing. */
  function MergeAgents(agents: seq<Agent>, entries: map<string, AgentData>, now: string): (r: seq<Agent>)
    ensures |r| == |agents|
    ensures forall i | 0 <= i < |agents| :: r[i].id == agents[i].id
    ensures forall i | 0 <= i < |agents| && agents[i].id !in entries :: r[i] == agents[i]
    ensures forall i | 0 <= i < |agents| && agents[i].id in entries && FirstWithId(agents, i) ::
              r[i] == MergeAgent(agents[i], entries[agents[i].id], now)
    ensures forall i | 0 <= i < |agents| :: agents[i].logs <= r[i].logs
  {
    seq(|agents|, i requires 0 <= i < |agents| =>
      if agents[i].id in entries && FirstWithId(agents, i) then MergeAgent(agents[i], entries[agents[i].id], now) else agents[i])
  }

  /** A poll as intended: the snapshot is merged into the cards currently shown. */
  function Poll(page: Page, data: Snapshot, now: string): (r: Page)
    ensures r.overall == if TruthyNumber(data.overallProgress) then data.overallProgress.value else 0.0
    ensures r.message == if TruthyText(data.statusMessage) then data.statusMessage.value else page.message
    ensures |r.agents| == |page.agents|
    ensures forall i | 0 <= i < |page.agents| :: r.agents[i].id == page.agents[i].id && page.agents[i].logs <= r.agents[i].logs
    ensures data.agents.None? ==> r.agents == page.agents
  {
    Page(
      if TruthyNumber(data.overallProgress) then data.overallProgress.value else 0.0,
      if TruthyText(data.statusMessage) then data.statusMessage.value else page.message,
      if data.agents.Some? then MergeAgents(page.agents, data.agents.value, now) else page.agents)
  }

  /** A poll as the page performs it: the interval callback was created on the first render, so
      the snapshot is merged into the initial cards, whatever is shown now, and the result
      replaces the cards even when the snapshot lists no agents. */
  function PollAsWritten(page: Page, data: Snapshot, now: string): (r: Page)
    ensures r.overall == Poll(page, data, now).overall && r.message == Poll(page, data, now).message
    ensures r.agents == Poll(InitialPage, data, now).agents
    ensures data.agents.None? ==> r.agents == InitialAgents
  {
    Page(
      if TruthyNumber(data.overallProgress) then data.overallProgress.value else 0.0,
      if TruthyText(data.statusMessage) then data.statusMessage.value else page.message,
      if data.agents.Some? then MergeAgents(InitialAgents, data.agents.value, now) else InitialAgents)
  }

  /** The first card is always the first with its id, so a snapshot entry for it merges. */
  lemma PollFirstCard(page: Page, data: Snapshot, now: string)
    requires page.agents != [] && data.agents.Some? && page.agents[0].id in data.agents.value
    ensures Poll(page, data, now).agents[0] == MergeAgent(page.agents[0], data.agents.value[page.agents[0].id], now)
  {
    assert FirstWithId(page.agents, 0);
  }

  /** A card merged with an entry carrying one line it does not show gains exactly that line. */
  lemma MergeOneUnseen(a: Agent, e: AgentData, l: IncomingLog, now: string)
    requires e.logs == Some([l]) && l.text !in TextSet(a.logs)
    ensures MergeAgent(a, e, now).logs == a.logs + [Stamp(l, now)]
  {
    FreshLogsOne(TextSet(a.logs), l, now);
  }

  /** One card merged with an entry carrying one unseen line, then with another. */
  lemma MergeTwoLines(a: Agent, e1: AgentData, e2: AgentData, l1: IncomingLog, l2: IncomingLog, now: string)
    requires a.logs == [] && e1.logs == Some([l1]) && e2.logs == Some([l2]) && l1.text != l2.text
    ensures MergeAgent(a, e2, now).logs == [Stamp(l2, now)]
    ensures MergeAgent(MergeAgent(a, e1, now), e2, now).logs == [Stamp(l1, now), Stamp(l2, now)]
  {
    MergeIntoEmpty(a, e1, l1, now);
    MergeIntoEmpty(a, e2, l2, now);
    MergeSecondLine(MergeAgent(a, e1, now), e2, l1, l2, now);
  }

  lemma MergeIntoEmpty(a: Agent, e: AgentData, l: IncomingLog, now: string)
    requires a.logs == [] && e.logs == Some([l])
    ensures MergeAgent(a, e, now).logs == [Stamp(l, now)]
  {
    assert TextSet(a.logs) == {};
    MergeOneUnseen(a, e, l, now);
    assert [] + [Stamp(l, now)] == [Stamp(l, now)];
  }

  lemma MergeSecondLine(m: Agent, e: AgentData, l1: IncomingLog, l2: IncomingLog, now: string)
    requires m.logs == [Stamp(l1, now)] && e.logs == Some([l2]) && l1.text != l2.text
    ensures MergeAgent(m, e, now).logs == [Stamp(l1, now), Stamp(l2, now)]
  {
    TextSetSingle(Stamp(l1, now));
    MergeOneUnseen(m, e, l2, now);
  }

  /** Two snapshots where the second no longer lists the first one's log line: the page as
      written drops the line that was on screen and the progress it had shown, while the
      intended merge keeps both. */
  lemma StalePollDropsLog(e1: AgentData, e2: AgentData, now: string)
    requires e1 == AgentData(None, Some(40.0), Some(true), Some([IncomingLog(Some("t1"), "a")]), None)
    requires e2 == AgentData(None, None, Some(true), Some([IncomingLog(Some("t2"), "b")]), None)
    ensures var first := Snapshot(Some(20.0), None, Some(map["attractions" := e1]));
            var second := Snapshot(Some(30.0), None, Some(map["attractions" := e2]));
            var asWritten := PollAsWritten(PollAsWritten(InitialPage, first, now), second, now);
            var intended := Poll(Poll(InitialPage, first, now), second, now);
            asWritten.agents[0].logs == [LogEntry("t2", "b")] && asWritten.agents[0].progress == 0.0
            && intended.agents[0].logs == [LogEntry("t1", "a"), LogEntry("t2", "b")] && intended.agents[0].progress == 40.0
  {
    var first := Snapshot(Some(20.0), None, Some(map["attractions" := e1]));
    var second := Snapshot(Some(30.0), None, Some(map["attractions" := e2]));
    var a0 := InitialAgents[0];
    MergeTwoLines(a0, e1, e2, IncomingLog(Some("t1"), "a"), IncomingLog(Some("t2"), "b"), now);
    var once := Poll(InitialPage, first, now);
    PollFirstCard(InitialPage, first, now);
    PollFirstCard(once, second, now);
    var w1 := PollAsWritten(InitialPage, first, now);
    PollFirstCard(Page(w1.overall, w1.message, InitialAgents), second, now);
  }
}

=== FILE: strings.dfy ===
/**
 Optional values, used for JavaScript `undefined`/`null` and Python `None`.
 */
module Optional {

  datatype Option<T> = None | Some(value: T) {

    /** The value, or `default` when there is none. */
    function GetOr(default: T): T
    {
      match this
      case Some(v) => v
      case None => default
    }

    /** This value if there is one, else `other` (the next alternative). */
    function OrElse(other: Option<T>): Option<T>
    {
      if this.Some? then this else other
    }
  }
}

/**
 String primitives with the semantics of the JavaScript and Python built-ins the
 application calls: white space sets, trim/strip, `includes`/`in`, `indexOf`,
 `split`/`join` on a literal separator, literal replace-all, and ASCII case mapping.
 Strings are sequences of Unicode scalar values; lengths count code points.
 */
module Strings {
  import opened Optional

  /** The two runtimes differ in which characters count as white space. */
  datatype Runtime = JavaScript | Python

  /** White space for JavaScript's `trim` and the regex class `\s`. */
  predicate IsJsSpace(c: char)
  {
    || c == '\t' || c == '\n' || c == '\U{B}' || c == '\U{C}' || c == '\r' || c == ' '
    || c == '\U{A0}' || c == '\U{1680}' || ('\U{2000}' <= c <= '\U{200A}')
    || c == '\U{2028}' || c == '\U{2029}' || c == '\U{202F}' || c == '\U{205F}'
    || c == '\U{3000}' || c == '\U{FEFF}'
  }

  /** White space for Python's argument-less `str.strip` (`str.isspace`). */
  predicate IsPySpace(c: char)
  {
    || c == '\t' || c == '\n' || c == '\U{B}' || c == '\U{C}' || c == '\r'
    || ('\U{1C}' <= c <= '\U{1F}') || c == ' ' || c == '\U{85}'
    || c == '\U{A0}' || c == '\U{1680}' || ('\U{2000}' <= c <= '\U{200A}')
    || c == '\U{2028}' || c == '\U{2029}' || c == '\U{202F}' || c == '\U{205F}'
    || c == '\U{3000}'
  }

  predicate IsSpace(rt: Runtime, c: char)
  {
    match rt
    case JavaScript => IsJsSpace(c)
    case Python => IsPySpace(c)
  }

  /** JavaScript line terminators: where `.` stops and where a multi-line `$` may match. */
  predicate IsLineTerminator(c: char)
  {
    c == '\n' || c == '\r' || c == '\U{2028}' || c == '\U{2029}'
  }

  predicate IsDigit(c: char) { '0' <= c <= '9' }

  predicate IsAsciiUpper(c: char) { 'A' <= c <= 'Z' }

  predicate IsAsciiLower(c: char) { 'a' <= c <= 'z' }

  predicate IsAsciiLetter(c: char) { IsAsciiUpper(c) || IsAsciiLower(c) }

  /** The regex class `\w`. */
  predicate IsWordChar(c: char) { IsAsciiLetter(c) || IsDigit(c) || c == '_' }

  predicate AllSpace(rt: Runtime, s: string)
  {
    forall i :: 0 <= i < |s| ==> IsSpace(rt, s[i])
  }

  /** Number of consecutive characters from `i` on that satisfy the run predicate `IsSpace(rt, _)`. */
  function SpaceRun(rt: Runtime, s: string, i: nat): (n: nat)
    ensures i <= |s| ==> i + n <= |s|
    ensures forall k :: i <= k < i + n ==> k < |s| && IsSpace(rt, s[k])
    ensures i + n < |s| ==> !IsSpace(rt, s[i + n])
    decreases |s| - i
  {
    if i < |s| && IsSpace(rt, s[i]) then 1 + SpaceRun(rt, s, i + 1) else 0
  }

  /** Number of consecutive ASCII digits from `i` on. */
  function DigitRun(s: string, i: nat): (n: nat)
    ensures i <= |s| ==> i + n <= |s|
    ensures forall k :: i <= k < i + n ==> k < |s| && IsDigit(s[k])
    ensures i + n < |s| ==> !IsDigit(s[i + n])
    decreases |s| - i
  {
    if i < |s| && IsDigit(s[i]) then 1 + DigitRun(s, i + 1) else 0
  }

  /** Number of trailing characters of `s` that are white space. */
  function TrailingSpace(rt: Runtime, s: string): (n: nat)
    ensures n <= |s|
    ensures forall k :: |s| - n <= k < |s| ==> IsSpace(rt, s[k])
    ensures n < |s| ==> !IsSpace(rt, s[|s| - n - 1])
    decreases |s|
  {
    if |s| > 0 && IsSpace(rt, s[|s| - 1]) then 1 + TrailingSpace(rt, s[..|s| - 1]) else 0
  }

  /** JavaScript `trim()` / Python `strip()`: drop leading and trailing white space. */
  function Trim(rt: Runtime, s: string): (r: string)
    ensures |r| <= |s|
    ensures r == [] || (!IsSpace(rt, r[0]) && !IsSpace(rt, r[|r| - 1]))
    ensures var a := SpaceRun(rt, s, 0);
            a + |r| <= |s| && r == s[a..a + |r|]
            && AllSpace(rt, s[..a]) && AllSpace(rt, s[a + |r|..])
  {
    var a := SpaceRun(rt, s, 0);
    var rest := s[a..];
    var b := TrailingSpace(rt, rest);
    assert forall k :: 0 <= k < a ==> IsSpace(rt, s[k]);
    rest[..|rest| - b]
  }

  function JsTrim(s: string): string { Trim(JavaScript, s) }

  function PyStrip(s: string): string { Trim(Python, s) }

  /** Trimming only removes characters: every character of the trim occurs in the input. */
  lemma TrimKeepsCharacters(rt: Runtime, s: string)
    ensures forall c | c in Trim(rt, s) :: c in s
  {
    var r := Trim(rt, s);
    var a := SpaceRun(rt, s, 0);
    forall c | c in r ensures c in s {
      var k :| 0 <= k < |r| && r[k] == c;
      assert r[k] == s[a + k];
    }
  }

  /** A string without white space at either end is its own trim. */
  lemma TrimNoEdgeSpace(rt: Runtime, s: string)
    requires |s| > 0 && !IsSpace(rt, s[0]) && !IsSpace(rt, s[|s| - 1])
    ensures Trim(rt, s) == s
  {
    var r := Trim(rt, s);
    assert SpaceRun(rt, s, 0) == 0;
    assert r == s[..|r|];
  }

  /** A string none of whose characters is `c` does not contain `[c]`. */
  lemma NoCharNoContains(s: string, c: char)
    requires forall k :: 0 <= k < |s| ==> s[k] != c
    ensures !Contains(s, [c])
  {
    forall i | 0 <= i <= |s| - 1 ensures !OccursAt(s, [c], i) {
      NotOccursAt(s, [c], i, 0);
    }
  }

  /** A one-character pattern occurs exactly when the character does. */
  lemma ContainsChar(s: string, c: char)
    ensures Contains(s, [c]) <==> c in s
  {
    if c in s {
      var i :| 0 <= i < |s| && s[i] == c;
      assert OccursAt(s, [c], i);
    }
    if Contains(s, [c]) {
      var i :| 0 <= i <= |s| - 1 && OccursAt(s, [c], i);
      assert s[i] == s[i..i + 1][0];
    }
  }

  /** Pairwise distinct elements drawn from a set are at most as many as the set has. */
  lemma {:induction false} DistinctBound<T>(xs: seq<T>, s: set<T>)
    requires forall i, j :: 0 <= i < j < |xs| ==> xs[i] != xs[j]
    requires forall i :: 0 <= i < |xs| ==> xs[i] in s
    ensures |xs| <= |s|
    decreases |xs|
  {
    if |xs| > 0 {
      var x := xs[|xs| - 1];
      DistinctBound(xs[..|xs| - 1], s - {x});
    }
  }

  /** A string trims to the empty string exactly when every character is white space. */
  lemma TrimEmptyIffAllSpace(rt: Runtime, s: string)
    ensures Trim(rt, s) == [] <==> AllSpace(rt, s)
  {
    var a := SpaceRun(rt, s, 0);
    if AllSpace(rt, s) {
      assert a == |s|;
    }
    if Trim(rt, s) == [] {
      assert s == s[..a] + s[a..];
    }
  }

  /** ASCII-only lower-casing of one character. */
  function LowerChar(c: char): char
  {
    if IsAsciiUpper(c) then (c as int + 32) as char else c
  }

  /** ASCII-only upper-casing of one character. */
  function UpperChar(c: char): char
  {
    if IsAsciiLower(c) then (c as int - 32) as char else c
  }

  /** `toLowerCase()` restricted to ASCII letters. */
  function Lower(s: string): (r: string)
    ensures |r| == |s|
    ensures forall i :: 0 <= i < |s| ==> r[i] == LowerChar(s[i])
  {
    seq(|s|, i requires 0 <= i < |s| => LowerChar(s[i]))
  }

  /** `w.charAt(0).toUpperCase() + w.slice(1)`. */
  function Capitalize(w: string): (r: string)
    ensures |r| == |w|
    ensures |w| > 0 ==> r[0] == UpperChar(w[0]) && r[1..] == w[1..]
  {
    if |w| == 0 then w else [UpperChar(w[0])] + w[1..]
  }

  /** `p` occurs in `s` starting at index `i`. */
  predicate OccursAt(s: string, p: string, i: int)
  {
    0 <= i && i + |p| <= |s| && s[i..i + |p|] == p
  }

  /** JavaScript `s.includes(p)`, Python `p in s`. */
  predicate Contains(s: string, p: string)
  {
    exists i | 0 <= i <= |s| - |p| :: OccursAt(s, p, i)
  }

  predicate ContainsAny(s: string, ps: seq<string>)
  {
    exists k | 0 <= k < |ps| :: Contains(s, ps[k])
  }

  /** JavaScript `s.toLowerCase().includes(p)` for a lower-case keyword `p`. */
  predicate Mentions(s: string, p: string)
  {
    Contains(Lower(s), p)
  }

  predicate MentionsAny(s: string, ps: seq<string>)
  {
    ContainsAny(Lower(s), ps)
  }

  lemma OccursAtContains(s: string, p: string, i: int)
    requires OccursAt(s, p, i)
    ensures Contains(s, p)
  {
  }

  /** An occurrence fixes the characters it covers. */
  lemma OccursAtChars(s: string, p: string, i: int)
    requires OccursAt(s, p, i)
    ensures forall k :: 0 <= k < |p| ==> s[i + k] == p[k]
  {
    forall k | 0 <= k < |p| ensures s[i + k] == p[k] {
      assert s[i..i + |p|][k] == s[i + k];
    }
  }

  /** One mismatching character rules an occurrence out. */
  lemma NotOccursAt(s: string, p: string, i: int, k: int)
    requires 0 <= i && 0 <= k < |p| && i + k < |s| && s[i + k] != p[k]
    ensures !OccursAt(s, p, i)
  {
    if i + |p| <= |s| {
      assert s[i..i + |p|][k] == s[i + k];
    }
  }

  /** A slice free of occurrences in the whole string holds none itself. */
  lemma NoOccurrenceInSlice(s: string, p: string, a: nat, b: nat)
    requires |p| > 0 && a <= b <= |s|
    requires forall j :: a <= j < b ==> !OccursAt(s, p, j)
    ensures !Contains(s[a..b], p)
  {
    var t := s[a..b];
    forall i | 0 <= i <= |t| - |p| ensures !OccursAt(t, p, i) {
      var u, v := t[i..i + |p|], s[a + i..a + i + |p|];
      assert forall k :: 0 <= k < |p| ==> u[k] == v[k];
      assert u == v;
      assert !OccursAt(s, p, a + i);
    }
  }

  /** An occurrence of `a + b` is an occurrence of `a` followed by one of `b`. */
  lemma OccursAtAppend(s: string, a: string, b: string, i: int)
    requires OccursAt(s, a + b, i)
    ensures OccursAt(s, a, i) && OccursAt(s, b, i + |a|)
  {
    assert s[i..i + |a|] == s[i..i + |a + b|][..|a|] == (a + b)[..|a|] == a;
    assert s[i + |a|..i + |a| + |b|] == s[i..i + |a + b|][|a|..] == (a + b)[|a|..] == b;
  }

  /** Trimming a word followed by one blank gives the word back. */
  lemma TrimPadded(rt: Runtime, t: string)
    requires |t| > 0 && !IsSpace(rt, t[0]) && !IsSpace(rt, t[|t| - 1])
    ensures Trim(rt, t + " ") == t
  {
    var s := t + " ";
    var r := Trim(rt, s);
    assert s[0] == t[0];
    assert SpaceRun(rt, s, 0) == 0;
    assert r == s[0..|r|];
    assert AllSpace(rt, s[|r|..]);
    assert s[|t| - 1] == t[|t| - 1];
    assert |r| >= |t| by {
      assert forall k :: |r| <= k < |s| ==> s[|r|..][k - |r|] == s[k];
    }
    assert s[|s| - 1] == ' ';
    assert r[|r| - 1] == s[|r| - 1];
    assert |r| == |t|;
    assert r == s[..|t|] == t;
  }

  lemma ContainsSelf(s: string)
    ensures Contains(s, s)
  {
    assert OccursAt(s, s, 0);
  }

  /** A string contains its own prefixes and suffixes. */
  lemma ContainsPrefixOfAppend(a: string, b: string)
    ensures Contains(a + b, a) && Contains(a + b, b)
  {
    assert (a + b)[0..|a|] == a;
    assert OccursAt(a + b, a, 0);
    assert (a + b)[|a|..|a| + |b|] == b;
    assert OccursAt(a + b, b, |a|);
  }

  /** Containment is transitive. */
  lemma ContainsTrans(a: string, b: string, c: string)
    requires Contains(a, b) && Contains(b, c)
    ensures Contains(a, c)
  {
    var i :| 0 <= i <= |a| - |b| && OccursAt(a, b, i);
    var j :| 0 <= j <= |b| - |c| && OccursAt(b, c, j);
    var u, v := a[i..i + |b|], a[i + j..i + j + |c|];
    assert u == b;
    assert forall k :: 0 <= k < |c| ==> v[k] == u[j + k] == c[k] by {
      forall k | 0 <= k < |c| ensures v[k] == u[j + k] == c[k] {
        assert b[j..j + |c|][k] == b[j + k];
      }
    }
    assert v == c;
    assert OccursAt(a, c, i + j);
  }

  /** Lower-casing keeps an occurrence where it is. */
  lemma LowerContains(a: string, b: string)
    requires Contains(a, b)
    ensures Contains(Lower(a), Lower(b))
  {
    var i :| 0 <= i <= |a| - |b| && OccursAt(a, b, i);
    var la, lb := Lower(a), Lower(b);
    assert forall k :: 0 <= k < |b| ==> la[i..i + |b|][k] == LowerChar(a[i + k]) == LowerChar(b[k]) by {
      forall k | 0 <= k < |b| ensures LowerChar(a[i + k]) == LowerChar(b[k]) {
        assert a[i..i + |b|][k] == a[i + k];
      }
    }
    assert la[i..i + |b|] == lb;
    assert OccursAt(la, lb, i);
  }

  /** Each piece of a join occurs in it. */
  lemma {:induction false} JoinContainsPart(parts: seq<string>, sep: string, k: nat)
    requires k < |parts|
    ensures Contains(Join(parts, sep), parts[k])
    decreases |parts|
  {
    if |parts| == 1 {
      ContainsSelf(parts[0]);
    } else if k == 0 {
      ContainsPrefixOfAppend(parts[0], sep + Join(parts[1..], sep));
      assert parts[0] + sep + Join(parts[1..], sep) == parts[0] + (sep + Join(parts[1..], sep));
    } else {
      JoinContainsPart(parts[1..], sep, k - 1);
      ContainsPrefixOfAppend(parts[0] + sep, Join(parts[1..], sep));
      ContainsTrans(Join(parts, sep), Join(parts[1..], sep), parts[k]);
    }
  }

  /** A keyword mentioned by one piece of `s.split(sep)` is mentioned by `s`. */
  lemma MentionedByPiece(s: string, sep: string, piece: string, p: string)
    requires |sep| > 0 && piece in Split(s, sep) && Mentions(piece, p)
    ensures Mentions(s, p)
  {
    var parts := Split(s, sep);
    var k :| 0 <= k < |parts| && parts[k] == piece;
    JoinContainsPart(parts, sep, k);
    LowerContains(s, piece);
    ContainsTrans(Lower(s), Lower(piece), p);
  }

  /** First index at or after `from` where `p` occurs (`indexOf(p, from)`). */
  function FindFrom(s: string, p: string, from: nat): (r: Option<nat>)
    ensures r.Some? ==> from <= r.value && OccursAt(s, p, r.value)
    ensures r.Some? ==> forall j :: from <= j < r.value ==> !OccursAt(s, p, j)
    ensures r.None? ==> forall j :: from <= j ==> !OccursAt(s, p, j)
    decreases |s| - from
  {
    if from + |p| > |s| then None
    else if s[from..from + |p|] == p then Some(from)
    else FindFrom(s, p, from + 1)
  }

  lemma FindFromNoneNotContains(s: string, p: string)
    ensures FindFrom(s, p, 0).None? <==> !Contains(s, p)
  {
    if FindFrom(s, p, 0).Some? {
      OccursAtContains(s, p, FindFrom(s, p, 0).value);
    }
  }

  /** `parts.join(sep)` / `sep.join(parts)`. */
  function Join(parts: seq<string>, sep: string): string
  {
    if |parts| == 0 then ""
    else if |parts| == 1 then parts[0]
    else parts[0] + sep + Join(parts[1..], sep)
  }

  /** Joining one more part appends the separator and the part. */
  lemma {:induction false} JoinSnoc(parts: seq<string>, x: string, sep: string)
    ensures Join(parts + [x], sep) == if |parts| == 0 then x else Join(parts, sep) + sep + x
    decreases |parts|
  {
    if |parts| >= 2 {
      assert (parts + [x])[1..] == parts[1..] + [x];
      JoinSnoc(parts[1..], x, sep);
    } else if |parts| == 1 {
      assert (parts + [x])[1..] == [x];
    } else {
      assert parts + [x] == [x];
    }
  }

  /** `s.split(sep)` for a non-empty literal separator: leftmost, non-overlapping pieces. */
  function Split(s: string, sep: string): (r: seq<string>)
    requires |sep| > 0
    ensures |r| >= 1
    ensures Join(r, sep) == s
    ensures forall k :: 0 <= k < |r| ==> !Contains(r[k], sep)
    decreases |s|
  {
    match FindFrom(s, sep, 0)
    case None =>
      FindFromNoneNotContains(s, sep);
      [s]
    case Some(i) =>
      var head := s[..i];
      var rest := Split(s[i + |sep|..], sep);
      assert !Contains(head, sep) by {
        forall j | 0 <= j <= |head| - |sep|
          ensures !OccursAt(head, sep, j)
        {
          assert j < i;
          assert !OccursAt(s, sep, j);
          assert head[j..j + |sep|] == s[j..j + |sep|];
        }
      }
      assert s == head + sep + s[i + |sep|..];
      [head] + rest
  }

  /** Splitting at a one-character separator undoes joining parts that do not contain it. */
  lemma {:induction false} SplitJoin(parts: seq<string>, sep: string)
    requires |sep| == 1 && |parts| >= 1
    requires forall k | 0 <= k < |parts| :: !Contains(parts[k], sep)
    ensures Split(Join(parts, sep), sep) == parts
    decreases |parts|
  {
    var x := parts[0];
    if |parts| == 1 {
      FindFromNoneNotContains(x, sep);
    } else {
      var rest := Join(parts[1..], sep);
      var j := x + sep + rest;
      assert OccursAt(j, sep, |x|) by { assert j[|x|..|x| + 1] == sep; }
      var found := FindFrom(j, sep, 0);
      assert found.Some?;
      assert found.value == |x| by {
        if found.value < |x| {
          assert j[found.value..found.value + 1] == x[found.value..found.value + 1];
          assert OccursAt(x, sep, found.value);
        }
      }
      assert j[|x| + 1..] == rest;
      assert j[..|x|] == x;
      SplitJoin(parts[1..], sep);
      assert parts == [x] + parts[1..];
    }
  }

  /** The first piece of `s.split(sep)`: the text before the first separator, or all of `s`. */
  function BeforeFirst(s: string, sep: string): (r: string)
    requires |sep| > 0
    ensures !Contains(r, sep)
    ensures r == s || (|r| + |sep| <= |s| && s[..|r|] == r && OccursAt(s, sep, |r|))
  {
    match FindFrom(s, sep, 0)
    case None => s
    case Some(i) =>
      assert s[..i] == Split(s, sep)[0];
      s[..i]
  }

  /** JavaScript `s.replace(/lit/g, rep)`, Python `s.replace(lit, rep)`: one left-to-right,
      non-overlapping pass that does not rescan its own output. */
  function ReplaceAll(s: string, pat: string, rep: string): (r: string)
    requires |pat| > 0
    ensures !Contains(s, pat) ==> r == s
    ensures |rep| <= |pat| ==> |r| <= |s|
    decreases |s|
  {
    if |s| < |pat| then s
    else if s[..|pat|] == pat then
      assert OccursAt(s, pat, 0);
      rep + ReplaceAll(s[|pat|..], pat, rep)
    else
      assert Contains(s[1..], pat) ==> Contains(s, pat) by {
        if Contains(s[1..], pat) {
          var j :| 0 <= j <= |s[1..]| - |pat| && OccursAt(s[1..], pat, j);
          assert s[1..][j..j + |pat|] == s[j + 1..j + 1 + |pat|];
          assert OccursAt(s, pat, j + 1);
        }
      }
      [s[0]] + ReplaceAll(s[1..], pat, rep)
  }

  function RemoveAll(s: string, pat: string): (r: string)
    requires |pat| > 0
    ensures !Contains(s, pat) ==> r == s
    ensures |r| <= |s|
  {
    ReplaceAll(s, pat, "")
  }

  /** Every character of `RemoveAll(s, pat)` comes from `s` (in order), so removing a pattern
      cannot introduce a character absent from the input. */
  lemma {:induction false} RemoveAllKeepsCharacters(s: string, pat: string, c: char)
    requires |pat| > 0
    requires c in RemoveAll(s, pat)
    ensures c in s
    decreases |s|
  {
    if |s| < |pat| {
    } else if s[..|pat|] == pat {
      RemoveAllKeepsCharacters(s[|pat|..], pat, c);
    } else {
      if c != s[0] {
        RemoveAllKeepsCharacters(s[1..], pat, c);
      }
    }
  }

  /** Decimal digits of a natural number, as JavaScript prints an integer-valued number. */
  function NatToString(n: nat): (r: string)
    ensures |r| >= 1
    ensures forall i :: 0 <= i < |r| ==> IsDigit(r[i])
    decreases n
  {
    if n < 10 then [('0' as int + n) as char]
    else NatToString(n / 10) + [('0' as int + n % 10) as char]
  }

  function DigitValue(c: char): nat
    requires IsDigit(c)
  {
    c as int - '0' as int
  }

  /** `parseInt` of a string of ASCII digits. */
  function ParseDigits(d: string): (n: nat)
    requires forall i :: 0 <= i < |d| ==> IsDigit(d[i])
    decreases |d|
  {
    if |d| == 0 then 0 else ParseDigits(d[..|d| - 1]) * 10 + DigitValue(d[|d| - 1])
  }

  /** Printing a number and parsing it back gives the number. */
  lemma {:induction false} ParseNatToString(n: nat)
    ensures ParseDigits(NatToString(n)) == n
    decreases n
  {
    if n >= 10 {
      ParseNatToString(n / 10);
      var s := NatToString(n);
      assert s[..|s| - 1] == NatToString(n / 10);
    }
  }

  /** Python `', '.join(xs) if xs else 'Various activities'` and similar: the list, or a default. */
  function JoinOr(parts: seq<string>, sep: string, default: string): (r: string)
    ensures |parts| == 0 ==> r == default
    ensures |parts| == 1 ==> r == parts[0]
  {
    if |parts| == 0 then default else Join(parts, sep)
  }
}

=== FILE: tips.dfy ===
/**
 `parseTipsFromResponse`: fifteen built-in tips in five categories, extended with the tips the
 text gives about the hotels it names and with the tips it introduces by "tip", "advice",
 "note" or "insider tip". A candidate joins its category unless the first twenty characters
 of its description, lower-cased, already occur in the lower-cased description of a tip
 there. The result lists the categories in their fixed order, each with its tips in order.
 */
module Tips {
  import opened Optional
  import opened Strings

  datatype Tip = Tip(title: string, description: string, cost: string)

  datatype Category = Category(name: string, icon: string, tips: seq<Tip>)

  /** What the page shows: `category` is the icon and the category name. */
  datatype FormattedTip = FormattedTip(category: string, description: string, cost: string)

  /** Positions of the categories in the built-in table. */
  const HotelIndex: nat := 0
  const TransportationIndex: nat := 1
  const DiningIndex: nat := 2
  const ShoppingIndex: nat := 3
  const CulturalIndex: nat := 4

  const HotelCategory: Category :=
    Category("Hotel Tips", "\U{F8FF}\U{FC}\U{E8}\U{AE}", [
      Tip("Swiss\U{221A}\U{A5}tel Loyalty Program",
        "Join Swiss\U{221A}\U{A5}tel's loyalty program for potential room upgrades.", "Free"),
      Tip("Direct Booking Advantage",
        "Book directly with hotels for possible discounts or perks.", "Varies"),
      Tip("Budget Breakfast Option",
        "Consider booking a room without breakfast to save more and explore local caf\U{221A}\U{A9}s.",
        "Save $10-15/day"),
      Tip("Cave Hotel Views",
        "At Kale Konak Cave Hotel, choose a room with a terrace for stunning views.", "Premium of $20-30")
    ])

  const TransportationCategory: Category :=
    Category("Transportation Tips", "\U{F8FF}\U{FC}\U{F6}\U{EF}", [
      Tip("Museum Pass",
        "Get the Ankara Museum Pass for access to multiple sites and avoid ticket lines.", "$25-40"),
      Tip("Public Transport Card",
        "Purchase an AnkaraKart for convenient access to all public transportation.", "$5 + fares"),
      Tip("Airport Transfer",
        "Pre-book airport transfers to avoid taxi overcharging.", "$15-25")
    ])

  const DiningCategory: Category :=
    Category("Dining Tips", "\U{F8FF}\U{FC}\U{E7}\U{3A9}\U{D4}\U{220F}\U{E8}", [
      Tip("Lunch Specials",
        "Many restaurants offer set menu lunch specials that are better value than dinner.", "Save 20-30%"),
      Tip("Street Food Value",
        "Try street food venues for authentic flavors at a fraction of restaurant prices.", "$3-8 per meal"),
      Tip("Tipping Custom",
        "In restaurants, it's customary to leave a tip of around 5-10% if service charge isn't included.",
        "5-10% of bill")
    ])

  const ShoppingCategory: Category :=
    Category("Shopping Tips", "\U{F8FF}\U{FC}\U{F5}\U{E7}\U{D4}\U{220F}\U{E8}", [
      Tip("Bazaar Haggling",
        "Haggling is expected in bazaars - start at 50-60% of the initial asking price.", "Save 20-40%"),
      Tip("Tax Refund",
        "Keep receipts for purchases over 100 TRY to claim VAT refund at the airport.", "Reclaim 8% VAT")
    ])

  const CulturalCategory: Category :=
    Category("Cultural Tips", "\U{F8FF}\U{FC}\U{E8}\U{F5}\U{D4}\U{220F}\U{E8}", [
      Tip("Dress Code",
        "Dress modestly when visiting religious sites - shoulders and knees should be covered.", "Free"),
      Tip("Photography Permission",
        "Always ask before taking photos of locals and be aware some museums restrict photography.",
        "Free/Varies"),
      Tip("Table Manners",
        "Wait for the host or eldest person at the table to start eating before you begin.", "Free")
    ])

  const BuiltIn: seq<Category> :=
    [HotelCategory, TransportationCategory, DiningCategory, ShoppingCategory, CulturalCategory]

  // ---------------------------------------------------------------------------------------
  // De-duplication

  /** `s.substring(0, 20)`. */
  function Head20(s: string): (r: string)
    ensures |r| == (if |s| < 20 then |s| else 20)
    ensures r == s[..|r|]
  {
    if |s| <= 20 then s else s[..20]
  }

  /** Some tip's lower-cased description contains the first twenty characters of `d`,
      lower-cased. */
  predicate IsDuplicate(tips: seq<Tip>, d: string)
  {
    exists i :: 0 <= i < |tips| && Covers(tips[i], d)
  }

  /** The tip's lower-cased description contains the first twenty characters of `d`, lower-cased. */
  predicate Covers(t: Tip, d: string)
  {
    Contains(Lower(t.description), Head20(Lower(d)))
  }

  /** A tip covers its own description. */
  lemma CoversItself(tips: seq<Tip>, t: Tip)
    ensures IsDuplicate(tips + [t], t.description)
  {
    var l := Lower(t.description);
    var h := Head20(l);
    assert h + l[|h|..] == l;
    ContainsPrefixOfAppend(h, l[|h|..]);
    assert (tips + [t])[|tips|] == t;
  }

  /** Adding tips never uncovers a description. */
  lemma DuplicateGrows(tips: seq<Tip>, more: seq<Tip>, d: string)
    requires IsDuplicate(tips, d)
    ensures IsDuplicate(tips + more, d)
  {
    var i :| 0 <= i < |tips| && Covers(tips[i], d);
    assert (tips + more)[i] == tips[i];
  }

  /** Entry `j` of `r` is a candidate that no earlier entry covers. */
  predicate AddedAt(r: seq<Tip>, news: seq<Tip>, j: int)
  {
    0 <= j < |r| && r[j] in news && !IsDuplicate(r[..j], r[j].description)
  }

  /** The candidates pushed one at a time, each unless the list so far covers it: the list
      keeps its tips in front, and every tip added is a candidate no earlier tip covers. */
  function AddAll(tips: seq<Tip>, news: seq<Tip>): (r: seq<Tip>)
    ensures |tips| <= |r| <= |tips| + |news| && r[..|tips|] == tips && tips <= r
    ensures forall j :: |tips| <= j < |r| ==> AddedAt(r, news, j)
    decreases |news|
  {
    if |news| == 0 then tips
    else
      var t := news[0];
      var tips' := if IsDuplicate(tips, t.description) then tips else tips + [t];
      var r := AddAll(tips', news[1..]);
      assert r[..|tips|] == tips' [..|tips|] == tips;
      assert forall j :: |tips| <= j < |r| ==> AddedAt(r, news, j) by {
        forall j | |tips| <= j < |r| ensures AddedAt(r, news, j) {
          if j < |tips'| {
            assert r[..j] == tips && r[j] == t;
          } else {
            assert AddedAt(r, news[1..], j);
          }
        }
      }
      r
  }

  /** Every candidate ends up covered: the ones added cover themselves, the others were
      covered when their turn came. */
  lemma {:induction false} AddAllCoversAll(tips: seq<Tip>, news: seq<Tip>)
    ensures forall t :: t in news ==> IsDuplicate(AddAll(tips, news), t.description)
    decreases |news|
  {
    if |news| > 0 {
      var t := news[0];
      var tips' := if IsDuplicate(tips, t.description) then tips else tips + [t];
      AddAllCoversAll(tips', news[1..]);
      HeadCovered(tips, news);
      forall x | x in news ensures IsDuplicate(AddAll(tips, news), x.description) {
        if x != t {
          assert x in news[1..];
        }
      }
    }
  }

  /** The first candidate is covered once its turn has come. */
  lemma HeadCovered(tips: seq<Tip>, news: seq<Tip>)
    requires |news| > 0
    ensures IsDuplicate(AddAll(tips, news), news[0].description)
  {
    var t := news[0];
    var tips' := if IsDuplicate(tips, t.description) then tips else tips + [t];
    assert IsDuplicate(tips', t.description) by {
      if !IsDuplicate(tips, t.description) { CoversItself(tips, t); }
    }
    var r := AddAll(tips', news[1..]);
    assert r == AddAll(tips, news);
    var rest := r[|tips'|..];
    assert r == tips' + rest;
    DuplicateGrows(tips', rest, t.description);
  }

  /** A first candidate that nothing covers is added, right after the tips already there. */
  lemma HeadAdded(tips: seq<Tip>, news: seq<Tip>)
    requires |news| > 0 && !IsDuplicate(tips, news[0].description)
    ensures |AddAll(tips, news)| > |tips| && AddAll(tips, news)[|tips|] == news[0]
  {
    var r := AddAll(tips + [news[0]], news[1..]);
    assert r == AddAll(tips, news);
    assert r[..|tips| + 1] == tips + [news[0]];
  }

  /** The candidates as a left fold: the last one is added exactly when the tips the earlier
      candidates left do not cover it. */
  lemma {:induction false} AddAllSnoc(tips: seq<Tip>, news: seq<Tip>, t: Tip)
    ensures AddAll(tips, news + [t])
            == if IsDuplicate(AddAll(tips, news), t.description) then AddAll(tips, news)
               else AddAll(tips, news) + [t]
    decreases |news|
  {
    if |news| == 0 {
      assert news + [t] == [t];
    } else {
      var h := news[0];
      var tips' := if IsDuplicate(tips, h.description) then tips else tips + [h];
      assert (news + [t])[0] == h && (news + [t])[1..] == news[1..] + [t];
      AddAllSnoc(tips', news[1..], t);
    }
  }

  // ---------------------------------------------------------------------------------------
  // Tips about the hotels the text names

  const HotelKeywords: seq<string> :=
    ["swiss\U{221A}\U{A5}tel", "midi ankara", "princess hotel", "kale konak"]

  /** A line that names the hotel and gives a tip, an insider hint or advice. */
  predicate IsHotelTipLine(line: string, keyword: string)
  {
    Mentions(line, keyword)
    && (Mentions(line, "tip") || Mentions(line, "insider") || Mentions(line, "advice"))
  }

  /** The character class `[-‚Ä¢*:]` of the leading-marker regex. */
  predicate IsBullet(c: char)
  {
    c == '-' || c == '\U{201A}' || c == '\U{C4}' || c == '\U{A2}' || c == '*' || c == ':'
  }

  /** Length of the prefix `^\s*[-‚Ä¢*:]?\s*` matches: blanks, at most one marker, blanks. */
  function LeadLength(line: string): (n: nat)
    ensures n <= |line|
    ensures n < |line| ==> !IsJsSpace(line[n])
    ensures forall k :: 0 <= k < n && !IsJsSpace(line[k]) ==>
              IsBullet(line[k]) && k == SpaceRun(JavaScript, line, 0)
  {
    var a := SpaceRun(JavaScript, line, 0);
    if a < |line| && IsBullet(line[a]) then a + 1 + SpaceRun(JavaScript, line, a + 1) else a
  }

  /** The line without its leading marker and without `**`. */
  function CleanTip(line: string): (r: string)
    ensures |r| <= |line|
  {
    RemoveAll(line[LeadLength(line)..], "**")
  }

  function HotelTip(keyword: string, line: string): Tip
  {
    Tip(Capitalize(keyword) + " Tip", CleanTip(line), "Varies")
  }

  /** The hotel tips for one keyword, in line order. */
  function KeywordTips(lines: seq<string>, keyword: string): (r: seq<Tip>)
    ensures forall t :: t in r <==> exists l :: l in lines && IsHotelTipLine(l, keyword) && t == HotelTip(keyword, l)
  {
    if |lines| == 0 then []
    else
      var rest := KeywordTips(lines[1..], keyword);
      assert forall x :: x in lines <==> x == lines[0] || x in lines[1..];
      if IsHotelTipLine(lines[0], keyword) then [HotelTip(keyword, lines[0])] + rest else rest
  }

  /** The hotel tips, keyword by keyword. A keyword's lines are searched only when the whole
      text mentions it, which every line mentioning it guarantees, so every tip line of every
      keyword contributes. */
  function HotelTipsFrom(text: string, keywords: seq<string>): (r: seq<Tip>)
    ensures forall t :: t in r ==>
              exists k :: 0 <= k < |keywords|
                && exists l :: l in Split(text, "\n") && IsHotelTipLine(l, keywords[k]) && t == HotelTip(keywords[k], l)
    ensures forall k, l :: 0 <= k < |keywords| && l in Split(text, "\n") && IsHotelTipLine(l, keywords[k]) ==>
              HotelTip(keywords[k], l) in r
  {
    if |keywords| == 0 then []
    else
      var kw := keywords[0];
      var lines := Split(text, "\n");
      var here := if Mentions(text, kw) then KeywordTips(lines, kw) else [];
      var rest := HotelTipsFrom(text, keywords[1..]);
      assert forall l :: l in lines && IsHotelTipLine(l, kw) ==> HotelTip(kw, l) in here by {
        forall l | l in lines && IsHotelTipLine(l, kw) ensures HotelTip(kw, l) in here {
          MentionedByPiece(text, "\n", l, kw);
        }
      }
      assert forall k :: 1 <= k < |keywords| ==> keywords[1..][k - 1] == keywords[k];
      here + rest
  }

  // ---------------------------------------------------------------------------------------
  // Tips the text introduces: `/(?:insider tip|advice|note|tip)(?:\*\*)?(?::|-|‚Äì)?\s*([^\.]+)\./gi`

  const TipWords: seq<string> := ["insider tip", "advice", "note", "tip"]

  /** The lower-case word `w` at `p`, matched ignoring the case of ASCII letters (the `i` flag
      folds no other character onto an ASCII letter). */
  predicate WordAt(s: string, w: string, p: nat)
  {
    p + |w| <= |s| && forall i :: 0 <= i < |w| ==> LowerChar(s[p + i]) == w[i]
  }

  /** The optional separator `(?::|-|‚Äì)` at `p`: the length of the alternative that matches.
      Under the `i` flag the last alternative also accepts the other case of its letters. */
  function SeparatorAt(s: string, p: nat): (r: Option<nat>)
    ensures r.Some? ==> p + r.value <= |s|
  {
    if p < |s| && (s[p] == ':' || s[p] == '-') then Some(1)
    else if p + 3 <= |s| && s[p] == '\U{201A}' && (s[p + 1] == '\U{C4}' || s[p + 1] == '\U{E4}')
            && (s[p + 2] == '\U{EC}' || s[p + 2] == '\U{CC}') then Some(3)
    else None
  }

  /** Number of consecutive characters other than `.` from `i` on. */
  function NonDotRun(s: string, i: nat): (n: nat)
    ensures i <= |s| ==> i + n <= |s|
    ensures forall k :: i <= k < i + n ==> k < |s| && s[k] != '.'
    ensures i + n < |s| ==> s[i + n] == '.'
    decreases |s| - i
  {
    if i < |s| && s[i] != '.' then 1 + NonDotRun(s, i + 1) else 0
  }

  /** `([^\.]+)\.` after `\s*` has kept `j` of the blanks from `b`, giving them back one at a
      time: the capture as (start, end), the `.` being at `end`. */
  function TailFrom(s: string, b: nat, j: nat): (r: Option<(nat, nat)>)
    ensures r.Some? ==> b <= r.value.0 <= b + j && r.value.0 < r.value.1 < |s| && s[r.value.1] == '.'
    ensures r.Some? ==> forall k :: r.value.0 <= k < r.value.1 ==> s[k] != '.'
    decreases j
  {
    var q := b + j;
    var m := NonDotRun(s, q);
    if m >= 1 && q + m < |s| then Some((q, q + m))
    else if j == 0 then None
    else TailFrom(s, b, j - 1)
  }

  /** `\s*([^\.]+)\.` from `b`. */
  function Tail(s: string, b: nat): (r: Option<(nat, nat)>)
    ensures r.Some? ==> b <= r.value.0 < r.value.1 < |s| && s[r.value.1] == '.'
    ensures r.Some? ==> forall k :: r.value.0 <= k < r.value.1 ==> s[k] != '.'
    ensures r.Some? ==> forall k :: b <= k < r.value.0 ==> IsJsSpace(s[k])
  {
    TailFrom(s, b, SpaceRun(JavaScript, s, b))
  }

  /** The tail matches exactly when the character at `b` is not `.` and a `.` follows it. */
  lemma TailIff(s: string, b: nat)
    ensures Tail(s, b).Some? <==> b < |s| && s[b] != '.' && exists e :: b < e < |s| && s[e] == '.'
  {
    var n := SpaceRun(JavaScript, s, b);
    if b < |s| && s[b] != '.' && exists e :: b < e < |s| && s[e] == '.' {
      var q := b + n;
      assert forall k :: b <= k < q ==> s[k] != '.' by {
        forall k | b <= k < q ensures s[k] != '.' {
          assert IsJsSpace(s[k]);
        }
      }
      var e :| b < e < |s| && s[e] == '.';
      assert q <= e;
      var m := NonDotRun(s, q);
      if m >= 1 {
        assert q + m <= e;
      } else {
        assert s[q] == '.';
        assert n >= 1;
        assert NonDotRun(s, q - 1) == 1;
        assert TailFrom(s, b, n - 1) == Some((q - 1, q));
      }
    }
  }

  /** After the separator position `b1`: the separator if one is there, else none. */
  function AfterSeparator(s: string, b1: nat): (r: Option<(nat, nat)>)
    ensures r.Some? ==> b1 <= r.value.0 < r.value.1 < |s| && s[r.value.1] == '.'
    ensures r.Some? ==> forall k :: r.value.0 <= k < r.value.1 ==> s[k] != '.'
  {
    match SeparatorAt(s, b1)
    case Some(d) => Tail(s, b1 + d).OrElse(Tail(s, b1))
    case None => Tail(s, b1)
  }

  /** After the word ending at `b0`: `**` if it is there, else nothing. */
  function AfterWord(s: string, b0: nat): (r: Option<(nat, nat)>)
    ensures r.Some? ==> b0 <= r.value.0 < r.value.1 < |s| && s[r.value.1] == '.'
    ensures r.Some? ==> forall k :: r.value.0 <= k < r.value.1 ==> s[k] != '.'
  {
    if OccursAt(s, "**", b0) then AfterSeparator(s, b0 + 2).OrElse(AfterSeparator(s, b0))
    else AfterSeparator(s, b0)
  }

  /** Word `w` is at `p` and what follows it completes the pattern. */
  predicate WordCompletes(s: string, w: string, p: nat)
  {
    WordAt(s, w, p) && AfterWord(s, p + |w|).Some?
  }

  /** Some word from index `k` on completes the pattern at `p`. */
  predicate SomeWordCompletes(s: string, words: seq<string>, p: nat)
  {
    exists i :: 0 <= i < |words| && WordCompletes(s, words[i], p)
  }

  /** A match starting at `p`, trying the words in order. */
  function MatchAt(s: string, p: nat, words: seq<string>): (r: Option<(nat, nat)>)
    ensures r.Some? ==> p <= r.value.0 < r.value.1 < |s| && s[r.value.1] == '.'
    ensures r.Some? ==> forall k :: r.value.0 <= k < r.value.1 ==> s[k] != '.'
    ensures r.Some? ==> exists i :: 0 <= i < |words| && WordAt(s, words[i], p)
  {
    if |words| == 0 then None
    else if WordAt(s, words[0], p) then
      AfterWord(s, p + |words[0]|).OrElse(MatchAt(s, p, words[1..]))
    else
      var r := MatchAt(s, p, words[1..]);
      assert r.Some? ==> exists i :: 1 <= i < |words| && WordAt(s, words[i], p) by {
        if r.Some? {
          var i :| 0 <= i < |words[1..]| && WordAt(s, words[1..][i], p);
          assert words[1..][i] == words[i + 1];
        }
      }
      r
  }

  /** There is a match at `p` exactly when one of the words is there and what follows it
      completes the pattern: a word whose tail fails gives way to the next word. */
  lemma {:induction false} MatchAtComplete(s: string, p: nat, words: seq<string>)
    ensures MatchAt(s, p, words).Some? <==> SomeWordCompletes(s, words, p)
    decreases |words|
  {
    if |words| > 0 {
      MatchAtComplete(s, p, words[1..]);
      SomeWordCompletesCons(s, words, p);
    }
  }

  /** Some word completes the pattern when the first does or one of the rest does. */
  lemma SomeWordCompletesCons(s: string, words: seq<string>, p: nat)
    requires |words| > 0
    ensures SomeWordCompletes(s, words, p)
            <==> WordCompletes(s, words[0], p) || SomeWordCompletes(s, words[1..], p)
  {
    if SomeWordCompletes(s, words, p) && !WordCompletes(s, words[0], p) {
      var i :| 0 <= i < |words| && WordCompletes(s, words[i], p);
      assert words[1..][i - 1] == words[i];
    }
    if SomeWordCompletes(s, words[1..], p) {
      var i :| 0 <= i < |words[1..]| && WordCompletes(s, words[1..][i], p);
      assert words[1..][i] == words[i + 1];
    }
  }

  /** The leftmost match at or after `from`. */
  function FirstMatch(s: string, from: nat): (r: Option<(nat, nat)>)
    ensures r.Some? ==> from <= r.value.0 < r.value.1 < |s| && s[r.value.1] == '.'
    ensures r.Some? ==> forall k :: r.value.0 <= k < r.value.1 ==> s[k] != '.'
    decreases |s| - from
  {
    if from >= |s| then None
    else MatchAt(s, from, TipWords).OrElse(FirstMatch(s, from + 1))
  }

  /** No match starts in `[a, b)`. */
  predicate NoMatchIn(s: string, a: nat, b: nat)
  {
    forall p | a <= p < b :: MatchAt(s, p, TipWords).None?
  }

  /** `c` is the capture of the leftmost match at or after `from`. */
  predicate LeftmostFrom(s: string, from: nat, c: (nat, nat))
  {
    exists p :: from <= p <= c.0 && MatchAt(s, p, TipWords) == Some(c) && NoMatchIn(s, from, p)
  }

  /** The search finds nothing exactly when no match starts at or after `from`, and what it
      finds is the capture of the leftmost match. */
  lemma {:induction false} FirstMatchLeftmost(s: string, from: nat)
    ensures FirstMatch(s, from).None? <==> NoMatchIn(s, from, |s|)
    ensures FirstMatch(s, from).Some? ==> LeftmostFrom(s, from, FirstMatch(s, from).value)
    decreases |s| - from
  {
    if from < |s| {
      FirstMatchLeftmost(s, from + 1);
      var m := MatchAt(s, from, TipWords);
      if m.Some? {
        assert FirstMatch(s, from) == m;
        assert NoMatchIn(s, from, from);
      } else {
        assert FirstMatch(s, from) == FirstMatch(s, from + 1);
        NoMatchInCons(s, from, |s|);
        if FirstMatch(s, from).Some? {
          LeftmostSkip(s, from, FirstMatch(s, from).value);
        }
      }
    }
  }

  /** A leftmost match after `from` is leftmost from `from` on when none starts at `from`. */
  lemma LeftmostSkip(s: string, from: nat, c: (nat, nat))
    requires MatchAt(s, from, TipWords).None? && LeftmostFrom(s, from + 1, c)
    ensures LeftmostFrom(s, from, c)
  {
    var p :| from + 1 <= p <= c.0 && MatchAt(s, p, TipWords) == Some(c) && NoMatchIn(s, from + 1, p);
    NoMatchInCons(s, from, p);
  }

  /** No match in `[a, b)` when none at `a` and none in `[a + 1, b)`. */
  lemma NoMatchInCons(s: string, a: nat, b: nat)
    requires a < b && MatchAt(s, a, TipWords).None?
    ensures NoMatchIn(s, a, b) <==> NoMatchIn(s, a + 1, b)
  {
  }

  /** The captures of successive `exec` calls, the first searching from `from` (`lastIndex`);
      each search resumes just after the previous match's `.`. */
  function Captures(s: string, from: nat): (r: seq<(nat, nat)>)
    ensures forall i :: 0 <= i < |r| ==> from <= r[i].0 < r[i].1 < |s| && s[r[i].1] == '.'
    ensures forall i :: 0 <= i < |r| ==> forall k :: r[i].0 <= k < r[i].1 ==> s[k] != '.'
    ensures forall i, j :: 0 <= i < j < |r| ==> r[i].1 < r[j].0
    decreases |s| - from
  {
    match FirstMatch(s, from)
    case None => []
    case Some((a, e)) => [(a, e)] + Captures(s, e + 1)
  }

  /** Where the search for capture `i` starts: `from`, or just after the previous `.`. */
  function ResumeAt(r: seq<(nat, nat)>, from: nat, i: nat): nat
    requires i <= |r|
  {
    if i == 0 then from else r[i - 1].1 + 1
  }

  /** Each capture of `r` belongs to the leftmost match after the previous one: the first to
      the leftmost at or after `from`, the rest likewise from just after the first's `.`. */
  predicate EachLeftmost(s: string, from: nat, r: seq<(nat, nat)>)
    decreases |r|
  {
    |r| > 0 ==> LeftmostFrom(s, from, r[0]) && EachLeftmost(s, r[0].1 + 1, r[1..])
  }

  /** The scan misses no match: each capture belongs to the leftmost match after the previous
      one, and once it stops no match is left. */
  lemma {:induction false} CapturesLeftmost(s: string, from: nat)
    ensures EachLeftmost(s, from, Captures(s, from))
    ensures NoMatchIn(s, ResumeAt(Captures(s, from), from, |Captures(s, from)|), |s|)
    decreases |s| - from
  {
    FirstMatchLeftmost(s, from);
    if FirstMatch(s, from).Some? {
      var c := FirstMatch(s, from).value;
      var rest := Captures(s, c.1 + 1);
      CapturesLeftmost(s, c.1 + 1);
      CapturesCons(s, from, c);
      ResumeAtCons(c, rest, from);
    }
  }

  /** A search that finds `c` is followed by the searches resumed after it. */
  lemma CapturesCons(s: string, from: nat, c: (nat, nat))
    requires FirstMatch(s, from) == Some(c)
    ensures Captures(s, from) == [c] + Captures(s, c.1 + 1)
  {
  }

  /** With `c` in front, the search after the last capture starts where it did. */
  lemma ResumeAtCons(c: (nat, nat), rest: seq<(nat, nat)>, from: nat)
    ensures ([c] + rest)[1..] == rest
    ensures ResumeAt([c] + rest, from, |rest| + 1) == ResumeAt(rest, c.1 + 1, |rest|)
  {
  }

  // ---------------------------------------------------------------------------------------
  // Categories of introduced tips

  const HotelWords: seq<string> := ["hotel", "stay", "room", "accommodation"]
  const DiningWords: seq<string> := ["restaurant", "food", "eat", "meal"]
  const TransportWords: seq<string> := ["transport", "bus", "taxi", "metro"]
  const ShoppingWords: seq<string> := ["shop", "buy", "market"]

  /** The category an introduced tip belongs to: the first of hotel, dining, transportation
      and shopping whose words it mentions, else cultural. */
  function CategoryOf(d: string): (c: nat)
    ensures c <= CulturalIndex
    ensures c == HotelIndex <==> MentionsAny(d, HotelWords)
    ensures c == DiningIndex <==> !MentionsAny(d, HotelWords) && MentionsAny(d, DiningWords)
    ensures c == TransportationIndex <==>
              !MentionsAny(d, HotelWords) && !MentionsAny(d, DiningWords) && MentionsAny(d, TransportWords)
    ensures c == ShoppingIndex <==>
              && !MentionsAny(d, HotelWords) && !MentionsAny(d, DiningWords)
              && !MentionsAny(d, TransportWords) && MentionsAny(d, ShoppingWords)
  {
    if MentionsAny(d, HotelWords) then HotelIndex
    else if MentionsAny(d, DiningWords) then DiningIndex
    else if MentionsAny(d, TransportWords) then TransportationIndex
    else if MentionsAny(d, ShoppingWords) then ShoppingIndex
    else CulturalIndex
  }

  /** An introduced tip: its category and its description. */
  datatype Extracted = Extracted(category: nat, description: string)

  /** A capture: a stretch of the text without `.`. */
  predicate IsCapture(s: string, cap: (nat, nat))
  {
    cap.0 <= cap.1 <= |s| && forall k :: cap.0 <= k < cap.1 ==> s[k] != '.'
  }

  /** What the parser keeps of a capture: trimmed, longer than ten characters, without `.`,
      in the category its words suggest. */
  predicate IsExtracted(x: Extracted)
  {
    && |x.description| > 10
    && x.category == CategoryOf(x.description)
    && '.' !in x.description
    && !IsJsSpace(x.description[0]) && !IsJsSpace(x.description[|x.description| - 1])
  }

  /** A capture, trimmed. */
  function Trimmed(s: string, cap: (nat, nat)): string
    requires IsCapture(s, cap)
  {
    JsTrim(s[cap.0..cap.1])
  }

  /** The tip a capture becomes when its trimmed text is longer than ten characters. */
  function TipOfCapture(s: string, cap: (nat, nat)): Extracted
    requires IsCapture(s, cap)
  {
    Extracted(CategoryOf(Trimmed(s, cap)), Trimmed(s, cap))
  }

  /** A capture long enough to be kept: trimmed, it is longer than ten characters. */
  predicate LongCapture(s: string, cap: (nat, nat))
  {
    IsCapture(s, cap) && |Trimmed(s, cap)| > 10
  }

  /** Some entry of `r` has description `d`. */
  predicate Describes(r: seq<Extracted>, d: string)
  {
    exists j :: 0 <= j < |r| && r[j].description == d
  }

  /** Some capture long enough trims to `d`. */
  predicate LongCaptureOf(s: string, caps: seq<(nat, nat)>, d: string)
  {
    exists i :: 0 <= i < |caps| && LongCapture(s, caps[i]) && Trimmed(s, caps[i]) == d
  }

  /** Every capture long enough has an entry in `r` with its trimmed text as description. */
  predicate KeepsAll(s: string, caps: seq<(nat, nat)>, r: seq<Extracted>)
  {
    forall i :: 0 <= i < |caps| && LongCapture(s, caps[i]) ==> Describes(r, Trimmed(s, caps[i]))
  }

  /** Every entry of `r` has the trimmed text of a capture long enough as description. */
  predicate KeepsOnly(s: string, caps: seq<(nat, nat)>, r: seq<Extracted>)
  {
    forall j :: 0 <= j < |r| ==> LongCaptureOf(s, caps, r[j].description)
  }

  /** The captures trimmed, kept when longer than ten characters: every capture long enough
      becomes a tip, and every tip comes from such a capture. */
  function TipsOfCaptures(s: string, caps: seq<(nat, nat)>): (r: seq<Extracted>)
    requires forall i :: 0 <= i < |caps| ==> IsCapture(s, caps[i])
    ensures |r| <= |caps|
    ensures forall i :: 0 <= i < |r| ==> IsExtracted(r[i])
    ensures KeepsAll(s, caps, r) && KeepsOnly(s, caps, r)
  {
    if |caps| == 0 then []
    else
      assert IsCapture(s, caps[0]);
      var a, e := caps[0].0, caps[0].1;
      var d := JsTrim(s[a..e]);
      var rest := TipsOfCaptures(s, caps[1..]);
      TrimNoDot(s, a, e);
      var r := if |d| > 10 then [Extracted(CategoryOf(d), d)] + rest else rest;
      KeepsCons(s, caps, rest, r);
      r
  }

  /** What holds of the captures after the first carries over to all of them. */
  lemma KeepsCons(s: string, caps: seq<(nat, nat)>, rest: seq<Extracted>, r: seq<Extracted>)
    requires |caps| > 0 && IsCapture(s, caps[0])
    requires KeepsAll(s, caps[1..], rest) && KeepsOnly(s, caps[1..], rest)
    requires LongCapture(s, caps[0]) ==> |r| == |rest| + 1 && r[0].description == Trimmed(s, caps[0]) && r[1..] == rest
    requires !LongCapture(s, caps[0]) ==> r == rest
    ensures KeepsAll(s, caps, r) && KeepsOnly(s, caps, r)
  {
    KeepsAllCons(s, caps, rest, r);
    KeepsOnlyCons(s, caps, rest, r);
  }

  lemma KeepsAllCons(s: string, caps: seq<(nat, nat)>, rest: seq<Extracted>, r: seq<Extracted>)
    requires |caps| > 0 && IsCapture(s, caps[0])
    requires KeepsAll(s, caps[1..], rest)
    requires LongCapture(s, caps[0]) ==> |r| == |rest| + 1 && r[0].description == Trimmed(s, caps[0]) && r[1..] == rest
    requires !LongCapture(s, caps[0]) ==> r == rest
    ensures KeepsAll(s, caps, r)
  {
    forall i | 0 <= i < |caps| && LongCapture(s, caps[i]) ensures Describes(r, Trimmed(s, caps[i])) {
      if i > 0 {
        assert caps[1..][i - 1] == caps[i];
        var j :| 0 <= j < |rest| && rest[j].description == Trimmed(s, caps[i]);
        if LongCapture(s, caps[0]) { assert r[j + 1] == rest[j]; }
      } else {
        assert r[0].description == Trimmed(s, caps[0]);
      }
    }
  }

  lemma KeepsOnlyCons(s: string, caps: seq<(nat, nat)>, rest: seq<Extracted>, r: seq<Extracted>)
    requires |caps| > 0 && IsCapture(s, caps[0])
    requires KeepsOnly(s, caps[1..], rest)
    requires LongCapture(s, caps[0]) ==> |r| == |rest| + 1 && r[0].description == Trimmed(s, caps[0]) && r[1..] == rest
    requires !LongCapture(s, caps[0]) ==> r == rest
    ensures KeepsOnly(s, caps, r)
  {
    forall j | 0 <= j < |r| ensures LongCaptureOf(s, caps, r[j].description) {
      if LongCapture(s, caps[0]) && j == 0 {
        assert LongCapture(s, caps[0]) && Trimmed(s, caps[0]) == r[0].description;
      } else {
        var k := if LongCapture(s, caps[0]) then j - 1 else j;
        assert r[j] == rest[k];
        var i :| 0 <= i < |caps[1..]| && LongCapture(s, caps[1..][i]) && Trimmed(s, caps[1..][i]) == rest[k].description;
        assert caps[1..][i] == caps[i + 1];
      }
    }
  }

  /** Keeping the captures of two stretches one after the other keeps them in order. */
  lemma {:induction false} TipsOfCapturesAppend(s: string, c1: seq<(nat, nat)>, c2: seq<(nat, nat)>)
    requires forall i :: 0 <= i < |c1| ==> IsCapture(s, c1[i])
    requires forall i :: 0 <= i < |c2| ==> IsCapture(s, c2[i])
    ensures forall i :: 0 <= i < |c1 + c2| ==> IsCapture(s, (c1 + c2)[i])
    ensures TipsOfCaptures(s, c1 + c2) == TipsOfCaptures(s, c1) + TipsOfCaptures(s, c2)
    decreases |c1|
  {
    assert forall i :: 0 <= i < |c1 + c2| ==> IsCapture(s, (c1 + c2)[i]) by {
      forall i | 0 <= i < |c1 + c2| ensures IsCapture(s, (c1 + c2)[i]) {
        if i >= |c1| { assert (c1 + c2)[i] == c2[i - |c1|]; }
      }
    }
    if |c1| == 0 {
      assert c1 + c2 == c2;
    } else {
      assert (c1 + c2)[1..] == c1[1..] + c2;
      TipsOfCapturesAppend(s, c1[1..], c2);
    }
  }

  /** A single capture yields its tip when its trimmed text is longer than ten characters. */
  lemma TipsOfOneCapture(s: string, cap: (nat, nat))
    requires IsCapture(s, cap)
    ensures TipsOfCaptures(s, [cap]) == if |Trimmed(s, cap)| > 10 then [TipOfCapture(s, cap)] else []
  {
    assert [cap][1..] == [];
  }

  /** Trimming a stretch free of `.` leaves none. */
  lemma TrimNoDot(s: string, a: nat, e: nat)
    requires a <= e <= |s|
    requires forall k :: a <= k < e ==> s[k] != '.'
    ensures '.' !in JsTrim(s[a..e])
  {
    var t := s[a..e];
    var d := JsTrim(t);
    var n := SpaceRun(JavaScript, t, 0);
    assert d == t[n..n + |d|];
    assert forall k :: 0 <= k < |d| ==> d[k] == s[a + n + k];
  }

  /** The tips the text introduces, in text order: one for each capture of the scan whose
      trimmed text is longer than ten characters, and no other. */
  function ExtractedTips(text: string): (r: seq<Extracted>)
    ensures forall i :: 0 <= i < |r| ==> IsExtracted(r[i])
    ensures KeepsAll(text, Captures(text, 0), r) && KeepsOnly(text, Captures(text, 0), r)
  {
    TipsOfCaptures(text, Captures(text, 0))
  }

  /** The tip an introduced description becomes. */
  function Advice(d: string): Tip
  {
    Tip("Travel Advice", d, "Varies")
  }

  /** The introduced tips of category `c`, in text order. */
  function AdviceFor(extra: seq<Extracted>, c: nat): (r: seq<Tip>)
    ensures |r| <= |extra|
  {
    if |extra| == 0 then []
    else (if extra[0].category == c then [Advice(extra[0].description)] else []) + AdviceFor(extra[1..], c)
  }

  /** The introduced tips added one at a time, each to its own category. */
  function AddExtracted(cats: seq<Category>, extra: seq<Extracted>): (r: seq<Category>)
    requires forall i :: 0 <= i < |extra| ==> extra[i].category < |cats|
    ensures |r| == |cats|
    decreases |extra|
  {
    if |extra| == 0 then cats
    else
      assert forall i :: 0 <= i < |extra| - 1 ==> extra[1..][i] == extra[i + 1];
      AddExtracted(AddOne(cats, extra[0]), extra[1..])
  }

  /** The additions to one category do not depend on those to the others: each category
      keeps its name and icon and receives its own candidates in text order. */
  lemma {:induction false} AddExtractedPerCategory(cats: seq<Category>, extra: seq<Extracted>)
    requires forall i :: 0 <= i < |extra| ==> extra[i].category < |cats|
    ensures var r := AddExtracted(cats, extra);
            forall c :: 0 <= c < |r| ==> r[c].name == cats[c].name && r[c].icon == cats[c].icon
    ensures var r := AddExtracted(cats, extra);
            forall c :: 0 <= c < |r| ==> r[c].tips == AddAll(cats[c].tips, AdviceFor(extra, c))
    decreases |extra|
  {
    if |extra| > 0 {
      var cats' := AddOne(cats, extra[0]);
      assert forall i :: 0 <= i < |extra| - 1 ==> extra[1..][i] == extra[i + 1];
      AddExtractedPerCategory(cats', extra[1..]);
      var r := AddExtracted(cats, extra);
      forall c | 0 <= c < |r| ensures r[c].tips == AddAll(cats[c].tips, AdviceFor(extra, c)) {
        AdviceStep(cats[c].tips, extra, c);
      }
    }
  }

  /** One introduced tip added to its category. */
  function AddOne(cats: seq<Category>, e: Extracted): (r: seq<Category>)
    requires e.category < |cats|
    ensures |r| == |cats|
    ensures forall c :: 0 <= c < |r| ==> r[c].name == cats[c].name && r[c].icon == cats[c].icon
    ensures forall c :: 0 <= c < |r| ==>
              r[c].tips == if c == e.category then AddAll(cats[c].tips, [Advice(e.description)]) else cats[c].tips
  {
    cats[e.category := cats[e.category].(tips := AddAll(cats[e.category].tips, [Advice(e.description)]))]
  }

  /** The candidates of category `c`: the first introduced tip if it is of that category, then
      the others. */
  lemma AdviceStep(tips: seq<Tip>, extra: seq<Extracted>, c: nat)
    requires |extra| > 0
    ensures AddAll(if extra[0].category == c then AddAll(tips, [Advice(extra[0].description)]) else tips,
                   AdviceFor(extra[1..], c))
            == AddAll(tips, AdviceFor(extra, c))
  {
    var rest := AdviceFor(extra[1..], c);
    if extra[0].category == c {
      assert AdviceFor(extra, c) == [Advice(extra[0].description)] + rest;
      AddAllCons(tips, Advice(extra[0].description), rest);
    } else {
      assert AdviceFor(extra, c) == [] + rest == rest;
    }
  }

  /** Adding one candidate, then the rest, is adding them all. */
  lemma AddAllCons(tips: seq<Tip>, t: Tip, rest: seq<Tip>)
    ensures AddAll(tips, [t] + rest) == AddAll(AddAll(tips, [t]), rest)
  {
    assert ([t] + rest)[1..] == rest;
    assert [t][1..] == [];
  }

  // ---------------------------------------------------------------------------------------
  // The whole parser

  /** The hotel tips added to the hotel category, if there are any. */
  function AddHotelTips(base: seq<Category>, hotel: seq<Tip>): (r: seq<Category>)
    requires HotelIndex < |base|
    ensures r == base[HotelIndex := base[HotelIndex].(tips := AddAll(base[HotelIndex].tips, hotel))]
  {
    if |hotel| > 0 then base[HotelIndex := base[HotelIndex].(tips := AddAll(base[HotelIndex].tips, hotel))]
    else
      assert AddAll(base[HotelIndex].tips, hotel) == base[HotelIndex].tips;
      base
  }

  /** The hotel category receives the hotel tips; every category keeps its name, its icon and
      its tips in front, and the others keep their tips as they were. */
  lemma AddHotelTipsKeeps(base: seq<Category>, hotel: seq<Tip>)
    requires HotelIndex < |base|
    ensures var r := AddHotelTips(base, hotel);
            && |r| == |base|
            && (forall c :: 0 <= c < |r| ==> r[c].name == base[c].name && r[c].icon == base[c].icon)
            && (forall c :: 0 <= c < |r| ==> base[c].tips <= r[c].tips)
            && r[HotelIndex].tips == AddAll(base[HotelIndex].tips, hotel)
            && (forall c :: HotelIndex < c < |r| ==> r[c].tips == base[c].tips)
  {
  }

  /** The categories after both kinds of additions: the hotel tips join the hotel category
      first; then every category receives its introduced tips. Each category keeps its name,
      its icon and its earlier tips in front. */
  function Extend(base: seq<Category>, hotel: seq<Tip>, extra: seq<Extracted>): (r: seq<Category>)
    requires |base| == CulturalIndex + 1
    requires forall i :: 0 <= i < |extra| ==> extra[i].category <= CulturalIndex
    ensures |r| == |base|
  {
    AddExtracted(AddHotelTips(base, hotel), extra)
  }

  /** Each category keeps its name, its icon and its earlier tips in front; the hotel
      category receives the hotel tips and then its introduced tips, every other category
      only its introduced tips. */
  lemma ExtendKeeps(base: seq<Category>, hotel: seq<Tip>, extra: seq<Extracted>)
    requires |base| == CulturalIndex + 1
    requires forall i :: 0 <= i < |extra| ==> extra[i].category <= CulturalIndex
    ensures var r := Extend(base, hotel, extra);
            && (forall c :: 0 <= c < |r| ==> r[c].name == base[c].name && r[c].icon == base[c].icon)
            && (forall c :: 0 <= c < |r| ==> base[c].tips <= r[c].tips)
  {
    var cats := AddHotelTips(base, hotel);
    AddHotelTipsKeeps(base, hotel);
    AddExtractedPerCategory(cats, extra);
    PrefixesChain(base, cats, AddExtracted(cats, extra));
  }

  /** The hotel category receives the hotel tips and then its introduced tips. */
  lemma ExtendHotel(base: seq<Category>, hotel: seq<Tip>, extra: seq<Extracted>)
    requires |base| == CulturalIndex + 1
    requires forall i :: 0 <= i < |extra| ==> extra[i].category <= CulturalIndex
    ensures Extend(base, hotel, extra)[HotelIndex].tips
              == AddAll(AddAll(base[HotelIndex].tips, hotel), AdviceFor(extra, HotelIndex))
  {
    var cats := AddHotelTips(base, hotel);
    AddHotelTipsKeeps(base, hotel);
    AddExtractedPerCategory(cats, extra);
  }

  /** Every other category receives only its introduced tips. */
  lemma ExtendOthers(base: seq<Category>, hotel: seq<Tip>, extra: seq<Extracted>)
    requires |base| == CulturalIndex + 1
    requires forall i :: 0 <= i < |extra| ==> extra[i].category <= CulturalIndex
    ensures forall c :: HotelIndex < c < |base| ==>
              Extend(base, hotel, extra)[c].tips == AddAll(base[c].tips, AdviceFor(extra, c))
  {
    forall c | HotelIndex < c < |base| {
      ExtendOther(base, hotel, extra, c);
    }
  }

  /** One category other than the hotel one receives only its introduced tips. */
  lemma ExtendOther(base: seq<Category>, hotel: seq<Tip>, extra: seq<Extracted>, c: nat)
    requires |base| == CulturalIndex + 1
    requires forall i :: 0 <= i < |extra| ==> extra[i].category <= CulturalIndex
    requires HotelIndex < c < |base|
    ensures Extend(base, hotel, extra)[c].tips == AddAll(base[c].tips, AdviceFor(extra, c))
  {
    HotelTipsSkip(base, hotel, c);
    ExtractedAt(AddHotelTips(base, hotel), extra, c);
  }

  /** The hotel tips leave every other category as it was. */
  lemma HotelTipsSkip(base: seq<Category>, hotel: seq<Tip>, c: nat)
    requires HotelIndex < c < |base|
    ensures AddHotelTips(base, hotel)[c].tips == base[c].tips
  {
    AddHotelTipsKeeps(base, hotel);
  }

  /** One category after the introduced tips: its tips with its own candidates added. */
  lemma ExtractedAt(cats: seq<Category>, extra: seq<Extracted>, c: nat)
    requires forall i :: 0 <= i < |extra| ==> extra[i].category < |cats|
    requires c < |cats|
    ensures c < |AddExtracted(cats, extra)|
    ensures AddExtracted(cats, extra)[c].tips == AddAll(cats[c].tips, AdviceFor(extra, c))
  {
    AddExtractedPerCategory(cats, extra);
  }

  /** Each step keeps every category's earlier tips in front. */
  lemma PrefixesChain(base: seq<Category>, cats: seq<Category>, r: seq<Category>)
    requires |base| == |cats| == |r|
    requires forall c :: 0 <= c < |cats| ==> base[c].tips <= cats[c].tips
    requires forall c :: 0 <= c < |r| ==> cats[c].tips <= r[c].tips
    ensures forall c :: 0 <= c < |r| ==> base[c].tips <= r[c].tips
  {
  }

  /** The built-in categories with the text's hotel tips and introduced tips: the five
      categories in their order, each with its built-in tips in front; the hotel category
      receives the hotel tips and then its introduced tips, every other category only its
      introduced tips. */
  function TipCategories(text: string): (r: seq<Category>)
    ensures |r| == |BuiltIn|
    ensures forall c :: 0 <= c < |r| ==> r[c].name == BuiltIn[c].name && BuiltIn[c].tips <= r[c].tips
    ensures r[HotelIndex].tips
              == AddAll(AddAll(BuiltIn[HotelIndex].tips, HotelTipsFrom(text, HotelKeywords)),
                        AdviceFor(ExtractedTips(text), HotelIndex))
    ensures forall c :: HotelIndex < c < |r| ==> r[c].tips == AddAll(BuiltIn[c].tips, AdviceFor(ExtractedTips(text), c))
  {
    var hotel, extra := HotelTipsFrom(text, HotelKeywords), ExtractedTips(text);
    ExtendKeeps(BuiltIn, hotel, extra);
    ExtendHotel(BuiltIn, hotel, extra);
    ExtendOthers(BuiltIn, hotel, extra);
    Extend(BuiltIn, hotel, extra)
  }

  /** The page's header for a category: its icon and its name. */
  function Header(c: Category): string
  {
    c.icon + " " + c.name
  }

  function FormatTip(c: Category, t: Tip): FormattedTip
  {
    FormattedTip(Header(c), t.title + ": " + t.description, t.cost)
  }

  /** Where the tips of category `c` start in the flattened list: after the tips of every
      earlier category. */
  function Offset(cats: seq<Category>, c: nat): nat
    requires c <= |cats|
    decreases c
  {
    if c == 0 then 0 else |cats[0].tips| + Offset(cats[1..], c - 1)
  }

  /** Longer categories start no earlier. */
  lemma {:induction false} OffsetGrows(base: seq<Category>, cats: seq<Category>, c: nat)
    requires |base| == |cats| && c <= |cats|
    requires forall i :: 0 <= i < |cats| ==> |base[i].tips| <= |cats[i].tips|
    ensures Offset(base, c) <= Offset(cats, c)
    decreases c
  {
    if c > 0 {
      assert forall i :: 0 <= i < |cats| - 1 ==> base[1..][i] == base[i + 1] && cats[1..][i] == cats[i + 1];
      OffsetGrows(base[1..], cats[1..], c - 1);
    }
  }

  /** Entry `k` of `r` is tip `k` of `c`, formatted under `c`. */
  predicate FormattedAt(c: Category, r: seq<FormattedTip>, k: int)
  {
    0 <= k < |r| && k < |c.tips| && r[k] == FormatTip(c, c.tips[k])
  }

  /** One category's tips, formatted, in order. */
  function FormatCategory(c: Category): (r: seq<FormattedTip>)
    ensures |r| == |c.tips|
    ensures forall k :: 0 <= k < |r| ==> FormattedAt(c, r, k)
  {
    seq(|c.tips|, k requires 0 <= k < |c.tips| => FormatTip(c, c.tips[k]))
  }

  /** Tip `k` of category `c` sits, formatted under its category, at its place in `r`. */
  predicate TipAt(cats: seq<Category>, r: seq<FormattedTip>, c: int, k: int)
  {
    0 <= c < |cats| && 0 <= k < |cats[c].tips| ==>
      Offset(cats, c) + k < |r| && r[Offset(cats, c) + k] == FormatTip(cats[c], cats[c].tips[k])
  }

  /** The tips of category `c` occupy the positions of `r` from `Offset(cats, c)` on. */
  predicate Laid(cats: seq<Category>, r: seq<FormattedTip>)
  {
    forall c, k :: 0 <= c < |cats| && 0 <= k < |cats[c].tips| ==> TipAt(cats, r, c, k)
  }

  /** The categories flattened, in order: the tips of category `c` occupy the positions from
      `Offset(cats, c)` on, in their own order. */
  function Format(cats: seq<Category>): (r: seq<FormattedTip>)
    ensures |r| == Offset(cats, |cats|)
    ensures Laid(cats, r)
    decreases |cats|
  {
    if |cats| == 0 then []
    else
      var rest := Format(cats[1..]);
      FormatFirst(cats, rest);
      FormatCategory(cats[0]) + rest
  }

  /** Putting the first category's tips in front of the layout of the others. */
  lemma FormatFirst(cats: seq<Category>, rest: seq<FormattedTip>)
    requires |cats| > 0 && |rest| == Offset(cats[1..], |cats| - 1) && Laid(cats[1..], rest)
    ensures |FormatCategory(cats[0]) + rest| == Offset(cats, |cats|)
    ensures Laid(cats, FormatCategory(cats[0]) + rest)
  {
    var r := FormatCategory(cats[0]) + rest;
    forall c, k | 0 <= c < |cats| && 0 <= k < |cats[c].tips|
      ensures TipAt(cats, r, c, k)
    {
      if c == 0 {
        FirstAt(cats, rest, k);
      } else {
        RestAt(cats, rest, c, k);
      }
    }
  }

  lemma FirstAt(cats: seq<Category>, rest: seq<FormattedTip>, k: nat)
    requires |cats| > 0 && k < |cats[0].tips|
    ensures TipAt(cats, FormatCategory(cats[0]) + rest, 0, k)
  {
    assert FormattedAt(cats[0], FormatCategory(cats[0]), k);
  }

  lemma RestAt(cats: seq<Category>, rest: seq<FormattedTip>, c: nat, k: nat)
    requires 0 < c < |cats| && k < |cats[c].tips| && Laid(cats[1..], rest)
    ensures TipAt(cats, FormatCategory(cats[0]) + rest, c, k)
  {
    assert cats[1..][c - 1] == cats[c];
    assert TipAt(cats[1..], rest, c - 1, k);
    var head := FormatCategory(cats[0]);
    var j := Offset(cats[1..], c - 1) + k;
    assert (head + rest)[|head| + j] == rest[j];
  }

  /** Tip `k` of `base[c]` sits, formatted under its category, at its place within group `c`
      of the formatted categories `cats`. */
  predicate KeptAt(base: seq<Category>, cats: seq<Category>, r: seq<FormattedTip>, c: int, k: int)
    requires |base| == |cats| && 0 <= c < |base| && 0 <= k < |base[c].tips|
  {
    Offset(cats, c) + k < |r| && r[Offset(cats, c) + k] == FormatTip(base[c], base[c].tips[k])
  }

  /** Extending categories keeps their tips where they were within each group. */
  lemma KeptInPlace(base: seq<Category>, cats: seq<Category>, r: seq<FormattedTip>)
    requires |base| == |cats| && Laid(cats, r)
    requires forall c :: 0 <= c < |cats| ==> cats[c].name == base[c].name && cats[c].icon == base[c].icon
    requires forall c :: 0 <= c < |cats| ==> base[c].tips <= cats[c].tips
    ensures forall c, k :: 0 <= c < |base| && 0 <= k < |base[c].tips| ==> KeptAt(base, cats, r, c, k)
  {
    forall c, k | 0 <= c < |base| && 0 <= k < |base[c].tips|
      ensures KeptAt(base, cats, r, c, k)
    {
      KeptOne(base[c], cats[c], k);
      assert TipAt(cats, r, c, k);
    }
  }

  lemma KeptOne(b: Category, c: Category, k: nat)
    requires c.name == b.name && c.icon == b.icon && b.tips <= c.tips && k < |b.tips|
    ensures k < |c.tips| && FormatTip(c, c.tips[k]) == FormatTip(b, b.tips[k])
  {
    assert c.tips[..|b.tips|][k] == c.tips[k];
  }

  lemma BuiltInCount()
    ensures Offset(BuiltIn, |BuiltIn|) == 15
  {
    assert |HotelCategory.tips| == 4 && |TransportationCategory.tips| == 3 && |DiningCategory.tips| == 3;
    assert |ShoppingCategory.tips| == 2 && |CulturalCategory.tips| == 3;
    assert Offset(BuiltIn, 1) == 4;
    assert Offset(BuiltIn, 2) == 7;
    assert Offset(BuiltIn, 3) == 10;
    assert Offset(BuiltIn, 4) == 12;
  }

  /** `parseTipsFromResponse(text)`: nothing for a missing or empty text; otherwise at least
      the fifteen built-in tips (so the fallback for an empty list never applies), each
      category's built-in tips at the head of its group, the groups in the fixed order. */
  function ParseTips(text: Option<string>): (r: seq<FormattedTip>)
    ensures text.None? || text == Some("") ==> r == []
    ensures text.Some? && text.value != "" ==> |r| >= 15
    ensures text.Some? && text.value != "" ==>
              var cats := TipCategories(text.value);
              forall c, k :: 0 <= c < |BuiltIn| && 0 <= k < |BuiltIn[c].tips| ==> KeptAt(BuiltIn, cats, r, c, k)
  {
    if text.None? || text.value == "" then []
    else
      var cats := TipCategories(text.value);
      var r := Format(cats);
      BuiltInCount();
      ExtendKeeps(BuiltIn, HotelTipsFrom(text.value, HotelKeywords), ExtractedTips(text.value));
      OffsetGrows(BuiltIn, cats, |BuiltIn|);
      KeptInPlace(BuiltIn, cats, r);
      r
  }
}

=== FILE: transport.dfy ===
/**
 `parseTransportationFromResponse`: one entry per kind of transport named on the lines of
 the text. The line filter uses a regex with the `g` flag through `RegExp.prototype.test`,
 which resumes each search at the end of the previous match (`lastIndex`); the model keeps
 that behaviour as written (`KeptLinesAsWritten`) next to the per-line search that the
 filter evidently means (`KeptLines`), which the parser uses.
 */
module TransportParser {
  import opened Optional
  import opened Strings

  /** The six kinds of transport the page reports. */
  datatype Kind = Taxi | Bus | Subway | Walking | Biking | PublicTransport

  /** The `type` string the page shows for a kind. */
  function KindName(k: Kind): string
  {
    match k
    case Taxi => "Taxi"
    case Bus => "Bus"
    case Subway => "Subway/Metro"
    case Walking => "Walking"
    case Biking => "Biking/Cycling"
    case PublicTransport => "Public transportation"
  }

  /** Distinct kinds carry distinct names. */
  lemma KindNameInjective(a: Kind, b: Kind)
    ensures KindName(a) == KindName(b) <==> a == b
  {
    if a != b {
      assert KindName(a)[..2] != KindName(b)[..2] || KindName(a)[2..] != KindName(b)[2..];
    }
  }

  datatype Transport = Transport(kind: Kind, description: string)

  const GenericTransport: Transport :=
    Transport(PublicTransport, "Efficient and affordable way to get around the city.")

  const AllKinds: set<Kind> := {Taxi, Bus, Subway, Walking, Biking, PublicTransport}

  // ---------------------------------------------------------------------------------------
  // The regex `[Tt]ransport(?:ation)?|[Ss]ubway|[Tt]axi|[Bb]us|[Ww]alk`

  /** The first alternative that matches at `p`, as the length it consumes. */
  function KeywordLength(line: string, p: nat): (r: Option<nat>)
    ensures r.Some? ==> p < p + r.value <= |line|
    ensures r.Some? ==> line[p] in "TtSsBbWw"
  {
    if p >= |line| then None
    else
      var c := line[p];
      if (c == 'T' || c == 't') && OccursAt(line, "ransport", p + 1) then
        Some(if OccursAt(line, "ation", p + 9) then 14 else 9)
      else if (c == 'S' || c == 's') && OccursAt(line, "ubway", p + 1) then Some(6)
      else if (c == 'T' || c == 't') && OccursAt(line, "axi", p + 1) then Some(4)
      else if (c == 'B' || c == 'b') && OccursAt(line, "us", p + 1) then Some(3)
      else if (c == 'W' || c == 'w') && OccursAt(line, "alk", p + 1) then Some(4)
      else None
  }

  /** The leftmost match at or after `from`: its start and end. */
  function Search(line: string, from: nat): (r: Option<(nat, nat)>)
    ensures r.Some? ==> from <= r.value.0 < r.value.1 <= |line|
    ensures r.Some? ==> KeywordLength(line, r.value.0) == Some(r.value.1 - r.value.0)
    ensures r.Some? ==> forall p :: from <= p < r.value.0 ==> KeywordLength(line, p).None?
    ensures r.None? ==> forall p :: from <= p ==> KeywordLength(line, p).None?
    decreases |line| - from
  {
    if from >= |line| then None
    else match KeywordLength(line, from)
      case Some(n) => Some((from, from + n))
      case None => Search(line, from + 1)
  }

  /** The line names a means of transport: the regex matches somewhere in it. */
  predicate HasKeyword(line: string)
  {
    Search(line, 0).Some?
  }

  lemma HasKeywordIff(line: string)
    ensures HasKeyword(line) <==> exists p :: 0 <= p < |line| && KeywordLength(line, p).Some?
  {
  }

  /** `regex.test(line)` with the regex's `lastIndex` before the call: the verdict and the
      `lastIndex` after it (the match end, or 0 after a failure). */
  function Test(line: string, lastIndex: nat): (r: (bool, nat))
    ensures r.0 ==> HasKeyword(line) && r.1 <= |line|
    ensures !r.0 ==> r.1 == 0
    ensures lastIndex == 0 ==> r.0 == HasKeyword(line)
  {
    if lastIndex > |line| then (false, 0)
    else match Search(line, lastIndex)
      case Some((_, e)) =>
        assert KeywordLength(line, Search(line, lastIndex).value.0).Some?;
        (true, e)
      case None => (false, 0)
  }

  /** The filter as written: the test shares `lastIndex` from line to line, and the length
      check (`line.length > 10`) comes after the test. */
  function KeptLinesAsWritten(lines: seq<string>, lastIndex: nat): (r: seq<string>)
    ensures forall l :: l in r ==> l in lines && HasKeyword(l) && |l| > 10
    decreases |lines|
  {
    if |lines| == 0 then []
    else
      var (ok, next) := Test(lines[0], lastIndex);
      var rest := KeptLinesAsWritten(lines[1..], next);
      if ok && |lines[0]| > 10 then [lines[0]] + rest else rest
  }

  /** The filter as intended: every line longer than ten characters that names a means of
      transport, each searched from its own start. */
  function KeptLines(lines: seq<string>): (r: seq<string>)
    ensures forall l :: l in r <==> l in lines && HasKeyword(l) && |l| > 10
  {
    if |lines| == 0 then []
    else
      var rest := KeptLines(lines[1..]);
      assert forall l :: l in lines <==> l == lines[0] || l in lines[1..];
      if HasKeyword(lines[0]) && |lines[0]| > 10 then [lines[0]] + rest else rest
  }

  // ---------------------------------------------------------------------------------------
  // Kinds and descriptions

  /** The kind of transport a line is about; the first keyword in this order wins. */
  function KindOf(line: string): (k: Kind)
    ensures k == PublicTransport
            || exists i :: 0 <= i < |KindRules| && KindRules[i].kind == k && MentionsAny(line, KindRules[i].words)
  {
    KindFrom(line, KindRules)
  }

  /** A kind and the words that select it. */
  datatype Rule = Rule(words: seq<string>, kind: Kind)

  /** The page's tests, in order; a line that passes none is public transportation. */
  const KindRules: seq<Rule> := [
    Rule(["taxi"], Taxi), Rule(["bus"], Bus), Rule(["subway", "metro"], Subway),
    Rule(["walk"], Walking), Rule(["bike", "cycling"], Biking)]

  /** The kind of the first rule one of whose words the line mentions. */
  function KindFrom(line: string, rules: seq<Rule>): (k: Kind)
    ensures k == PublicTransport || exists i :: 0 <= i < |rules| && rules[i].kind == k && MentionsAny(line, rules[i].words)
    decreases |rules|
  {
    if |rules| == 0 then PublicTransport
    else if MentionsAny(line, rules[0].words) then rules[0].kind
    else
      var k := KindFrom(line, rules[1..]);
      assert k != PublicTransport ==> exists i :: 1 <= i < |rules| && rules[i].kind == k && MentionsAny(line, rules[i].words) by {
        if k != PublicTransport {
          var i :| 0 <= i < |rules| - 1 && rules[1..][i].kind == k && MentionsAny(line, rules[1..][i].words);
          assert rules[i + 1] == rules[1..][i];
        }
      }
      k
  }

  /** The first rule the line matches decides the kind. */
  lemma {:induction false} FirstRuleDecides(line: string, rules: seq<Rule>, i: nat)
    requires i < |rules| && MentionsAny(line, rules[i].words)
    requires forall j | 0 <= j < i :: !MentionsAny(line, rules[j].words)
    ensures KindFrom(line, rules) == rules[i].kind
    decreases i
  {
    if i > 0 {
      assert !MentionsAny(line, rules[0].words);
      assert forall j | 0 <= j < i - 1 :: rules[1..][j] == rules[j + 1];
      FirstRuleDecides(line, rules[1..], i - 1);
    }
  }

  /** A line that matches no rule is public transportation. */
  lemma {:induction false} NoRuleGeneric(line: string, rules: seq<Rule>)
    requires forall j | 0 <= j < |rules| :: !MentionsAny(line, rules[j].words)
    ensures KindFrom(line, rules) == PublicTransport
    decreases |rules|
  {
    if |rules| > 0 {
      assert forall j | 0 <= j < |rules| - 1 :: rules[1..][j] == rules[j + 1];
      NoRuleGeneric(line, rules[1..]);
    }
  }

  /** The page's precedence: taxi, then bus, then subway or metro, then walking, then bike or
      cycling, and public transportation when the line names none of them. */
  lemma KindPrecedence(line: string)
    ensures MentionsAny(line, ["taxi"]) ==> KindOf(line) == Taxi
    ensures !MentionsAny(line, ["taxi"]) && MentionsAny(line, ["bus"]) ==> KindOf(line) == Bus
    ensures (!MentionsAny(line, ["taxi"]) && !MentionsAny(line, ["bus"]) && MentionsAny(line, ["subway", "metro"]))
            ==> KindOf(line) == Subway
    ensures (!MentionsAny(line, ["taxi"]) && !MentionsAny(line, ["bus"]) && !MentionsAny(line, ["subway", "metro"])
             && MentionsAny(line, ["walk"])) ==> KindOf(line) == Walking
    ensures (!MentionsAny(line, ["taxi"]) && !MentionsAny(line, ["bus"]) && !MentionsAny(line, ["subway", "metro"])
             && !MentionsAny(line, ["walk"]) && MentionsAny(line, ["bike", "cycling"])) ==> KindOf(line) == Biking
    ensures (forall j | 0 <= j < |KindRules| :: !MentionsAny(line, KindRules[j].words)) ==> KindOf(line) == PublicTransport
  {
    var i := 0;
    while i < |KindRules| && !MentionsAny(line, KindRules[i].words)
      invariant 0 <= i <= |KindRules|
      invariant forall j | 0 <= j < i :: !MentionsAny(line, KindRules[j].words)
    {
      i := i + 1;
    }
    if i < |KindRules| {
      FirstRuleDecides(line, KindRules, i);
    } else {
      NoRuleGeneric(line, KindRules);
    }
  }

  /** Number of leading characters that are not ASCII letters (`^[^a-zA-Z]+`). */
  function NonLetterRun(s: string, i: nat): (n: nat)
    ensures i <= |s| ==> i + n <= |s|
    ensures i + n < |s| ==> IsAsciiLetter(s[i + n])
    decreases |s| - i
  {
    if i < |s| && !IsAsciiLetter(s[i]) then 1 + NonLetterRun(s, i + 1) else 0
  }

  /** The line without its leading non-letters, trimmed: empty, or starting with a letter. */
  function Describe(line: string): (d: string)
    ensures d == [] || IsAsciiLetter(d[0])
    ensures |d| <= |line|
  {
    var rest := line[NonLetterRun(line, 0)..];
    var d := JsTrim(rest);
    assert rest == [] || IsAsciiLetter(rest[0]);
    assert rest != [] ==> SpaceRun(JavaScript, rest, 0) == 0;
    d
  }

  predicate HasKind(ts: seq<Transport>, k: Kind)
  {
    exists i :: 0 <= i < |ts| && ts[i].kind == k
  }

  /** The entry a kept line makes: its kind and its description. */
  function LineEntry(line: string): Transport
  {
    Transport(KindOf(line), Describe(line))
  }

  /** The entries of the kept lines, in line order. */
  function LineEntries(lines: seq<string>): (ts: seq<Transport>)
    ensures |ts| == |lines|
    ensures forall i :: 0 <= i < |lines| ==> ts[i] == LineEntry(lines[i])
  {
    seq(|lines|, i requires 0 <= i < |lines| => LineEntry(lines[i]))
  }

  /** The first entry of each kind, in order: the entries already present stay in front and
      the kinds stay pairwise distinct. */
  function Collect(acc: seq<Transport>, ts: seq<Transport>): (r: seq<Transport>)
    requires forall i, j :: 0 <= i < j < |acc| ==> acc[i].kind != acc[j].kind
    ensures |acc| <= |r| && r[..|acc|] == acc
    ensures forall i, j :: 0 <= i < j < |r| ==> r[i].kind != r[j].kind
    ensures |ts| == 0 ==> r == acc
    ensures |ts| > 0 ==> |r| > 0
    decreases |ts|
  {
    if |ts| == 0 then acc else Collect(Step(acc, ts[0]), ts[1..])
  }

  /** The entries after one more: it is added unless its kind is present. */
  function Step(acc: seq<Transport>, t: Transport): (r: seq<Transport>)
    requires forall i, j :: 0 <= i < j < |acc| ==> acc[i].kind != acc[j].kind
    ensures |acc| <= |r| <= |acc| + 1 && r[..|acc|] == acc
    ensures forall i, j :: 0 <= i < j < |r| ==> r[i].kind != r[j].kind
    ensures HasKind(r, t.kind)
    ensures |acc| < |r| ==> r[|acc|] == t
    ensures HasKind(acc, t.kind) <==> r == acc
  {
    if HasKind(acc, t.kind) then acc
    else
      var r := acc + [t];
      assert r[|acc|].kind == t.kind;
      r
  }

  /** Every entry's kind ends up present, and every added entry is one of the entries. */
  lemma {:induction false} CollectCovers(acc: seq<Transport>, ts: seq<Transport>)
    requires forall i, j :: 0 <= i < j < |acc| ==> acc[i].kind != acc[j].kind
    ensures var r := Collect(acc, ts);
            && (forall t :: t in ts ==> HasKind(r, t.kind))
            && (forall i :: |acc| <= i < |r| ==> r[i] in ts)
    decreases |ts|
  {
    if |ts| > 0 {
      var acc' := Step(acc, ts[0]);
      var r := Collect(acc', ts[1..]);
      CollectCovers(acc', ts[1..]);
      StepKept(acc', r, ts);
      forall i | |acc| <= i < |r| ensures r[i] in ts {
        if i < |acc'| {
          assert r[i] == r[..|acc'|][i] == ts[0];
        } else {
          assert r[i] in ts[1..];
        }
      }
    }
  }

  /** What the first entry's step gives carries over to the whole list. */
  lemma StepKept(acc': seq<Transport>, r: seq<Transport>, ts: seq<Transport>)
    requires |ts| > 0
    requires |acc'| <= |r| && r[..|acc'|] == acc'
    requires HasKind(acc', ts[0].kind)
    requires forall t :: t in ts[1..] ==> HasKind(r, t.kind)
    ensures forall t :: t in ts ==> HasKind(r, t.kind)
  {
    var i :| 0 <= i < |acc'| && acc'[i].kind == ts[0].kind;
    assert r[i] == r[..|acc'|][i];
    forall t | t in ts ensures HasKind(r, t.kind) {
      if t != ts[0] { assert t in ts[1..]; }
    }
  }

  /** The first entry of each kind, or the generic entry when there are none. */
  function FromEntries(es: seq<Transport>): (r: seq<Transport>)
    ensures 1 <= |r| <= |AllKinds|
    ensures forall i, j :: 0 <= i < j < |r| ==> r[i].kind != r[j].kind
    ensures es == [] ==> r == [GenericTransport]
    ensures es != [] ==> r == Collect([], es)
  {
    var ts := Collect([], es);
    if |ts| == 0 then [GenericTransport]
    else
      DistinctKindsBound(ts);
      ts
  }

  /** Every entry's kind is present, and only the given entries are. */
  lemma FromEntriesCovers(es: seq<Transport>)
    requires es != []
    ensures forall t :: t in es ==> HasKind(FromEntries(es), t.kind)
    ensures forall i :: 0 <= i < |FromEntries(es)| ==> FromEntries(es)[i] in es
  {
    var r := FromEntries(es);
    assert r == Collect([], es);
    CollectCovers([], es);
  }

  /** The entries for a set of kept lines. */
  function FromLines(kept: seq<string>): seq<Transport>
  {
    FromEntries(LineEntries(kept))
  }

  /** Every kept line's kind has an entry, and every entry is the one some kept line makes. */
  lemma FromLinesCovers(kept: seq<string>)
    requires kept != []
    ensures forall l :: l in kept ==> HasKind(FromLines(kept), KindOf(l))
    ensures forall i :: 0 <= i < |FromLines(kept)| ==> exists l :: l in kept && FromLines(kept)[i] == LineEntry(l)
  {
    FromEntriesCovers(LineEntries(kept));
    EntriesOfLines(kept, LineEntries(kept), FromLines(kept));
  }

  /** Coverage of the entries read back as coverage of the lines. */
  lemma EntriesOfLines(kept: seq<string>, es: seq<Transport>, ts: seq<Transport>)
    requires es == LineEntries(kept)
    requires forall t :: t in es ==> HasKind(ts, t.kind)
    requires forall i :: 0 <= i < |ts| ==> ts[i] in es
    ensures forall l :: l in kept ==> HasKind(ts, KindOf(l))
    ensures forall i :: 0 <= i < |ts| ==> exists l :: l in kept && ts[i] == LineEntry(l)
  {
    forall l | l in kept ensures HasKind(ts, KindOf(l)) {
      var i :| 0 <= i < |kept| && kept[i] == l;
      assert es[i] in es;
    }
    forall i | 0 <= i < |ts| ensures exists l :: l in kept && ts[i] == LineEntry(l) {
      var j :| 0 <= j < |es| && es[j] == ts[i];
      assert kept[j] in kept;
    }
  }

  /** The corrected `parseTransportationFromResponse(text)`, each line searched from its own
      start: nothing for a missing or empty text; otherwise entries of pairwise distinct
      kinds, one for every kind named by a kept line, or the generic entry when no line is
      kept. */
  function ParseTransport(text: Option<string>): (r: seq<Transport>)
    ensures text.None? || text == Some("") ==> r == []
    ensures text.Some? && text.value != "" ==>
              && 1 <= |r| <= |AllKinds|
              && (forall i, j :: 0 <= i < j < |r| ==> r[i].kind != r[j].kind)
              && (forall l :: l in Split(text.value, "\n") && HasKeyword(l) && |l| > 10 ==> HasKind(r, KindOf(l)))
    ensures text.Some? && text.value != "" ==> Reports(KeptLines(Split(text.value, "\n")), r)
  {
    if text.None? || text.value == "" then []
    else
      var kept := KeptLines(Split(text.value, "\n"));
      FromLinesSpec(kept);
      FromLines(kept)
  }

  /** `parseTransportationFromResponse(text)` as the page runs it, with the shared `lastIndex`:
      nothing for a missing or empty text; otherwise entries of pairwise distinct kinds, one
      for every kind named by a line the filter keeps and each made by such a line, or the
      generic entry when no line is kept. */
  function ParseTransportAsWritten(text: Option<string>): (r: seq<Transport>)
    ensures text.None? || text == Some("") ==> r == []
    ensures text.Some? && text.value != "" ==> Reports(KeptLinesAsWritten(Split(text.value, "\n"), 0), r)
  {
    if text.None? || text.value == "" then []
    else
      var kept := KeptLinesAsWritten(Split(text.value, "\n"), 0);
      FromLinesSpec(kept);
      FromLines(kept)
  }

  /** The entries reported for the kept lines: one to six of them, of pairwise distinct kinds;
      the generic entry alone when no line is kept; otherwise an entry for every kept line's
      kind, each one made by a kept line. */
  predicate Reports(kept: seq<string>, r: seq<Transport>)
  {
    && 1 <= |r| <= |AllKinds|
    && (forall i, j :: 0 <= i < j < |r| ==> r[i].kind != r[j].kind)
    && (kept == [] ==> r == [GenericTransport])
    && (forall l :: l in kept ==> HasKind(r, KindOf(l)))
    && (forall i :: 0 <= i < |r| && kept != [] ==> exists l :: l in kept && r[i] == LineEntry(l))
  }

  /** The entries of any kept lines are what `Reports` describes. */
  lemma FromLinesSpec(kept: seq<string>)
    ensures Reports(kept, FromLines(kept))
  {
    if kept != [] {
      FromLinesCovers(kept);
    }
  }

  /** Entries of pairwise distinct kinds number at most six. */
  lemma DistinctKindsBound(ts: seq<Transport>)
    requires forall i, j :: 0 <= i < j < |ts| ==> ts[i].kind != ts[j].kind
    ensures |ts| <= |AllKinds|
  {
    var ks := seq(|ts|, i requires 0 <= i < |ts| => ts[i].kind);
    assert forall i :: 0 <= i < |ks| ==> ks[i] in AllKinds by {
      forall i | 0 <= i < |ks| ensures ks[i] in AllKinds {
        match ks[i]
        case Taxi => case Bus => case Subway => case Walking => case Biking => case PublicTransport =>
      }
    }
    DistinctBound(ks, AllKinds);
  }

  // ---------------------------------------------------------------------------------------
  // The discrepancy

  const BusLine: string := "Ride a local bus"
  const TaxiLine: string := "Taxi from here"

  /** The first line's only keyword ends the line, so the shared `lastIndex` (16) is past the
      end of the shorter second line: its test fails and the taxi line is lost. */
  lemma LastIndexDropsLine(text: string)
    requires text == BusLine + "\n" + TaxiLine
    ensures ParseTransportAsWritten(Some(text)) == [Transport(Bus, BusLine)]
  {
    TwoLines(text);
    AsWrittenKeepsBusOnly();
    BusOnlyEntry();
  }

  /** Searched from its own start, the second line is kept, and both kinds are reported. */
  lemma PerLineSearchKeepsLine(text: string)
    requires text == BusLine + "\n" + TaxiLine
    ensures ParseTransport(Some(text)) == [Transport(Bus, BusLine), Transport(Taxi, TaxiLine)]
  {
    TwoLines(text);
    PerLineKeepsBoth();
    BothEntries();
  }

  lemma AsWrittenKeepsBusOnly()
    ensures KeptLinesAsWritten([BusLine, TaxiLine], 0) == [BusLine]
  {
    BusTest();
    assert |TaxiLine| == 14;
    assert Test(TaxiLine, 16) == (false, 0);
    assert [TaxiLine][1..] == [];
    assert [BusLine, TaxiLine][1..] == [TaxiLine];
    assert KeptLinesAsWritten([TaxiLine], 16) == [];
  }

  lemma PerLineKeepsBoth()
    ensures KeptLines([BusLine, TaxiLine]) == [BusLine, TaxiLine]
  {
    BusTest();
    TaxiTest();
    assert [TaxiLine][1..] == [];
    assert [BusLine, TaxiLine][1..] == [TaxiLine];
    assert |BusLine| == 16 && |TaxiLine| == 14;
    assert KeptLines([TaxiLine]) == [TaxiLine];
  }

  lemma BusOnlyEntry()
    ensures FromLines([BusLine]) == [Transport(Bus, BusLine)]
  {
    BusKind();
    BusDescribe();
    OneLine(BusLine);
  }

  lemma BothEntries()
    ensures FromLines([BusLine, TaxiLine]) == [Transport(Bus, BusLine), Transport(Taxi, TaxiLine)]
  {
    BusKind();
    BusDescribe();
    TaxiKind();
    TaxiDescribe();
    TwoLinesEntries(BusLine, TaxiLine);
  }

  /** A single kept line makes its own entry. */
  lemma OneLine(a: string)
    ensures FromLines([a]) == [LineEntry(a)]
  {
    var ta := LineEntry(a);
    assert LineEntries([a]) == [ta];
    assert [ta][1..] == [];
    assert Collect([], [ta]) == Collect([ta], []);
  }

  /** Two kept lines of different kinds make their two entries, in order. */
  lemma TwoLinesEntries(a: string, b: string)
    ensures LineEntry(a).kind != LineEntry(b).kind ==> FromLines([a, b]) == [LineEntry(a), LineEntry(b)]
  {
    var ta, tb := LineEntry(a), LineEntry(b);
    if ta.kind == tb.kind { return; }
    var es := LineEntries([a, b]);
    assert es[0] == ta && es[1] == tb;
    PairOf(es, ta, tb);
    TwoEntries(ta, tb);
  }

  /** A two-element list is the pair of its elements. */
  lemma PairOf<T>(s: seq<T>, x: T, y: T)
    requires |s| == 2 && s[0] == x && s[1] == y
    ensures s == [x, y]
  {
  }

  /** Two entries of different kinds are both kept, in order. */
  lemma TwoEntries(ta: Transport, tb: Transport)
    requires ta.kind != tb.kind
    ensures FromEntries([ta, tb]) == [ta, tb]
  {
    CollectFirst(ta, tb);
    CollectSecond(ta, tb);
  }

  lemma CollectFirst(ta: Transport, tb: Transport)
    ensures Collect([], [ta, tb]) == Collect([ta], [tb])
  {
    assert [ta, tb][1..] == [tb];
    assert Step([], ta) == [ta];
  }

  lemma CollectSecond(ta: Transport, tb: Transport)
    requires ta.kind != tb.kind
    ensures Collect([ta], [tb]) == [ta, tb]
  {
    assert [tb][1..] == [];
    assert !HasKind([ta], tb.kind);
    assert Step([ta], tb) == [ta, tb];
  }

  lemma TwoLines(text: string)
    requires text == BusLine + "\n" + TaxiLine
    ensures Split(text, "\n") == [BusLine, TaxiLine]
  {
    assert forall k :: 0 <= k < |BusLine| ==> BusLine[k] != '\n';
    assert forall k :: 0 <= k < |TaxiLine| ==> TaxiLine[k] != '\n';
    NoCharNoContains(BusLine, '\n');
    NoCharNoContains(TaxiLine, '\n');
    SplitTwoLines(BusLine, TaxiLine);
  }

  /** The bus line's one keyword ends the line. */
  lemma BusTest()
    ensures HasKeyword(BusLine) && Test(BusLine, 0) == (true, 16)
  {
    var l := BusLine;
    assert forall p :: 0 <= p < 13 ==> l[p] !in "TtSsBbWw";
    assert l[14..16] == "us";
    assert KeywordLength(l, 13) == Some(3);
    assert Search(l, 0) == Some((13, 16));
  }

  /** The bus line is about the bus. */
  lemma BusKind()
    ensures KindOf(BusLine) == Bus
  {
    var l := BusLine;
    var low := Lower(l);
    assert low[13] == 'b' && low[14] == 'u' && low[15] == 's';
    assert low[13..16] == "bus";
    assert OccursAt(low, "bus", 13);
    assert forall k :: 0 <= k < |l| ==> l[k] != 'x' && l[k] != 'X';
    forall i | 0 <= i <= |low| - 4 ensures !OccursAt(low, "taxi", i) {
      NotOccursAt(low, "taxi", i, 2);
    }
    var rules := KindRules;
    assert rules[0].words == ["taxi"] && rules[1].words == ["bus"] && rules[1].kind == Bus;
    assert !MentionsAny(l, rules[0].words);
    assert MentionsAny(l, rules[1].words) by { assert Contains(low, rules[1].words[0]); }
    assert rules[1..][0] == rules[1];
    assert KindFrom(l, rules) == KindFrom(l, rules[1..]);
  }

  lemma BusDescribe()
    ensures Describe(BusLine) == BusLine
  {
    var l := BusLine;
    assert NonLetterRun(l, 0) == 0;
    assert l[0..] == l;
    TrimNoEdgeSpace(JavaScript, l);
  }

  /** The taxi line's keyword is at its start. */
  lemma TaxiTest()
    ensures HasKeyword(TaxiLine)
  {
    var l := TaxiLine;
    NotOccursAt(l, "ransport", 1, 0);
    assert l[1..4] == "axi";
    assert KeywordLength(l, 0) == Some(4);
  }

  /** The taxi line is about the taxi. */
  lemma TaxiKind()
    ensures KindOf(TaxiLine) == Taxi
  {
    var low := Lower(TaxiLine);
    assert low[0] == 't' && low[1] == 'a' && low[2] == 'x' && low[3] == 'i';
    assert low[0..4] == "taxi";
    assert OccursAt(low, "taxi", 0);
    var rules := KindRules;
    assert rules[0].words == ["taxi"] && rules[0].kind == Taxi;
    assert MentionsAny(TaxiLine, rules[0].words) by { assert Contains(low, rules[0].words[0]); }
  }

  lemma TaxiDescribe()
    ensures Describe(TaxiLine) == TaxiLine
  {
    var l := TaxiLine;
    assert NonLetterRun(l, 0) == 0;
    assert l[0..] == l;
    TrimNoEdgeSpace(JavaScript, l);
  }

  lemma SplitTwoLines(a: string, b: string)
    requires !Contains(a, "\n") && !Contains(b, "\n")
    ensures Split(a + "\n" + b, "\n") == [a, b]
  {
    var s := a + "\n" + b;
    assert OccursAt(s, "\n", |a|);
    assert forall j :: 0 <= j < |a| ==> !OccursAt(s, "\n", j) by {
      forall j | 0 <= j < |a| ensures !OccursAt(s, "\n", j) {
        assert s[j] == a[j];
        assert !OccursAt(a, "\n", j);
        assert a[j..j + 1] == s[j..j + 1];
      }
    }
    assert FindFrom(s, "\n", 0) == Some(|a|);
    assert s[|a| + 1..] == b;
    FindFromNoneNotContains(b, "\n");
  }
}

=== FILE: travel_plans.dfy ===
/** The travel-plan endpoints: creating a plan through the coordinator, storing it under a fresh
    id, reading it back, and forwarding a single question to one agent. The in-memory plan store
    is an explicit state; the fresh id and the coordinator's result are inputs. */
module TravelPlans {
  import opened Optional
  import opened Strings
  import Coordinator

  /** A value in a response dictionary. */
  datatype Value = Null | Str(s: string) | Int(i: int) | List(items: seq<string>)

  type Response = map<string, Value>

  /** The plans created so far, by id. */
  type Store = map<string, Response>

  /** A request body once validated: the destination and length are required, the rest have
      defaults. */
  datatype TravelPreferences = TravelPreferences(
    destination: string,
    tripLength: int,
    budget: string,
    interests: seq<string>,
    getInsights: bool,
    getImages: bool)

  /** An endpoint's result: a body, or an HTTP error with its status and detail. */
  datatype Http<T> = Ok(value: T) | Failure(status: int, detail: string)

  /** What the coordinator hands back for a request: a dictionary, or an exception. */
  datatype Processed = Returned(response: Response) | Crashed(message: string)

  /** The agent types the query endpoint accepts. */
  const ValidAgentTypes: seq<string> := ["attractions", "food", "accommodation", "reviews", "images", "planner"]

  /** The dictionary handed to the coordinator: every key present. */
  function PrefDict(p: TravelPreferences): (r: Coordinator.Preferences)
    ensures r.destination == Some(p.destination) && r.tripLength == Some(p.tripLength)
    ensures r.budget == Some(p.budget) && r.interests == Some(p.interests)
    ensures r.getInsights == p.getInsights && r.getImages == p.getImages
  {
    Coordinator.Preferences(Some(p.destination), Some(p.tripLength), Some(p.budget), Some(p.interests), p.getInsights, p.getImages)
  }

  /** The fields a stored plan must have, with the value used when one is missing. */
  function RequiredFields(p: TravelPreferences): (m: map<string, Value>)
    ensures forall k | k in m :: m[k] != Null
  {
    map[
      "destination" := Str(p.destination),
      "trip_length" := Int(p.tripLength),
      "budget" := Str(p.budget),
      "interests" := List(p.interests),
      "itinerary" := Str("No itinerary available."),
      "attractions" := Str("No attractions information available."),
      "food" := Str("No food recommendations available."),
      "accommodation" := Str("No accommodation information available.")]
  }

  /** Every required field that is missing or `None` gets its default. */
  function FillDefaults(response: Response, required: map<string, Value>): (r: Response)
    requires forall k | k in required :: required[k] != Null
    ensures r.Keys == response.Keys + required.Keys
    ensures forall k | k in required :: r[k] != Null
    ensures forall k | k in response && response[k] != Null :: r[k] == response[k]
    ensures forall k | k in response && k !in required :: r[k] == response[k]
    ensures forall k | k in required && (k !in response || response[k] == Null) :: r[k] == required[k]
  {
    map k | k in response.Keys + required.Keys ::
      if k in required && (k !in response || response[k] == Null) then required[k] else response[k]
  }

  /** A dictionary that already has every required field leaves the filling step with nothing
      to do. */
  lemma FillDefaultsComplete(response: Response, required: map<string, Value>)
    requires forall k | k in required :: required[k] != Null
    requires forall k | k in required :: k in response && response[k] != Null
    ensures FillDefaults(response, required) == response
  {
  }

  /** `POST /travel-plan`: the coordinator's dictionary gets the fresh id and the missing
      defaults and is stored under that id; an exception is a 500 and stores nothing. */
  function CreateTravelPlan(store: Store, prefs: TravelPreferences, processed: Processed, planId: string): (r: (Store, Http<Response>))
    ensures processed.Crashed? ==> r.0 == store && r.1 == Failure(500, "Error creating travel plan: " + processed.message)
    ensures processed.Returned? ==> r.1.Ok? && r.0 == store[planId := r.1.value]
    ensures processed.Returned? ==>
              var plan, resp := r.1.value, processed.response;
              && plan.Keys == resp.Keys + {"id"} + RequiredFields(prefs).Keys
              && plan["id"] == Str(planId)
              && (forall k | k in RequiredFields(prefs) :: plan[k] != Null)
              && (forall k | k in resp && resp[k] != Null && k != "id" :: plan[k] == resp[k])
  {
    match processed
    case Crashed(m) => (store, Failure(500, "Error creating travel plan: " + m))
    case Returned(resp) =>
      var plan := FillDefaults(resp["id" := Str(planId)], RequiredFields(prefs));
      (store[planId := plan], Ok(plan))
  }

  /** `GET /travel-plan/{id}`: the stored plan, or a 404. */
  function GetTravelPlan(store: Store, planId: string): (r: Http<Response>)
    ensures r.Ok? <==> planId in store
    ensures r.Ok? ==> r.value == store[planId]
    ensures r.Failure? ==> r.status == 404
  {
    if planId !in store then Failure(404, "Travel plan with ID " + planId + " not found")
    else Ok(store[planId])
  }

  /** A created plan is read back unchanged under its id, and every other id reads as before. */
  lemma CreatedPlanReadBack(store: Store, prefs: TravelPreferences, processed: Processed, planId: string, other: string)
    requires processed.Returned?
    requires other != planId
    ensures var r := CreateTravelPlan(store, prefs, processed, planId);
            GetTravelPlan(r.0, planId) == r.1 && GetTravelPlan(r.0, other) == GetTravelPlan(store, other)
  {
  }

  /** A failed creation leaves every read as it was. */
  lemma CrashedCreationInvisible(store: Store, prefs: TravelPreferences, message: string, planId: string, id: string)
    ensures var r := CreateTravelPlan(store, prefs, Crashed(message), planId);
            r.1.Failure? && GetTravelPlan(r.0, id) == GetTravelPlan(store, id)
  {
  }

  /** The coordinator's plan as a dictionary. */
  function ToResponse(plan: Coordinator.Plan): Response
  {
    map[
      "destination" := Str(plan.destination),
      "trip_length" := Int(plan.tripLength),
      "budget" := Str(plan.budget),
      "interests" := List(plan.interests),
      "itinerary" := Str(plan.itinerary),
      "attractions" := Str(plan.attractions),
      "food" := Str(plan.food),
      "accommodation" := Str(plan.accommodation),
      "insights" := Str(plan.insights),
      "images" := Str(plan.images)]
  }

  /** The coordinator's dictionary already carries every required field, so the defaults never
      apply: the stored plan is the coordinator's plan, with the request's own preferences and
      the fresh id. */
  lemma CoordinatorPlanStoredAsIs(store: Store, prefs: TravelPreferences, service: Coordinator.Service, planId: string)
    ensures var plan := Coordinator.ProcessRequest(PrefDict(prefs), service).plan;
            var r := CreateTravelPlan(store, prefs, Returned(ToResponse(plan)), planId);
            && r.1 == Ok(ToResponse(plan)["id" := Str(planId)])
            && plan.destination == prefs.destination && plan.tripLength == prefs.tripLength
            && plan.budget == prefs.budget && plan.interests == prefs.interests
  {
    var plan := Coordinator.ProcessRequest(PrefDict(prefs), service).plan;
    var resp := ToResponse(plan)["id" := Str(planId)];
    ToResponseComplete(plan, prefs);
    assert forall k | k in RequiredFields(prefs) :: k in resp && resp[k] != Null;
    FillDefaultsComplete(resp, RequiredFields(prefs));
  }

  /** The coordinator's dictionary has every required field, none of them `None`. */
  lemma ToResponseComplete(plan: Coordinator.Plan, prefs: TravelPreferences)
    ensures forall k | k in RequiredFields(prefs) :: k in ToResponse(plan) && ToResponse(plan)[k] != Null
  {
    var m := ToResponse(plan);
    assert forall k | k in m :: m[k] != Null;
    assert RequiredFields(prefs).Keys <= m.Keys;
  }

  /** What asking the coordinator for a recommendation gives back: an answer, or an exception. */
  datatype Recommended = Answered(text: string) | ValueError(message: string) | OtherError(message: string)

  /** A query endpoint result together with whether the coordinator was asked. */
  datatype QueryResult = QueryResult(result: Http<string>, asked: bool)

  function InvalidTypeDetail(): string
  {
    "Invalid agent type. Must be one of " + Join(ValidAgentTypes, ", ")
  }

  /** `POST /query`: an agent type outside the accepted list is a 400 before the coordinator is
      asked; otherwise a value error from the coordinator is a 400 and any other exception a
      500. */
  function QueryAgent(agentType: string, query: string, recommend: (string, string) -> Recommended): (r: QueryResult)
    ensures agentType !in ValidAgentTypes ==> r == QueryResult(Failure(400, InvalidTypeDetail()), false)
    ensures r.asked <==> agentType in ValidAgentTypes
    ensures r.asked ==> match recommend(agentType, query)
                        case Answered(t) => r.result == Ok(t)
                        case ValueError(m) => r.result == Failure(400, m)
                        case OtherError(m) => r.result == Failure(500, "Error querying agent: " + m)
  {
    if agentType !in ValidAgentTypes then QueryResult(Failure(400, InvalidTypeDetail()), false)
    else
      var result := match recommend(agentType, query)
        case Answered(t) => Ok(t)
        case ValueError(m) => Failure(400, m)
        case OtherError(m) => Failure(500, "Error querying agent: " + m);
      QueryResult(result, true)
  }

  /** The 400 detail names every accepted agent type. */
  lemma InvalidTypeDetailNamesTypes()
    ensures forall k | 0 <= k < |ValidAgentTypes| :: Contains(InvalidTypeDetail(), ValidAgentTypes[k])
  {
    forall k | 0 <= k < |ValidAgentTypes| ensures Contains(InvalidTypeDetail(), ValidAgentTypes[k]) {
      JoinContainsPart(ValidAgentTypes, ", ", k);
      ContainsPrefixOfAppend("Invalid agent type. Must be one of ", Join(ValidAgentTypes, ", "));
      ContainsTrans(InvalidTypeDetail(), Join(ValidAgentTypes, ", "), ValidAgentTypes[k]);
    }
  }

  /** The router accepts exactly the coordinator's agent types. */
  lemma AgentTypeListsAgree()
    ensures ValidAgentTypes == Coordinator.KnownTypes
  {
  }

  /** Behind the router, the coordinator answers every question with text and never raises,
      so the endpoint fails exactly for agent types outside the list: its value-error and
      other-error branches are never taken, and an accepted question gets the coordinator's
      answer verbatim. */
  lemma QueryFailsOnlyForInvalidType(agentType: string, query: string, service: Coordinator.Service)
    ensures var r := QueryAgent(agentType, query, (t, q) => Answered(Coordinator.GetRecommendations(t, q, service).text));
            (r.result.Ok? <==> agentType in ValidAgentTypes)
            && (r.result.Ok? ==> r.result.value == Coordinator.GetRecommendations(agentType, query, service).text)
  {
  }
}
